=== FILE: README.md ===
# zmpi_reduce: a Dafny model of the pipelined MPI reduction and its zero-RLE codec

zmpi_reduce implements `MPI_Reduce` (double vectors, `MPI_SUM`) in several
ways. The processes form an open chain that ends at the root. The first
rank's vector is cut into packets, and each packet flows along the chain
to the root. Every rank on the way adds its own slice, and the root adds
its slice last. Some builds send packets run-length encoded. Every maximal
run of two or more zeros is replaced by one marker word: a NaN whose low
52 bits hold the run length. A single zero stays a literal 0.0. Those builds add
directly on the encoded form with a family of in-place merge-add kernels.

This project models that core in Dafny and proves its contracts:

- **The zero-RLE codec** (`dblv/dblv_rle.h`, `dblv/dblv_rle_zero.c`).
  - `tokens.dfy` gives the token reading: `Lit(v) | Run(k)`, with `Decode`
    and the canonical encoder `Encode`.
  - `rle_bits.dfy` models the marker macros on `bv64` words.
  - `rle_zero.dfy` holds the compress and uncompress loops.
- **The merge-add kernels** (`dblv/dblv_rle_zero_add.c`).
  - `rle_add.dfy` has the four two-operand kernels. The in-place ones are
    methods over one buffer that is read and written at once, so the
    aliasing argument is a loop invariant: the write cursor never reaches
    the tokens still to be read.
  - `rle_add3.dfy` has the bounded kernels and their carry word.
- **The vector helpers** (`dblv/dblv_rw.c`) are in `vector_rw.dfy`.
- **The pipeline** (`reduce/*.c`).
  - Chain topology: `pipe_chain.dfy`.
  - Buffer pool: `pipe_pool.dfy`.
  - Aligned allocation and copies: `memory.dfy`.
  - Argument check: `reduce_common.dfy`.
  - Reduction operators and thread slices: `reduce_op.dfy`.
  - Packet tiling: `packets.dfy`.
  - Point-to-point transport: `transport.dfy`.
- **One rank-by-rank model per reduction variant:**

  | variant | file |
  |---|---|
  | send/recv | `send_recv.dfy` |
  | double-buffered sendrecv, plain | `sendrecv.dfy` |
  | double-buffered sendrecv, RLE | `sendrecv_rle.dfy` |
  | triple-buffered isend/irecv | `isend_irecv.dfy` |
  | stream, plain | `stream_plain.dfy` |
  | stream, RLE | `stream_rle.dfy` |
  | gather-to-root reference | `gather.dfy` |

Values are `real`. Each chain edge is a FIFO channel, so each rank is a
function of its own input and the messages that arrive on its incoming
edge. A run is therefore simulated one rank after another along the chain.
A rank's part ends in one of four `Outcome`s:

- `Done`;
- `Blocked`: waiting for a message that never comes;
- `Truncated`: a message longer than its receive, which is `MPI_ERR_TRUNCATE`;
- `Overrun`: a write past the user buffers.

Each variant's `...Run` method proves the end-to-end property. The root's
receive buffer ends up holding the elementwise sum of every rank's vector
in its first `count` elements, and the rest of the buffer is untouched.

Three behaviours of the code a reader may not expect:

- The packet sizes `(count - done) / npackets--` are non-decreasing. Each is
  `count / n` or one more, and the larger ones come last.
- `cf_uc_add2_cb` does not collapse zero sums that come from literal tokens.
- The tag test also matches both infinities.

## Model

| member | source | states |
|---|---|---|
| RleBits.TagTestComplement | dblv/dblv_rle.h:29-33 | DBL_IS_NAN_P and DBL_ISN_NAN_P disagree on every word; a word is a marker exactly when its eleven exponent bits 62..52 are all ones |
| RleBits.RleSetP | dblv/dblv_rle.h:30-35 | the word DBL_RLE_SET_P writes passes the tag test and has every bit of 63..52 set |
| RleBits.GetSet | dblv/dblv_rle.h:35-37 | for every length below 2^52, DBL_RLE_GET_P of the word DBL_RLE_SET_P writes gives the length back |
| RleBits.SetLayout | dblv/dblv_rle.h:30-35 | the marker word is 0xFFF0000000000000 plus the length: the top twelve bits set, the length in the low 52 |
| RleBits.RleGetP | dblv/dblv_rle.h:37 | the length read is always below 2^52 |
| RleBits.GetIgnoresTop | dblv/dblv_rle.h:37 | flipping any of the top twelve bits does not change the length read |
| RleBits.Rle2Policy | dblv/dblv_rle.h:35-36 | DBL_RLE2_SET_P writes the untagged +0.0 word for lengths 0 and 1, and exactly the DBL_RLE_SET_P marker for longer runs |
| RleBits.InfinitiesAreMarkers | dblv/dblv_rle.h:29-37 | +inf and -inf both pass the tag test and read as runs of length 0; -inf is the very word written for a run of length 0 |
| RleBits.WordToken | dblv/dblv_rle.h:32 | a stored word is read as a run marker exactly when it passes the tag test |
| RleBits.WordTokenWord | dblv/dblv_rle.h:32-37 | a well-formed word read as a token and written back is the same word (the word layer and the token layer agree) |
| RleBits.MarkerFromLength | dblv/dblv_rle.h:35-37 | every word whose top twelve bits are set is the DBL_RLE_SET_P word of the length it holds |
| RleBits.WriteReadWords | dblv/dblv_rle.h:32-37 | a buffer of well-formed words read as tokens and written back is reproduced word for word |
| Tokens.DecodeLength | dblv/dblv_rle_zero.c:179-195 | a token sequence decodes to one element per literal plus the sum of the run lengths |
| Tokens.DecodeEncode | dblv/dblv_rle_zero.c:67-198 | round trip: decoding the encoding of a vector gives the vector back |
| Tokens.EncodeCanonical | dblv/dblv_rle_zero.c:84-92 | the encoder writes no marker shorter than two and never two zero tokens side by side: every maximal zero run is one token |
| Tokens.EncodeShorter | dblv/dblv_rle_zero.c:75-96 | every token consumes at least one element, so the encoding is never longer than the vector |
| Tokens.CanonicalIsEncode | dblv/dblv_rle_zero.c:67-99 | a canonical token sequence is the encoding of what it decodes to: the canonical encoding is unique |
| Tokens.EncodeKeepsNonZeros | dblv/dblv_rle_zero.c:77-82 | the non-zero literals of the encoding are exactly the non-zero elements of the vector, in order |
| Tokens.EncodeAppend | dblv/dblv_rle_zero.c:111-128 | encoding distributes over a concatenation that does not cut a zero run |
| Tokens.ZeroRunMaximal | dblv/dblv_rle_zero.c:84-90 | the zero run the encoder measures is all zeros and is followed by a non-zero element or the end |
| Tokens.Rle2TokenExpand | dblv/dblv_rle.h:36 | the token written for a run of k >= 1 zeros stands for exactly k zeros |
| Tokens.PositiveRunsShorter | dblv/dblv_rle_zero_add.c:34-36 | with no zero-length marker a token sequence is never longer than its decoding: the room the in-place kernels assume |
| Tokens.DecodeLits | reduce/mpi_reduce_pipe_sendrecv.c:208-217 | a dense vector read as tokens decodes to itself and has only positive runs: an uncompressed packet is valid input to cb |
| RleZero.Compress | dblv/dblv_rle_zero.c:28-64 | dblv_rle_zero_compress writes the canonical encoding of its input, never more tokens than elements |
| RleZero.Compress2 | dblv/dblv_rle_zero.c:67-99 | compress2 writes the same canonical encoding as compress, never more tokens than elements |
| RleZero.Compress3 | dblv/dblv_rle_zero.c:102-135 | nread <= nin and nwrite <= nout; the tokens are the encoding of the prefix read, which never ends inside a zero run; it stops only with the input read or the output full; nout = 0 reads and writes nothing |
| RleZero.Compress3Resumes | dblv/dblv_rle_zero.c:102-135 | two bounded calls, the second resuming where the first stopped, write the same tokens as one unbounded call |
| RleZero.EncodePrefixAtBoundary | dblv/dblv_rle_zero.c:111-128 | the encoding of a prefix that ends at a run boundary is a prefix of the encoding of the whole vector |
| RleZero.Uncompress | dblv/dblv_rle_zero.c:138-168 | dblv_rle_zero_uncompress writes the decoding, #literals + sum of run lengths elements |
| RleZero.Uncompress2 | dblv/dblv_rle_zero.c:171-198 | uncompress2 writes the same decoding as uncompress |
| RleAdd.DecodeMergeCb | dblv/dblv_rle_zero_add.c:28-74 | the tokens cb writes decode to decode(vin0) + vin1 elementwise |
| RleAdd.MergeCbShape | dblv/dblv_rle_zero_add.c:28-74 | cb writes at most one token per dense element, and every marker it writes stands for at least two zeros |
| RleAdd.CbKeepsZeroLiterals | dblv/dblv_rle_zero_add.c:41-68 | a literal whose sum is 0.0 stays a literal: [1, 2] + [-1, -2] gives two literal zeros, which is not canonical |
| RleAdd.CfUcAdd2Cb | dblv/dblv_rle_zero_add.c:28-74 | in place, given tokens that decode to nin1 elements: the tokens written end at the last word of the buffer, at most nin1 of them, and are cb's merge of vin0 with vin1 |
| RleAdd.CbStep | dblv/dblv_rle_zero_add.c:39-69 | one backward pass keeps the aliasing invariant: the tokens not yet read are unchanged in the buffer, and the write cursor stays above them |
| RleAdd.EncodeSpanBack | dblv/dblv_rle_zero_add.c:53-68 | under a marker: the span of vin1 is written, encoded as compress2 writes it, in front of what was written before, and the unread tokens are left alone |
| RleAdd.CfUcAdd2Ub | dblv/dblv_rle_zero_add.c:77-105 | in place: the last nin1 words of the buffer hold decode(vin0) + vin1 densely |
| RleAdd.UbStep | dblv/dblv_rle_zero_add.c:83-101 | one backward pass of ub keeps the unread tokens intact below the write cursor |
| RleAdd.UcCfAdd2Uc | dblv/dblv_rle_zero_add.c:108-136 | the dense window becomes window + decode(vin1); the words before the window are unchanged |
| RleAdd.UcUcAdd2Cf | dblv/dblv_rle_zero_add.c:139-172 | the first nout <= nin0 words hold the canonical encoding of vin0 + vin1; the words after still hold vin0 |
| RleAdd.ZeroEndForward | dblv/dblv_rle_zero_add.c:155-165 | the forward scan over a run of zero sums stops at the first non-zero sum or the end, and reads only words not yet overwritten |
| RleAdd3.CarryOut | dblv/dblv_rle_zero_add.c:243-244 | the carry word stands for exactly the unfinished length, and is a marker exactly when that length is positive |
| RleAdd3.Add3Cf | dblv/dblv_rle_zero_add.c:175-250 | nread0 <= nin0, nread1 <= nin1, nwrite <= nout; the output decodes to the elements made available by the carry and the tokens read, added to vin1, with the carry owing the rest; it stops only when an input or the output runs out; a marker carry is left only when vin1 or vout ran out; nout = 0 changes nothing |
| RleAdd3.Add3Uc | dblv/dblv_rle_zero_add.c:253-299 | as add3_cf with a dense output, and nwrite == nread1 |
| RleAdd3.Add3Compose | dblv/dblv_rle_zero_add.c:175-299 | two calls with the carry threaded from the first into the second promise together what one call over both stretches promises |
| RleAdd3.ConsumedSplit | dblv/dblv_rle_zero_add.c:186-211 | the elements made available by reading a0 and then b0 tokens are those of reading a0 + b0, with the carry standing between |
| RleAdd3.SpanCf | dblv/dblv_rle_zero_add.c:224-241 | the span loop appends the vin1 elements under the marker, encoded as compress2 writes them, and stops only when the span, vin1 or vout is used up |
| RleAdd3.SpanUc | dblv/dblv_rle_zero_add.c:287-290 | the span loop of add3_uc copies the vin1 elements under the marker, and stops only when the span, vin1 or vout is used up |
| VectorRw.Copy | dblv/dblv_rw.c:135-144 | dblv_copy: the first nin elements are those of vin, the rest of vout is untouched |
| VectorRw.WriteZeros | dblv/dblv_rw.c:57-66 | the first nin elements become 0.0, the rest is untouched |
| VectorRw.ScanZeros | dblv/dblv_rw.c:147-160 | the count is the number of elements equal to 0.0 |
| VectorRw.ScanValues | dblv/dblv_rw.c:207-220 | the count is the number of elements equal to v |
| VectorRw.CopyNonZeros | dblv/dblv_rw.c:223-241 | the output is the in-order subsequence of non-zero elements; nout = nin - number of zeros |
| VectorRw.CopyNonValues | dblv/dblv_rw.c:244-262 | the output is the in-order subsequence of elements other than v; nout = nin - number of v |
| VectorRw.WithoutCount | dblv/dblv_rw.c:223-262 | dropping the elements equal to x removes exactly their occurrences and keeps every other element |
| VectorRw.Equal | dblv/dblv_rw.c:265-275 | dblv_equal is true exactly when the first nin pairs are equal |
| VectorRw.ZeroRunsCount | dblv/dblv_rw.c:163-204 | there is a maximal zero run exactly when there is a zero, and never more runs than zeros |
| VectorRw.ScanContZeros | dblv/dblv_rw.c:163-204 | the result is the number of zeros divided by the number of maximal zero runs, 0 when there are no zeros, and at least 1 otherwise |
| VectorRw.CyclicCovers | dblv/dblv_rw.c:107-108 | nin steps of `(j + 1) % nin` from any start visit every cell |
| VectorRw.Probe | dblv/dblv_rw.c:107-109 | the probe walks at most nin cells cyclically, skips only cells other than nonx, and ends on nonx exactly when nonx occurs |
| VectorRw.WriteRandomRandomNext | dblv/dblv_rw.c:99-115 | with new values other than nonx, newnonx counts one per overwritten nonx cell, min(nrandoms, occurrences), and that many nonx cells are gone |
| PipeChain.CMod | reduce/mpi_reduce_pipe.h:28-31 | C's `%` keeps the sign of the dividend, so a negative operand gives a non-positive remainder |
| PipeChain.FirstSecondAt | reduce/mpi_reduce_pipe.h:27-29 | first_in_pipe is the rank above the root, cyclically, and second_in_pipe the one above that |
| PipeChain.NextAt | reduce/mpi_reduce_pipe.h:30 | next_in_pipe is -1 exactly at the root, and otherwise the rank below, cyclically |
| PipeChain.PrevAt | reduce/mpi_reduce_pipe.h:31 | prev_in_pipe is -1 exactly at the first rank, and otherwise the rank above, cyclically |
| PipeChain.FirstIsNotLast | reduce/mpi_reduce_pipe.h:27-28 | with two or more processes the first and the last rank differ |
| PipeChain.PrevOfNext | reduce/mpi_reduce_pipe.h:30-31 | prev(next(r)) = r for every rank other than the root |
| PipeChain.NextOfPrev | reduce/mpi_reduce_pipe.h:30-31 | next(prev(r)) = r for every rank other than the first |
| PipeChain.SecondIsNextOfFirst | reduce/mpi_reduce_pipe.h:28-30 | second_in_pipe is next_in_pipe of first_in_pipe |
| PipeChain.WalkAt | reduce/mpi_reduce_pipe.h:28-30 | step k of next from the first rank is root - 1 - k modulo size, and the root is reached at step size - 1 and not before |
| PipeChain.WalkVisitsAll | reduce/mpi_reduce_pipe.h:28-30 | following next from the first rank visits every rank exactly once and ends at the root, whose next is -1: an open chain |
| PipeChain.NegativeRootNoEnd | reduce/mpi_reduce_pipe.h:27-31 | with root -1 and two processes the walk alternates 0, 1, 0, 1, ... and next never reports the end |
| PipeChain.XSwap | reduce/mpi_reduce_pipe.h:25 | xswap exchanges its two arguments |
| PipeChain.ChainVecsMultiset | reduce/mpi_reduce_pipe.h:28-30 | the vectors in chain order are a permutation of the vectors in rank order |
| PipeChain.ChainSum | reduce/mpi_reduce_pipe.h:28-30 | summing along the chain gives the sum over all ranks |
| PipePool.AllocBuf | reduce/mpi_reduce_pipe.c:38-58 | a null pool means the default one; buf_size becomes the argument; slots below nbufs get a raw block and its aligned address; the other slots are null; no other pool changes |
| PipePool.FreeBuf | reduce/mpi_reduce_pipe.c:61-73 | a null pool means the default one; exactly the non-null raw blocks are released, in slot order; the pool ends with size 0 and every slot null; no other pool changes |
| PipePool.FreeAfterAlloc | reduce/mpi_reduce_pipe.c:38-73 | freeing a freshly allocated pool releases exactly the raw blocks obtained: none leaks and none is released twice |
| PipePool.SlotAddresses | reduce/mpi_reduce_pipe.c:52-55 | without alignment a slot's two addresses coincide; with it the slot address is aligned and within alignment bytes above the raw one |
| Memory.MallocAligned | reduce/memory.c:31-43 | with alignment a > 0 the address is divisible by a and lies in [raw, raw + a); with a = 0 or an aligned raw block, raw itself |
| Memory.AlignedFits | reduce/memory.c:35-40 | a block of size bytes at the aligned address lies inside the size + a bytes allocated |
| Memory.AlignedIdempotent | reduce/memory.c:37-42 | an aligned address is handed out as it is |
| Memory.StreamCopy | reduce/memory.c:52-56 | the first n doubles of src overwrite those of dest, the rest is untouched |
| Memory.MemcpyDbl | reduce/memory.c:59-64 | n bytes are copied as floor(n / 8) whole doubles; a trailing partial double is not copied |
| Memory.MemcpyDblv | reduce/memory.c:67-72 | memcpy_dblv: n bytes are copied as floor(n / 8) whole doubles through dblv_copy; a trailing partial double is not copied and the rest of dest is untouched |
| Memory.MemcpyOpt | reduce/memory.c:75-81 | the first n bytes of the source overwrite those of the destination, the rest is untouched |
| ReduceCommon.CheckAsWritten | reduce/mpi_reduce_common.c:31-47 | as written: success exactly for DOUBLE, SUM and root < comm_size, so negative roots pass |
| ReduceCommon.CheckAcceptsNegativeRoot | reduce/mpi_reduce_common.c:41-44 | root -1 passes the check as written |
| ReduceCommon.Check | reduce/mpi_reduce_common.c:31-47 | corrected: success exactly for DOUBLE, SUM and 0 <= root < comm_size; every other result is 1 |
| ReduceCommon.CheckRefines | reduce/mpi_reduce_common.c:31-47 | the corrected check accepts exactly what the original accepts, minus the negative roots |
| ReduceCommon.SelfAsWritten | reduce/mpi_reduce_common.c:50-62 | as written: with the uninitialised comm_size as an input, success and a copy of count elements exactly when it is at most 1, failure and nothing written otherwise |
| ReduceCommon.SelfDependsOnStack | reduce/mpi_reduce_common.c:52-57 | the same arguments give failure or success depending only on the stack contents |
| ReduceCommon.Self | reduce/mpi_reduce_common.c:50-62 | with the communicator size as an input: the count elements are copied and success returned exactly for at most one process; otherwise 1 and nothing written |
| ReduceCommon.SelfIsReduction | reduce/mpi_reduce_common.c:50-62 | with one process the copy is the sum of all contributions |
| ReduceOp.ReduceOp2 | reduce/reduce_op.c:36-58 | for DOUBLE/SUM, out[offset + i] += in[offset + i] for i < count, and nothing else changes; any other datatype or op leaves out unchanged |
| ReduceOp.ReduceOp3 | reduce/reduce_op.c:61-85 | for DOUBLE/SUM, out[offset + i] = in0[offset + i] + in1[offset + i] for i < count, and nothing else changes; any other datatype or op leaves out unchanged |
| ReduceOp.SliceBounds | reduce/reduce_op.c:206-210 | the thread slices start at 0 and end at count |
| ReduceOp.SliceSize | reduce/reduce_op.c:206-210 | every thread slice has count / n or count / n + 1 elements |
| ReduceOp.SliceMonotone | reduce/reduce_op.c:206-210 | slice starts never decrease, so the slices are contiguous and disjoint |
| ReduceOp.ThreadedReduceOp2 | reduce/reduce_op.c:199-239 | workers 0 .. n - 2 and then the caller, which does the last slice, together add in[0 .. count) into out; any other datatype or op leaves out unchanged |
| ReduceOp.StaticThreadedReduceOp2 | reduce/reduce_op.c:270-304 | three slices of count / 4 and a last one of count - 3 (count / 4) together add in[0 .. count) into out, whatever the offset, datatype and op |
| ReduceOp.BitmapSetGet | reduce/reduce_op.c:88-92 | bitmap_set changes bit n alone, and sets it |
| ReduceOp.BitmapUnsetGet | reduce/reduce_op.c:88-92 | bitmap_unset changes bit n alone, and clears it |
| ReduceOp.BitmapAllGet | reduce/reduce_op.c:88-92 | bitmap_setall sets bits 0..7 only, so at most eight tasks can be woken |
| Packets.MaxPacket | reduce/mpi_reduce_pipe_send_recv.c:98-104 | max_packet is the number of whole elements that fit a packet, raised to 1 when none fits |
| Packets.RaisedPacketOverflows | reduce/mpi_reduce_pipe_send_recv.c:90-104 | as written: with a packet smaller than an element, max_packet is raised to 1, and one element is more bytes than the packet_size-byte pool buffer holds |
| Packets.PoolBytes | reduce/mpi_reduce_pipe_send_recv.c:90-104 | corrected buffer size: never below packet_size, room for max_packet whole elements, and exactly packet_size whenever an element fits a packet |
| Packets.PoolHoldsPackets | reduce/mpi_reduce_pipe_send_recv.c:90-126 | a buffer of the corrected size holds max_packet elements, so every packet of the tiling fits it |
| Packets.NPacketsCeil | reduce/mpi_reduce_pipe_send_recv.c:106-107 | npackets is the ceiling of count / max_packet, and never more than count |
| Packets.PacketSizes | reduce/mpi_reduce_pipe_send_recv.c:124-126 | the tiling has npackets sizes that add up to count |
| Packets.PacketSizesProps | reduce/mpi_reduce_pipe_send_recv.c:124-187 | the sizes add up to count, there are none exactly when count = 0, each is between 1 and max_packet, each is q or q + 1 for q = count / npackets, and they are non-decreasing |
| Packets.TileNonDecreasing | reduce/mpi_reduce_pipe_send_recv.c:126 | each share of `(count - done) / npackets--` is at most the next |
| Packets.PacketLoop | reduce/mpi_reduce_pipe_send_recv.c:120-188 | the loop's `current_packet` values are exactly the tiling, adding up to count in npackets steps |
| Packets.PositionStep | reduce/mpi_reduce_pipe_send_recv.c:124-126 | each `(count - done) / npackets` with packets left is the size of the next packet of the tiling, between 1 and max_packet |
| Packets.FlattenCut | reduce/mpi_reduce_pipe_send_recv.c:124-188 | the pieces of a vector cut along sizes, put back together, give the prefix they cover |
| Transport.RelayedCut | reduce/mpi_reduce_pipe_send_recv.c:158-185 | a relay fed the pieces of a partial sum passes on the pieces of that sum plus its own vector |
| PipeSendRecv.SourceRank | reduce/mpi_reduce_pipe_send_recv.c:130-138 | the first rank sends the pieces of its vector along the tiling, in order, and together they are its first count elements |
| PipeSendRecv.RelayRank | reduce/mpi_reduce_pipe_send_recv.c:158-185 | a relay finishes exactly when every message fits its receive; a message that is too long is Truncated; each packet sent has the size of its piece, and an exact message comes back out with the own slice added |
| PipeSendRecv.RootRank | reduce/mpi_reduce_pipe_send_recv.c:140-157 | the root finishes exactly when every message fits; with exact messages rbuf[0 .. count) is the messages plus the own pieces, and the rest of rbuf is untouched |
| PipeSendRecv.ChainNext | reduce/mpi_reduce_pipe.h:30 | the chain vector at position k belongs to the rank next_in_pipe leads to from position k - 1 |
| PipeSendRecv.ChainRun | reduce/mpi_reduce_pipe_send_recv.c:120-188 | with two or more processes, the root ends with the sum of all vectors in its first count elements and the rest untouched |
| PipeSendRecv.SendRecvRun | reduce/mpi_reduce_pipe_send_recv.c:84-188 | with a scratch buffer of max_packet elements: one process copies its vector; more pass packets along the chain; either way the root ends with the sum of all vectors |
| PipeSendrecv.ScheduleAlternates | reduce/mpi_reduce_pipe_sendrecv.c:191-237 | relay iteration k receives into the buffer iteration k - 1 sent from; every receiving iteration sends from the other buffer |
| PipeSendrecv.BufferedRoom | reduce/mpi_reduce_pipe_sendrecv.c:125-126 | buf0 and buf1 are two pool slots, each with room for a packet |
| PipeSendrecv.RelayIteration | reduce/mpi_reduce_pipe_sendrecv.c:187-238 | one relay iteration keeps the relay on schedule; it blocks only on a missing message and truncates only on one too long |
| PipeSendrecv.SendrecvRelay | reduce/mpi_reduce_pipe_sendrecv.c:132-243 | finishes exactly when the messages fit; sends one packet per packet received, in order, each the message plus the own slice; makes npackets + 1 iterations, the extra one only sending |
| PipeSendrecv.RelayEnd | reduce/mpi_reduce_pipe_sendrecv.c:132-243 | after the loop every packet received has been sent once, in order, and the calls made are the schedule |
| PipeSendrecv.SendrecvRun | reduce/mpi_reduce_pipe_sendrecv.c:100-243 | with two pool buffers of max_packet elements, the root ends with the sum of all vectors in its first count elements and the rest untouched |
| PipeSendrecvRle.WellEncodedFits | reduce/mpi_reduce_pipe_sendrecv.c:194-203 | a well-encoded message is never longer than its receive, so an RLE relay cannot truncate |
| PipeSendrecvRle.CbIteration | reduce/mpi_reduce_pipe_sendrecv.c:208-217 | after a receive the packet waiting to be sent is cb's merge of the message with the own slice |
| PipeSendrecvRle.RleRelayIteration | reduce/mpi_reduce_pipe_sendrecv.c:187-238 | one RLE relay iteration keeps the relay on schedule, never truncates, and blocks only when the messages run out |
| PipeSendrecvRle.RleSendrecvRelay | reduce/mpi_reduce_pipe_sendrecv.c:132-243 | never truncates; finishes exactly when there are npackets messages; packet j is cb's merge of message j with own piece j; the calls follow the two-buffer schedule |
| PipeSendrecvRle.MergedDecodes | reduce/mpi_reduce_pipe_sendrecv.c:213 | a relay's merged packet decodes to its message plus its own piece, with positive runs again |
| PipeSendrecvRle.RleRelayedCut | reduce/mpi_reduce_pipe_sendrecv.c:187-237 | a relay fed the encoded pieces of a partial sum passes on well-encoded pieces of that sum plus its own vector |
| PipeSendrecvRle.RleSourceRank | reduce/mpi_reduce_pipe_sendrecv.c:155-159 | the first rank sends its pieces dense; read as tokens each is all literals and decodes to the piece |
| PipeSendrecvRle.UbPacket | reduce/mpi_reduce_pipe_sendrecv.c:170-179 | ub at the root with rle_sendcount = current_packet expands to exactly the decoded message plus the own slice |
| PipeSendrecvRle.RleRootRank | reduce/mpi_reduce_pipe_sendrecv.c:162-186 | never truncates; finishes exactly when there are npackets messages; their decodings then have the packet sizes, rbuf[0 .. count) is decoded message plus own piece, and the rest is untouched |
| PipeSendrecvRle.RleSendrecvRun | reduce/mpi_reduce_pipe_sendrecv.c:100-243 | in the RLE build, with two pool buffers of max_packet words, the root also ends with the sum of all vectors in its first count elements and the rest untouched |
| PipeIsendIrecv.RotNext | reduce/mpi_reduce_pipe_isend_irecv.c:159-162 | the roles start on slots 0, 1, 2, and each iteration passes buf0 on to buf1, buf1 to buf2 and buf2 to buf0 |
| PipeIsendIrecv.RotDistinct | reduce/mpi_reduce_pipe_isend_irecv.c:159-162 | the receive, reduce and send buffers are pairwise distinct in every iteration, and the rotation is a 3-cycle |
| PipeIsendIrecv.ScheduleFlow | reduce/mpi_reduce_pipe_isend_irecv.c:144-169 | a packet received in iteration t is reduced in the same slot in t + 1 and sent from it in t + 2 |
| PipeIsendIrecv.ScheduleDistinct | reduce/mpi_reduce_pipe_isend_irecv.c:115-169 | the calls of one iteration never share a slot, and exactly iterations 0 .. npackets + 1 make a call |
| PipeIsendIrecv.PoolAsWritten | reduce/mpi_reduce_pipe_isend_irecv.c:88-94 | as written: a usable default pool is taken as is; otherwise the fallback allocates two buffers and leaves slot 2 null |
| PipeIsendIrecv.FallbackReceivesIntoNull | reduce/mpi_reduce_pipe_isend_irecv.c:107-109 | with two or more packets, the relay's receive in iteration 1 goes to slot 2, which the fallback pool leaves null |
| PipeIsendIrecv.FallbackNullExample | reduce/mpi_reduce_pipe_isend_irecv.c:88-144 | count 2 in packets of 1 element: the relay receives into the null slot |
| PipeIsendIrecv.Pool | reduce/mpi_reduce_pipe_isend_irecv.c:88-94 | corrected: the fallback allocates all three buffers, and with the allocations succeeding the pool is usable |
| PipeIsendIrecv.UsableServesSchedule | reduce/mpi_reduce_pipe_isend_irecv.c:88-169 | a usable pool has a buffer in every slot any scheduled call uses |
| PipeIsendIrecv.ClockEnd | reduce/mpi_reduce_pipe_isend_irecv.c:115-170 | the loop stops after npackets + 2 iterations (none for count 0) with done = count and every packet sent |
| PipeIsendIrecv.IsendRelay | reduce/mpi_reduce_pipe_isend_irecv.c:142-170 | finishes exactly when the messages fit; sends one packet per packet received, in order, each the message plus the own slice; the calls follow the three-buffer schedule, two iterations more than packets |
| PipeIsendIrecv.IsendRoot | reduce/mpi_reduce_pipe_isend_irecv.c:128-141 | finishes exactly when the messages fit; with exact messages rbuf[0 .. count) is the messages plus the own pieces, and the rest is untouched |
| PipeIsendIrecv.IsendIrecvRun | reduce/mpi_reduce_pipe_isend_irecv.c:72-170 | with the corrected MPI_Reduce_self (see Findings) and three pool buffers of max_packet elements: one process copies; more pass packets along the chain; the root ends with the sum of all vectors |
| PipeIsendIrecv.IsendIrecvReduce | reduce/mpi_reduce_pipe_isend_irecv.c:66-75 | with the corrected MPI_Reduce_check and MPI_Reduce_self (see Findings) and three pool buffers of max_packet elements: a failing check is returned before any buffer is touched or message sent; otherwise the root ends with the sum of all vectors |
| PipeStream.StreamMaxPacket | reduce/mpi_reduce_pipe_stream_plain.c:80 | max_packet is packet_size / type_size with no guard: it is 0 when an element does not fit |
| PipeStream.Chunk | reduce/mpi_reduce_pipe_stream_plain.c:94-95 | the first rank's next chunk is count - sends, cut down to max_packet |
| PipeStream.SourceStallsAtZero | reduce/mpi_reduce_pipe_stream_plain.c:80-105 | with a packet smaller than an element the chunk is 0 and the first rank never advances; with max_packet raised to 1 it advances by 1 |
| PipeStream.ChunksCover | reduce/mpi_reduce_pipe_stream_plain.c:91-105 | the chunks cover exactly count elements, none empty or above max_packet, and all but the last are full |
| PipeStream.StreamSource | reduce/mpi_reduce_pipe_stream_plain.c:91-105 | the first rank sends its vector chunk by chunk, in order, and ends with sends == recvs == count |
| PipeStream.TakesAll | reduce/mpi_reduce_pipe_stream_plain.c:124-140 | non-empty messages that fit the receive and add up to count are all taken |
| PipeStream.ForwardedSum | reduce/mpi_reduce_pipe_stream_plain.c:151-156 | a relay passes on non-empty messages with their sizes, and what comes out is what came in plus its own elements |
| PipeStream.Choice | reduce/mpi_reduce_pipe_stream_plain.c:124-149 | the call receives into rpbuf and sends from spbuf: receive-only with nothing waiting, sendrecv with a chunk waiting, send-only once everything is received |
| PipeStream.RelayIteration | reduce/mpi_reduce_pipe_stream_plain.c:122-157 | one relay iteration makes the call Choice names and keeps the counters, offset and buffer swap on track |
| PipeStream.StreamRelay | reduce/mpi_reduce_pipe_stream_plain.c:122-157 | a relay ends as the messages say; when it finishes it took messages carrying exactly count elements, sent each plus its own elements, and spbuf and rpbuf swapped every iteration |
| PipeStream.StreamRoot | reduce/mpi_reduce_pipe_stream_plain.c:107-120 | the root ends as the messages say; when it finishes rbuf[0 .. count) is what arrived plus its own elements, and the rest is untouched |
| PipeStream.ChunkedTaken | reduce/mpi_reduce_pipe_stream_plain.c:89-156 | chunked messages carrying count elements are all taken, none of them empty |
| PipeStream.StreamRun | reduce/mpi_reduce_pipe_stream_plain.c:66-158 | for max_packet >= 1 and two pool buffers of max_packet elements: one process copies; more stream chunks along the chain; the root ends with the sum of all vectors |
| PipeStreamRle.FillsAll | reduce/mpi_reduce_pipe_stream.c:109-144 | packed messages carrying exactly count elements are all taken |
| PipeStreamRle.RleSourceStep | reduce/mpi_reduce_pipe_stream.c:98-144 | one message of the first rank: compress3 of the rest into max_packet tokens; the messages so far decode to the prefix sent, and sbuf, recvs and sends advance by the elements processed; that advance is positive exactly when max_packet is, and with max_packet 0 (no raise to 1 here) the message is empty and nothing advances |
| PipeStreamRle.StreamRleSource | reduce/mpi_reduce_pipe_stream.c:109-144 | for max_packet >= 1, the first rank's messages decode to its vector, each at most max_packet tokens, and sendc counts the tokens sent |
| PipeStreamRle.RleTake | reduce/mpi_reduce_pipe_stream.c:190-205 | a message received becomes the unread tokens |
| PipeStreamRle.RleSend | reduce/mpi_reduce_pipe_stream.c:197-213 | the waiting tokens, if any, are sent, and nothing else changes |
| PipeStreamRle.RleProcess | reduce/mpi_reduce_pipe_stream.c:272-278 | add3_cf consumes tokens or drains the carry; the unread tokens are kept past the ones read (pbufr advances) and the carry stays; it stops only with nothing unread, count reached or a full packet |
| PipeStreamRle.ProcessKeeps | reduce/mpi_reduce_pipe_stream.c:272-278 | the output of add3_cf decodes to the merged elements plus the own elements, and what is left is the carry's zeros and the unread tokens |
| PipeStreamRle.RleIteration | reduce/mpi_reduce_pipe_stream.c:188-279 | one relay iteration: it blocks exactly when it wants a message and none is left, and truncates exactly when the next is longer than max_packet; otherwise it keeps the invariant and makes progress |
| PipeStreamRle.StreamRleRelay | reduce/mpi_reduce_pipe_stream.c:188-279 | with the corrected guard a relay ends as the messages say; with either guard a relay that finishes has sent the first count elements it took plus its own, as packed messages, and sendc and recvc count the tokens |
| PipeStreamRle.RootMerge | reduce/mpi_reduce_pipe_stream.c:173-182 | one add3_uc call at the root merges the message's elements up to count plus the own elements; below count it consumes every token and leaves no carry |
| PipeStreamRle.StreamRleRoot | reduce/mpi_reduce_pipe_stream.c:146-187 | the root ends as the messages say; when it finishes rbuf[0 .. count) is what arrived plus its own elements, and the rest is untouched |
| PipeStreamRle.RleDeadlockExample | reduce/mpi_reduce_pipe_stream.c:190-214 | as written, a relay fed one marker of four zeros with max_packet 2 blocks for a second message; with the corrected guard it finishes |
| PipeStreamRle.DeadlockWaits | reduce/mpi_reduce_pipe_stream.c:190 | after the first merge nothing is unread and two zeros are carried, yet the guard as written asks for another message |
| PipeStreamRle.DeadlockFills | reduce/mpi_reduce_pipe_stream.c:190-273 | with the corrected guard the single message is all the relay needs |
| PipeStreamRle.PackedTaken | reduce/mpi_reduce_pipe_stream.c:109-144 | packed messages carrying count elements are all taken, and what arrives is their decoding |
| PipeStreamRle.StreamRleRun | reduce/mpi_reduce_pipe_stream.c:84-280 | in the RLE stream build, with the corrected relay guard and max_packet >= 1, the root ends with the sum of all vectors in its first count elements and the rest untouched |
| Vectors.SumAllPermutation | reduce/mpi_reduce_gather.c:76-91 | the sum of a list of vectors does not depend on their order |
| Gather.AccumulateExact | reduce/mpi_reduce_gather.c:76-91 | adding messages of count elements one after the other into the own vector gives the sum of all of them |
| Gather.GathersExact | reduce/mpi_reduce_gather.c:78-92 | size - 1 messages of count elements each bring recvs to count (size - 1), and the loop takes exactly them |
| Gather.GatherRoot | reduce/mpi_reduce_gather.c:74-92 | the plain root ends as the message sizes say; each message taken fits tbuf; recvbuf[0 .. count) is the own vector plus the messages taken, and the rest is untouched |
| Gather.GathersRleExact | reduce/mpi_reduce_gather.c:84-91 | in the RLE build each message counts as count elements, so size - 1 messages that decode to count elements are all taken |
| Gather.GatherRootRle | reduce/mpi_reduce_gather.c:74-92 | the RLE root merges each message in place with uc_cf_add2_uc; recvbuf[0 .. count) is the own vector plus the decoded messages, and the rest is untouched |
| Gather.GatherLeafRle | reduce/mpi_reduce_gather.c:94-108 | a non-root sends compress2 of its vector: at most count tokens, decoding to the vector |
| Gather.GatherLeavesRle | reduce/mpi_reduce_gather.c:94-108 | the non-roots' messages, in arrival order, decode to their vectors and each fits the root's receive |
| Gather.SendersMultiset | reduce/mpi_reduce_gather.c:78-80 | the vectors of the senders in arrival order are a permutation of the non-root ranks' vectors |
| Gather.ArrivalSum | reduce/mpi_reduce_gather.c:76-91 | the own vector plus the messages, in any arrival order, add up to the sum of all vectors |
| Gather.GatherRun | reduce/mpi_reduce_gather.c:66-108 | one process copies; otherwise, whatever the arrival order, the root ends with the sum of all vectors in its first count elements and the rest untouched |
| Gather.GatherRunRle | reduce/mpi_reduce_gather.c:66-108 | in the RLE build the root also ends with the sum of all vectors, whatever the arrival order |

## Left out

- MPI itself is not modelled. That covers `MPI_Send`, `Recv`, `Sendrecv`,
  `Isend`/`Irecv`, `Wait`/`Waitall`, `Get_count`, `Comm_rank`/`Comm_size`
  and `Type_size`. Each chain edge is a FIFO sequence of messages. The
  received sizes are whatever the predecessor sent. A receive that finds no
  message is `Blocked`, and a message longer than its receive is
  `Truncated`.
- Concurrency between ranks is not modelled. Ranks are simulated one after
  another along the chain, which FIFO edges make faithful for these
  programs. Overlap of `Isend`/`Irecv` with the reduction is modelled only
  as the schedule of calls per iteration.
- Thread synchronisation in `reduce/reduce_op.c` is left out: the tasks,
  condition variables, done counter, init and destroy. Only the slice
  arithmetic and its overall effect are modelled.
- The timing macros, tracing, logging and bandwidth prints are left out,
  because they are side effects only.
- The `sendc_global`/`recvc_global` counters of the gather reduction are
  left out, since they only feed a commented-out print. The stream relay's
  `sendc`/`recvc` are modelled.
- File and console I/O (`dblv_io.c`, `dblv_print`) is left out. So are the
  zlib, gcrypt and MPI wrappers in `dblv/`, and the Rabenseifner reduction,
  which is not part of this model.
- `memcpy_sse2` (inline assembly) and `memcpy_org` (libc) are left out.
  The plain `memcpy` calls of the size-1 paths are modelled as a copy.
- Floating point is not modelled. Values are `real`, so rounding and
  non-associativity do not appear. A -0.0 input is not distinguished from
  +0.0: the code's `== 0.0` test treats both as zero, and `real` has only
  one zero. Infinite and NaN inputs are outside the model: the RLE builds
  would read such a value as a run marker. The RLE sendrecv relay, for
  example, reads the first rank's dense packet as tokens
  (`mpi_reduce_pipe_sendrecv.c:208-217`). `RleBits.InfinitiesAreMarkers`
  shows this at the word level, but the real-valued variants cannot
  express it.
- `rand()` is not modelled. The start index of `write_random_random_next`
  and the values it writes are parameters.
- Other datatypes and operations are left out. Every variant is modelled
  for DOUBLE and SUM only. Only the isend/irecv variant checks this, with
  `MPI_Reduce_check` at `mpi_reduce_pipe_isend_irecv.c:66`. The
  send/recv, sendrecv, stream and gather variants check nothing: for any
  other datatype they run to the end, and `reduce_op_2` leaves the buffer
  unchanged. Only `reduce_op_2`/`reduce_op_3` model that other branch.
- The compile-time variants `RLE_PACKET`, `RLE_PACKET_THRESHOLD`,
  `RLE_PACKET_FIRST_UNCOMPRESSED`, `RLE_FIRST`, `SEND_RECV_INIT` and
  `THREADED_REDUCE` are left out. So is the plain branch of
  `mpi_reduce_pipe_stream.c`, which is the same logic as
  `mpi_reduce_pipe_stream_plain.c` and is modelled by `PipeStream`. The
  models cover the plain build and the `RLE` build of each file.
- The test and benchmark driver `tests/tests.c` is left out. So are the
  headers that only declare things.
- Gather.GatherRootRle: in the RLE build a message that does not decode to
  exactly count elements is reported as `Overrun`.
  - The C calls `uc_cf_add2_uc` with nin0 = count. It walks the tokens
    from the back and stops once count elements are covered
    (`dblv_rle_zero_add.c:119`), so there are three cases.
  - Leading literal tokens beyond count are never read. For example,
    [5.0, run of 2] against count 2: the run covers both elements and
    5.0 is ignored. The C completes quietly with the sum of what it
    read, while the model reports `Overrun`.
  - A shortfall reads before the token buffer `tbuf`
    (`mpi_reduce_gather.c:80`).
  - An excess inside a run (`:131`) reads and writes before the receive
    buffer.
  - Every message the model's leaves send decodes to exactly count
    elements (`Gather.GatherLeavesRle`), so none of these arise in a run.
- RleAdd.CfUcAdd2Cb, RleAdd.CfUcAdd2Ub: only tokens that decode to exactly
  nin1 elements are covered. The loops stop at the dense count
  (`while (m < nin1)`, `dblv_rle_zero_add.c:39` and `:88`), which gives
  three cases for other tokens.
  - Leading literal tokens beyond nin1 would be read last, but the loop
    stops once nin1 elements are covered. So they are never read, and the
    C silently drops them.
  - A shortfall reads before the token buffer vin0.
  - An excess inside a run reads before vin1 (`:51`, `:100`).
  - The model excludes all three.
- The loops that read one element past their bound before testing it are
  modelled with the bound checked first:
  - `dblv_rle_zero.c:40`, `:53`, `:89` and `:124`;
  - `dblv_rle_zero_add.c:65`, `:161`, `:203` and `:237`.
- RleAdd.UcCfAdd2Uc: only tokens that decode to exactly nin0 elements are
  covered. The loop stops at the dense count (`while (m < nin0)`,
  `dblv_rle_zero_add.c:119`), which gives three cases for other tokens.
  - Leading literal tokens beyond nin0 are never read, and the C silently
    drops them.
  - A shortfall reads before the token buffer vin1.
  - An excess inside a run (`:131`) reads and writes before vin0.
  - The model excludes all three.
- PipeSendRecv.SendRecvRun: the scratch buffer is taken to hold max_packet
  elements. The source allocates only packet_size bytes, so this fails
  after the raise to 1 when a packet is smaller than an element. See
  Findings: `Packets.PoolBytes` is the size the model assumes.
- PipeSendrecv.SendrecvRun: the two pool buffers are taken to hold
  max_packet elements. This fails after the raise to 1, as for
  SendRecvRun.
- PipeSendrecvRle.RleSendrecvRun: the two pool buffers are taken to hold
  max_packet words. This fails after the raise to 1, as for SendRecvRun.
- PipeIsendIrecv.IsendIrecvRun: the three pool buffers are taken to hold
  max_packet elements. This fails after the raise to 1, as for
  SendRecvRun.
  - The member uses the corrected `ReduceCommon.Self`, which reads the
    real process count.
  - `MPI_Reduce_self` as written (`mpi_reduce_common.c:52-57`) tests an
    uninitialised comm_size. So its outcome is not the size test modelled
    here (see Findings).
- PipeIsendIrecv.IsendIrecvReduce: takes the same three buffers of
  max_packet elements as IsendIrecvRun.
  - It uses the corrected `ReduceCommon.Check` and `ReduceCommon.Self`.
  - A negative root is therefore answered with a failure. The code as
    written (`mpi_reduce_common.c:41-44`) accepts root -1 and then never
    ends (see Findings).
- PipeStream.StreamRun: takes max_packet >= 1, which the source does not
  ensure (see Findings). With max_packet >= 1 the two pool buffers of
  packet_size bytes do hold max_packet elements.
- PipeStreamRle.StreamRleSource: takes max_packet >= 1. At 0 the loop of
  `mpi_reduce_pipe_stream.c:109-144` never ends, since RleSourceStep makes
  no progress (see Findings).
- PipeStreamRle.StreamRleRun: every relay runs with the corrected receive
  guard and max_packet >= 1. The build as written can deadlock at the
  guard, and can stall at max_packet 0 (see Findings).
- ReduceOp.ThreadedReduceOp2: takes at most 8 tasks. The source has no
  check for more, and more would break it in two ways. `bitmap_setall`
  (`reduce_op.c:89`) wakes only tasks 0..7, so with 10 or more tasks
  worker 8 never runs and the wait at `reduce_op.c:234` never ends. With 9
  or more, the timing arrays `rt[8]` and `rtimes[8]` are indexed out of
  bounds. `ReduceOp.BitmapAllGet` states the 8-bit wake mask. The library
  itself only creates 2 tasks.
- ReduceOp.SliceBounds, ReduceOp.SliceSize and ReduceOp.SliceMonotone use
  unbounded integers. The source computes `(i * count)` and
  `((i + 1) * count)` in C `int` (`reduce_op.c:208-209`). So these
  describe the C code only while n * count <= INT_MAX (2^31 - 1). The same
  bound applies to ThreadedReduceOp2.
- Integer width of byte offsets. The source computes byte offsets and
  sizes in C `int`:
  - `offset = done * type_size`;
  - `offset += current * type_size`;
  - `type_size * count` in the size-1 `memcpy`.

  These wrap once count * 8 > INT_MAX. So every end-to-end `...Run`
  member describes the C program only for count * 8 <= INT_MAX (2^31 - 1).
  That covers the `...Run` members of PipeSendRecv, PipeSendrecv,
  PipeSendrecvRle, PipeIsendIrecv, PipeStream, PipeStreamRle and Gather.
  The model's integers are unbounded.
- PipePool.AllocBuf: takes nbufs <= 3 (PIPE_ATTR_NBUFS). The C does not
  check this, and a larger nbufs writes past the pool's slot arrays.
  Blocks the pool held before are not released. The slots are cleared
  first (`mpi_reduce_pipe.c:44`), so the `free` at `:48` never runs and
  those blocks leak. The model does not follow leaked memory: it only
  promises the new slot contents.
- RleZero.Uncompress, RleZero.Uncompress2: run lengths go up to 2^52 - 1.
  The C assigns `DBL_RLE_GET_P` to an `int`
  (`dblv_rle_zero.c:157`, `:188`). So is `n = m + DBL_RLE_GET_P(...)` in
  the add kernels (`dblv_rle_zero_add.c:48`, `:97`, `:128`). A length of
  2^31 or more is therefore truncated, and these members describe the C
  only for run lengths up to INT_MAX.

## Findings

| source | as written | input that shows it | evidently intended | confidence | as-written member | corrected member |
|---|---|---|---|---|---|---|
| reduce/mpi_reduce_common.c:41-44 | the root is only compared with `comm_size` from above | root = -1 with two processes passes the check; the chain then alternates 0, 1, 0, ... and never reaches its end | reject `root < 0` as well | high, not executed | ReduceCommon.CheckAsWritten, ReduceCommon.CheckAcceptsNegativeRoot, PipeChain.NegativeRootNoEnd | ReduceCommon.Check, ReduceCommon.CheckRefines, PipeIsendIrecv.IsendIrecvReduce |
| reduce/mpi_reduce_common.c:52-57 | `comm_size` is read without being initialised | the same single-process call fails with stack value 2 and succeeds with stack value 0 | `MPI_Comm_size(comm, &comm_size)` before the test | high, not executed | ReduceCommon.SelfAsWritten, ReduceCommon.SelfDependsOnStack | ReduceCommon.Self, ReduceCommon.SelfIsReduction, PipeIsendIrecv.IsendIrecvRun |
| reduce/mpi_reduce_pipe_isend_irecv.c:88-109 | the fallback pool allocates 2 buffers, but the loop rotates 3 | no usable default pool, count 2, max_packet 1: the relay's `MPI_Irecv` of iteration 1 targets `buf[2]`, which is NULL | allocate 3 buffers | high, not executed | PipeIsendIrecv.PoolAsWritten, PipeIsendIrecv.FallbackReceivesIntoNull, PipeIsendIrecv.FallbackNullExample | PipeIsendIrecv.Pool, PipeIsendIrecv.UsableServesSchedule |
| reduce/mpi_reduce_pipe_stream_plain.c:80 | max_packet = packet_size / type_size with no raise to 1 | packet_size < type_size: max_packet is 0, and the first rank sends empty chunks forever | raise to 1, as the send/recv variants do, with buffers of `Packets.PoolBytes` | medium, not executed | PipeStream.StreamMaxPacket, PipeStream.SourceStallsAtZero | Packets.MaxPacket, PipeStream.ChunksCover |
| reduce/mpi_reduce_pipe_stream.c:190 | the RLE relay asks for a message when nothing is unread, even while its carry still owes zeros | 3 ranks, root 0; rank 2 holds four zeros and rank 1 holds 1, 2, 3, 4; max_packet 2: rank 2 sends one marker, rank 1 fills a packet and carries two zeros, then waits for a message that never comes | also wait for the carry to drain before receiving | high, not executed | PipeStreamRle.RleDeadlockExample, PipeStreamRle.DeadlockWaits | PipeStreamRle.StreamRleRelay, PipeStreamRle.DeadlockFills |
| reduce/mpi_reduce_pipe_stream.c:98 | max_packet = packet_size / type_size with no raise to 1, in the RLE stream build too | packet_size < type_size: max_packet is 0, compress3 reads nothing, and the first rank sends empty messages forever without advancing | raise to 1 | medium, not executed | PipeStream.StreamMaxPacket, PipeStreamRle.RleSourceStep | Packets.MaxPacket, PipeStreamRle.StreamRleSource |
| reduce/mpi_reduce_pipe_send_recv.c:90-104 | the pool buffers hold packet_size bytes, yet max_packet is raised to 1 element when an element does not fit; the same holds in `mpi_reduce_pipe_sendrecv.c:106-120` and `mpi_reduce_pipe_isend_irecv.c:88-102` | packet_size 4 with MPI_DOUBLE and no larger default pool: a relay's receive of one 8-byte element lands in a 4-byte buffer | allocate at least max_packet * type_size bytes | medium, not executed | Packets.RaisedPacketOverflows | Packets.PoolBytes, Packets.PoolHoldsPackets |

=== FILE: arith.dfy ===
/** Facts about Euclidean division that the slice and packet arithmetic of
    the reductions rests on. */
module Arith {

  lemma MulAtLeast(k: int, a: int)
    requires k > 0 && a > 0
    ensures k * a >= a
  {
    assert k * a == (k - 1) * a + a;
  }

  /** The quotient and remainder are the only ones. */
  lemma DivModUnique(x: int, a: int, q: int, r: int)
    requires a > 0 && x == q * a + r && 0 <= r < a
    ensures x / a == q && x % a == r
  {
    var q', r' := x / a, x % a;
    var d := q - q';
    assert q * a - q' * a == d * a;
    assert d * a == r' - r;
    if d > 0 {
      MulAtLeast(d, a);
    } else if d < 0 {
      MulAtLeast(-d, a);
    }
  }

  lemma DivAddMul(k: int, x: int, n: int)
    requires n > 0
    ensures (k * n + x) / n == k + x / n
  {
    var q, r := x / n, x % n;
    assert k * n + x == (k + q) * n + r;
    DivModUnique(k * n + x, n, k + q, r);
  }

  /** Moving up by less than `n` moves the quotient by 0 or 1. */
  lemma DivStep(a: int, b: int, n: int)
    requires n > 0 && a <= b < a + n
    ensures b / n == a / n || b / n == a / n + 1
  {
    var q, r := a / n, a % n;
    if r + (b - a) < n {
      DivModUnique(b, n, q, r + (b - a));
    } else {
      DivModUnique(b, n, q + 1, r + (b - a) - n);
    }
  }

  lemma DivMonotone(a: int, b: int, n: int)
    requires n > 0 && a <= b
    ensures a / n <= b / n
  {
    var qa, qb := a / n, b / n;
    if qa > qb {
      MulAtLeast(qa - qb, n);
    }
  }

  /** Rounding up to the next multiple of `a` lands on a multiple. */
  lemma RoundUp(raw: nat, a: nat)
    requires a > 0
    ensures raw % a <= raw && (raw + a - raw % a) % a == 0
  {
    var q := raw / a;
    assert raw == q * a + raw % a;
    assert raw + a - raw % a == (q + 1) * a + 0;
    DivModUnique(raw + a - raw % a, a, q + 1, 0);
  }
}

=== FILE: gather.dfy ===
/** The gather-to-root reference reduction (reduce/mpi_reduce_gather.c).
    Every rank but the root sends its `count` elements straight to the
    root, which receives them from any source, in whatever order they
    arrive, and adds each into its receive buffer, which starts as a copy
    of its own vector.  The plain build sends dense elements and adds them
    with reduce_op_2; the RLE build sends compress2 output and merges it in
    place with uc_cf_add2_uc.  The arrival order is a parameter: the run
    succeeds for every order because the sum does not depend on it. */
module Gather {
  import opened Vectors
  import opened Tokens
  import opened RleZero
  import opened RleAdd
  import opened Transport
  import ReduceCommon
  import PipeStream
  import ReduceOp

  /** `b` with `m` added to its first `|m|` elements: what reduce_op_2 does
      to the receive buffer for a message of `|m|` elements. */
  function AddFront(b: Vec, m: Vec): (r: Vec)
    requires |m| <= |b|
    ensures |r| == |b| && r[|m|..] == b[|m|..]
    ensures forall j {:trigger r[j]} :: 0 <= j < |m| ==> r[j] == b[j] + m[j]
  {
    Add(b[..|m|], m) + b[|m|..]
  }

  /** The messages `ms` added one after the other to the front of `b`. */
  function Accumulate(b: Vec, ms: seq<Vec>): (r: Vec)
    requires forall j :: 0 <= j < |ms| ==> |ms[j]| <= |b|
    ensures |r| == |b|
    decreases |ms|
  {
    if |ms| == 0 then b else AddFront(Accumulate(b, ms[..|ms| - 1]), ms[|ms| - 1])
  }

  /** Messages of the full length add up with the starting vector like any
      list of summands. */
  lemma {:induction false} AccumulateExact(b: Vec, ms: seq<Vec>)
    requires forall j :: 0 <= j < |ms| ==> |ms[j]| == |b|
    ensures Accumulate(b, ms) == SumAll([b] + ms, |b|)
    decreases |ms|
  {
    if |ms| == 0 {
      assert [b] + ms == [b];
      SumAllSingle(b, |b|);
    } else {
      var init, last := ms[..|ms| - 1], ms[|ms| - 1];
      AccumulateExact(b, init);
      assert ([b] + ms)[..|[b] + ms| - 1] == [b] + init;
      assert AddFront(Accumulate(b, init), last) == Add(Accumulate(b, init), last);
    }
  }

  /** How the plain root fares on messages of the sizes `ls` while `need`
      elements are missing and a receive takes at most `cap`: it stops with
      the number of messages it took. */
  function Gathers(ls: seq<nat>, need: nat, cap: nat): (o: Outcome<nat>)
    ensures !o.Overrun?
    ensures o.Done? ==> o.value <= |ls|
    decreases |ls|
  {
    if need == 0 then Done(0)
    else if |ls| == 0 then Blocked
    else if ls[0] > cap then Truncated
    else if ls[0] >= need then Done(1)
    else PipeStream.Shift(Gathers(ls[1..], need - ls[0], cap), 1)
  }

  /** `m` messages of `cap > 0` elements each are exactly what `cap * m`
      missing elements need. */
  lemma {:induction false} GathersExact(ls: seq<nat>, cap: nat)
    requires 0 < cap && forall j :: 0 <= j < |ls| ==> ls[j] == cap
    ensures Gathers(ls, cap * |ls|, cap) == Done(|ls|)
    decreases |ls|
  {
    if |ls| > 1 {
      assert cap * |ls| == cap * |ls[1..]| + cap;
      GathersExact(ls[1..], cap);
    }
  }

  /** The root of the plain build (`comm_rank == root`, RLE undefined),
      on the messages `inbox` in arrival order, with `size` ranks.  It
      copies its own elements, then receives at most `count` elements at
      a time until `count * (size - 1)` have arrived, adding each message
      to the front of the buffer.  It ends as `Gathers` says; on success
      the buffer is its own elements with the messages taken added, and
      past `count` it is untouched. */
  method GatherRoot(sbuf: Vec, rbuf: Vec, count: nat, size: nat, inbox: seq<Vec>) returns (res: Outcome<Vec>)
    requires count <= |sbuf| && count <= |rbuf| && 1 <= size
    ensures SameEnd(res, Gathers(PipeStream.Lens(inbox), count * (size - 1), count))
    ensures res.Done? ==> forall j :: 0 <= j < Gathers(PipeStream.Lens(inbox), count * (size - 1), count).value ==> |inbox[j]| <= count
    ensures res.Done? ==> |res.value| == |rbuf| && res.value[count..] == rbuf[count..]
    ensures res.Done? ==>
      res.value[..count] == Accumulate(sbuf[..count], inbox[..Gathers(PipeStream.Lens(inbox), count * (size - 1), count).value])
  {
    var ls := PipeStream.Lens(inbox);
    var total := count * (size - 1);
    var buf := sbuf[..count] + rbuf[count..];
    var recvs: nat, i: nat := 0, 0;
    assert inbox[..0] == [] && ls[0..] == ls;
    while recvs < total
      invariant i <= |inbox| && |buf| == |rbuf| && buf[count..] == rbuf[count..]
      invariant forall j :: 0 <= j < i ==> |inbox[j]| <= count
      invariant buf[..count] == Accumulate(sbuf[..count], inbox[..i])
      invariant recvs < total ==> Gathers(ls, total, count) == PipeStream.Shift(Gathers(ls[i..], total - recvs, count), i)
      invariant recvs >= total ==> Gathers(ls, total, count) == Done(i)
      decreases |inbox| - i
    {
      if i == |inbox| {
        return Blocked;
      }
      var msg := inbox[i];
      if |msg| > count {
        assert ls[i..][0] == |msg|;
        return Truncated;
      }
      var out := ReduceOp.ReduceOp2(|msg|, 0, ReduceCommon.Double, ReduceCommon.Sum, msg, buf);
      GatherStep(sbuf[..count], inbox, i, buf, out, rbuf, count);
      GathersNext(ls, i, total, recvs, count, |msg|, Gathers(ls, total, count));
      buf, recvs, i := out, recvs + |msg|, i + 1;
    }
    return Done(buf);
  }

  /** The receive of message `i`, of `l` elements, keeps `Gathers` in
      step. */
  lemma GathersNext(ls: seq<nat>, i: nat, total: nat, recvs: nat, cap: nat, l: nat, o: Outcome<nat>)
    requires i < |ls| && recvs < total && l == ls[i] <= cap
    requires o == PipeStream.Shift(Gathers(ls[i..], total - recvs, cap), i)
    ensures recvs + l < total ==> o == PipeStream.Shift(Gathers(ls[i + 1..], total - (recvs + l), cap), i + 1)
    ensures recvs + l >= total ==> o == Done(i + 1)
  {
    assert ls[i..][0] == ls[i] && ls[i..][1..] == ls[i + 1..];
  }

  /** reduce_op_2 of message `i` adds it to the front of the buffer. */
  lemma GatherStep(own: Vec, inbox: seq<Vec>, i: nat, buf: Vec, out: Vec, rbuf: Vec, count: nat)
    requires i < |inbox| && |inbox[i]| <= count == |own| <= |buf| == |rbuf| && buf[count..] == rbuf[count..]
    requires forall j :: 0 <= j < i ==> |inbox[j]| <= count
    requires buf[..count] == Accumulate(own, inbox[..i])
    requires out == ReduceOp.Splice(buf, 0, |inbox[i]|, Add(buf[0..|inbox[i]|], inbox[i][0..|inbox[i]|]))
    ensures |out| == |rbuf| && out[count..] == rbuf[count..]
    ensures out[..count] == Accumulate(own, inbox[..i + 1])
  {
    AccumulateNext(own, inbox, i);
    SpliceFront(buf, inbox[i], count, out);
  }

  /** Accumulating one more message. */
  lemma AccumulateNext(own: Vec, inbox: seq<Vec>, i: nat)
    requires i < |inbox| && forall j :: 0 <= j <= i ==> |inbox[j]| <= |own|
    ensures Accumulate(own, inbox[..i + 1]) == AddFront(Accumulate(own, inbox[..i]), inbox[i])
  {
    assert inbox[..i + 1][..i] == inbox[..i];
  }

  /** Accumulating one more message at the end. */
  lemma AccumulateSnoc(own: Vec, ms: seq<Vec>, m: Vec)
    requires |m| <= |own| && forall j :: 0 <= j < |ms| ==> |ms[j]| <= |own|
    ensures Accumulate(own, ms + [m]) == AddFront(Accumulate(own, ms), m)
  {
    assert (ms + [m])[..|ms|] == ms;
  }

  /** reduce_op_2 at offset 0 over `|m|` elements is `AddFront` on the
      first `count` elements. */
  lemma SpliceFront(buf: Vec, m: Vec, count: nat, out: Vec)
    requires |m| <= count <= |buf|
    requires out == ReduceOp.Splice(buf, 0, |m|, Add(buf[0..|m|], m[0..|m|]))
    ensures |out| == |buf| && out[count..] == buf[count..]
    ensures out[..count] == AddFront(buf[..count], m)
  {
    assert m[0..|m|] == m;
    assert buf[..count][..|m|] == buf[0..|m|];
    assert out == Add(buf[0..|m|], m) + buf[|m|..];
    assert out[..count] == Add(buf[0..|m|], m) + buf[|m|..count];
  }

  /** The dense values of a list of messages. */
  function Decodes(ms: seq<seq<Token>>): (ds: seq<Vec>)
    ensures |ds| == |ms| && forall j {:trigger ds[j]} :: 0 <= j < |ms| ==> ds[j] == Decode(ms[j])
  {
    seq(|ms|, j requires 0 <= j < |ms| => Decode(ms[j]))
  }

  /** How the RLE root fares: every message counts as `count` elements; a
      message of more than `count` tokens is truncated, and one that does
      not decode to exactly `count` elements is outside what the in-place
      merge handles. */
  function GathersRle(ms: seq<seq<Token>>, need: nat, count: nat): (o: Outcome<nat>)
    ensures o.Done? ==> o.value <= |ms|
    decreases |ms|
  {
    if need == 0 then Done(0)
    else if |ms| == 0 then Blocked
    else if |ms[0]| > count then Truncated
    else if |Decode(ms[0])| != count then Overrun
    else if count >= need then Done(1)
    else PipeStream.Shift(GathersRle(ms[1..], need - count, count), 1)
  }

  /** `m` well-formed messages are exactly what `count * m` missing
      elements need. */
  lemma {:induction false} GathersRleExact(ms: seq<seq<Token>>, count: nat)
    requires 0 < count && Merged(ms, |ms|, count)
    ensures GathersRle(ms, count * |ms|, count) == Done(|ms|)
    decreases |ms|
  {
    if |ms| > 1 {
      assert count * |ms| == count * |ms[1..]| + count;
      GathersRleExact(ms[1..], count);
    }
  }

  /** A message of more than `count` tokens truncates. */
  lemma RleTruncatedAt(ms: seq<seq<Token>>, i: nat, total: nat, recvs: nat, count: nat, o: Outcome<nat>)
    requires i < |ms| && recvs < total && |ms[i]| > count
    requires o == PipeStream.Shift(GathersRle(ms[i..], total - recvs, count), i)
    ensures o == Truncated
  {
    assert ms[i..][0] == ms[i];
  }

  /** A message that does not decode to `count` elements overruns. */
  lemma RleOverrunAt(ms: seq<seq<Token>>, i: nat, total: nat, recvs: nat, count: nat, o: Outcome<nat>)
    requires i < |ms| && recvs < total && |ms[i]| <= count && |Decode(ms[i])| != count
    requires o == PipeStream.Shift(GathersRle(ms[i..], total - recvs, count), i)
    ensures o == Overrun
  {
    assert ms[i..][0] == ms[i];
  }

  /** The merge of message `i` keeps `GathersRle` in step. */
  lemma GathersRleNext(ms: seq<seq<Token>>, i: nat, total: nat, recvs: nat, count: nat, o: Outcome<nat>)
    requires i < |ms| && recvs < total && |ms[i]| <= count && |Decode(ms[i])| == count
    requires o == PipeStream.Shift(GathersRle(ms[i..], total - recvs, count), i)
    ensures recvs + count < total ==> o == PipeStream.Shift(GathersRle(ms[i + 1..], total - (recvs + count), count), i + 1)
    ensures recvs + count >= total ==> o == Done(i + 1)
  {
    assert ms[i..][0] == ms[i] && ms[i..][1..] == ms[i + 1..];
  }

  /** The first `n` messages are at most `count` tokens long and decode to
      `count` elements each: what the merge of each needs. */
  predicate Merged(ms: seq<seq<Token>>, n: nat, count: nat)
  {
    n <= |ms| && forall j :: 0 <= j < n ==> |ms[j]| <= count && |Decode(ms[j])| == count
  }

  /** The root of the RLE build: each message of at most `count` tokens is
      merged in place into the first `count` elements of the receive
      buffer by uc_cf_add2_uc, and counts as `count` elements. */
  method GatherRootRle(sbuf: Vec, rbuf: Vec, count: nat, size: nat, inbox: seq<seq<Token>>) returns (res: Outcome<Vec>)
    requires count <= |sbuf| && count <= |rbuf| && 1 <= size
    ensures SameEnd(res, GathersRle(inbox, count * (size - 1), count))
    ensures res.Done? ==> Merged(inbox, GathersRle(inbox, count * (size - 1), count).value, count)
    ensures res.Done? ==> |res.value| == |rbuf| && res.value[count..] == rbuf[count..]
    ensures res.Done? ==>
      res.value[..count] == Accumulate(sbuf[..count], Decodes(inbox[..GathersRle(inbox, count * (size - 1), count).value]))
  {
    var total := count * (size - 1);
    var buf := sbuf[..count] + rbuf[count..];
    var recvs: nat, i: nat := 0, 0;
    assert inbox[..0] == [] && inbox[0..] == inbox;
    while recvs < total
      invariant i <= |inbox| && |buf| == |rbuf| && buf[count..] == rbuf[count..]
      invariant Merged(inbox, i, count)
      invariant buf[..count] == Accumulate(sbuf[..count], Decodes(inbox[..i]))
      invariant recvs < total ==> GathersRle(inbox, total, count) == PipeStream.Shift(GathersRle(inbox[i..], total - recvs, count), i)
      invariant recvs >= total ==> GathersRle(inbox, total, count) == Done(i)
      decreases |inbox| - i
    {
      if i == |inbox| {
        return Blocked;
      }
      var msg := inbox[i];
      if |msg| > count {
        RleTruncatedAt(inbox, i, total, recvs, count, GathersRle(inbox, total, count));
        return Truncated;
      }
      if |Decode(msg)| != count {
        RleOverrunAt(inbox, i, total, recvs, count, GathersRle(inbox, total, count));
        return Overrun;
      }
      GathersRleNext(inbox, i, total, recvs, count, GathersRle(inbox, total, count));
      var b, w := UcCfAdd2Uc(buf[..count], count, msg);
      var buf1 := b + buf[count..];
      RleGatherStep(sbuf[..count], inbox, i, buf, b, w, buf1, rbuf, count);
      buf, recvs, i := buf1, recvs + count, i + 1;
    }
    assert GathersRle(inbox, total, count) == Done(i);
    res := Done(buf);
  }

  /** uc_cf_add2_uc of message `i` adds its decoding to the buffer. */
  lemma RleGatherStep(own: Vec, inbox: seq<seq<Token>>, i: nat, buf: Vec, b: Vec, w: nat, buf1: Vec, rbuf: Vec, count: nat)
    requires i < |inbox| && |inbox[i]| <= count && |Decode(inbox[i])| == count == |own| <= |buf| == |rbuf|
    requires buf[count..] == rbuf[count..] && Merged(inbox, i, count)
    requires buf[..count] == Accumulate(own, Decodes(inbox[..i]))
    requires |b| == count && w == 0 && b[w..] == Add(buf[..count][..count], Decode(inbox[i]))
    requires buf1 == b + buf[count..]
    ensures |buf1| == |rbuf| && buf1[count..] == rbuf[count..]
    ensures buf1[..count] == Accumulate(own, Decodes(inbox[..i + 1])) && Merged(inbox, i + 1, count)
  {
    DecodesNext(inbox, i);
    MergedNext(inbox, i, count);
    MergeFront(buf, b, w, buf1, count, Decode(inbox[i]));
    AccumulateSnoc(own, Decodes(inbox[..i]), Decode(inbox[i]));
  }

  /** One more merged message. */
  lemma MergedNext(ms: seq<seq<Token>>, i: nat, count: nat)
    requires i < |ms| && Merged(ms, i, count) && |ms[i]| <= count && |Decode(ms[i])| == count
    ensures Merged(ms, i + 1, count)
  {
  }

  /** The merged front of `count` elements followed by the untouched rest. */
  lemma MergeFront(buf: Vec, b: Vec, w: nat, buf1: Vec, count: nat, d: Vec)
    requires count <= |buf| && |d| == count
    requires |b| == count && w == 0 && b[w..] == Add(buf[..count][..count], d)
    requires buf1 == b + buf[count..]
    ensures |buf1| == |buf| && buf1[count..] == buf[count..]
    ensures buf1[..count] == AddFront(buf[..count], d)
  {
    assert buf[..count][..count] == buf[..count] && b[w..] == b;
    assert buf1[..count] == b;
  }

  /** The decodings of one more message. */
  lemma DecodesNext(inbox: seq<seq<Token>>, i: nat)
    requires i < |inbox|
    ensures Decodes(inbox[..i + 1]) == Decodes(inbox[..i]) + [Decode(inbox[i])]
  {
  }

  /** A rank other than the root in the RLE build: compress2 of its
      `count` elements, which fits the root's receive and decodes back to
      them. */
  method GatherLeafRle(sbuf: Vec, count: nat) returns (msg: seq<Token>)
    requires count <= |sbuf|
    ensures |msg| <= count && Decode(msg) == sbuf[..count]
  {
    msg := Compress2(sbuf[..count]);
    DecodeEncode(sbuf[..count]);
  }

  /** The ranks `0 .. n - 1`. */
  function Ranks(n: nat): (rs: seq<nat>)
    ensures |rs| == n && forall i {:trigger rs[i]} :: 0 <= i < n ==> rs[i] == i
  {
    seq(n, i => i)
  }

  /** The vectors of the ranks in `order`. */
  function Senders(vs: seq<Vec>, order: seq<nat>): (ws: seq<Vec>)
    requires forall k :: 0 <= k < |order| ==> order[k] < |vs|
    ensures |ws| == |order| && forall k {:trigger ws[k]} :: 0 <= k < |order| ==> ws[k] == vs[order[k]]
  {
    seq(|order|, k requires 0 <= k < |order| => vs[order[k]])
  }

  /** Rearranging the ranks rearranges their vectors. */
  lemma {:induction false} SendersMultiset(vs: seq<Vec>, xs: seq<nat>, ys: seq<nat>)
    requires multiset(xs) == multiset(ys)
    requires forall k :: 0 <= k < |xs| ==> xs[k] < |vs|
    requires forall k :: 0 <= k < |ys| ==> ys[k] < |vs|
    ensures multiset(Senders(vs, xs)) == multiset(Senders(vs, ys))
    decreases |xs|
  {
    if |xs| == 0 {
      assert |ys| == |multiset(ys)| == 0;
    } else {
      var xs' := xs[..|xs| - 1];
      var x := xs[|xs| - 1];
      assert xs == xs' + [x];
      assert x in multiset(ys);
      var j := IndexOf(ys, x);
      var ys' := SendersRemoveAt(vs, ys, j);
      assert multiset(xs) == multiset(xs') + multiset{x};
      assert multiset(xs') == multiset(xs) - multiset{x};
      assert multiset(ys') == multiset(ys) - multiset{x};
      SendersSnoc(vs, xs', x);
      SendersMultiset(vs, xs', ys');
    }
  }

  /** Dropping the rank at `j` drops its vector. */
  lemma SendersRemoveAt(vs: seq<Vec>, ys: seq<nat>, j: nat) returns (ys': seq<nat>)
    requires j < |ys| && forall k :: 0 <= k < |ys| ==> ys[k] < |vs|
    ensures ys' == ys[..j] + ys[j + 1..] && forall k :: 0 <= k < |ys'| ==> ys'[k] < |vs|
    ensures multiset(ys) == multiset(ys') + multiset{ys[j]}
    ensures multiset(Senders(vs, ys)) == multiset(Senders(vs, ys')) + multiset{vs[ys[j]]}
  {
    ys' := ys[..j] + ys[j + 1..];
    MultisetRemoveAt(ys, j);
    var ws := Senders(vs, ys);
    assert Senders(vs, ys') == ws[..j] + ws[j + 1..];
    MultisetRemoveAt(ws, j);
  }

  /** One more rank at the end. */
  lemma SendersSnoc(vs: seq<Vec>, xs: seq<nat>, x: nat)
    requires x < |vs| && forall k :: 0 <= k < |xs| ==> xs[k] < |vs|
    ensures multiset(Senders(vs, xs + [x])) == multiset(Senders(vs, xs)) + multiset{vs[x]}
  {
    assert Senders(vs, xs + [x]) == Senders(vs, xs) + [vs[x]];
  }

  /** Each rank appears once among the ranks. */
  lemma RankOnce(n: nat, r: nat)
    requires r < n
    ensures multiset(Ranks(n))[r] == 1
  {
    var all := Ranks(n);
    assert all == all[..r] + [r] + all[r + 1..];
    assert r !in all[..r] && r !in all[r + 1..];
  }

  /** `order` lists every rank but the root once: the order in which the
      root's receives from any source are matched. */
  predicate Arrival(order: seq<nat>, n: nat, root: nat)
  {
    multiset(order) + multiset{root} == multiset(Ranks(n))
  }

  /** The root's vector and the others in arrival order add up to the sum
      over all ranks. */
  lemma ArrivalSum(vs: seq<Vec>, root: nat, order: seq<nat>, n: nat)
    requires root < |vs| && Arrival(order, |vs|, root)
    requires forall r :: 0 <= r < |vs| ==> |vs[r]| == n
    ensures |order| == |vs| - 1 && forall k :: 0 <= k < |order| ==> order[k] < |vs| && order[k] != root
    ensures SumAll([vs[root]] + Senders(vs, order), n) == SumAll(vs, n)
  {
    var all := Ranks(|vs|);
    RankOnce(|vs|, root);
    assert |multiset(order)| + 1 == |multiset(all)|;
    assert multiset(order)[root] == 0;
    forall k | 0 <= k < |order|
      ensures order[k] < |vs| && order[k] != root
    {
      assert order[k] in multiset(all);
    }
    var xs := [root] + order;
    assert multiset(xs) == multiset(all);
    SendersMultiset(vs, xs, all);
    assert Senders(vs, all) == vs;
    assert Senders(vs, xs) == [vs[root]] + Senders(vs, order);
    SumAllPermutation([vs[root]] + Senders(vs, order), vs, n);
  }

  /** A whole plain gather reduction: for `size == 1` the root copies its
      vector; otherwise every other rank sends its `count` elements and the
      root takes them in the order `order`.  Whatever that order, the root
      ends with the sum of all vectors and the rest of its buffer intact. */
  method GatherRun(vs: seq<Vec>, rbuf: Vec, root: nat, count: nat, order: seq<nat>) returns (res: Outcome<Vec>)
    requires root < |vs| && count <= |rbuf| && Arrival(order, |vs|, root)
    requires forall r :: 0 <= r < |vs| ==> |vs[r]| == count
    ensures res == Done(SumAll(vs, count) + rbuf[count..])
  {
    ArrivalSum(vs, root, order, count);
    if |vs| == 1 {
      assert Senders(vs, order) == [] && [vs[root]] + [] == [vs[root]];
      assert vs[root][..count] == vs[root];
      SumAllSingle(vs[root], count);
      return Done(vs[root][..count] + rbuf[count..]);
    }
    var inbox := Senders(vs, order);
    res := GatherRoot(vs[root], rbuf, count, |vs|, inbox);
    var ls := PipeStream.Lens(inbox);
    assert |ls| == |vs| - 1;
    if count == 0 {
      assert res.Done? && res.value[..count] == [] == SumAll(vs, count);
    } else {
      GathersExact(ls, count);
      assert inbox[..|inbox|] == inbox && vs[root][..count] == vs[root];
      AccumulateExact(vs[root], inbox);
    }
    assert res.value == res.value[..count] + res.value[count..];
  }

  /** The messages of the ranks in `order`, each compress2 of its vector. */
  method GatherLeavesRle(vs: seq<Vec>, count: nat, order: seq<nat>) returns (inbox: seq<seq<Token>>)
    requires forall k :: 0 <= k < |order| ==> order[k] < |vs| && |vs[order[k]]| == count
    ensures |inbox| == |order| && Merged(inbox, |inbox|, count) && Decodes(inbox) == Senders(vs, order)
  {
    inbox := [];
    var k := 0;
    while k < |order|
      invariant k <= |order| && |inbox| == k
      invariant forall j :: 0 <= j < k ==> |inbox[j]| <= count && Decode(inbox[j]) == vs[order[j]]
    {
      var msg := GatherLeafRle(vs[order[k]], count);
      assert vs[order[k]][..count] == vs[order[k]];
      inbox, k := inbox + [msg], k + 1;
    }
    assert Decodes(inbox) == Senders(vs, order);
  }

  /** A whole RLE gather reduction: every other rank sends compress2 of its
      vector, and the root merges the messages in the order `order`; it
      ends with the sum of all vectors, as the plain build does. */
  method GatherRunRle(vs: seq<Vec>, rbuf: Vec, root: nat, count: nat, order: seq<nat>) returns (res: Outcome<Vec>)
    requires root < |vs| && count <= |rbuf| && Arrival(order, |vs|, root)
    requires forall r :: 0 <= r < |vs| ==> |vs[r]| == count
    ensures res == Done(SumAll(vs, count) + rbuf[count..])
  {
    ArrivalSum(vs, root, order, count);
    if |vs| == 1 {
      assert Senders(vs, order) == [] && [vs[root]] + [] == [vs[root]];
      assert vs[root][..count] == vs[root];
      SumAllSingle(vs[root], count);
      return Done(vs[root][..count] + rbuf[count..]);
    }
    var inbox := GatherLeavesRle(vs, count, order);
    res := GatherRootRle(vs[root], rbuf, count, |vs|, inbox);
    if count == 0 {
      assert res.Done? && res.value[..count] == [] == SumAll(vs, count);
    } else {
      GathersRleExact(inbox, count);
      assert inbox[..|inbox|] == inbox && vs[root][..count] == vs[root];
      AccumulateExact(vs[root], Decodes(inbox));
    }
    assert res.value == res.value[..count] + res.value[count..];
  }
}

=== FILE: isend_irecv.dfy ===
/** MPI_Reduce_pipe_isend_irecv (reduce/mpi_reduce_pipe_isend_irecv.c): the
    triple-buffered pipeline.

    A relay posts, in every iteration, a receive of the current packet
    into `buf0`, a send of the packet before the previous one from `buf2`,
    and adds its own slice to the previous packet in `buf1`; then the three
    buffers rotate.  After the last packet two more iterations reduce and
    send what is still in flight.  The first rank sends as in the blocking
    pipeline (its packets in the two extra iterations are empty), and the
    root receives packet `t` into its receive buffer while it adds its own
    slice to packet `t - 1`. */
module PipeIsendIrecv {
  import opened Vectors
  import opened Packets
  import opened Transport
  import opened PipeChain
  import opened PipeSendRecv
  import opened ReduceCommon
  import opened PipePool
  import opened Memory
  import opened Arith

  /** The pool slot a call works on, or no call. */
  datatype Use = Idle | On(slot: nat)

  /** The calls of one relay iteration: the receive into `buf0`, the
      reduction into `buf1` and the send from `buf2`. */
  datatype Call = Call(recv: Use, reduce: Use, send: Use)

  /** The slot that plays role `k` (0 for `buf0`, 1 for `buf1`, 2 for
      `buf2`) in iteration `t`. */
  function Rot(t: nat, k: nat): (slot: nat)
    requires k < 3
    ensures slot < 3
  {
    if k >= t % 3 then k - t % 3 else k + 3 - t % 3
  }

  /** The roles start on slots 0, 1, 2 and every iteration passes `buf0`
      on to `buf1`, `buf1` to `buf2` and `buf2` back to `buf0`. */
  lemma RotNext(t: nat)
    ensures Rot(0, 0) == 0 && Rot(0, 1) == 1 && Rot(0, 2) == 2
    ensures Rot(t + 1, 0) == Rot(t, 2) && Rot(t + 1, 1) == Rot(t, 0) && Rot(t + 1, 2) == Rot(t, 1)
  {
    DivModUnique(t, 3, t / 3, t % 3);
    if t % 3 < 2 {
      DivModUnique(t + 1, 3, t / 3, t % 3 + 1);
    } else {
      DivModUnique(t + 1, 3, t / 3 + 1, 0);
    }
  }

  /** The rotation is a 3-cycle: in every iteration the three roles sit on
      three different slots, and after three iterations they are back. */
  lemma RotDistinct(t: nat)
    ensures Rot(t, 0) != Rot(t, 1) && Rot(t, 1) != Rot(t, 2) && Rot(t, 0) != Rot(t, 2)
    ensures Rot(t + 3, 0) == Rot(t, 0) && Rot(t + 3, 1) == Rot(t, 1) && Rot(t + 3, 2) == Rot(t, 2)
  {
    DivModUnique(t, 3, t / 3, t % 3);
    DivModUnique(t + 3, 3, t / 3 + 1, t % 3);
  }

  /** The calls of relay iteration `t` in a run of `n` packets: receive in
      iterations 0 to n - 1, reduce in 1 to n, send in 2 to n + 1. */
  function Scheduled(t: nat, n: nat): Call
  {
    Call(if t < n then On(Rot(t, 0)) else Idle,
         if 1 <= t <= n then On(Rot(t, 1)) else Idle,
         if 2 <= t <= n + 1 then On(Rot(t, 2)) else Idle)
  }

  /** A packet received in iteration `t` is reduced in the same slot in
      iteration `t + 1` and sent from it in iteration `t + 2`. */
  lemma ScheduleFlow(t: nat, n: nat)
    requires t < n
    ensures Scheduled(t, n).recv.On?
    ensures Scheduled(t + 1, n).reduce == Scheduled(t, n).recv
    ensures Scheduled(t + 2, n).send == Scheduled(t, n).recv
  {
    RotNext(t);
    RotNext(t + 1);
  }

  /** The calls of one iteration never share a slot, and iterations 0 to
      n + 1 are the ones with a call. */
  lemma ScheduleDistinct(t: nat, n: nat)
    ensures Scheduled(t, n).recv.On? && Scheduled(t, n).reduce.On? ==> Scheduled(t, n).recv != Scheduled(t, n).reduce
    ensures Scheduled(t, n).recv.On? && Scheduled(t, n).send.On? ==> Scheduled(t, n).recv != Scheduled(t, n).send
    ensures Scheduled(t, n).reduce.On? && Scheduled(t, n).send.On? ==> Scheduled(t, n).reduce != Scheduled(t, n).send
    ensures Scheduled(t, n) != Call(Idle, Idle, Idle) <==> 0 < n && t <= n + 1
  {
    RotDistinct(t);
  }

  /* ---------------------------------------------------------------------
     The pool. */

  /** The default pool serves the call when it is as large as a packet and
      its three slots are set. */
  predicate Usable(pa: PipeAttr, packetSize: int)
  {
    |pa.buf| == NBufs && |pa.bufFree| == NBufs && pa.bufSize >= packetSize && pa.buf[0] != 0 && pa.buf[1] != 0 && pa.buf[2] != 0
  }

  /** The pool the call works with, as written: the default pool when it
      is usable, otherwise a call-local pool from pipe_attr_alloc_buf with
      two buffers, whose third slot stays null. */
  method PoolAsWritten(env: Env, local: PipeAttr, packetSize: int, raws: seq<nat>, alignment: nat)
    returns (pa: PipeAttr)
    requires env.defaultPa.Valid() && local.Valid() && |raws| == 2
    ensures Usable(env.defaultPa, packetSize) ==> pa == env.defaultPa
    ensures !Usable(env.defaultPa, packetSize) ==>
      pa.Valid() && pa.bufSize == packetSize && pa.buf[0] == MallocAligned(raws[0], alignment)
      && pa.buf[1] == MallocAligned(raws[1], alignment) && pa.buf[2] == 0
  {
    if Usable(env.defaultPa, packetSize) {
      return env.defaultPa;
    }
    var e := Env(env.defaultPa, map[0 := local]);
    e := AllocBuf(e, Local(0), packetSize, 2, raws, alignment);
    pa := e.pools[0];
  }

  /** With two or more packets the relay's receive of iteration 1 goes to
      slot 2, which the fallback pool leaves null. */
  lemma FallbackReceivesIntoNull(pa: PipeAttr, n: nat)
    requires pa.Valid() && pa.buf[2] == 0 && 2 <= n
    ensures Scheduled(1, n).recv.On? && pa.buf[Scheduled(1, n).recv.slot] == 0
  {
    RotNext(0);
  }

  /** The counterexample: no usable default pool, a 2-element count in
      packets of 1 element, and the relay receives into the null slot. */
  lemma FallbackNullExample(pa: PipeAttr)
    requires pa.Valid() && pa.buf[2] == 0
    ensures NPackets(2, 1) == 2 && Scheduled(1, NPackets(2, 1)).recv == On(2) && pa.buf[2] == 0
  {
    RotNext(0);
  }

  /** The pool the call should work with: the fallback allocates all three
      buffers the rotation uses. */
  method Pool(env: Env, local: PipeAttr, packetSize: int, raws: seq<nat>, alignment: nat)
    returns (pa: PipeAttr)
    requires env.defaultPa.Valid() && local.Valid() && |raws| == NBufs
    ensures Usable(env.defaultPa, packetSize) ==> pa == env.defaultPa
    ensures !Usable(env.defaultPa, packetSize) ==>
      pa.Valid() && pa.bufSize == packetSize
      && forall k :: 0 <= k < NBufs ==> pa.buf[k] == MallocAligned(raws[k], alignment)
    ensures (forall k :: 0 <= k < NBufs ==> raws[k] != 0) ==> Usable(pa, packetSize)
  {
    if Usable(env.defaultPa, packetSize) {
      return env.defaultPa;
    }
    var e := Env(env.defaultPa, map[0 := local]);
    e := AllocBuf(e, Local(0), packetSize, 3, raws, alignment);
    pa := e.pools[0];
    SlotAddresses(raws[0], alignment);
    SlotAddresses(raws[1], alignment);
    SlotAddresses(raws[2], alignment);
  }

  /** A usable pool has a buffer in every slot any call of the schedule
      uses. */
  lemma UsableServesSchedule(pa: PipeAttr, packetSize: int, t: nat, n: nat)
    requires Usable(pa, packetSize)
    ensures Scheduled(t, n).recv.On? ==> pa.buf[Scheduled(t, n).recv.slot] != 0
    ensures Scheduled(t, n).reduce.On? ==> pa.buf[Scheduled(t, n).reduce.slot] != 0
    ensures Scheduled(t, n).send.On? ==> pa.buf[Scheduled(t, n).send.slot] != 0
  {
  }

  /* ---------------------------------------------------------------------
     The clock shared by all roles. */

  /** The counters after `t` iterations over the packets `P`: `i` packets
      received, the last of them (`prev_packet`) waiting to be reduced in
      iterations 1 to n, and the one before (`pprev_packet`) waiting to be
      sent in iterations 2 to n + 1.  The loop stops after n + 2
      iterations, or at once when there is no packet. */
  ghost predicate Clocked(P: seq<nat>, t: nat, i: nat, prev: nat, pprev: nat)
  {
    t <= |P| + 2 && (|P| == 0 ==> t == 0) && i == (if t < |P| then t else |P|)
    && prev == (if 1 <= t <= |P| then P[t - 1] else 0)
    && pprev == (if 2 <= t <= |P| + 1 then P[t - 2] else 0)
  }

  /** The packets a relay has sent after `t` iterations. */
  function SentBy(n: nat, t: nat): nat
  {
    if t < 2 then 0 else if t - 2 < n then t - 2 else n
  }

  /** One iteration moves the clock: a packet is received while some are
      left, the received one becomes `prev_packet` and the previous one
      `pprev_packet`.  The loop condition holds exactly before iteration
      n + 2. */
  lemma ClockNext(P: seq<nat>, count: nat, maxPacket: nat, t: nat, done: nat, np: nat, i: nat, prev: nat,
                  pprev: nat, current: nat)
    requires Sizes(P, count, maxPacket) && Along(P, done, np, i) && Clocked(P, t, i, prev, pprev)
    requires done < count || prev > 0 || pprev > 0
    requires current == if np == 0 then 0 else P[i]
    ensures np > 0 <==> t < |P|
    ensures np > 0 ==> done < count && current == P[i] && 1 <= current <= maxPacket && done + current <= count
    ensures np == 0 ==> done == count && current == 0
    ensures prev > 0 <==> 1 <= t <= |P|
    ensures pprev > 0 <==> 2 <= t <= |P| + 1
    ensures prev <= maxPacket && pprev <= maxPacket && prev <= done
    ensures SentBy(|P|, t) + (if pprev > 0 then 1 else 0) + (if prev > 0 then 1 else 0) == i
    ensures prev > 0 ==> 1 <= i <= |P| && P[i - 1] == prev
    ensures Clocked(P, t + 1, if current > 0 then i + 1 else i, current, prev)
    ensures Along(P, done + current, if np > 0 then np - 1 else 0, if current > 0 then i + 1 else i)
    ensures SentBy(|P|, t + 1) == SentBy(|P|, t) + (if pprev > 0 then 1 else 0)
  {
    if np > 0 {
      TotalPrefix(P, i);
    } else {
      assert P[..|P|] == P;
    }
    if prev > 0 {
      TotalPrefix(P, i - 1);
    }
  }

  /** Once the loop stops every packet is through. */
  lemma ClockEnd(P: seq<nat>, count: nat, maxPacket: nat, t: nat, done: nat, np: nat, i: nat, prev: nat,
                 pprev: nat)
    requires Sizes(P, count, maxPacket) && Along(P, done, np, i) && Clocked(P, t, i, prev, pprev)
    requires !(done < count || prev > 0 || pprev > 0)
    ensures i == |P| && done == count
    ensures t == (if count == 0 then 0 else |P| + 2)
    ensures SentBy(|P|, t) == |P|
  {
    if i < |P| {
      TotalPrefix(P, i);
    }
    assert P[..|P|] == P;
  }

  /* ---------------------------------------------------------------------
     A relay. */

  /** A relay between iterations: the loop variables, the three pool
      buffers and which of them are `buf0`, `buf1`, `buf2`, the packets
      sent and the calls made. */
  datatype Relay3 = Relay3(done: nat, np: nat, i: nat, prev: nat, pprev: nat, bufs: seq<Vec>, b0: nat, b1: nat,
                           b2: nat, outbox: seq<Vec>, calls: seq<Call>)

  /** The three slots are valid indices and every role's window fits its
      buffer. */
  ghost predicate Windows(sbuf: Vec, st: Relay3)
  {
    st.b0 < |st.bufs| && st.b1 < |st.bufs| && st.b2 < |st.bufs|
    && st.prev <= |st.bufs[st.b1]| && st.prev <= st.done <= |sbuf| && st.pprev <= |st.bufs[st.b2]|
  }

  /** One iteration of a relay, once `buf0` holds `got` (its old contents
      when there is no packet to receive): add the own slice to the
      previous packet in `buf1`, send the packet in `buf2`, rotate the
      buffers and move the counters. */
  function Iterated(sbuf: Vec, st: Relay3, current: nat, got: Vec): (st1: Relay3)
    requires Windows(sbuf, st) && |got| == |st.bufs[st.b0]|
  {
    var received := st.bufs[st.b0 := got];
    var reduced :=
      if st.prev > 0 then
        received[st.b1 := Add(received[st.b1][..st.prev], sbuf[st.done - st.prev..st.done]) + received[st.b1][st.prev..]]
      else received;
    Relay3(st.done + current, if st.np > 0 then st.np - 1 else 0, if current > 0 then st.i + 1 else st.i,
           current, st.prev, reduced, st.b2, st.b0, st.b1,
           if st.pprev > 0 then st.outbox + [st.bufs[st.b2][..st.pprev]] else st.outbox,
           st.calls + [Call(if current > 0 then On(st.b0) else Idle, if st.prev > 0 then On(st.b1) else Idle,
                            if st.pprev > 0 then On(st.b2) else Idle)])
  }

  /** Where a relay stands in its loop over the packets `P`: its place in
      the tiling, its clock, every message so far fit, its buffers rotate
      and its calls follow the schedule. */
  ghost predicate Progress3(inbox: seq<Vec>, P: seq<nat>, count: nat, maxPacket: nat, st: Relay3)
  {
    Counters3(P, count, st)
    && st.i <= |inbox| && Fits(inbox[..st.i], P[..st.i])
    && Rotated(st, maxPacket)
    && OnSchedule(st.calls, |P|)
  }

  /** The relay's counters: its place in the tiling, its clock and the
      packets it has sent. */
  ghost predicate Counters3(P: seq<nat>, count: nat, st: Relay3)
  {
    Along(P, st.done, st.np, st.i) && st.prev <= st.done <= count
    && Clocked(P, |st.calls|, st.i, st.prev, st.pprev)
    && |st.outbox| == SentBy(|P|, |st.calls|)
  }

  /** The three buffers have room for a packet and play the roles the
      rotation gives them after `|calls|` iterations. */
  ghost predicate Rotated(st: Relay3, maxPacket: nat)
  {
    |st.bufs| == 3 && |st.bufs[0]| >= maxPacket && |st.bufs[1]| >= maxPacket && |st.bufs[2]| >= maxPacket
    && st.b0 == Rot(|st.calls|, 0) && st.b1 == Rot(|st.calls|, 1) && st.b2 == Rot(|st.calls|, 2)
  }

  /** The calls made so far follow the schedule. */
  ghost predicate OnSchedule(calls: seq<Call>, n: nat)
  {
    forall k :: 0 <= k < |calls| ==> ScheduledAt(calls, n, k)
  }

  /** Call `k` is the scheduled one. */
  ghost predicate ScheduledAt(calls: seq<Call>, n: nat, k: nat)
    requires k < |calls|
  {
    calls[k] == Scheduled(k, n)
  }

  /** What the packets in flight hold: the sent packets are `Relayed`
      against the own pieces; the packet in `buf2` is the next to be
      `Relayed`; the packet in `buf1` is the last message, still without
      the own slice, which sits just before `done`. */
  ghost predicate Holding(sbuf: Vec, inbox: seq<Vec>, pieces: seq<Vec>, st: Relay3)
  {
    SentSoFar(inbox, pieces, st) && InReduce(sbuf, inbox, pieces, st) && InSend(inbox, pieces, st)
  }

  ghost predicate SentSoFar(inbox: seq<Vec>, pieces: seq<Vec>, st: Relay3)
  {
    |st.outbox| <= |inbox| && |st.outbox| <= |pieces| && Relayed(inbox, pieces, st.outbox)
  }

  ghost predicate InReduce(sbuf: Vec, inbox: seq<Vec>, pieces: seq<Vec>, st: Relay3)
  {
    st.prev > 0 ==>
      1 <= st.i <= |inbox| && st.i <= |pieces| && st.b1 < |st.bufs|
      && |inbox[st.i - 1]| <= st.prev <= |st.bufs[st.b1]|
      && st.bufs[st.b1][..|inbox[st.i - 1]|] == inbox[st.i - 1]
      && st.prev <= st.done <= |sbuf| && pieces[st.i - 1] == sbuf[st.done - st.prev..st.done]
  }

  ghost predicate InSend(inbox: seq<Vec>, pieces: seq<Vec>, st: Relay3)
  {
    st.pprev > 0 ==>
      |st.outbox| < |inbox| && |st.outbox| < |pieces| && st.b2 < |st.bufs| && st.pprev <= |st.bufs[st.b2]|
      && Relayed(inbox, pieces, st.outbox + [st.bufs[st.b2][..st.pprev]])
  }

  /** A relay of the plain data: on track and holding its packets. */
  ghost predicate RelayAt3(sbuf: Vec, inbox: seq<Vec>, count: nat, maxPacket: nat, st: Relay3)
    requires 0 < maxPacket && count <= |sbuf|
  {
    Progress3(inbox, PacketSizes(count, maxPacket), count, maxPacket, st)
    && Holding(sbuf, inbox, Cut(sbuf[..count], PacketSizes(count, maxPacket)), st)
  }

  /** What the relay loop still has to do. */
  function Work3(st: Relay3): nat
  {
    3 * st.np + (if st.prev > 0 then 2 else 0) + (if st.pprev > 0 then 1 else 0)
  }

  /** The relay before its first iteration. */
  lemma RelayStart3(sbuf: Vec, bufs: seq<Vec>, inbox: seq<Vec>, count: nat, maxPacket: nat)
    requires 0 < maxPacket && count <= |sbuf|
    requires |bufs| == 3 && |bufs[0]| >= maxPacket && |bufs[1]| >= maxPacket && |bufs[2]| >= maxPacket
    ensures RelayAt3(sbuf, inbox, count, maxPacket, Relay3(0, NPackets(count, maxPacket), 0, 0, 0, bufs, 0, 1, 2, [], []))
  {
    ghost var P := PacketSizes(count, maxPacket);
    assert P[..0] == [];
    RotNext(0);
    SizesOf(count, maxPacket);
  }

  /** An iteration can run, whatever the buffers hold: the loop condition
      holds, `current` is the next packet (0 when none is left), and when
      there is one its message has arrived in `got`, the new contents of
      `buf0`. */
  ghost predicate Step3(inbox: seq<Vec>, P: seq<nat>, count: nat, maxPacket: nat, st: Relay3, current: nat, got: Vec)
  {
    Progress3(inbox, P, count, maxPacket, st) && Go3(P, count, st, current) && Arrived3(inbox, st, current, got)
  }

  /** The loop condition holds and `current` is the next packet, 0 when
      none is left. */
  ghost predicate Go3(P: seq<nat>, count: nat, st: Relay3, current: nat)
  {
    st.i + st.np == |P| && (st.done < count || st.prev > 0 || st.pprev > 0)
    && current == (if st.np == 0 then 0 else P[st.i])
  }

  /** `got`, the new contents of `buf0`, holds the message of packet `i`
      in its prefix when there is a packet. */
  ghost predicate Arrived3(inbox: seq<Vec>, st: Relay3, current: nat, got: Vec)
  {
    st.b0 < |st.bufs| && |got| == |st.bufs[st.b0]|
    && (current > 0 ==> st.i < |inbox| && |inbox[st.i]| <= current <= |got| && got[..|inbox[st.i]|] == inbox[st.i])
  }

  /** An iteration keeps the relay on track. */
  lemma IteratedProgress(sbuf: Vec, inbox: seq<Vec>, P: seq<nat>, count: nat, maxPacket: nat, st: Relay3,
                         current: nat, got: Vec)
    requires count <= |sbuf| && Sizes(P, count, maxPacket) && Step3(inbox, P, count, maxPacket, st, current, got)
    ensures Windows(sbuf, st)
    ensures Progress3(inbox, P, count, maxPacket, Iterated(sbuf, st, current, got))
    ensures Work3(Iterated(sbuf, st, current, got)) < Work3(st)
  {
    WindowsOf(sbuf, P, count, maxPacket, st);
    CountersNext(sbuf, P, count, maxPacket, st, current, got);
    if current > 0 {
      PrefixSnoc(inbox, P, st.i);
    }
    RotatedNext(sbuf, st, current, got, maxPacket);
    CallsNext(st.calls, |P|, current, st.prev, st.pprev, st.b0, st.b1, st.b2);
  }

  /** The roles' windows fit the pool buffers. */
  lemma WindowsOf(sbuf: Vec, P: seq<nat>, count: nat, maxPacket: nat, st: Relay3)
    requires count <= |sbuf| && Sizes(P, count, maxPacket) && Counters3(P, count, st) && Rotated(st, maxPacket)
    ensures Windows(sbuf, st)
  {
  }

  /** An iteration moves the counters along the clock and the tiling. */
  lemma CountersNext(sbuf: Vec, P: seq<nat>, count: nat, maxPacket: nat, st: Relay3, current: nat, got: Vec)
    requires Sizes(P, count, maxPacket) && Counters3(P, count, st) && Go3(P, count, st, current)
    requires Windows(sbuf, st) && |got| == |st.bufs[st.b0]|
    ensures current > 0 <==> |st.calls| < |P|
    ensures st.prev > 0 <==> 1 <= |st.calls| <= |P|
    ensures st.pprev > 0 <==> 2 <= |st.calls| <= |P| + 1
    ensures current > 0 ==> st.i < |P|
    ensures Counters3(P, count, Iterated(sbuf, st, current, got))
    ensures Work3(Iterated(sbuf, st, current, got)) < Work3(st)
  {
    ClockNext(P, count, maxPacket, |st.calls|, st.done, st.np, st.i, st.prev, st.pprev, current);
    ghost var st1 := Iterated(sbuf, st, current, got);
    assert st1.done == st.done + current && st1.np == (if st.np > 0 then st.np - 1 else 0);
    assert st1.i == (if current > 0 then st.i + 1 else st.i) && st1.prev == current && st1.pprev == st.prev;
    assert |st1.calls| == |st.calls| + 1;
    assert |st1.outbox| == |st.outbox| + (if st.pprev > 0 then 1 else 0);
  }

  /** After an iteration the buffers keep their room and the roles move
      one step along the rotation. */
  lemma RotatedNext(sbuf: Vec, st: Relay3, current: nat, got: Vec, maxPacket: nat)
    requires Windows(sbuf, st) && |got| == |st.bufs[st.b0]| && Rotated(st, maxPacket)
    ensures Rotated(Iterated(sbuf, st, current, got), maxPacket)
  {
    RotNext(|st.calls|);
    ghost var st1 := Iterated(sbuf, st, current, got);
    assert |st1.calls| == |st.calls| + 1;
    assert forall k :: 0 <= k < 3 ==> |st1.bufs[k]| == |st.bufs[k]|;
  }

  /** The calls an iteration makes are the scheduled ones. */
  lemma CallsNext(calls: seq<Call>, n: nat, current: nat, prev: nat, pprev: nat, b0: nat, b1: nat, b2: nat)
    requires OnSchedule(calls, n)
    requires b0 == Rot(|calls|, 0) && b1 == Rot(|calls|, 1) && b2 == Rot(|calls|, 2)
    requires current > 0 <==> |calls| < n
    requires prev > 0 <==> 1 <= |calls| <= n
    requires pprev > 0 <==> 2 <= |calls| <= n + 1
    ensures OnSchedule(calls + [Call(if current > 0 then On(b0) else Idle, if prev > 0 then On(b1) else Idle,
                                     if pprev > 0 then On(b2) else Idle)], n)
  {
    var calls1 := calls + [Call(if current > 0 then On(b0) else Idle, if prev > 0 then On(b1) else Idle,
                                if pprev > 0 then On(b2) else Idle)];
    forall k | 0 <= k < |calls1|
      ensures ScheduledAt(calls1, n, k)
    {
      if k < |calls| {
        assert ScheduledAt(calls, n, k);
      }
    }
  }

  /** An iteration keeps the packets in flight where they belong. */
  lemma IteratedHolding(sbuf: Vec, inbox: seq<Vec>, P: seq<nat>, count: nat, maxPacket: nat, pieces: seq<Vec>,
                        st: Relay3, current: nat, got: Vec)
    requires count <= |sbuf| && Sizes(P, count, maxPacket) && pieces == Cut(sbuf[..count], P)
    requires Counters3(P, count, st) && Rotated(st, maxPacket) && Go3(P, count, st, current)
    requires Arrived3(inbox, st, current, got) && Holding(sbuf, inbox, pieces, st) && Windows(sbuf, st)
    ensures Holding(sbuf, inbox, pieces, Iterated(sbuf, st, current, got))
  {
    InFlight(sbuf, P, count, maxPacket, pieces, st, current);
    RotDistinct(|st.calls|);
    HoldingNext(sbuf, inbox, pieces, st, current, got);
  }

  /** What the counters say about the packets in flight: one was sent for
      every packet received but the two still held, the packet to reduce
      has the size of its piece, and the packet to receive is the own
      slice at `done`. */
  lemma InFlight(sbuf: Vec, P: seq<nat>, count: nat, maxPacket: nat, pieces: seq<Vec>, st: Relay3, current: nat)
    requires count <= |sbuf| && Sizes(P, count, maxPacket) && pieces == Cut(sbuf[..count], P)
    requires Counters3(P, count, st) && Go3(P, count, st, current)
    ensures |st.outbox| + (if st.pprev > 0 then 1 else 0) + (if st.prev > 0 then 1 else 0) == st.i
    ensures st.prev > 0 ==> 1 <= st.i <= |pieces| && |pieces[st.i - 1]| == st.prev
    ensures current > 0 ==>
      st.i < |pieces| && st.done + current <= |sbuf| && pieces[st.i] == sbuf[st.done..st.done + current]
  {
    ClockNext(P, count, maxPacket, |st.calls|, st.done, st.np, st.i, st.prev, st.pprev, current);
    if current > 0 {
      PieceAt(sbuf, count, P, st.i, st.done);
    }
  }

  /** An iteration, whatever the pieces: the received message becomes the
      packet to reduce, the reduced packet the one to send, and the packet
      sent joins the outbox. */
  lemma HoldingNext(sbuf: Vec, inbox: seq<Vec>, pieces: seq<Vec>, st: Relay3, current: nat, got: Vec)
    requires Windows(sbuf, st) && |got| == |st.bufs[st.b0]|
    requires st.b0 != st.b1 && st.b1 != st.b2 && st.b0 != st.b2
    requires Holding(sbuf, inbox, pieces, st)
    requires |st.outbox| + (if st.pprev > 0 then 1 else 0) + (if st.prev > 0 then 1 else 0) == st.i
    requires st.prev > 0 ==> |pieces[st.i - 1]| == st.prev
    requires current > 0 ==>
      st.i < |inbox| && st.i < |pieces| && st.done + current <= |sbuf| && pieces[st.i] == sbuf[st.done..st.done + current]
      && |inbox[st.i]| <= current <= |got| && got[..|inbox[st.i]|] == inbox[st.i]
    ensures Holding(sbuf, inbox, pieces, Iterated(sbuf, st, current, got))
  {
    ghost var st1 := Iterated(sbuf, st, current, got);
    assert SentSoFar(inbox, pieces, st1);
    if current > 0 {
      assert st1.bufs[st1.b1] == got;
    }
    assert InReduce(sbuf, inbox, pieces, st1);
    if st.prev > 0 {
      var own := sbuf[st.done - st.prev..st.done];
      var packet := Add(st.bufs[st.b1][..st.prev], own);
      assert st1.bufs[st1.b2][..st.prev] == packet;
      assert |inbox[st.i - 1]| == st.prev ==> st.bufs[st.b1][..st.prev] == inbox[st.i - 1];
      RelayedSnoc(inbox, pieces, st1.outbox, packet);
    }
  }

  /** One relay iteration with its packet received. */
  method RelayStep3(sbuf: Vec, inbox: seq<Vec>, count: nat, maxPacket: nat, st: Relay3, current: nat, got: Vec)
    returns (st1: Relay3)
    requires 0 < maxPacket && count <= |sbuf|
    requires Step3(inbox, PacketSizes(count, maxPacket), count, maxPacket, st, current, got)
    requires Holding(sbuf, inbox, Cut(sbuf[..count], PacketSizes(count, maxPacket)), st)
    ensures RelayAt3(sbuf, inbox, count, maxPacket, st1) == true && Work3(st1) < Work3(st)
  {
    ghost var P := PacketSizes(count, maxPacket);
    SizesOf(count, maxPacket);
    IteratedProgress(sbuf, inbox, P, count, maxPacket, st, current, got);
    IteratedHolding(sbuf, inbox, P, count, maxPacket, Cut(sbuf[..count], P), st, current, got);
    st1 := Iterated(sbuf, st, current, got);
  }

  /** One iteration of the relay loop: a receive when a packet is left,
      which blocks past the last message and fails on a message longer
      than its packet. */
  method RelayIteration3(sbuf: Vec, inbox: seq<Vec>, count: nat, maxPacket: nat, st: Relay3)
    returns (res: Outcome<Relay3>)
    requires 0 < maxPacket && count <= |sbuf| && RelayAt3(sbuf, inbox, count, maxPacket, st)
    requires st.done < count || st.prev > 0 || st.pprev > 0
    ensures !res.Overrun?
    ensures res.Done? ==> RelayAt3(sbuf, inbox, count, maxPacket, res.value) == true && Work3(res.value) < Work3(st)
    ensures res.Blocked? ==> !Fits(inbox, PacketSizes(count, maxPacket)) && !TooLong(inbox, PacketSizes(count, maxPacket))
    ensures res.Truncated? ==> TooLong(inbox, PacketSizes(count, maxPacket)) && !Fits(inbox, PacketSizes(count, maxPacket))
  {
    ghost var P := PacketSizes(count, maxPacket);
    if st.np > 0 {
      QuotientAt(count, maxPacket, st.done, st.np, st.i);
    }
    var current := if st.np == 0 then 0 else (count - st.done) / st.np;
    var got := st.bufs[st.b0];
    if current > 0 {
      if st.i == |inbox| {
        BlockedAt(inbox, P);
        return Blocked;
      }
      var r := Receive(st.bufs[st.b0], 0, current, inbox[st.i]);
      if r.Truncated? {
        TruncatedAt(inbox, P, st.i);
        return Truncated;
      }
      got := r.value;
    }
    var st1 := RelayStep3(sbuf, inbox, count, maxPacket, st, current, got);
    return Done(st1);
  }

  /** A relay.  It finishes exactly when every message fits its receive,
      and then it has sent one packet per received one, in order, each the
      message plus the own slice when the message is exact.  Its calls
      follow the schedule, two iterations more than there are packets. */
  method IsendRelay(sbuf: Vec, bufs: seq<Vec>, inbox: seq<Vec>, count: nat, maxPacket: nat)
    returns (res: Outcome<seq<Vec>>, calls: seq<Call>)
    requires 0 < maxPacket && count <= |sbuf|
    requires |bufs| == 3 && |bufs[0]| >= maxPacket && |bufs[1]| >= maxPacket && |bufs[2]| >= maxPacket
    ensures res.Done? <==> Fits(inbox, PacketSizes(count, maxPacket))
    ensures res.Truncated? <==> TooLong(inbox, PacketSizes(count, maxPacket))
    ensures res.Done? ==> |res.value| == NPackets(count, maxPacket)
    ensures res.Done? ==> Relayed(inbox, Cut(sbuf[..count], PacketSizes(count, maxPacket)), res.value)
    ensures res.Done? ==> |calls| == (if count == 0 then 0 else NPackets(count, maxPacket) + 2)
    ensures res.Done? ==> forall k :: 0 <= k < |calls| ==> calls[k] == Scheduled(k, NPackets(count, maxPacket))
  {
    var st := Relay3(0, NPackets(count, maxPacket), 0, 0, 0, bufs, 0, 1, 2, [], []);
    RelayStart3(sbuf, bufs, inbox, count, maxPacket);
    while st.done < count || st.prev > 0 || st.pprev > 0
      invariant RelayAt3(sbuf, inbox, count, maxPacket, st)
      decreases Work3(st)
    {
      var r := RelayIteration3(sbuf, inbox, count, maxPacket, st);
      if r.Blocked? {
        return Blocked, st.calls;
      } else if r.Truncated? {
        return Truncated, st.calls;
      }
      st := r.value;
    }
    RelayEnd3(sbuf, inbox, count, maxPacket, st);
    res, calls := Done(st.outbox), st.calls;
  }

  /** After the loop every packet has been received, reduced and sent. */
  lemma RelayEnd3(sbuf: Vec, inbox: seq<Vec>, count: nat, maxPacket: nat, st: Relay3)
    requires 0 < maxPacket && count <= |sbuf| && RelayAt3(sbuf, inbox, count, maxPacket, st)
    requires !(st.done < count || st.prev > 0 || st.pprev > 0)
    ensures Fits(inbox, PacketSizes(count, maxPacket)) && !TooLong(inbox, PacketSizes(count, maxPacket))
    ensures |st.outbox| == NPackets(count, maxPacket) <= |inbox|
    ensures Relayed(inbox, Cut(sbuf[..count], PacketSizes(count, maxPacket)), st.outbox)
    ensures |st.calls| == (if count == 0 then 0 else NPackets(count, maxPacket) + 2)
    ensures forall k :: 0 <= k < |st.calls| ==> st.calls[k] == Scheduled(k, NPackets(count, maxPacket))
  {
    ghost var P := PacketSizes(count, maxPacket);
    SizesOf(count, maxPacket);
    ClockEnd(P, count, maxPacket, |st.calls|, st.done, st.np, st.i, st.prev, st.pprev);
    assert P[..st.i] == P;
    FitsAll(inbox, P);
    forall k | 0 <= k < |st.calls|
      ensures st.calls[k] == Scheduled(k, NPackets(count, maxPacket))
    {
      assert ScheduledAt(st.calls, |P|, k);
    }
  }

  /* ---------------------------------------------------------------------
     The root. */

  /** The root between iterations: the loop variables, its receive buffer
      and the iterations made. */
  datatype Root3 = Root3(done: nat, np: nat, i: nat, prev: nat, pprev: nat, buf: Vec, t: nat)

  /** One root iteration, once the receive buffer holds `got` (the message
      of packet `i` at `done`, if there is one): the own slice is added to
      the previous packet, which ends at `done`. */
  function RootIterated(sbuf: Vec, st: Root3, current: nat, got: Vec): (st1: Root3)
    requires st.prev <= st.done <= |sbuf| && st.done <= |got|
  {
    var at := st.done - st.prev;
    var buf := if st.prev > 0 then got[..at] + Add(got[at..st.done], sbuf[at..st.done]) + got[st.done..] else got;
    Root3(st.done + current, if st.np > 0 then st.np - 1 else 0, if current > 0 then st.i + 1 else st.i, current,
          st.prev, buf, st.t + 1)
  }

  /** How many packets the root has fully reduced. */
  function ReducedBy(st: Root3): nat
  {
    if st.prev > 0 && st.i > 0 then st.i - 1 else st.i
  }

  /** The pieces have the sizes `P`. */
  ghost predicate Shaped(pieces: seq<Vec>, P: seq<nat>)
  {
    |pieces| == |P| && forall k :: 0 <= k < |P| ==> |pieces[k]| == P[k]
  }

  /** The root's counters over the packets `P`: its place in the tiling
      and its clock, and every message so far fit. */
  ghost predicate RootOn(inbox: seq<Vec>, P: seq<nat>, count: nat, st: Root3)
  {
    Along(P, st.done, st.np, st.i) && st.prev <= st.done <= count
    && Clocked(P, st.t, st.i, st.prev, st.pprev)
    && st.i <= |inbox| && Fits(inbox[..st.i], P[..st.i])
  }

  /** The previous message lies in the window before `done`, the window of
      its own piece. */
  ghost predicate RootPending(sbuf: Vec, inbox: seq<Vec>, pieces: seq<Vec>, st: Root3)
  {
    st.prev <= st.done <= |st.buf|
    && (st.prev > 0 ==> 1 <= st.i <= |inbox| && st.i <= |pieces| && st.done <= |sbuf|
                        && pieces[st.i - 1] == sbuf[st.done - st.prev..st.done]
                        && (|inbox[st.i - 1]| == st.prev ==> st.buf[st.done - st.prev..st.done] == inbox[st.i - 1]))
  }

  /** When every message so far was exact, the buffer before the previous
      packet holds the reduced packets. */
  ghost predicate RootSum(inbox: seq<Vec>, P: seq<nat>, pieces: seq<Vec>, st: Root3)
    requires Shaped(pieces, P)
  {
    st.i <= |inbox| && st.i <= |P| && st.prev <= st.done <= |st.buf|
    && (Exact(inbox[..st.i], P[..st.i]) ==>
          st.buf[..st.done - st.prev] == Flatten(AddEach(inbox[..ReducedBy(st)], pieces[..ReducedBy(st)])))
  }

  /** The root on track: its counters, the tail of the receive buffer
      untouched, the previous message pending and the reduced packets in
      front. */
  ghost predicate RootAt3(sbuf: Vec, rbuf: Vec, inbox: seq<Vec>, count: nat, maxPacket: nat, st: Root3)
    requires 0 < maxPacket && count <= |sbuf| && count <= |rbuf|
  {
    RootOn(inbox, PacketSizes(count, maxPacket), count, st)
    && |st.buf| == |rbuf| && st.buf[count..] == rbuf[count..]
    && RootPending(sbuf, inbox, Cut(sbuf[..count], PacketSizes(count, maxPacket)), st)
    && RootSum(inbox, PacketSizes(count, maxPacket), Cut(sbuf[..count], PacketSizes(count, maxPacket)), st)
  }

  function RootWork(st: Root3): nat
  {
    3 * st.np + (if st.prev > 0 then 2 else 0) + (if st.pprev > 0 then 1 else 0)
  }

  /** The receive buffer after the receive of an iteration: the message of
      packet `i` at `done` when there is a packet. */
  ghost predicate RootGot(inbox: seq<Vec>, st: Root3, current: nat, got: Vec)
  {
    (current == 0 ==> got == st.buf)
    && (current > 0 ==> st.i < |inbox| && st.done + current <= |st.buf|
                        && Receive(st.buf, st.done, current, inbox[st.i]) == Done(got))
  }

  /** A root iteration can run: the loop condition holds, `current` is
      the next packet (0 when none is left), and the receive buffer holds
      `got` after the receive. */
  ghost predicate RootStep(sbuf: Vec, inbox: seq<Vec>, P: seq<nat>, count: nat, st: Root3, current: nat, got: Vec)
  {
    RootOn(inbox, P, count, st) && count <= |sbuf| && count <= |st.buf|
    && (st.done < count || st.prev > 0 || st.pprev > 0)
    && current == (if st.np == 0 then 0 else P[st.i])
    && RootGot(inbox, st, current, got)
  }

  /** A root iteration keeps the counters on track. */
  lemma RootOnNext(sbuf: Vec, inbox: seq<Vec>, P: seq<nat>, count: nat, maxPacket: nat, st: Root3, current: nat,
                   got: Vec)
    requires Sizes(P, count, maxPacket) && RootStep(sbuf, inbox, P, count, st, current, got)
    ensures st.prev <= st.done <= |sbuf| && st.done <= |got|
    ensures RootOn(inbox, P, count, RootIterated(sbuf, st, current, got)) == true
    ensures RootWork(RootIterated(sbuf, st, current, got)) < RootWork(st)
  {
    ClockNext(P, count, maxPacket, st.t, st.done, st.np, st.i, st.prev, st.pprev, current);
    ghost var st1 := RootIterated(sbuf, st, current, got);
    assert st1.done == st.done + current && st1.np == (if st.np > 0 then st.np - 1 else 0);
    assert st1.i == (if current > 0 then st.i + 1 else st.i) && st1.prev == current && st1.pprev == st.prev;
    if current > 0 {
      PrefixSnoc(inbox, P, st.i);
    }
  }

  /** A root iteration keeps the tail of the receive buffer and leaves the
      new message pending. */
  lemma RootPendingNext(sbuf: Vec, rbuf: Vec, inbox: seq<Vec>, P: seq<nat>, count: nat, maxPacket: nat,
                        pieces: seq<Vec>, st: Root3, current: nat, got: Vec)
    requires Sizes(P, count, maxPacket) && RootStep(sbuf, inbox, P, count, st, current, got)
    requires pieces == Cut(sbuf[..count], P)
    requires |st.buf| == |rbuf| && st.buf[count..] == rbuf[count..]
    ensures st.prev <= st.done <= |sbuf| && st.done <= |got| && |got| == |st.buf|
    ensures |RootIterated(sbuf, st, current, got).buf| == |rbuf|
    ensures RootIterated(sbuf, st, current, got).buf[count..] == rbuf[count..]
    ensures RootIterated(sbuf, st, current, got).buf[..st.done - st.prev] == st.buf[..st.done - st.prev]
    ensures RootPending(sbuf, inbox, pieces, RootIterated(sbuf, st, current, got))
  {
    ClockNext(P, count, maxPacket, st.t, st.done, st.np, st.i, st.prev, st.pprev, current);
    if current > 0 {
      PieceAt(sbuf, count, P, st.i, st.done);
    }
    RootPendingStep(sbuf, rbuf, inbox, pieces, count, st, current, got);
  }

  /** The buffer side of a root iteration: the receive leaves the buffer
      before `done` and after the message alone, and the reduction only
      touches the window of the previous packet. */
  lemma RootPendingStep(sbuf: Vec, rbuf: Vec, inbox: seq<Vec>, pieces: seq<Vec>, count: nat, st: Root3,
                        current: nat, got: Vec)
    requires count <= |sbuf| && count <= |rbuf| && |st.buf| == |rbuf| && st.buf[count..] == rbuf[count..]
    requires st.prev <= st.done <= count && RootGot(inbox, st, current, got)
    requires current > 0 ==> st.done + current <= count && st.i < |pieces| && pieces[st.i] == sbuf[st.done..st.done + current]
    ensures st.done <= |got| && |got| == |st.buf|
    ensures |RootIterated(sbuf, st, current, got).buf| == |rbuf|
    ensures RootIterated(sbuf, st, current, got).buf[count..] == rbuf[count..]
    ensures RootIterated(sbuf, st, current, got).buf[..st.done - st.prev] == st.buf[..st.done - st.prev]
    ensures RootPending(sbuf, inbox, pieces, RootIterated(sbuf, st, current, got))
  {
    ghost var st1 := RootIterated(sbuf, st, current, got);
    ghost var at := st.done - st.prev;
    assert |got| == |st.buf|;
    assert got[..st.done] == st.buf[..st.done];
    assert got[count..] == st.buf[count..];
    assert st1.buf[..at] == got[..at];
    assert st1.buf[st.done..] == got[st.done..];
    assert st1.buf[count..] == got[count..];
    if current > 0 {
      assert st1.buf[st.done..st.done + current] == got[st.done..st.done + current];
    }
  }

  /** With every message exact the buffer up to `done` holds one reduced
      packet more. */
  lemma RootSumNext(sbuf: Vec, inbox: seq<Vec>, P: seq<nat>, count: nat, maxPacket: nat, pieces: seq<Vec>,
                    st: Root3, current: nat, got: Vec)
    requires Sizes(P, count, maxPacket) && RootStep(sbuf, inbox, P, count, st, current, got)
    requires Shaped(pieces, P) && RootSum(inbox, P, pieces, st) && RootPending(sbuf, inbox, pieces, st)
    requires st.done <= |got| && |st.buf| == |got| && RootIterated(sbuf, st, current, got).buf[..st.done - st.prev] == st.buf[..st.done - st.prev]
    ensures ReducedBy(RootIterated(sbuf, st, current, got)) == st.i
    ensures RootSum(inbox, P, pieces, RootIterated(sbuf, st, current, got))
  {
    ClockNext(P, count, maxPacket, st.t, st.done, st.np, st.i, st.prev, st.pprev, current);
    RootSumStep(sbuf, inbox, P, pieces, st, current, got);
  }

  /** The sum side of a root iteration, whatever the pieces. */
  lemma RootSumStep(sbuf: Vec, inbox: seq<Vec>, P: seq<nat>, pieces: seq<Vec>, st: Root3, current: nat, got: Vec)
    requires Shaped(pieces, P) && RootSum(inbox, P, pieces, st)
    requires st.prev <= st.done <= |sbuf| && st.done <= |got|
    requires RootPending(sbuf, inbox, pieces, st) && RootGot(inbox, st, current, got)
    requires st.prev > 0 ==> P[st.i - 1] == st.prev
    requires current > 0 ==> st.i < |P| && current == P[st.i]
    requires |st.buf| == |got| && RootIterated(sbuf, st, current, got).buf[..st.done - st.prev] == st.buf[..st.done - st.prev]
    ensures ReducedBy(RootIterated(sbuf, st, current, got)) == st.i
    ensures RootSum(inbox, P, pieces, RootIterated(sbuf, st, current, got))
  {
    ghost var st1 := RootIterated(sbuf, st, current, got);
    if current > 0 {
      PrefixSnoc(inbox, P, st.i);
    }
    assert ReducedBy(st1) == st.i;
    if Exact(inbox[..st1.i], P[..st1.i]) {
      assert Exact(inbox[..st.i], P[..st.i]);
      ExactShaped(inbox, P, pieces, st.i);
      assert got[..st.done] == st.buf[..st.done];
      if st.prev > 0 {
        var k := st.i - 1;
        var at := st.done - st.prev;
        assert inbox[..st.i][k] == inbox[k] && P[..st.i][k] == P[k];
        assert got[at..st.done] == st.buf[at..st.done] == inbox[k];
        assert st1.buf[..st.done] == st.buf[..at] + Add(inbox[k], pieces[k]);
        ReducedSnoc(inbox, pieces, k, st.buf[..at]);
      } else {
        assert st1.buf[..st.done] == st.buf[..st.done];
      }
    }
  }

  /** Exact messages have the sizes of the own pieces. */
  lemma ExactShaped(inbox: seq<Vec>, P: seq<nat>, pieces: seq<Vec>, n: nat)
    requires Shaped(pieces, P) && n <= |P| && n <= |inbox| && Exact(inbox[..n], P[..n])
    ensures forall j :: 0 <= j < n ==> |inbox[j]| == |pieces[j]|
  {
    forall j | 0 <= j < n
      ensures |inbox[j]| == |pieces[j]|
    {
      assert inbox[..n][j] == inbox[j] && P[..n][j] == P[j];
    }
  }

  /** The reduced packets grow by the sum of the next message and piece. */
  lemma ReducedSnoc(inbox: seq<Vec>, pieces: seq<Vec>, k: nat, before: Vec)
    requires k < |inbox| && k < |pieces| && forall j :: 0 <= j <= k ==> |inbox[j]| == |pieces[j]|
    requires before == Flatten(AddEach(inbox[..k], pieces[..k]))
    ensures before + Add(inbox[k], pieces[k]) == Flatten(AddEach(inbox[..k + 1], pieces[..k + 1]))
  {
    AddEachSnoc(inbox, pieces, k);
    FlattenSnoc(AddEach(inbox[..k], pieces[..k]), Add(inbox[k], pieces[k]));
  }

  /** A root iteration keeps the root on track. */
  lemma RootIteratedAt(sbuf: Vec, rbuf: Vec, inbox: seq<Vec>, count: nat, maxPacket: nat, st: Root3, current: nat,
                       got: Vec)
    requires 0 < maxPacket && count <= |sbuf| && count <= |rbuf|
    requires RootAt3(sbuf, rbuf, inbox, count, maxPacket, st)
    requires RootStep(sbuf, inbox, PacketSizes(count, maxPacket), count, st, current, got)
    ensures st.prev <= st.done <= |sbuf| && st.done <= |got|
    ensures RootAt3(sbuf, rbuf, inbox, count, maxPacket, RootIterated(sbuf, st, current, got))
    ensures RootWork(RootIterated(sbuf, st, current, got)) < RootWork(st)
  {
    ghost var P := PacketSizes(count, maxPacket);
    ghost var pieces := Cut(sbuf[..count], P);
    SizesOf(count, maxPacket);
    RootOnNext(sbuf, inbox, P, count, maxPacket, st, current, got);
    RootPendingNext(sbuf, rbuf, inbox, P, count, maxPacket, pieces, st, current, got);
    RootSumNext(sbuf, inbox, P, count, maxPacket, pieces, st, current, got);
  }

  /** One iteration of the root loop: the receive of the next packet at
      `done`, which blocks past the last message and fails on a message
      longer than its packet, then the reduction of the previous one. */
  method RootIteration3(sbuf: Vec, rbuf: Vec, inbox: seq<Vec>, count: nat, maxPacket: nat, st: Root3)
    returns (res: Outcome<Root3>)
    requires 0 < maxPacket && count <= |sbuf| && count <= |rbuf| && RootAt3(sbuf, rbuf, inbox, count, maxPacket, st)
    requires st.done < count || st.prev > 0 || st.pprev > 0
    ensures !res.Overrun?
    ensures res.Done? ==> RootAt3(sbuf, rbuf, inbox, count, maxPacket, res.value) == true && RootWork(res.value) < RootWork(st)
    ensures res.Blocked? ==> !Fits(inbox, PacketSizes(count, maxPacket)) && !TooLong(inbox, PacketSizes(count, maxPacket))
    ensures res.Truncated? ==> TooLong(inbox, PacketSizes(count, maxPacket)) && !Fits(inbox, PacketSizes(count, maxPacket))
  {
    ghost var P := PacketSizes(count, maxPacket);
    if st.np > 0 {
      QuotientAt(count, maxPacket, st.done, st.np, st.i);
    }
    var current := if st.np == 0 then 0 else (count - st.done) / st.np;
    var got := st.buf;
    if current > 0 {
      if st.i == |inbox| {
        BlockedAt(inbox, P);
        return Blocked;
      }
      var r := Receive(st.buf, st.done, current, inbox[st.i]);
      if r.Truncated? {
        TruncatedAt(inbox, P, st.i);
        return Truncated;
      }
      got := r.value;
    }
    RootIteratedAt(sbuf, rbuf, inbox, count, maxPacket, st, current, got);
    return Done(RootIterated(sbuf, st, current, got));
  }

  /** The root: receive packet `t` at its offset in the receive buffer
      while the own slice is added to packet `t - 1`.  It ends as the
      blocking root does: with exact messages the first `count` elements
      hold the messages plus the own vector, the rest is untouched. */
  method IsendRoot(sbuf: Vec, rbuf: Vec, inbox: seq<Vec>, count: nat, maxPacket: nat)
    returns (res: Outcome<Vec>)
    requires 0 < maxPacket && count <= |sbuf| && count <= |rbuf|
    ensures res.Done? <==> Fits(inbox, PacketSizes(count, maxPacket))
    ensures res.Truncated? <==> TooLong(inbox, PacketSizes(count, maxPacket))
    ensures res.Done? ==> |res.value| == |rbuf| && res.value[count..] == rbuf[count..]
    ensures res.Done? && Exact(inbox, PacketSizes(count, maxPacket)) ==>
      res.value[..count] == Flatten(AddEach(inbox[..NPackets(count, maxPacket)], Cut(sbuf[..count], PacketSizes(count, maxPacket))))
  {
    var st := Root3(0, NPackets(count, maxPacket), 0, 0, 0, rbuf, 0);
    RootStart3(sbuf, rbuf, inbox, count, maxPacket);
    while st.done < count || st.prev > 0 || st.pprev > 0
      invariant RootAt3(sbuf, rbuf, inbox, count, maxPacket, st)
      decreases RootWork(st)
    {
      var r := RootIteration3(sbuf, rbuf, inbox, count, maxPacket, st);
      if r.Blocked? {
        return Blocked;
      } else if r.Truncated? {
        return Truncated;
      }
      st := r.value;
    }
    RootEnd3(sbuf, rbuf, inbox, count, maxPacket, st);
    res := Done(st.buf);
  }

  /** The root before its first iteration. */
  lemma RootStart3(sbuf: Vec, rbuf: Vec, inbox: seq<Vec>, count: nat, maxPacket: nat)
    requires 0 < maxPacket && count <= |sbuf| && count <= |rbuf|
    ensures RootAt3(sbuf, rbuf, inbox, count, maxPacket, Root3(0, NPackets(count, maxPacket), 0, 0, 0, rbuf, 0))
  {
    ghost var P := PacketSizes(count, maxPacket);
    assert P[..0] == [] && inbox[..0] == [];
    SizesOf(count, maxPacket);
  }

  lemma RootEnd3(sbuf: Vec, rbuf: Vec, inbox: seq<Vec>, count: nat, maxPacket: nat, st: Root3)
    requires 0 < maxPacket && count <= |sbuf| && count <= |rbuf|
    requires RootAt3(sbuf, rbuf, inbox, count, maxPacket, st)
    requires !(st.done < count || st.prev > 0 || st.pprev > 0)
    ensures Fits(inbox, PacketSizes(count, maxPacket)) && !TooLong(inbox, PacketSizes(count, maxPacket))
    ensures Exact(inbox, PacketSizes(count, maxPacket)) ==>
      st.buf[..count] == Flatten(AddEach(inbox[..NPackets(count, maxPacket)], Cut(sbuf[..count], PacketSizes(count, maxPacket))))
  {
    ghost var P := PacketSizes(count, maxPacket);
    ghost var c := Cut(sbuf[..count], P);
    SizesOf(count, maxPacket);
    ClockEnd(P, count, maxPacket, st.t, st.done, st.np, st.i, st.prev, st.pprev);
    assert P[..st.i] == P;
    assert c[..st.i] == c;
    FitsAll(inbox, P);
    if Exact(inbox, P) {
      assert Exact(inbox[..st.i], P[..st.i]);
    }
  }

  /* ---------------------------------------------------------------------
     The run along the chain. */

  /** The relay at chain position `k` takes its part: fed the pieces of
      the partial sum, it passes on the pieces of the partial sum with its
      own vector added. */
  method IsendChainStep(vs: seq<Vec>, pool: seq<Vec>, root: nat, count: nat, maxPacket: nat, k: nat, rank: int,
                        msgs: seq<Vec>)
    returns (rank1: int, msgs1: seq<Vec>)
    requires root < |vs| && 0 < maxPacket && k < |vs| - 1
    requires |pool| == 3 && |pool[0]| >= maxPacket && |pool[1]| >= maxPacket && |pool[2]| >= maxPacket
    requires forall r :: 0 <= r < |vs| ==> |vs[r]| == count
    requires ChainAt(vs, root, count, maxPacket, k, rank, msgs)
    ensures ChainAt(vs, root, count, maxPacket, k + 1, rank1, msgs1) == true
  {
    ghost var P := PacketSizes(count, maxPacket);
    ghost var c := ChainVecs(vs, root);
    ChainSum(vs, root, count);
    ChainNext(vs, root, k, rank);
    rank1 := Next(rank, root, |vs|);
    ghost var s := SumAll(c[..k], count);
    CutExact(s, P);
    var r, _ := IsendRelay(vs[rank1], pool, msgs, count, maxPacket);
    assert vs[rank1][..count] == c[k];
    RelayedCut(s, c[k], P, r.value);
    SumAllPrefixNext(c, k, count);
    msgs1 := r.value;
  }

  /** The root at the end of the chain receives the pieces of the sum of
      all other chain vectors and ends with the sum of all vectors. */
  method IsendChainRoot(vs: seq<Vec>, rbuf: Vec, root: nat, count: nat, maxPacket: nat, rank: int, msgs: seq<Vec>)
    returns (res: Outcome<Vec>)
    requires root < |vs| && 0 < maxPacket && count <= |rbuf| && 2 <= |vs|
    requires forall r :: 0 <= r < |vs| ==> |vs[r]| == count
    requires ChainAt(vs, root, count, maxPacket, |vs| - 1, rank, msgs)
    ensures res == Done(SumAll(vs, count) + rbuf[count..])
  {
    ghost var P := PacketSizes(count, maxPacket);
    ghost var c := ChainVecs(vs, root);
    var k := |vs| - 1;
    ChainSum(vs, root, count);
    ChainNext(vs, root, k, rank);
    var last := Next(rank, root, |vs|);
    ghost var s := SumAll(c[..k], count);
    CutExact(s, P);
    var r := IsendRoot(vs[last], rbuf, msgs, count, maxPacket);
    assert vs[last][..count] == c[k];
    assert msgs[..NPackets(count, maxPacket)] == msgs;
    RootValue(s, c[k], P, rbuf, count, r.value);
    SumAllLast(c, count);
    res := r;
  }

  /** A root buffer whose first `count` elements are the packet-wise sums
      of two vectors, and whose tail is untouched, is their sum followed by
      the tail. */
  lemma RootValue(s: Vec, v: Vec, P: seq<nat>, rbuf: Vec, count: nat, value: Vec)
    requires |s| == count && |v| == count && count <= |rbuf| && Total(P) == count
    requires |value| == |rbuf| && value[count..] == rbuf[count..]
    requires value[..count] == Flatten(AddEach(Cut(s, P), Cut(v, P)))
    ensures value == Add(s, v) + rbuf[count..]
  {
    AddEachCut(s, v, P);
    FlattenCut(Add(s, v), P);
    assert Add(s, v)[..count] == Add(s, v);
    SplitAt(value, count);
  }

  /** The whole run along the chain (MPI_Reduce_pipe_isend_irecv on every
      rank, past the argument check): a single process copies its vector
      (MPI_Reduce_self); otherwise the first rank sends its pieces, every
      relay passes the partial sums through its three pool buffers, and the
      root ends with the sum of all vectors in the first `count` elements
      of its receive buffer and the rest untouched. */
  method IsendIrecvRun(vs: seq<Vec>, pool: seq<Vec>, rbuf: Vec, root: nat, count: nat, maxPacket: nat)
    returns (res: Outcome<Vec>)
    requires root < |vs| && 0 < maxPacket && count <= |rbuf|
    requires |pool| == 3 && |pool[0]| >= maxPacket && |pool[1]| >= maxPacket && |pool[2]| >= maxPacket
    requires forall r :: 0 <= r < |vs| ==> |vs[r]| == count
    ensures res == Done(SumAll(vs, count) + rbuf[count..])
  {
    var self := Self(vs[0], rbuf, count, |vs|);
    if self.0 == Success {
      SumAllSingle(vs[0], count);
      assert vs == [vs[0]] && vs[0][..count] == vs[0];
      SplitAt(self.1, count);
      return Done(self.1);
    }
    var rank, msgs := ChainStart(vs, root, count, maxPacket);
    var k := 1;
    while k < |vs| - 1
      invariant ChainAt(vs, root, count, maxPacket, k, rank, msgs)
    {
      rank, msgs := IsendChainStep(vs, pool, root, count, maxPacket, k, rank, msgs);
      k := k + 1;
    }
    res := IsendChainRoot(vs, rbuf, root, count, maxPacket, rank, msgs);
  }

  /** The call on every rank: a failing argument check is returned before
      any buffer is touched or message sent; otherwise the run ends with
      the sum of all vectors at the root. */
  method IsendIrecvReduce(dtype: Datatype, op: Op, vs: seq<Vec>, pool: seq<Vec>, rbuf: Vec, root: int, count: nat,
                          maxPacket: nat)
    returns (code: int, res: Outcome<Vec>)
    requires 0 < |vs| && 0 < maxPacket && count <= |rbuf|
    requires |pool| == 3 && |pool[0]| >= maxPacket && |pool[1]| >= maxPacket && |pool[2]| >= maxPacket
    requires forall r :: 0 <= r < |vs| ==> |vs[r]| == count
    ensures code == Success <==> dtype == Double && op == Sum && 0 <= root < |vs|
    ensures code != Success ==> code == Failure && res == Done(rbuf)
    ensures code == Success ==> res == Done(SumAll(vs, count) + rbuf[count..])
  {
    code := Check(dtype, op, root, |vs|);
    if code != Success {
      return code, Done(rbuf);
    }
    res := IsendIrecvRun(vs, pool, rbuf, root, count, maxPacket);
  }
}

=== FILE: memory.dfy ===
/** Aligned allocation and the copy helpers (reduce/memory.c).

    Addresses are naturals, 0 standing for the null pointer.  The address
    that `calloc` returns is an input: allocation itself is outside the
    model. */
module Memory {
  import opened Vectors
  import opened Arith
  import VectorRw

  type Byte = bv8

  /** Size of a double in bytes. */
  const DoubleSize: nat := 8

  /** malloc_aligned: the address handed out for the raw block `raw` of
      `size + alignment` bytes.  An alignment of 0 asks for none. */
  function MallocAligned(raw: nat, alignment: nat): (p: nat)
    ensures alignment > 0 ==> p % alignment == 0
    ensures alignment > 0 ==> raw <= p < raw + alignment
    ensures alignment == 0 || raw % alignment == 0 ==> p == raw
  {
    if alignment > 0 && raw % alignment != 0 then
      RoundUp(raw, alignment);
      raw + alignment - raw % alignment
    else raw
  }

  /** Every byte of a `size`-byte block at the aligned address lies inside
      the raw block allocated for it. */
  lemma AlignedFits(raw: nat, size: nat, alignment: nat)
    ensures raw <= MallocAligned(raw, alignment)
    ensures MallocAligned(raw, alignment) + size <= raw + size + alignment
  {
  }

  /** Aligning is idempotent: an aligned address is handed out as is. */
  lemma AlignedIdempotent(raw: nat, alignment: nat)
    ensures MallocAligned(MallocAligned(raw, alignment), alignment) == MallocAligned(raw, alignment)
  {
  }

  /** tuned_STREAM_Copy: the first `n` doubles of `src` overwrite those of
      `dest`. */
  method StreamCopy(n: nat, dest: Vec, src: Vec) returns (r: Vec)
    requires n <= |dest| && n <= |src|
    ensures |r| == |dest| && r[..n] == src[..n] && r[n..] == dest[n..]
  {
    r := dest;
    var j: nat := 0;
    while j < n
      invariant j <= n && |r| == |dest|
      invariant r[..j] == src[..j] && r[n..] == dest[n..]
    {
      r := r[j := src[j]];
      assert src[..j + 1] == src[..j] + [src[j]];
      assert r[..j + 1] == r[..j] + [r[j]];
      j := j + 1;
    }
  }

  /** memcpy_dbl: a copy of `n` bytes as whole doubles, so the bytes of a
      trailing partial double are not copied. */
  method MemcpyDbl(dest: Vec, src: Vec, n: nat) returns (r: Vec)
    requires n / DoubleSize <= |dest| && n / DoubleSize <= |src|
    ensures |r| == |dest|
    ensures r[..n / DoubleSize] == src[..n / DoubleSize]
    ensures r[n / DoubleSize..] == dest[n / DoubleSize..]
  {
    r := StreamCopy(n / DoubleSize, dest, src);
  }

  /** memcpy_dblv: the same whole-double copy as memcpy_dbl, done by
      dblv_copy; the bytes of a trailing partial double are not copied. */
  method MemcpyDblv(dest: Vec, src: Vec, n: nat) returns (r: Vec)
    requires n / DoubleSize <= |dest| && n / DoubleSize <= |src|
    ensures |r| == |dest|
    ensures r[..n / DoubleSize] == src[..n / DoubleSize]
    ensures r[n / DoubleSize..] == dest[n / DoubleSize..]
  {
    r := VectorRw.Copy(n / DoubleSize, src, dest);
  }

  /** memcpy_opt: a forward copy of `n` bytes, one at a time. */
  method MemcpyOpt(b: seq<Byte>, a: seq<Byte>, n: nat) returns (r: seq<Byte>)
    requires n <= |b| && n <= |a|
    ensures |r| == |b| && r[..n] == a[..n] && r[n..] == b[n..]
  {
    r := b;
    var i: nat := 0;
    var m := n;
    while 0 < m
      invariant i + m == n && |r| == |b|
      invariant r[..i] == a[..i] && r[n..] == b[n..]
    {
      r := r[i := a[i]];
      assert a[..i + 1] == a[..i] + [a[i]];
      assert r[..i + 1] == r[..i] + [r[i]];
      i, m := i + 1, m - 1;
    }
  }
}

=== FILE: packets.dfy ===
/** Packet tiling of the pipelined reductions
    (reduce/mpi_reduce_pipe_send_recv.c and its siblings).

    A message carries at most `max_packet` elements.  The count is split
    into `npackets` = ceil(count / max_packet) packets, and each iteration
    takes `(count - done) / npackets--` of what is left.  `Tile(rem, m)` is
    that sequence of sizes for `rem` elements left in `m` packets; `Cut`
    cuts a vector into pieces of given sizes. */
module Packets {
  import opened Vectors
  import opened Arith

  /** max_packet: the elements of `typeSize` bytes that fit in a packet of
      `packetSize` bytes, raised to 1 when not even one fits. */
  function MaxPacket(packetSize: nat, typeSize: nat): (m: nat)
    requires typeSize > 0
    ensures m >= 1
    ensures packetSize >= typeSize ==> m * typeSize <= packetSize < (m + 1) * typeSize
    ensures packetSize < typeSize ==> m == 1
  {
    var q := packetSize / typeSize;
    DivModUnique(packetSize, typeSize, q, packetSize % typeSize);
    if q == 0 then 1 else q
  }

  /** npackets: count / max_packet, one more when a partial packet is
      left. */
  function NPackets(count: nat, maxPacket: nat): nat
    requires maxPacket > 0
  {
    if count % maxPacket != 0 then count / maxPacket + 1 else count / maxPacket
  }

  /** npackets is the ceiling of count / max_packet, and never more than
      count. */
  lemma NPacketsCeil(count: nat, maxPacket: nat)
    requires maxPacket > 0
    ensures count <= NPackets(count, maxPacket) * maxPacket
    ensures NPackets(count, maxPacket) > 0 ==> (NPackets(count, maxPacket) - 1) * maxPacket < count
    ensures NPackets(count, maxPacket) <= count
  {
    var q, r := count / maxPacket, count % maxPacket;
    assert count == q * maxPacket + r;
    MulMono(1, maxPacket, q);
    if r != 0 {
      assert (q + 1) * maxPacket == q * maxPacket + maxPacket;
    }
  }

  /** Sum of a sequence of sizes. */
  function Total(s: seq<nat>): nat
  {
    if |s| == 0 then 0 else s[0] + Total(s[1..])
  }

  /** The sizes `(rem / m)`, then the same for what is left in `m - 1`
      packets, and so on: what `(count - done) / npackets--` yields. */
  function Tile(rem: nat, m: nat): (sizes: seq<nat>)
    ensures |sizes| == m
    decreases m
  {
    if m == 0 then []
    else
      DivMonotone(0, rem, m);
      DivLeq(rem, m);
      [rem / m] + Tile(rem - rem / m, m - 1)
  }

  lemma DivLeq(rem: nat, m: nat)
    requires m > 0
    ensures rem / m <= rem
  {
    var q := rem / m;
    assert rem == q * m + rem % m;
    MulMono(1, m, q);
  }

  /** The sizes the C loop produces for `count` elements. */
  function PacketSizes(count: nat, maxPacket: nat): (ps: seq<nat>)
    requires maxPacket > 0
    ensures Total(ps) == count && |ps| == NPackets(count, maxPacket)
  {
    NPacketsCeil(count, maxPacket);
    TileBounds(count, NPackets(count, maxPacket), 1, maxPacket);
    Tile(count, NPackets(count, maxPacket))
  }

  /** `m` packets carry `rem` elements in pieces of at most `hi`, and at
      least `lo` each. */
  ghost predicate Tileable(rem: nat, m: nat, lo: nat, hi: nat)
  {
    m * lo <= rem <= m * hi
  }

  /** One step of the tiling keeps the per-packet bounds: the packet taken
      is within them, and so is what is left for the other packets. */
  lemma TileStep(rem: nat, m: nat, lo: nat, hi: nat)
    requires m > 0 && Tileable(rem, m, lo, hi)
    ensures lo <= rem / m <= hi
    ensures rem / m <= rem && Tileable(rem - rem / m, m - 1, lo, hi)
  {
    var p, r := rem / m, rem % m;
    DivLeq(rem, m);
    assert rem == p * m + r;
    QuotientBounds(p, r, m, lo, hi);
    RestBounds(p, r, m, lo, hi);
  }

  /** The quotient of `p·m + r` by `m` lies within the per-packet bounds. */
  lemma QuotientBounds(p: nat, r: nat, m: nat, lo: nat, hi: nat)
    requires m > 0 && r < m && m * lo <= p * m + r <= m * hi
    ensures lo <= p <= hi
  {
    MulCancel(p, hi, m);
    assert (p + 1) * m == p * m + m;
    MulCancel(lo, p, m);
  }

  /** What is left after taking `p` of `p·m + r` keeps the bounds. */
  lemma RestBounds(p: nat, r: nat, m: nat, lo: nat, hi: nat)
    requires m > 0 && r < m && lo <= p <= hi && p * m + r <= m * hi
    ensures p * m + r - p == p * (m - 1) + r
    ensures (m - 1) * lo <= p * (m - 1) + r <= (m - 1) * hi
  {
    assert p * m == p * (m - 1) + p;
    MulMono(lo, p, m - 1);
    if p == hi {
      assert hi * m == hi * (m - 1) + hi;
    } else {
      MulMono(p, hi - 1, m - 1);
      assert (hi - 1) * (m - 1) == hi * (m - 1) - (m - 1);
    }
  }

  /** Dividing both sides of an inequality by a positive factor. */
  lemma MulCancel(a: int, b: int, c: int)
    requires c > 0
    ensures a * c <= b * c ==> a <= b
    ensures a * c < (b + 1) * c ==> a <= b
  {
    if a > b {
      MulAtLeast(a - b, c);
      assert a * c - b * c == (a - b) * c;
      if a > b + 1 {
        MulAtLeast(a - b - 1, c);
        assert a * c - (b + 1) * c == (a - b - 1) * c;
      }
    }
  }

  lemma MulMono(a: nat, b: nat, c: nat)
    requires a <= b
    ensures a * c <= b * c
  {
    assert b * c == a * c + (b - a) * c;
  }

  /** Every size lies within the bounds, and the sizes add up. */
  lemma {:induction false} TileBounds(rem: nat, m: nat, lo: nat, hi: nat)
    requires Tileable(rem, m, lo, hi)
    ensures forall i :: 0 <= i < m ==> lo <= Tile(rem, m)[i] <= hi
    ensures Total(Tile(rem, m)) == rem
    decreases m
  {
    if m > 0 {
      TileStep(rem, m, lo, hi);
      TileBounds(rem - rem / m, m - 1, lo, hi);
      var t := Tile(rem, m);
      assert t == [rem / m] + Tile(rem - rem / m, m - 1);
      forall i | 0 < i < m
        ensures lo <= t[i] <= hi
      {
        assert t[i] == Tile(rem - rem / m, m - 1)[i - 1];
      }
    } else {
      assert rem == 0;
    }
  }

  /** Each packet is at most as large as the next. */
  lemma {:induction false} TileNonDecreasing(rem: nat, m: nat)
    ensures NonDecreasing(Tile(rem, m))
    decreases m
  {
    if m > 1 {
      var p, rest := TileFront(rem, m);
      TileNonDecreasing(rest, m - 1);
      NonDecreasingCons(p, Tile(rest, m - 1));
    }
  }

  /** A tiling of more than one packet: its first share, at most the
      next, and the tiling of what is left. */
  lemma TileFront(rem: nat, m: nat) returns (p: nat, rest: nat)
    requires m > 1
    ensures p <= rem && rest == rem - p && Tile(rem, m) == [p] + Tile(rest, m - 1)
    ensures p <= Tile(rest, m - 1)[0]
  {
    FirstShareSmallest(rem, m);
    p, rest := rem / m, rem - rem / m;
  }

  predicate NonDecreasing(s: seq<nat>)
  {
    forall i, j :: 0 <= i <= j < |s| ==> s[i] <= s[j]
  }

  /** The first share of a tiling is at most the next one. */
  lemma FirstShareSmallest(rem: nat, m: nat)
    requires m > 1
    ensures rem / m <= rem && rem / m <= (rem - rem / m) / (m - 1)
  {
    var p := rem / m;
    DivLeq(rem, m);
    DivModUnique(rem, m, p, rem % m);
    assert rem - p >= p * (m - 1);
    DivMonotone(p * (m - 1), rem - p, m - 1);
    DivModUnique(p * (m - 1), m - 1, p, 0);
  }

  /** A smallest element in front keeps a sequence non-decreasing. */
  lemma NonDecreasingCons(p: nat, s: seq<nat>)
    requires NonDecreasing(s) && (|s| > 0 ==> p <= s[0])
    ensures NonDecreasing([p] + s)
  {
    var t := [p] + s;
    forall i, j | 0 <= i <= j < |t|
      ensures t[i] <= t[j]
    {
      if i > 0 {
        assert t[i] == s[i - 1] && t[j] == s[j - 1];
      } else if j > 0 {
        assert t[j] == s[j - 1];
      }
    }
  }

  /** With `n` packets for `count` elements, every packet may be given
      count / n or one more. */
  lemma QuotientTileable(count: nat, n: nat)
    requires n > 0
    ensures Tileable(count, n, count / n, count / n + 1)
  {
    var q := count / n;
    assert count == q * n + count % n;
    assert n * (q + 1) == n * q + n;
  }

  /** The sizes the loop produces: they add up to `count` (no packet at all
      for count 0), each is `q` or `q + 1` for q = count / npackets, at
      least 1 and at most `max_packet`, and they never shrink. */
  lemma PacketSizesProps(count: nat, maxPacket: nat)
    requires maxPacket > 0
    ensures Total(PacketSizes(count, maxPacket)) == count
    ensures count == 0 <==> |PacketSizes(count, maxPacket)| == 0
    ensures forall i :: 0 <= i < |PacketSizes(count, maxPacket)| ==> 1 <= PacketSizes(count, maxPacket)[i] <= maxPacket
    ensures forall i :: 0 <= i < |PacketSizes(count, maxPacket)| ==>
      PacketSizes(count, maxPacket)[i] - count / |PacketSizes(count, maxPacket)| in {0, 1}
    ensures forall i, j :: 0 <= i <= j < |PacketSizes(count, maxPacket)| ==>
      PacketSizes(count, maxPacket)[i] <= PacketSizes(count, maxPacket)[j]
  {
    var n := NPackets(count, maxPacket);
    NPacketsCeil(count, maxPacket);
    assert Tileable(count, n, 1, maxPacket);
    TileBounds(count, n, 1, maxPacket);
    if n > 0 {
      QuotientTileable(count, n);
      TileBounds(count, n, count / n, count / n + 1);
    }
    TileNonDecreasing(count, n);
  }

  /** The pool buffers hold `packet_size` bytes (the pool test asks for
      `buf_size >= packet_size`, the fallback allocates `packet_size`), yet
      after the raise to 1 a packet may be one element: with a packet
      smaller than an element, a full packet does not fit the buffer. */
  lemma RaisedPacketOverflows(packetSize: nat, typeSize: nat)
    requires 0 < typeSize && packetSize < typeSize
    ensures MaxPacket(packetSize, typeSize) == 1
    ensures MaxPacket(packetSize, typeSize) * typeSize > packetSize
  {
  }

  /** The buffer size the pipelines need: at least `packet_size` bytes, as
      the pool test asks, and room for `max_packet` whole elements; only a
      packet smaller than an element makes it larger. */
  function PoolBytes(packetSize: nat, typeSize: nat): (b: nat)
    requires typeSize > 0
    ensures packetSize <= b
    ensures MaxPacket(packetSize, typeSize) * typeSize <= b
    ensures packetSize >= typeSize ==> b == packetSize
  {
    var m := MaxPacket(packetSize, typeSize);
    if m * typeSize > packetSize then m * typeSize else packetSize
  }

  /** A buffer of `PoolBytes` holds `max_packet` elements, so every packet
      of the tiling fits it; this is the room the pipelines' pool buffers
      are given in their models. */
  lemma PoolHoldsPackets(count: nat, packetSize: nat, typeSize: nat)
    requires typeSize > 0
    ensures PoolBytes(packetSize, typeSize) / typeSize >= MaxPacket(packetSize, typeSize)
    ensures forall i :: 0 <= i < |PacketSizes(count, MaxPacket(packetSize, typeSize))| ==>
      PacketSizes(count, MaxPacket(packetSize, typeSize))[i] * typeSize <= PoolBytes(packetSize, typeSize)
  {
    var m := MaxPacket(packetSize, typeSize);
    var b := PoolBytes(packetSize, typeSize);
    DivModUnique(m * typeSize, typeSize, m, 0);
    DivMonotone(m * typeSize, b, typeSize);
    PacketSizesProps(count, m);
    var ps := PacketSizes(count, m);
    forall i | 0 <= i < |ps|
      ensures ps[i] * typeSize <= b
    {
      MulMono(ps[i], m, typeSize);
    }
  }

  /** `v` cut into consecutive pieces of the given sizes. */
  function Cut(v: Vec, sizes: seq<nat>): (ps: seq<Vec>)
    requires Total(sizes) <= |v|
    ensures |ps| == |sizes|
    ensures forall i {:trigger ps[i]} :: 0 <= i < |ps| ==> |ps[i]| == sizes[i]
  {
    if |sizes| == 0 then [] else [v[..sizes[0]]] + Cut(v[sizes[0]..], sizes[1..])
  }

  /** The pieces of a cut put back together give the covered prefix. */
  lemma {:induction false} FlattenCut(v: Vec, sizes: seq<nat>)
    requires Total(sizes) <= |v|
    ensures Flatten(Cut(v, sizes)) == v[..Total(sizes)]
    decreases |sizes|
  {
    if |sizes| > 0 {
      var rest := v[sizes[0]..];
      FlattenCut(rest, sizes[1..]);
      FlattenFront(v[..sizes[0]], Cut(rest, sizes[1..]));
      assert v[..Total(sizes)] == v[..sizes[0]] + rest[..Total(sizes[1..])];
    }
  }

  lemma {:induction false} FlattenFront(x: Vec, vs: seq<Vec>)
    ensures Flatten([x] + vs) == x + Flatten(vs)
    decreases |vs|
  {
    if |vs| == 0 {
      assert [x] + vs == [x];
      assert Flatten([x]) == Flatten([]) + x;
    } else {
      var init := vs[..|vs| - 1];
      assert ([x] + vs)[..|vs|] == [x] + init;
      FlattenFront(x, init);
    }
  }

  /** Where piece `i` of a cut starts. */
  function Start(sizes: seq<nat>, i: nat): nat
    requires i <= |sizes|
  {
    Total(sizes[..i])
  }

  lemma {:induction false} TotalPrefix(sizes: seq<nat>, i: nat)
    requires i < |sizes|
    ensures Start(sizes, i) + sizes[i] == Start(sizes, i + 1) <= Total(sizes)
    decreases i
  {
    assert sizes[..i + 1][1..] == sizes[1..][..i];
    if i > 0 {
      TotalPrefix(sizes[1..], i - 1);
      assert sizes[..i][1..] == sizes[1..][..i - 1];
    }
  }

  /** Piece `i` of a cut is the slice of `v` at its start. */
  lemma {:induction false} CutAt(v: Vec, sizes: seq<nat>, i: nat)
    requires Total(sizes) <= |v| && i < |sizes|
    ensures Start(sizes, i) + sizes[i] <= Total(sizes)
    ensures Cut(v, sizes)[i] == v[Start(sizes, i)..Start(sizes, i) + sizes[i]]
    decreases i
  {
    TotalPrefix(sizes, i);
    if i > 0 {
      CutAt(v[sizes[0]..], sizes[1..], i - 1);
      assert sizes[..i][1..] == sizes[1..][..i - 1];
      assert Start(sizes, i) == sizes[0] + Start(sizes[1..], i - 1);
    }
  }

  /** Cutting a sum is summing the cuts. */
  lemma CutAdd(a: Vec, b: Vec, sizes: seq<nat>)
    requires |a| == |b| && Total(sizes) <= |a|
    ensures forall i :: 0 <= i < |sizes| ==> Cut(Add(a, b), sizes)[i] == Add(Cut(a, sizes)[i], Cut(b, sizes)[i])
  {
    forall i | 0 <= i < |sizes|
      ensures Cut(Add(a, b), sizes)[i] == Add(Cut(a, sizes)[i], Cut(b, sizes)[i])
    {
      CutAddAt(a, b, sizes, i);
    }
  }

  lemma CutAddAt(a: Vec, b: Vec, sizes: seq<nat>, i: nat)
    requires |a| == |b| && Total(sizes) <= |a| && i < |sizes|
    ensures Cut(Add(a, b), sizes)[i] == Add(Cut(a, sizes)[i], Cut(b, sizes)[i])
  {
    var lo := Start(sizes, i);
    var hi := lo + sizes[i];
    CutAt(Add(a, b), sizes, i);
    CutAt(a, sizes, i);
    CutAt(b, sizes, i);
    AddSlice(a, b, lo, hi);
    assert Cut(Add(a, b), sizes)[i] == Add(a, b)[lo..hi] == Add(a[lo..hi], b[lo..hi]);
    assert Cut(a, sizes)[i] == a[lo..hi] && Cut(b, sizes)[i] == b[lo..hi];
  }

  /** The cut of the elements left after the first packet of a tiling is
      the rest of the cut: how a loop that takes one packet at a time
      walks the tiling. */
  lemma CutStep(v: Vec, done: nat, rem: nat, m: nat)
    requires m > 0 && done + rem == |v|
    requires Total(Tile(rem, m)) == rem
    ensures rem / m <= rem && Total(Tile(rem - rem / m, m - 1)) == rem - rem / m
    ensures Cut(v[done..], Tile(rem, m)) == [v[done..done + rem / m]] + Cut(v[done + rem / m..], Tile(rem - rem / m, m - 1))
  {
    DivLeq(rem, m);
    var p := rem / m;
    assert v[done..][..p] == v[done..done + p];
    assert v[done..][p..] == v[done + p..];
  }

  lemma {:induction false} TotalAppend(a: seq<nat>, b: seq<nat>)
    ensures Total(a + b) == Total(a) + Total(b)
    decreases |a|
  {
    if |a| > 0 {
      assert (a + b)[1..] == a[1..] + b;
      TotalAppend(a[1..], b);
    } else {
      assert a + b == b;
    }
  }

  /** The C loop `while (done < count) { current_packet = (count - done) /
      npackets--; done += current_packet; }`: it never divides by zero, it
      stops after exactly npackets iterations with done == count, and the
      sizes it takes are the tiling. */
  method PacketLoop(count: nat, maxPacket: nat) returns (sizes: seq<nat>)
    requires maxPacket > 0
    ensures sizes == PacketSizes(count, maxPacket)
    ensures Total(sizes) == count && |sizes| == NPackets(count, maxPacket)
  {
    var np := NPackets(count, maxPacket);
    PositionStart(count, maxPacket);
    var done: nat := 0;
    sizes := [];
    while done < count
      invariant Position(count, maxPacket, done, np, |sizes|)
      invariant sizes == PacketSizes(count, maxPacket)[..|sizes|]
      decreases np
    {
      PositionStep(count, maxPacket, done, np, |sizes|);
      var cur := (count - done) / np;
      ghost var P := PacketSizes(count, maxPacket);
      assert P[..|sizes| + 1] == P[..|sizes|] + [P[|sizes|]];
      np := np - 1;
      sizes := sizes + [cur];
      done := done + cur;
    }
    PositionEnd(count, maxPacket, done, np, |sizes|);
  }

  /** The rest of the tiling after `i` packets covering `done` elements:
      what `(count - done) / npackets--` produces from there on. */
  ghost predicate Tiled(count: nat, maxPacket: nat, done: nat, np: nat, i: nat)
    requires maxPacket > 0
  {
    done <= count && Tileable(count - done, np, 1, maxPacket)
    && i + np == |PacketSizes(count, maxPacket)|
    && PacketSizes(count, maxPacket)[i..] == Tile(count - done, np)
    && Start(PacketSizes(count, maxPacket), i) == done
  }

  lemma TiledStart(count: nat, maxPacket: nat)
    requires maxPacket > 0
    ensures Tiled(count, maxPacket, 0, NPackets(count, maxPacket), 0)
  {
    NPacketsCeil(count, maxPacket);
    assert PacketSizes(count, maxPacket)[..0] == [];
  }

  lemma TiledStep(count: nat, maxPacket: nat, done: nat, np: nat, i: nat)
    requires maxPacket > 0 && Tiled(count, maxPacket, done, np, i) && done < count
    ensures np > 0 && i < |PacketSizes(count, maxPacket)|
    ensures PacketSizes(count, maxPacket)[i] == (count - done) / np
    ensures Tiled(count, maxPacket, done + (count - done) / np, np - 1, i + 1)
  {
    var P := PacketSizes(count, maxPacket);
    TileStep(count - done, np, 1, maxPacket);
    assert P[i..][1..] == P[i + 1..];
    TotalPrefix(P, i);
  }

  /** Every position along the sizes is one of the tiling. */
  lemma {:induction false} TiledAt(count: nat, maxPacket: nat, i: nat)
    requires maxPacket > 0 && i <= |PacketSizes(count, maxPacket)|
    ensures Tiled(count, maxPacket, Start(PacketSizes(count, maxPacket), i), |PacketSizes(count, maxPacket)| - i, i)
    decreases i
  {
    var P := PacketSizes(count, maxPacket);
    if i == 0 {
      TiledStart(count, maxPacket);
      assert P[..0] == [];
    } else {
      TiledAt(count, maxPacket, i - 1);
      PacketSizesProps(count, maxPacket);
      TotalPrefix(P, i - 1);
      TiledStep(count, maxPacket, Start(P, i - 1), |P| - (i - 1), i - 1);
    }
  }

  /** What a loop over the packets needs of their sizes: they cover
      `count` elements, there is none exactly when count is 0, and each
      holds 1 to `maxPacket` elements. */
  ghost predicate Sizes(P: seq<nat>, count: nat, maxPacket: nat)
  {
    Total(P) == count && (count == 0 <==> |P| == 0)
    && forall k :: 0 <= k < |P| ==> 1 <= P[k] <= maxPacket
  }

  lemma SizesOf(count: nat, maxPacket: nat)
    requires maxPacket > 0
    ensures Sizes(PacketSizes(count, maxPacket), count, maxPacket)
  {
    PacketSizesProps(count, maxPacket);
  }

  /** A loop over the sizes `P` after `i` packets: `np` are left and the
      `done` elements before packet `i` are behind it. */
  ghost predicate Along(P: seq<nat>, done: nat, np: nat, i: nat)
  {
    i + np == |P| && Start(P, i) == done
  }

  /** `(count - done) / npackets` is the next size of the tiling whenever
      a packet is left. */
  lemma QuotientAt(count: nat, maxPacket: nat, done: nat, np: nat, i: nat)
    requires maxPacket > 0 && Along(PacketSizes(count, maxPacket), done, np, i) && np > 0
    ensures done < count && (count - done) / np == PacketSizes(count, maxPacket)[i]
    ensures 1 <= PacketSizes(count, maxPacket)[i] <= maxPacket && done + PacketSizes(count, maxPacket)[i] <= count
  {
    var P := PacketSizes(count, maxPacket);
    PacketSizesProps(count, maxPacket);
    TotalPrefix(P, i);
    TiledAt(count, maxPacket, i);
    TiledStep(count, maxPacket, done, np, i);
  }

  /** Past the last size, the start is the total. */
  lemma StartAll(sizes: seq<nat>)
    ensures Start(sizes, |sizes|) == Total(sizes)
  {
    assert sizes[..|sizes|] == sizes;
  }

  /** Where a loop over the packets of `count` elements stands: `done`
      elements in `i` packets are behind it and `np` packets are left. */
  ghost predicate Position(count: nat, maxPacket: nat, done: nat, np: nat, i: nat)
    requires maxPacket > 0
  {
    done <= count && Along(PacketSizes(count, maxPacket), done, np, i)
  }

  lemma PositionStart(count: nat, maxPacket: nat)
    requires maxPacket > 0
    ensures Position(count, maxPacket, 0, NPackets(count, maxPacket), 0)
  {
    assert PacketSizes(count, maxPacket)[..0] == [];
  }

  /** One step along the sizes without the division: while done < count a
      packet is left, it holds 1 to `maxPacket` elements, and it starts at
      `done`. */
  lemma PositionNext(count: nat, maxPacket: nat, done: nat, np: nat, i: nat)
    requires maxPacket > 0 && Position(count, maxPacket, done, np, i) && done < count
    ensures np > 0 && i < |PacketSizes(count, maxPacket)|
    ensures 1 <= PacketSizes(count, maxPacket)[i] <= maxPacket
    ensures done + PacketSizes(count, maxPacket)[i] <= count
    ensures Position(count, maxPacket, done + PacketSizes(count, maxPacket)[i], np - 1, i + 1)
  {
    var P := PacketSizes(count, maxPacket);
    PacketSizesProps(count, maxPacket);
    if np == 0 {
      StartAll(P);
      assert false;
    }
    TotalPrefix(P, i);
  }

  /** One iteration of `current_packet = (count - done) / npackets--`:
      the quotient is the size of packet `i`. */
  lemma PositionStep(count: nat, maxPacket: nat, done: nat, np: nat, i: nat)
    requires maxPacket > 0 && Position(count, maxPacket, done, np, i) && done < count
    ensures np > 0 && i < |PacketSizes(count, maxPacket)|
    ensures PacketSizes(count, maxPacket)[i] == (count - done) / np
    ensures 1 <= (count - done) / np <= maxPacket && done + (count - done) / np <= count
    ensures Position(count, maxPacket, done + (count - done) / np, np - 1, i + 1)
  {
    PositionNext(count, maxPacket, done, np, i);
    QuotientAt(count, maxPacket, done, np, i);
  }

  /** Packets are left exactly while elements are; with none left every
      element has been taken. */
  lemma PositionLeft(count: nat, maxPacket: nat, done: nat, np: nat, i: nat)
    requires maxPacket > 0 && Position(count, maxPacket, done, np, i)
    ensures np > 0 <==> done < count
    ensures np == 0 ==> done == count && i == |PacketSizes(count, maxPacket)|
  {
    var P := PacketSizes(count, maxPacket);
    PacketSizesProps(count, maxPacket);
    if np > 0 {
      TotalPrefix(P, i);
    } else {
      StartAll(P);
    }
  }

  /** `current_packet = (count - done) / npackets`: the size of the next
      packet of the tiling. */
  method NextPacket(count: nat, maxPacket: nat, done: nat, np: nat, i: nat) returns (current: nat)
    requires maxPacket > 0 && Position(count, maxPacket, done, np, i) && done < count
    ensures np > 0 && i < |PacketSizes(count, maxPacket)| && current == PacketSizes(count, maxPacket)[i]
    ensures 1 <= current <= maxPacket && done + current <= count
    ensures Total(PacketSizes(count, maxPacket)) == count && Start(PacketSizes(count, maxPacket), i) == done
  {
    PositionStep(count, maxPacket, done, np, i);
    PacketSizesProps(count, maxPacket);
    current := (count - done) / np;
  }

  /** Once done reaches count every packet has been taken. */
  lemma PositionEnd(count: nat, maxPacket: nat, done: nat, np: nat, i: nat)
    requires maxPacket > 0 && Position(count, maxPacket, done, np, i) && done >= count
    ensures done == count && np == 0 && i == |PacketSizes(count, maxPacket)|
  {
    PositionLeft(count, maxPacket, done, np, i);
  }

  /** Piece `i` of a cut along the tiling is the slice at `done`. */
  lemma CutAtPosition(v: Vec, count: nat, maxPacket: nat, done: nat, np: nat, i: nat)
    requires maxPacket > 0 && |v| == count
    requires Position(count, maxPacket, done, np, i) && done < count
    ensures Total(PacketSizes(count, maxPacket)) == count && i < |PacketSizes(count, maxPacket)|
    ensures done + PacketSizes(count, maxPacket)[i] <= count
    ensures Cut(v, PacketSizes(count, maxPacket))[i] == v[done..done + PacketSizes(count, maxPacket)[i]]
  {
    PacketSizesProps(count, maxPacket);
    PositionStep(count, maxPacket, done, np, i);
    CutAt(v, PacketSizes(count, maxPacket), i);
  }

  /** Piece `i` of the own vector is the slice at `done`, where packet
      `i` starts. */
  lemma PieceAt(sbuf: Vec, count: nat, P: seq<nat>, i: nat, done: nat)
    requires count <= |sbuf| && Total(P) == count && i < |P| && Start(P, i) == done
    ensures done + P[i] <= count && Cut(sbuf[..count], P)[i] == sbuf[done..done + P[i]]
  {
    CutAt(sbuf[..count], P, i);
    assert sbuf[..count][done..done + P[i]] == sbuf[done..done + P[i]];
  }
}

=== FILE: pipe_chain.dfy ===
/** The chain of the pipeline reductions (reduce/mpi_reduce_pipe.h).

    Data flows from `first` down the ranks to the root: every rank sends to
    the rank below it, modulo the communicator size, and the root is the
    last link.  The macros use C's `%`, whose remainder takes the sign of
    the dividend; with a valid root every operand is non-negative, but the
    root is only checked from above (see `ReduceCommon.CheckAsWritten`), so
    `CMod` keeps the C meaning. */
module PipeChain {
  import opened Vectors
  import opened Arith

  /** C's `a % n` for n > 0: truncating division, remainder with the sign
      of `a`. */
  function CMod(a: int, n: int): (r: int)
    requires n > 0
    ensures a >= 0 ==> 0 <= r < n
    ensures a < 0 ==> -n < r <= 0
  {
    if a >= 0 then a % n else -((-a) % n)
  }

  /** The C remainder in the range the chain macros produce with a valid
      root: at most one wrap. */
  lemma CModRange(a: int, n: int)
    requires n > 0 && 0 <= a < 2 * n
    ensures CMod(a, n) == if a < n then a else a - n
  {
    if a < n {
      DivModUnique(a, n, 0, a);
    } else {
      DivModUnique(a, n, 1, a - n);
    }
  }

  /** last_in_pipe. */
  function Last(root: int): int
  {
    root
  }

  /** first_in_pipe. */
  function First(root: int, size: nat): int
    requires size > 0
  {
    CMod(root - 1 + size, size)
  }

  /** second_in_pipe. */
  function Second(root: int, size: nat): int
    requires size > 0
  {
    CMod(root - 2 + size, size)
  }

  /** next_in_pipe of `rank`. */
  function Next(rank: int, root: int, size: nat): int
    requires size > 0
  {
    if Last(root) == rank then -1 else CMod(rank - 1 + size, size)
  }

  /** prev_in_pipe of `rank`. */
  function Prev(rank: int, root: int, size: nat): int
    requires size > 0
  {
    if First(root, size) == rank then -1 else CMod(rank + 1, size)
  }

  /** A valid root of a communicator of `size` processes. */
  predicate ValidRoot(root: int, size: nat)
  {
    0 <= root < size
  }

  /** The first rank is the one just above the root, cyclically; the
      second is the one above that. */
  lemma FirstSecondAt(root: int, size: nat)
    requires ValidRoot(root, size)
    ensures First(root, size) == if root == 0 then size - 1 else root - 1
    ensures 2 <= size ==> Second(root, size) == if root == 0 then size - 2 else if root == 1 then size - 1 else root - 2
  {
    CModRange(root - 1 + size, size);
    if 2 <= size {
      CModRange(root - 2 + size, size);
    }
  }

  /** `next` is the rank below, cyclically, and -1 exactly at the root. */
  lemma NextAt(rank: int, root: int, size: nat)
    requires ValidRoot(root, size) && 0 <= rank < size
    ensures Next(rank, root, size) == -1 <==> rank == root
    ensures rank != root ==> Next(rank, root, size) == if rank == 0 then size - 1 else rank - 1
  {
    CModRange(rank - 1 + size, size);
  }

  /** `prev` is the rank above, cyclically, and -1 exactly at the first. */
  lemma PrevAt(rank: int, root: int, size: nat)
    requires ValidRoot(root, size) && 0 <= rank < size
    ensures Prev(rank, root, size) == -1 <==> rank == First(root, size)
    ensures rank != First(root, size) ==> Prev(rank, root, size) == if rank == size - 1 then 0 else rank + 1
  {
    CModRange(rank + 1, size);
  }

  /** With two or more processes first and last are different ranks. */
  lemma FirstIsNotLast(root: int, size: nat)
    requires 2 <= size && ValidRoot(root, size)
    ensures First(root, size) != Last(root) && 0 <= First(root, size) < size
  {
    FirstSecondAt(root, size);
  }

  /** Below the root, `prev` undoes `next`. */
  lemma PrevOfNext(rank: int, root: int, size: nat)
    requires 2 <= size && ValidRoot(root, size) && 0 <= rank < size && rank != root
    ensures Prev(Next(rank, root, size), root, size) == rank
  {
    NextAt(rank, root, size);
    FirstSecondAt(root, size);
    PrevAt(Next(rank, root, size), root, size);
  }

  /** Below the first, `next` undoes `prev`. */
  lemma NextOfPrev(rank: int, root: int, size: nat)
    requires 2 <= size && ValidRoot(root, size) && 0 <= rank < size && rank != First(root, size)
    ensures Next(Prev(rank, root, size), root, size) == rank
  {
    PrevAt(rank, root, size);
    FirstSecondAt(root, size);
    NextAt(Prev(rank, root, size), root, size);
  }

  /** second_in_pipe is the rank the first one sends to. */
  lemma SecondIsNextOfFirst(root: int, size: nat)
    requires 2 <= size && ValidRoot(root, size)
    ensures Second(root, size) == Next(First(root, size), root, size)
  {
    FirstSecondAt(root, size);
    NextAt(First(root, size), root, size);
  }

  /** The rank reached after `k` steps of `next` from the first. */
  function Walk(root: int, size: nat, k: nat): int
    requires size > 0
  {
    if k == 0 then First(root, size) else Next(Walk(root, size, k - 1), root, size)
  }

  /** Chain position of `rank`: how many steps of `next` lead to it from
      the first rank. */
  function ChainPos(rank: int, root: int, size: nat): (k: nat)
    requires ValidRoot(root, size) && 0 <= rank < size
    ensures k < size
  {
    if rank < root then root - 1 - rank else root - 1 - rank + size
  }

  /** Walking from the first rank, step `k` is at `root - 1 - k` modulo
      `size`; the root is reached at step `size - 1` and not before. */
  lemma {:induction false} WalkAt(root: int, size: nat, k: nat)
    requires ValidRoot(root, size) && k < size
    ensures Walk(root, size, k) == if k < root then root - 1 - k else root - 1 - k + size
    ensures Walk(root, size, k) == root <==> k == size - 1
  {
    FirstSecondAt(root, size);
    if k > 0 {
      WalkAt(root, size, k - 1);
      NextAt(Walk(root, size, k - 1), root, size);
    }
  }

  /** The walk from the first rank is an open chain through all ranks:
      every rank sits at exactly one position, and the position of the
      rank at step `k` is `k`. */
  lemma WalkVisitsAll(root: int, size: nat)
    requires ValidRoot(root, size)
    ensures forall rank :: 0 <= rank < size ==> Walk(root, size, ChainPos(rank, root, size)) == rank
    ensures forall k: nat :: k < size ==> 0 <= Walk(root, size, k) < size && ChainPos(Walk(root, size, k), root, size) == k
    ensures Next(Walk(root, size, size - 1), root, size) == -1
  {
    forall rank | 0 <= rank < size
      ensures Walk(root, size, ChainPos(rank, root, size)) == rank
    {
      WalkAt(root, size, ChainPos(rank, root, size));
    }
    forall k: nat | k < size
      ensures 0 <= Walk(root, size, k) < size && ChainPos(Walk(root, size, k), root, size) == k
    {
      WalkAt(root, size, k);
    }
    WalkAt(root, size, size - 1);
  }

  /** With two processes and root -1, which MPI_Reduce_check lets through,
      the chain runs 0, 1, 0, 1, ... and `next` never reports the end. */
  lemma {:induction false} NegativeRootNoEnd(k: nat)
    ensures Walk(-1, 2, k) == k % 2
    ensures Next(Walk(-1, 2, k), -1, 2) != -1
  {
    CModRange(0, 2);
    if k > 0 {
      NegativeRootNoEnd(k - 1);
      CModRange(Walk(-1, 2, k - 1) + 1, 2);
      assert k % 2 == if (k - 1) % 2 == 0 then 1 else 0;
    }
    CModRange(Walk(-1, 2, k) + 1, 2);
  }

  /** xswap: exchange two values. */
  function XSwap<T>(x0: T, x1: T): (r: (T, T))
    ensures r.0 == x1 && r.1 == x0
  {
    (x1, x0)
  }

  /** The contributions of the ranks in chain order: the first rank's
      vector first, the root's last. */
  function ChainVecs<T>(vs: seq<T>, root: nat): (c: seq<T>)
    requires root < |vs|
    ensures |c| == |vs|
  {
    Reverse(vs[..root]) + Reverse(vs[root + 1..]) + [vs[root]]
  }

  /** Chain position `k` holds the vector of the rank the walk reaches at
      step `k`. */
  lemma ChainVecsAt<T>(vs: seq<T>, root: nat, k: nat)
    requires root < |vs| && k < |vs|
    ensures 0 <= Walk(root, |vs|, k) < |vs| && ChainVecs(vs, root)[k] == vs[Walk(root, |vs|, k)]
  {
    WalkAt(root, |vs|, k);
    var a, b := Reverse(vs[..root]), Reverse(vs[root + 1..]);
    var c := a + b + [vs[root]];
    if k < root {
      assert c[k] == a[k] == vs[..root][root - 1 - k];
    } else if k < |vs| - 1 {
      assert c[k] == b[k - root] == vs[root + 1..][|vs| - root - 2 - (k - root)];
    } else {
      assert c[k] == vs[root];
    }
  }

  /** Chain order is a permutation of rank order. */
  lemma ChainVecsMultiset<T>(vs: seq<T>, root: nat)
    requires root < |vs|
    ensures multiset(ChainVecs(vs, root)) == multiset(vs)
  {
    var a, b, m := vs[..root], vs[root + 1..], [vs[root]];
    var ra, rb := Reverse(a), Reverse(b);
    ReverseMultiset(a);
    ReverseMultiset(b);
    assert vs == a + m + b;
    assert multiset(ra + rb + m) == multiset(ra + rb) + multiset(m);
    assert multiset(ra + rb) == multiset(ra) + multiset(rb);
    assert multiset(a + m + b) == multiset(a + m) + multiset(b);
    assert multiset(a + m) == multiset(a) + multiset(m);
  }

  /** Summing along the chain gives the sum over all ranks. */
  lemma ChainSum(vs: seq<Vec>, root: nat, n: nat)
    requires root < |vs|
    requires forall i :: 0 <= i < |vs| ==> |vs[i]| == n
    ensures forall i :: 0 <= i < |vs| ==> |ChainVecs(vs, root)[i]| == n
    ensures SumAll(ChainVecs(vs, root), n) == SumAll(vs, n)
  {
    var c := ChainVecs(vs, root);
    ChainVecsMultiset(vs, root);
    forall i | 0 <= i < |c|
      ensures |c[i]| == n
    {
      assert c[i] in multiset(vs);
    }
    SumAllPermutation(c, vs, n);
  }
}

=== FILE: pipe_pool.dfy ===
/** The buffer pool of the pipeline reductions (reduce/mpi_reduce_pipe.c).

    A pool holds three buffer slots, each an aligned address `buf` and the
    raw address `bufFree` that must be handed back to `free`; 0 is the null
    pointer.  A null pool argument stands for the global default pool, so
    the calls act on an `Env` of the default pool and the caller's own
    pools.  The build option BUFFER_ALIGNMENT is the parameter `alignment`,
    0 when it is not defined. */
module PipePool {
  import opened Memory

  /** PIPE_ATTR_NBUFS. */
  const NBufs: nat := 3

  datatype PipeAttr = PipeAttr(bufSize: int, buf: seq<nat>, bufFree: seq<nat>)
  {
    ghost predicate Valid()
    {
      |buf| == NBufs && |bufFree| == NBufs
    }
  }

  /** A pool argument: the null pointer or one of the caller's pools. */
  datatype PoolRef = Null | Local(id: nat)

  datatype Env = Env(defaultPa: PipeAttr, pools: map<nat, PipeAttr>)

  predicate Names(env: Env, pa: PoolRef)
  {
    pa.Null? || pa.id in env.pools
  }

  function Resolve(env: Env, pa: PoolRef): PipeAttr
    requires Names(env, pa)
  {
    if pa.Null? then env.defaultPa else env.pools[pa.id]
  }

  function Store(env: Env, pa: PoolRef, a: PipeAttr): (env': Env)
    requires Names(env, pa)
    ensures Names(env', pa) && Resolve(env', pa) == a
  {
    if pa.Null? then env.(defaultPa := a) else env.(pools := env.pools[pa.id := a])
  }

  /** The same pool, or two different pools: nothing but `pa` changes. */
  predicate OthersUnchanged(env: Env, env': Env, pa: PoolRef)
  {
    (pa.Local? ==> env'.defaultPa == env.defaultPa)
    && env'.pools.Keys == env.pools.Keys
    && forall id :: id in env.pools && pa != Local(id) ==> env'.pools[id] == env.pools[id]
  }

  /** pipe_attr_alloc_buf.  `raws[i]` is the address `malloc` (or the
      `calloc` inside malloc_aligned) returns for buffer `i`.  Writing a
      slot at or past PIPE_ATTR_NBUFS would overrun the pool, so `nbufs` is
      at most 3.  The slots are cleared before the allocation loop, so its
      `free` of an earlier block can never run: buffers the pool held before
      are dropped, not released. */
  method AllocBuf(env: Env, pa: PoolRef, bufSize: int, nbufs: int, raws: seq<nat>, alignment: nat)
    returns (env': Env)
    requires Names(env, pa) && Resolve(env, pa).Valid() && nbufs <= NBufs
    requires |raws| == if nbufs > 0 then nbufs else 0
    ensures Names(env', pa) && OthersUnchanged(env, env', pa)
    ensures Resolve(env', pa).Valid() && Resolve(env', pa).bufSize == bufSize
    ensures forall i :: 0 <= i < |raws| ==>
      Resolve(env', pa).bufFree[i] == raws[i] && Resolve(env', pa).buf[i] == MallocAligned(raws[i], alignment)
    ensures forall i :: |raws| <= i < NBufs ==> Resolve(env', pa).buf[i] == 0 && Resolve(env', pa).bufFree[i] == 0
  {
    var a := Resolve(env, pa).(bufSize := bufSize);
    var i: nat := 0;
    while i < NBufs
      invariant i <= NBufs && |a.buf| == |a.bufFree| == NBufs && a.bufSize == bufSize
      invariant forall k :: 0 <= k < i ==> a.buf[k] == 0 && a.bufFree[k] == 0
    {
      a := a.(buf := a.buf[i := 0], bufFree := a.bufFree[i := 0]);
      i := i + 1;
    }
    i := 0;
    while i < |raws|
      invariant i <= |raws| && |a.buf| == |a.bufFree| == NBufs && a.bufSize == bufSize
      invariant forall k :: 0 <= k < i ==> a.bufFree[k] == raws[k] && a.buf[k] == MallocAligned(raws[k], alignment)
      invariant forall k :: i <= k < NBufs ==> a.buf[k] == 0 && a.bufFree[k] == 0
    {
      if a.bufFree[i] != 0 {
        assert false;
      }
      a := a.(buf := a.buf[i := MallocAligned(raws[i], alignment)], bufFree := a.bufFree[i := raws[i]]);
      i := i + 1;
    }
    env' := Store(env, pa, a);
  }

  /** The non-null entries of `s`, in order. */
  function NonNull(s: seq<nat>): seq<nat>
  {
    if |s| == 0 then [] else (if s[0] != 0 then [s[0]] else []) + NonNull(s[1..])
  }

  lemma {:induction false} NonNullSnoc(s: seq<nat>, x: nat)
    ensures NonNull(s + [x]) == NonNull(s) + (if x != 0 then [x] else [])
    decreases |s|
  {
    if |s| == 0 {
      assert (s + [x])[1..] == [];
    } else {
      assert (s + [x])[1..] == s[1..] + [x];
      NonNullSnoc(s[1..], x);
    }
  }

  /** pipe_attr_free_buf: release the non-null raw blocks, in slot order,
      and empty the pool. */
  method FreeBuf(env: Env, pa: PoolRef) returns (env': Env, freed: seq<nat>)
    requires Names(env, pa) && Resolve(env, pa).Valid()
    ensures Names(env', pa) && OthersUnchanged(env, env', pa)
    ensures freed == NonNull(Resolve(env, pa).bufFree)
    ensures Resolve(env', pa) == PipeAttr(0, [0, 0, 0], [0, 0, 0])
  {
    var a0 := Resolve(env, pa);
    var a := a0.(bufSize := 0);
    freed := [];
    var i: nat := 0;
    while i < NBufs
      invariant i <= NBufs && |a.buf| == |a.bufFree| == NBufs && a.bufSize == 0
      invariant freed == NonNull(a0.bufFree[..i])
      invariant forall k :: 0 <= k < i ==> a.buf[k] == 0 && a.bufFree[k] == 0
      invariant a.bufFree[i..] == a0.bufFree[i..]
    {
      assert a.bufFree[i] == a0.bufFree[i..][0];
      NonNullSnoc(a0.bufFree[..i], a0.bufFree[i]);
      assert a0.bufFree[..i + 1] == a0.bufFree[..i] + [a0.bufFree[i]];
      if a.bufFree[i] != 0 {
        freed := freed + [a.bufFree[i]];
      }
      a := a.(buf := a.buf[i := 0], bufFree := a.bufFree[i := 0]);
      i := i + 1;
    }
    assert a0.bufFree[..NBufs] == a0.bufFree;
    assert a.buf == [0, 0, 0] && a.bufFree == [0, 0, 0];
    env' := Store(env, pa, a);
  }

  /** Freeing a pool just allocated releases exactly the non-null raw blocks
      obtained, in order: none leaks and none is released twice. */
  lemma {:induction false} FreeAfterAlloc(bufFree: seq<nat>, raws: seq<nat>)
    requires |raws| <= |bufFree| && bufFree[..|raws|] == raws
    requires forall i :: |raws| <= i < |bufFree| ==> bufFree[i] == 0
    ensures NonNull(bufFree) == NonNull(raws)
    decreases |bufFree|
  {
    if |bufFree| > |raws| {
      var p := bufFree[..|bufFree| - 1];
      assert bufFree == p + [0];
      assert p[..|raws|] == bufFree[..|raws|];
      FreeAfterAlloc(p, raws);
      NonNullSnoc(p, 0);
    } else {
      assert bufFree == bufFree[..|raws|];
    }
  }

  /** Without alignment a slot's two addresses coincide; with it the slot
      address is aligned and lies within `alignment` bytes of the raw one. */
  lemma SlotAddresses(raw: nat, alignment: nat)
    ensures alignment == 0 ==> MallocAligned(raw, alignment) == raw
    ensures alignment > 0 ==>
      MallocAligned(raw, alignment) % alignment == 0 && raw <= MallocAligned(raw, alignment) < raw + alignment
  {
  }
}

=== FILE: reduce_common.dfy ===
/** Argument validation and the one-process shortcut shared by the
    reductions (reduce/mpi_reduce_common.c).

    Only MPI_DOUBLE with MPI_SUM is reduced; any other datatype or operation
    is a distinct value here.  MPI_SUCCESS is 0 and the library's failure
    code is 1. */
module ReduceCommon {
  import opened Vectors

  datatype Datatype = Double | OtherType
  datatype Op = Sum | OtherOp

  const Success: int := 0
  const Failure: int := 1

  /** MPI_Reduce_check as written: the root is only compared against the
      communicator size from above. */
  function CheckAsWritten(dtype: Datatype, op: Op, root: int, commSize: nat): (r: int)
    ensures r == Success || r == Failure
    ensures r == Success <==> dtype == Double && op == Sum && root < commSize
  {
    if dtype != Double || op != Sum then Failure
    else if root >= commSize then Failure
    else Success
  }

  /** A negative root passes the check although no process has that rank. */
  lemma CheckAcceptsNegativeRoot()
    ensures CheckAsWritten(Double, Sum, -1, 2) == Success
  {
  }

  /** MPI_Reduce_check with the root bounded on both sides, as the root's
      rank must be: the check the rest of the model relies on. */
  function Check(dtype: Datatype, op: Op, root: int, commSize: nat): (r: int)
    ensures r == Success || r == Failure
    ensures r == Success <==> dtype == Double && op == Sum && 0 <= root < commSize
  {
    if dtype != Double || op != Sum then Failure
    else if root < 0 || root >= commSize then Failure
    else Success
  }

  /** The corrected check rejects exactly what the original rejects, plus
      the negative roots. */
  lemma CheckRefines(dtype: Datatype, op: Op, root: int, commSize: nat)
    ensures Check(dtype, op, root, commSize) == Success
      <==> CheckAsWritten(dtype, op, root, commSize) == Success && root >= 0
  {
  }

  /** MPI_Reduce_self as written: `commSize` is never assigned before it is
      read, so the value it is compared with is whatever the stack held,
      here the parameter `garbage`.  On success the first `count` elements
      of the send buffer are copied to the receive buffer. */
  function SelfAsWritten(sendbuf: Vec, recvbuf: Vec, count: nat, garbage: int): (r: (int, Vec))
    requires count <= |sendbuf| && count <= |recvbuf|
    ensures r.0 == Success <==> garbage <= 1
    ensures r.0 == Success ==> r.1 == sendbuf[..count] + recvbuf[count..]
    ensures r.0 == Failure ==> r.1 == recvbuf
  {
    if garbage > 1 then (Failure, recvbuf)
    else (Success, sendbuf[..count] + recvbuf[count..])
  }

  /** The same single-element call refuses when the stale stack value is
      2 and copies when it is 0: the outcome depends on the stack, not on
      the communicator. */
  lemma SelfDependsOnStack(sendbuf: Vec, recvbuf: Vec)
    requires |sendbuf| == |recvbuf| == 1 && sendbuf != recvbuf
    ensures SelfAsWritten(sendbuf, recvbuf, 1, 2).0 == Failure
    ensures SelfAsWritten(sendbuf, recvbuf, 1, 0).0 == Success
    ensures SelfAsWritten(sendbuf, recvbuf, 1, 2) != SelfAsWritten(sendbuf, recvbuf, 1, 0)
  {
  }

  /** MPI_Reduce_self with the communicator size as an input: copy and
      succeed for at most one process, fail otherwise. */
  function Self(sendbuf: Vec, recvbuf: Vec, count: nat, commSize: nat): (r: (int, Vec))
    requires count <= |sendbuf| && count <= |recvbuf|
    ensures r.0 == Success <==> commSize <= 1
    ensures r.0 == Success ==> |r.1| == |recvbuf| && r.1[..count] == sendbuf[..count] && r.1[count..] == recvbuf[count..]
    ensures r.0 == Failure ==> r.1 == recvbuf
  {
    if commSize > 1 then (Failure, recvbuf)
    else (Success, sendbuf[..count] + recvbuf[count..])
  }

  /** With one process the reduction of the single contribution is that
      contribution: the copy is the sum. */
  lemma SelfIsReduction(sendbuf: Vec, recvbuf: Vec, count: nat)
    requires count == |sendbuf| == |recvbuf|
    ensures Self(sendbuf, recvbuf, count, 1).1 == SumAll([sendbuf], count)
  {
    SumAllSingle(sendbuf, count);
  }
}

=== FILE: reduce_op.dfy ===
/** The local reduction kernels (reduce/reduce_op.c): the sequential
    two- and three-operand sums, the slice arithmetic of the threaded and
    the static four-way variants, and the task bitmap.

    Thread creation, the condition variables and the done counter are
    outside the model; because the slices are disjoint the workers' order
    does not matter, so the threaded sums run the slices one after the
    other. */
module ReduceOp {
  import opened Vectors
  import opened Arith
  import opened ReduceCommon

  /** `out` with its elements in [offset, offset + count) replaced by `mid`. */
  function Splice(out: Vec, offset: nat, count: nat, mid: Vec): (r: Vec)
    requires offset + count <= |out| && |mid| == count
    ensures |r| == |out|
  {
    out[..offset] + mid + out[offset + count..]
  }

  /** reduce_op_2: `out[offset + i] += in[offset + i]` for i < count when
      the datatype is double and the operation a sum; otherwise `out` is
      left alone. */
  method ReduceOp2(count: nat, offset: nat, dtype: Datatype, op: Op, input: Vec, out: Vec) returns (r: Vec)
    requires offset + count <= |input| && offset + count <= |out|
    ensures dtype == Double && op == Sum ==>
      r == Splice(out, offset, count, Add(out[offset..offset + count], input[offset..offset + count]))
    ensures dtype != Double || op != Sum ==> r == out
  {
    r := out;
    if dtype == Double && op == Sum {
      var i: nat := 0;
      while i < count
        invariant i <= count && |r| == |out|
        invariant r[..offset] == out[..offset] && r[offset + count..] == out[offset + count..]
        invariant forall k :: offset <= k < offset + i ==> r[k] == out[k] + input[k]
        invariant forall k :: offset + i <= k < offset + count ==> r[k] == out[k]
      {
        r := r[offset + i := r[offset + i] + input[offset + i]];
        i := i + 1;
      }
      SpliceExt(out, offset, count, Add(out[offset..offset + count], input[offset..offset + count]), r);
    }
  }

  /** A vector that agrees with `out` outside the window and with `mid`
      inside it is the splice. */
  lemma SpliceExt(out: Vec, offset: nat, count: nat, mid: Vec, r: Vec)
    requires offset + count <= |out| == |r| && |mid| == count
    requires r[..offset] == out[..offset] && r[offset + count..] == out[offset + count..]
    requires forall k :: offset <= k < offset + count ==> r[k] == mid[k - offset]
    ensures r == Splice(out, offset, count, mid)
  {
    assert r[offset..offset + count] == mid;
    assert r == r[..offset] + r[offset..offset + count] + r[offset + count..];
  }

  /** reduce_op_3: `out[offset + i] = in0[offset + i] + in1[offset + i]` for
      i < count when the datatype is double and the operation a sum. */
  method ReduceOp3(count: nat, offset: nat, dtype: Datatype, op: Op, in0: Vec, in1: Vec, out: Vec) returns (r: Vec)
    requires offset + count <= |in0| && offset + count <= |in1| && offset + count <= |out|
    ensures dtype == Double && op == Sum ==>
      r == Splice(out, offset, count, Add(in0[offset..offset + count], in1[offset..offset + count]))
    ensures dtype != Double || op != Sum ==> r == out
  {
    r := out;
    if dtype == Double && op == Sum {
      var i: nat := 0;
      while i < count
        invariant i <= count && |r| == |out|
        invariant r[..offset] == out[..offset] && r[offset + count..] == out[offset + count..]
        invariant forall k :: offset <= k < offset + i ==> r[k] == in0[k] + in1[k]
      {
        r := r[offset + i := in0[offset + i] + in1[offset + i]];
        i := i + 1;
      }
      SpliceExt(out, offset, count, Add(in0[offset..offset + count], in1[offset..offset + count]), r);
    }
  }

  /** Start of the slice of task `i` of `n` over `count` elements. */
  function SliceStart(i: nat, count: nat, n: nat): nat
    requires n > 0
  {
    (i * count) / n
  }

  /** The slices of threaded_reduce_op_2 start at 0, end at `count`, follow
      each other without gap or overlap, and each holds `count / n` or one
      more element. */
  lemma SliceBounds(count: nat, n: nat)
    requires n > 0
    ensures SliceStart(0, count, n) == 0 && SliceStart(n, count, n) == count
  {
    assert n * count == count * n + 0;
    DivModUnique(n * count, n, count, 0);
  }

  lemma SliceSize(i: nat, count: nat, n: nat)
    requires n > 0
    ensures SliceStart(i + 1, count, n) - SliceStart(i, count, n) == count / n
      || SliceStart(i + 1, count, n) - SliceStart(i, count, n) == count / n + 1
  {
    var q, r := count / n, count % n;
    assert i * count == (i * q) * n + i * r by {
      assert count == q * n + r;
    }
    assert (i + 1) * count == ((i + 1) * q) * n + (i + 1) * r by {
      assert count == q * n + r;
    }
    DivAddMul(i * q, i * r, n);
    DivAddMul((i + 1) * q, (i + 1) * r, n);
    assert (i + 1) * r == i * r + r;
    DivStep(i * r, (i + 1) * r, n);
    assert (i + 1) * q == i * q + q;
  }

  lemma SliceMonotone(i: nat, j: nat, count: nat, n: nat)
    requires n > 0 && i <= j
    ensures SliceStart(i, count, n) <= SliceStart(j, count, n)
  {
    assert i * count <= j * count;
    DivMonotone(i * count, j * count, n);
  }

  /** threaded_reduce_op_2 with `n` tasks: the dispatcher sums slice
      `n - 1` itself and workers 0 .. n-2 sum the others; the result is the
      sum over the whole window [0, count). */
  method ThreadedReduceOp2(n: nat, count: nat, dtype: Datatype, op: Op, input: Vec, out: Vec) returns (r: Vec)
    requires 0 < n <= BitmapWidth && count <= |input| && count <= |out|
    ensures dtype == Double && op == Sum ==> r == Splice(out, 0, count, Add(out[..count], input[..count]))
    ensures dtype != Double || op != Sum ==> r == out
  {
    SliceBounds(count, n);
    SliceMonotone(n - 1, n, count, n);
    var last := SliceStart(n - 1, count, n);
    r := ReduceOp2(count - last, last, dtype, op, input, out);
    var i: nat := 0;
    while i < n - 1
      invariant i <= n - 1 && |r| == |out|
      invariant dtype != Double || op != Sum ==> r == out
      invariant dtype == Double && op == Sum ==> SlicesDone(i, n, count, input, out, r) == true
    {
      r := ThreadedStep(i, n, count, dtype, op, input, out, r);
      i := i + 1;
    }
    if dtype == Double && op == Sum {
      SlicesAll(n, count, input, out, r);
    }
  }

  /** Worker `i` sums its slice. */
  method ThreadedStep(i: nat, n: nat, count: nat, dtype: Datatype, op: Op, input: Vec, out: Vec, r0: Vec)
    returns (r: Vec)
    requires 0 < n && i < n - 1 && count <= |input| && count <= |out| && |r0| == |out|
    requires dtype != Double || op != Sum ==> r0 == out
    requires dtype == Double && op == Sum ==> SlicesDone(i, n, count, input, out, r0)
    ensures |r| == |out|
    ensures dtype != Double || op != Sum ==> r == out
    ensures dtype == Double && op == Sum ==> SlicesDone(i + 1, n, count, input, out, r) == true
  {
    SliceMonotone(i, i + 1, count, n);
    SliceMonotone(i + 1, n - 1, count, n);
    SliceMonotone(i + 1, n, count, n);
    SliceBounds(count, n);
    var s := SliceStart(i, count, n);
    var e := SliceStart(i + 1, count, n);
    r := ReduceOp2(e - s, s, dtype, op, input, r0);
    if dtype == Double && op == Sum {
      SlicesNext(i, n, count, input, out, r0, r);
    }
  }

  /** Slices 0 .. i-1 and the last slice are summed, the rest is as in
      `out`. */
  ghost predicate SlicesDone(i: nat, n: nat, count: nat, input: Vec, out: Vec, r: Vec)
    requires 0 < n && i <= n - 1 && count <= |input| && count <= |out|
  {
    SliceStart(i, count, n) <= SliceStart(n - 1, count, n) <= count
    && |r| == |out| && r[count..] == out[count..]
    && (forall k :: 0 <= k < SliceStart(i, count, n) ==> r[k] == out[k] + input[k])
    && (forall k :: SliceStart(i, count, n) <= k < SliceStart(n - 1, count, n) ==> r[k] == out[k])
    && (forall k :: SliceStart(n - 1, count, n) <= k < count ==> r[k] == out[k] + input[k])
  }

  lemma SlicesNext(i: nat, n: nat, count: nat, input: Vec, out: Vec, r0: Vec, r: Vec)
    requires 0 < n && i < n - 1 && count <= |input| && count <= |out|
    requires SlicesDone(i, n, count, input, out, r0)
    requires SliceStart(i, count, n) <= SliceStart(i + 1, count, n) <= SliceStart(n - 1, count, n)
    requires r == Splice(r0, SliceStart(i, count, n), SliceStart(i + 1, count, n) - SliceStart(i, count, n),
      Add(r0[SliceStart(i, count, n)..SliceStart(i + 1, count, n)], input[SliceStart(i, count, n)..SliceStart(i + 1, count, n)]))
    ensures SlicesDone(i + 1, n, count, input, out, r)
  {
    var s, e := SliceStart(i, count, n), SliceStart(i + 1, count, n);
    forall k | 0 <= k < |r|
      ensures r[k] == if s <= k < e then r0[k] + input[k] else r0[k]
    {
      if k < s {
        assert r[k] == r0[..s][k];
      } else if k < e {
        assert r[k] == Add(r0[s..e], input[s..e])[k - s];
      } else {
        assert r[k] == r0[e..][k - e];
      }
    }
    assert r[count..] == r0[count..];
  }

  lemma SlicesAll(n: nat, count: nat, input: Vec, out: Vec, r: Vec)
    requires 0 < n && count <= |input| && count <= |out|
    requires SlicesDone(n - 1, n, count, input, out, r)
    ensures r == Splice(out, 0, count, Add(out[..count], input[..count]))
  {
    SpliceExt(out, 0, count, Add(out[..count], input[..count]), r);
  }

  /** REDUCE_THREADS of static_threaded_reduce_op_2. */
  const StaticThreads: nat := 4

  /** static_threaded_reduce_op_2: three helpers sum `count / 4` elements
      each from 0, count/4 and 2·(count/4); the caller sums the remaining
      `count - 3·(count/4)`.  The window always starts at 0 and the sum is
      always taken: the offset, datatype and operation are not consulted. */
  method StaticThreadedReduceOp2(count: nat, offset: nat, dtype: Datatype, op: Op, input: Vec, out: Vec)
    returns (r: Vec)
    requires count <= |input| && count <= |out|
    ensures r == Splice(out, 0, count, Add(out[..count], input[..count]))
  {
    var q := count / StaticThreads;
    r := out;
    var i: nat, s: nat := 0, 0;
    while i < StaticThreads - 1
      invariant i <= StaticThreads - 1 && |r| == |out|
      invariant 3 * q <= count && s == if i == 0 then 0 else if i == 1 then q else if i == 2 then 2 * q else 3 * q
      invariant SummedTo(s, input, out, r) == true
    {
      r := StaticStep(s, q, input, out, r);
      i, s := i + 1, s + q;
    }
    r := StaticStep(s, count - s, input, out, r);
    SpliceExt(out, 0, count, Add(out[..count], input[..count]), r);
  }

  /** `r` is `out` with its first `s` elements summed with `input`. */
  ghost predicate SummedTo(s: nat, input: Vec, out: Vec, r: Vec)
  {
    s <= |input| && s <= |out| == |r| && r[s..] == out[s..]
    && forall k :: 0 <= k < s ==> r[k] == out[k] + input[k]
  }

  /** One slice of the static reduction; the state is stated `== true` so
      that it is carried as one fact. */
  method StaticStep(s: nat, q: nat, input: Vec, out: Vec, r0: Vec) returns (r: Vec)
    requires s + q <= |input| && s + q <= |out| && SummedTo(s, input, out, r0)
    ensures SummedTo(s + q, input, out, r) == true
  {
    r := ReduceOp2(q, s, Double, Sum, input, r0);
    StaticNext(s, q, input, out, r0, r);
  }

  lemma StaticNext(s: nat, q: nat, input: Vec, out: Vec, r0: Vec, r: Vec)
    requires s + q <= |input| && s + q <= |out| == |r0|
    requires r0[s..] == out[s..]
    requires forall k :: 0 <= k < s ==> r0[k] == out[k] + input[k]
    requires r == Splice(r0, s, q, Add(r0[s..s + q], input[s..s + q]))
    ensures SummedTo(s + q, input, out, r)
  {
    forall k | 0 <= k < s + q
      ensures r[k] == out[k] + input[k]
    {
      if k < s {
        assert r[k] == r0[..s][k];
      } else {
        assert r[k] == Add(r0[s..s + q], input[s..s + q])[k - s];
        assert r0[k] == r0[s..][k - s];
      }
    }
    assert r[s + q..] == r0[s + q..];
    assert r0[s + q..] == r0[s..][q..];
    assert out[s + q..] == out[s..][q..];
  }

  /** Number of task bits `bitmap_setall` sets. */
  const BitmapWidth: nat := 8

  type Bitmap = bv32

  /** A task index, one of the 32 bit positions of the bitmap. */
  type TaskBit = bv5

  function BitmapSet(bm: Bitmap, n: TaskBit): Bitmap
  {
    bm | (1 << n)
  }

  function BitmapUnset(bm: Bitmap, n: TaskBit): Bitmap
  {
    bm & !(1 << n)
  }

  function BitmapGet(bm: Bitmap, n: TaskBit): Bitmap
  {
    (bm >> n) & 1
  }

  const BitmapAll: Bitmap := 0xFF

  /** Setting or clearing bit `n` changes bit `n` alone. */
  lemma BitmapSetGet(bm: Bitmap, n: TaskBit, m: TaskBit)
    ensures BitmapGet(BitmapSet(bm, n), m) == if m == n then 1 else BitmapGet(bm, m)
  {
  }

  lemma BitmapUnsetGet(bm: Bitmap, n: TaskBit, m: TaskBit)
    ensures BitmapGet(BitmapUnset(bm, n), m) == if m == n then 0 else BitmapGet(bm, m)
  {
  }

  /** `bitmap_setall` wakes tasks 0 .. 7 only. */
  lemma BitmapAllGet(m: TaskBit)
    ensures BitmapGet(BitmapAll, m) == if m < 8 then 1 else 0
  {
  }
}

=== FILE: rle_add.dfy ===
/** The two-operand merge-adds (dblv/dblv_rle_zero_add.c, the add2 family).

    Each works in place: `cb` and `ub` walk an encoded operand backwards and
    write their result backwards into the same storage, `uc_cf_add2_uc`
    does the same into a dense operand, and `uc_uc_add2_cf` compresses a sum
    forwards into the storage of its first operand.  The storage is a value
    `b` that the method updates and returns; every read goes through `b`, so
    the invariants that keep the unread part of `b` intact are exactly what
    makes the in-place pointer walk safe.  Where the C loops dereference
    before testing the bound, the bound is tested first here. */
module RleAdd {
  import opened Vectors
  import opened Tokens
  import opened RleZero

  /** Reference result of cf_uc_add2_cb: a literal absorbs the matching dense
      element (even when the sum is zero), and the span under a marker becomes
      the RLE2 encoding of the matching dense elements. */
  function MergeCb(toks: seq<Token>, v1: Vec): seq<Token>
    requires |Decode(toks)| == |v1|
    decreases |toks|
  {
    if |toks| == 0 then []
    else
      match toks[0]
      case Lit(x) => [Lit(x + v1[0])] + MergeCb(toks[1..], v1[1..])
      case Run(k) => Encode(v1[..k]) + MergeCb(toks[1..], v1[k..])
  }

  /** The cb result decodes to the elementwise sum. */
  lemma {:induction false} DecodeMergeCb(toks: seq<Token>, v1: Vec)
    requires |Decode(toks)| == |v1|
    ensures Decode(MergeCb(toks, v1)) == Add(Decode(toks), v1)
    decreases |toks|
  {
    if |toks| > 0 {
      var w := Width(toks[0]);
      DecodeMergeCb(toks[1..], v1[w..]);
      DecodeFront(toks);
      if toks[0].Lit? {
        MergeCbUnfoldLit(toks, v1);
        LitFrontSum(toks[0].v, Decode(toks[1..]), MergeCb(toks[1..], v1[1..]), v1);
      } else {
        MergeCbUnfoldRun(toks, v1);
        RunFrontSum(w, Decode(toks[1..]), MergeCb(toks[1..], v1[w..]), v1);
      }
    }
  }

  lemma LitFrontSum(x: real, d: Vec, rest: seq<Token>, v1: Vec)
    requires |v1| == |d| + 1 && Decode(rest) == Add(d, v1[1..])
    ensures Decode([Lit(x + v1[0])] + rest) == Add([x] + d, v1)
  {
    DecodeCons(Lit(x + v1[0]), rest);
    AddCons(x, d, v1);
  }

  lemma DecodeFront(toks: seq<Token>)
    requires |toks| > 0
    ensures Decode(toks) == Expand(toks[0]) + Decode(toks[1..])
  {
  }

  lemma RunFrontSum(k: nat, d: Vec, rest: seq<Token>, v1: Vec)
    requires |v1| == k + |d| && Decode(rest) == Add(d, v1[k..])
    ensures Decode(Encode(v1[..k]) + rest) == Add(Zeros(k) + d, v1)
  {
    DecodeAppend(Encode(v1[..k]), rest);
    DecodeEncode(v1[..k]);
    AddZerosPrefix(k, d, v1);
  }

  lemma MergeCbUnfoldLit(toks: seq<Token>, v1: Vec)
    requires |Decode(toks)| == |v1| && |toks| > 0 && toks[0].Lit?
    ensures |Decode(toks[1..])| == |v1[1..]|
    ensures MergeCb(toks, v1) == [Lit(toks[0].v + v1[0])] + MergeCb(toks[1..], v1[1..])
  {
  }

  lemma MergeCbUnfoldRun(toks: seq<Token>, v1: Vec)
    requires |Decode(toks)| == |v1| && |toks| > 0 && toks[0].Run?
    ensures toks[0].k <= |v1| && |Decode(toks[1..])| == |v1| - toks[0].k
    ensures MergeCb(toks, v1) == Encode(v1[..toks[0].k]) + MergeCb(toks[1..], v1[toks[0].k..])
  {
  }

  lemma DecodeCons(t: Token, rest: seq<Token>)
    ensures Decode([t] + rest) == Expand(t) + Decode(rest)
  {
    assert ([t] + rest)[1..] == rest;
  }

  lemma AddCons(x: real, d: Vec, v: Vec)
    requires |v| == |d| + 1
    ensures Add([x] + d, v) == [x + v[0]] + Add(d, v[1..])
  {
  }

  lemma AddZerosPrefix(k: nat, d: Vec, v: Vec)
    requires |v| == k + |d|
    ensures Add(Zeros(k) + d, v) == v[..k] + Add(d, v[k..])
  {
    var l, r := Add(Zeros(k) + d, v), v[..k] + Add(d, v[k..]);
    forall i | 0 <= i < |l| ensures l[i] == r[i] {
      if i < k {
        assert (Zeros(k) + d)[i] == 0.0;
      } else {
        assert (Zeros(k) + d)[i] == d[i - k];
        assert r[i] == Add(d, v[k..])[i - k];
      }
    }
  }

  /** cb writes at most one token per dense element, and only long runs. */
  lemma {:induction false} MergeCbShape(toks: seq<Token>, v1: Vec)
    requires |Decode(toks)| == |v1|
    ensures |MergeCb(toks, v1)| <= |v1|
    ensures LongRuns(MergeCb(toks, v1))
    decreases |toks|
  {
    if |toks| > 0 {
      var w := Width(toks[0]);
      MergeCbShape(toks[1..], v1[w..]);
      if toks[0].Run? {
        EncodeShorter(v1[..w]);
        EncodeCanonical(v1[..w]);
        LongRunsAppend(Encode(v1[..w]), MergeCb(toks[1..], v1[w..]));
      } else {
        LongRunsAppend([Lit(toks[0].v + v1[0])], MergeCb(toks[1..], v1[w..]));
      }
    }
  }

  /** A literal whose sum is zero stays a literal: cb does not re-collapse
      zero sums outside marker spans, so its output need not be canonical. */
  lemma CbKeepsZeroLiterals()
    ensures MergeCb([Lit(1.0), Lit(2.0)], [-1.0, -2.0]) == [Lit(0.0), Lit(0.0)]
    ensures !Canonical(MergeCb([Lit(1.0), Lit(2.0)], [-1.0, -2.0]))
  {
    var toks := [Lit(1.0), Lit(2.0)];
    assert toks[1..] == [Lit(2.0)] && toks[1..][1..] == [];
    assert Decode(toks) == [1.0, 2.0];
    assert [-1.0, -2.0][1..] == [-2.0];
    assert MergeCb([Lit(2.0)], [-2.0]) == [Lit(0.0)];
    var r := MergeCb(toks, [-1.0, -2.0]);
    assert IsZeroToken(r[0]) && IsZeroToken(r[1]);
  }

  /** One step of MergeCb on a literal at the front of a suffix. */
  lemma MergeCbLitStep(toks: seq<Token>, r: nat, v1: Vec, j: nat)
    requires r < |toks| && toks[r].Lit? && 0 < j <= |v1|
    requires |Decode(toks[r + 1..])| == |v1| - j
    ensures |Decode(toks[r..])| == |v1| - (j - 1)
    ensures MergeCb(toks[r..], v1[j - 1..]) == [Lit(toks[r].v + v1[j - 1])] + MergeCb(toks[r + 1..], v1[j..])
  {
    DecodeSuffixStep(toks, r);
    assert toks[r..][1..] == toks[r + 1..];
    assert v1[j - 1..][1..] == v1[j..];
  }

  /** One step of MergeCb on a marker at the front of a suffix. */
  lemma MergeCbRunStep(toks: seq<Token>, r: nat, v1: Vec, s: nat, e: nat)
    requires r < |toks| && toks[r].Run? && s + toks[r].k == e <= |v1|
    requires |Decode(toks[r + 1..])| == |v1| - e
    ensures |Decode(toks[r..])| == |v1| - s
    ensures MergeCb(toks[r..], v1[s..]) == Encode(v1[s..e]) + MergeCb(toks[r + 1..], v1[e..])
  {
    DecodeSuffixStep(toks, r);
    assert toks[r..][1..] == toks[r + 1..];
    assert v1[s..][..toks[r].k] == v1[s..e];
    assert v1[s..][toks[r].k..] == v1[e..];
  }

  /** Encoding a slice whose first element is non-zero. */
  lemma EncodeSliceLit(v: Vec, j: nat, e: nat)
    requires j < e <= |v| && v[j] != 0.0
    ensures Encode(v[j..e]) == [Lit(v[j])] + Encode(v[j + 1..e])
  {
    assert v[j..e][1..] == v[j + 1..e];
    EncodeUnfoldLit(v[j..e]);
  }

  /** Encoding a slice that starts with a zero run ending at `z`. */
  lemma EncodeSliceZeros(v: Vec, j: nat, z: nat, e: nat)
    requires j < z <= e <= |v|
    requires forall i :: j <= i < z ==> v[i] == 0.0
    requires z == e || v[z] != 0.0
    ensures Encode(v[j..e]) == [Rle2Token(z - j)] + Encode(v[z..e])
  {
    var s := v[j..e];
    assert s[0] == v[j];
    ZeroRunExact(s, z - j);
    EncodeUnfoldZero(s);
    assert s[z - j..] == v[z..e];
  }

  /** With positive runs, never fewer dense elements than tokens. */
  lemma TokensBelowElements(toks: seq<Token>, r: nat)
    requires r <= |toks| && PositiveRuns(toks)
    ensures r <= |Decode(toks[..r])|
  {
    PositiveRunsPrefix(toks, |toks|, r);
    assert toks[..|toks|] == toks;
    PositiveRunsShorter(toks[..r]);
  }

  /** While dense elements remain, so does a token to read. */
  lemma NoTokenNoElement(toks: seq<Token>, r: nat)
    requires r <= |toks|
    ensures r == 0 ==> |Decode(toks[..r])| == 0
  {
    if r == 0 {
      assert toks[..0] == [];
    }
  }

  /** Reading one token backwards: how the decoded prefix and suffix change. */
  lemma ReadBack(toks: seq<Token>, r: nat)
    requires 0 < r <= |toks|
    ensures |Decode(toks[..r])| == |Decode(toks[..r - 1])| + Width(toks[r - 1])
    ensures Decode(toks[r - 1..]) == Expand(toks[r - 1]) + Decode(toks[r..])
  {
    DecodePrefixStep(toks, r - 1);
    DecodeSuffixStep(toks, r - 1);
  }

  lemma SliceCons<T>(v: seq<T>, j: nat, e: nat)
    requires 0 < j <= e <= |v|
    ensures v[j - 1..e] == [v[j - 1]] + v[j..e]
  {
  }

  lemma LitsCons(v: Vec, j: nat, e: nat)
    requires 0 < j <= e <= |v|
    ensures Lits(v[j - 1..e]) == [Lit(v[j - 1])] + Lits(v[j..e])
  {
  }

  lemma Whole<T>(s: seq<T>)
    ensures s[..|s|] == s && s[|s|..] == [] && s[0..] == s
  {
  }

  /** The read side shared by cb and ub: the tokens from `r` on and the
      dense elements from `j` on are consumed, and the unread tokens are still
      intact in `b`. */
  ghost predicate Reading(toks: seq<Token>, vin1: Vec, b: seq<Token>, r: nat, j: nat)
  {
    PositiveRuns(toks) && r <= |toks| && r <= |b| && j <= |vin1|
    && |Decode(toks[..r])| == j && |Decode(toks[r..])| == |vin1| - j
    && b[..r] == toks[..r]
  }

  /** While dense elements remain there is a token to read; it is intact in
      `b`, and it fits in what remains. */
  lemma ReadNext(toks: seq<Token>, vin1: Vec, b: seq<Token>, r: nat, j: nat)
    requires Reading(toks, vin1, b, r, j) == true && j > 0
    ensures 0 < r <= j && b[r - 1] == toks[r - 1] && Width(toks[r - 1]) <= j
    ensures r - 1 <= j - Width(toks[r - 1])
  {
    NoTokenNoElement(toks, r);
    TokensBelowElements(toks, r);
    PrefixAgree(b, toks, r, r - 1);
    ReadBack(toks, r);
    TokensBelowElements(toks, r - 1);
  }

  lemma ReadingNext(toks: seq<Token>, vin1: Vec, b: seq<Token>, r: nat, j: nat, b': seq<Token>)
    requires Reading(toks, vin1, b, r, j) && 0 < r && Width(toks[r - 1]) <= j
    requires r - 1 <= |b'| && b'[..r - 1] == b[..r - 1]
    ensures Reading(toks, vin1, b', r - 1, j - Width(toks[r - 1]))
  {
    ReadBack(toks, r);
    PrefixShrink(b, toks, r, r - 1);
    TokensBelowElements(toks, r - 1);
  }

  /** dblv_rle_zero_cf_uc_add2_cb: tokens `buf[..nin0]` plus dense `vin1`,
      written backwards into `buf` ending at its last word (`|buf|` is the
      initial `*nout`).  The result is `b[w..]`; `|b| - w` is the returned
      `*nout`.  The tokens must have positive runs, as every writer of
      markers guarantees; then the write cursor `w` never drops below the
      read cursor `r`. */
  method CfUcAdd2Cb(buf: seq<Token>, nin0: nat, vin1: Vec) returns (b: seq<Token>, w: nat)
    requires nin0 <= |buf| && |vin1| <= |buf|
    requires PositiveRuns(buf[..nin0])
    requires |Decode(buf[..nin0])| == |vin1|
    ensures |b| == |buf| && w <= |b|
    ensures b[w..] == MergeCb(buf[..nin0], vin1)
    ensures |b| - w <= |vin1|
  {
    ghost var toks := buf[..nin0];
    b, w := buf, |buf|;
    var r: nat, j: nat := nin0, |vin1|;
    CbStart(buf, toks, vin1);
    while j > 0
      invariant CbState(buf, toks, vin1, b, r, j, w)
      decreases r
    {
      b, r, j, w := CbStep(buf, toks, vin1, b, r, j, w);
    }
    CbFinish(buf, toks, vin1, b, r, w);
  }

  /** The state of cb once the tokens from `r` on and the dense elements from
      `j` on are consumed, their merge written from `w` on. */
  ghost predicate CbState(buf: seq<Token>, toks: seq<Token>, vin1: Vec, b: seq<Token>, r: nat, j: nat, w: nat)
  {
    Reading(toks, vin1, b, r, j) && |vin1| <= |buf| == |b| && w <= |b|
    && |buf| - w <= |vin1| - j
    && b[w..] == MergeCb(toks[r..], vin1[j..])
  }

  /** One pass of the outer loop of cb: read one token backwards and write
      the merge over its span.  (The state is compared with `true` so that it
      is established as one fact rather than conjunct by conjunct.) */
  method CbStep(buf: seq<Token>, ghost toks: seq<Token>, vin1: Vec, b0: seq<Token>, r0: nat, j0: nat, w0: nat)
    returns (b: seq<Token>, r: nat, j: nat, w: nat)
    requires CbState(buf, toks, vin1, b0, r0, j0, w0) && j0 > 0
    ensures CbState(buf, toks, vin1, b, r, j, w) == true && r < r0
  {
    ReadNext(toks, vin1, b0, r0, j0);
    if b0[r0 - 1].Lit? {
      b, w := CbLit(buf, toks, vin1, b0, r0, j0, w0);
      r, j := r0 - 1, j0 - 1;
    } else {
      b, j, w := CbRun(buf, toks, vin1, b0, r0, j0, w0);
      r := r0 - 1;
    }
  }

  /** A literal read by cb: its sum with the dense element under it. */
  method CbLit(buf: seq<Token>, ghost toks: seq<Token>, vin1: Vec, b0: seq<Token>, r0: nat, j0: nat, w0: nat)
    returns (b: seq<Token>, w: nat)
    requires CbState(buf, toks, vin1, b0, r0, j0, w0) == true && 0 < r0 <= j0
    requires b0[r0 - 1] == toks[r0 - 1] && toks[r0 - 1].Lit?
    ensures CbState(buf, toks, vin1, b, r0 - 1, j0 - 1, w) == true
  {
    var x := Lit(b0[r0 - 1].v + vin1[j0 - 1]);
    CbLitNext(buf, toks, vin1, b0, r0, j0, w0, x);
    b, w := b0[w0 - 1 := x], w0 - 1;
  }

  /** A marker read by cb: the dense elements under it, RLE2-encoded. */
  method CbRun(buf: seq<Token>, ghost toks: seq<Token>, vin1: Vec, b0: seq<Token>, r0: nat, j0: nat, w0: nat)
    returns (b: seq<Token>, s: nat, w: nat)
    requires CbState(buf, toks, vin1, b0, r0, j0, w0) == true && 0 < r0 <= j0
    requires b0[r0 - 1] == toks[r0 - 1] && toks[r0 - 1].Run? && r0 - 1 <= j0 - toks[r0 - 1].k
    ensures CbState(buf, toks, vin1, b, r0 - 1, s, w) == true
  {
    s := j0 - b0[r0 - 1].k;
    b, w := EncodeSpanBack(b0, w0, r0 - 1, vin1, s, j0);
    CbRunNext(buf, toks, vin1, b0, r0, j0, w0, b, w, s);
  }

  lemma CbStart(buf: seq<Token>, toks: seq<Token>, vin1: Vec)
    requires |toks| <= |buf| && |vin1| <= |buf| && toks == buf[..|toks|]
    requires PositiveRuns(toks) && |Decode(toks)| == |vin1|
    ensures CbState(buf, toks, vin1, buf, |toks|, |vin1|, |buf|)
  {
    Whole(toks);
    Whole(vin1);
    Whole(buf);
  }

  lemma CbFinish(buf: seq<Token>, toks: seq<Token>, vin1: Vec, b: seq<Token>, r: nat, w: nat)
    requires CbState(buf, toks, vin1, b, r, 0, w)
    ensures |b| == |buf| && w <= |b| && |b| - w <= |vin1|
    ensures b[w..] == MergeCb(toks, vin1)
  {
    TokensBelowElements(toks, r);
    Whole(toks);
    Whole(vin1);
  }

  lemma CbLitNext(buf: seq<Token>, toks: seq<Token>, vin1: Vec, b: seq<Token>, r: nat, j: nat, w: nat, x: Token)
    requires CbState(buf, toks, vin1, b, r, j, w) && 0 < r <= j
    requires toks[r - 1].Lit? && x == Lit(toks[r - 1].v + vin1[j - 1])
    ensures 0 < w
    ensures CbState(buf, toks, vin1, b[w - 1 := x], r - 1, j - 1, w - 1)
  {
    UpdateKeepsPrefix(b, b, r - 1, w - 1, x);
    ReadingNext(toks, vin1, b, r, j, b[w - 1 := x]);
    CbLitSuffix(toks, vin1, b, r, j, w, x);
  }

  lemma CbLitSuffix(toks: seq<Token>, vin1: Vec, b: seq<Token>, r: nat, j: nat, w: nat, x: Token)
    requires 0 < r <= |toks| && 0 < j <= |vin1| <= |b| && w <= |b| && |b| - w <= |vin1| - j
    requires |Decode(toks[r..])| == |vin1| - j && b[w..] == MergeCb(toks[r..], vin1[j..])
    requires toks[r - 1].Lit? && x == Lit(toks[r - 1].v + vin1[j - 1])
    ensures 0 < w && |Decode(toks[r - 1..])| == |vin1| - (j - 1)
    ensures b[w - 1 := x][w - 1..] == MergeCb(toks[r - 1..], vin1[j - 1..])
  {
    ReadBack(toks, r);
    MergeCbLitStep(toks, r - 1, vin1, j);
    UpdateSuffix(b, w - 1, x);
  }

  lemma CbRunNext(buf: seq<Token>, toks: seq<Token>, vin1: Vec, b0: seq<Token>, r: nat, j: nat, w0: nat,
                  b: seq<Token>, w: nat, s: nat)
    requires CbState(buf, toks, vin1, b0, r, j, w0) && 0 < r <= j
    requires toks[r - 1].Run? && s + toks[r - 1].k == j && r - 1 <= s
    requires |b| == |b0| && w <= |b| && |b| - w <= |vin1| - s
    requires b[..r - 1] == b0[..r - 1]
    requires b[w..] == Encode(vin1[s..j]) + b0[w0..]
    ensures CbState(buf, toks, vin1, b, r - 1, s, w)
  {
    ReadingNext(toks, vin1, b0, r, j, b);
    ReadBack(toks, r);
    MergeCbRunStep(toks, r - 1, vin1, s, j);
  }

  /** The inner loops of cb under one marker: RLE2-encode `v[s..e]`
      backwards in front of `b0[w0..]`, leaving `b0[..r]` alone. */
  method EncodeSpanBack(b0: seq<Token>, w0: nat, r: nat, v: Vec, s: nat, e: nat)
    returns (b: seq<Token>, w: nat)
    requires r <= s <= e <= |v| <= |b0| && w0 <= |b0|
    requires |b0| - w0 <= |v| - e
    ensures |b| == |b0| && w <= |b|
    ensures |b| - w <= |v| - s
    ensures b[..r] == b0[..r]
    ensures b[w..] == Encode(v[s..e]) + b0[w0..]
  {
    b, w := b0, w0;
    var j: nat := e;
    assert v[e..e] == [];
    while j > s
      invariant s <= j <= e && |b| == |b0| && w <= |b|
      invariant |b| - w <= |v| - j
      invariant b[..r] == b0[..r]
      invariant b[w..] == Encode(v[j..e]) + b0[w0..]
      invariant j == e || j == s || v[j] != 0.0 || v[j - 1] != 0.0
      decreases j
    {
      var x;
      var z := j;
      if v[j - 1] != 0.0 {
        x := Lit(v[j - 1]);
        j := j - 1;
        EncodeSliceLit(v, j, e);
      } else {
        j := ZeroStartBack(v, s, j);
        x := Rle2Token(z - j);
        EncodeSliceZeros(v, j, z, e);
      }
      UpdateSuffix(b, w - 1, x);
      UpdateKeepsPrefix(b, b0, r, w - 1, x);
      ConsAssoc(x, Encode(v[z..e]), b0[w0..]);
      b := b[w - 1 := x];
      w := w - 1;
    }
  }

  /** The backward scan over a zero run ending at `j`. */
  method ZeroStartBack(v: Vec, s: nat, j: nat) returns (i: nat)
    requires s < j <= |v| && v[j - 1] == 0.0
    ensures s <= i < j
    ensures forall k :: i <= k < j ==> v[k] == 0.0
    ensures i == s || v[i - 1] != 0.0
  {
    i := j - 1;
    while i > s && v[i - 1] == 0.0
      invariant s <= i < j
      invariant forall k :: i <= k < j ==> v[k] == 0.0
    {
      i := i - 1;
    }
  }

  /** dblv_rle_zero_cf_uc_add2_ub: like cb, but the result is written dense:
      exactly `|vin1|` words ending at the last word of `buf`. */
  method CfUcAdd2Ub(buf: seq<Token>, nin0: nat, vin1: Vec) returns (b: seq<Token>, w: nat)
    requires nin0 <= |buf| && |vin1| <= |buf|
    requires PositiveRuns(buf[..nin0])
    requires |Decode(buf[..nin0])| == |vin1|
    ensures |b| == |buf| && w == |buf| - |vin1|
    ensures b[w..] == Lits(Add(Decode(buf[..nin0]), vin1))
  {
    ghost var toks := buf[..nin0];
    b, w := buf, |buf|;
    var r: nat, j: nat := nin0, |vin1|;
    UbStart(buf, toks, vin1);
    while j > 0
      invariant UbState(buf, toks, vin1, b, r, j, w)
      decreases r
    {
      b, r, j, w := UbStep(buf, toks, vin1, b, r, j, w);
    }
    UbFinish(buf, toks, vin1, b, r, w);
  }

  /** The state of ub once the tokens from `r` on and the dense elements from
      `j` on are consumed, their sum written as literals from `w` on. */
  ghost predicate UbState(buf: seq<Token>, toks: seq<Token>, vin1: Vec, b: seq<Token>, r: nat, j: nat, w: nat)
  {
    Reading(toks, vin1, b, r, j) && |vin1| <= |buf| == |b|
    && w == |buf| - (|vin1| - j)
    && b[w..] == Lits(Add(Decode(toks[r..]), vin1[j..]))
  }

  /** One pass of the outer loop of ub. */
  method UbStep(buf: seq<Token>, ghost toks: seq<Token>, vin1: Vec, b0: seq<Token>, r0: nat, j0: nat, w0: nat)
    returns (b: seq<Token>, r: nat, j: nat, w: nat)
    requires UbState(buf, toks, vin1, b0, r0, j0, w0) && j0 > 0
    ensures UbState(buf, toks, vin1, b, r, j, w) == true && r < r0
  {
    ReadNext(toks, vin1, b0, r0, j0);
    if b0[r0 - 1].Lit? {
      b, w := UbLit(buf, toks, vin1, b0, r0, j0, w0);
      r, j := r0 - 1, j0 - 1;
    } else {
      b, j, w := UbRun(buf, toks, vin1, b0, r0, j0, w0);
      r := r0 - 1;
    }
  }

  /** A literal read by ub: its sum with the dense element under it. */
  method UbLit(buf: seq<Token>, ghost toks: seq<Token>, vin1: Vec, b0: seq<Token>, r0: nat, j0: nat, w0: nat)
    returns (b: seq<Token>, w: nat)
    requires UbState(buf, toks, vin1, b0, r0, j0, w0) == true && 0 < r0 <= j0
    requires b0[r0 - 1] == toks[r0 - 1] && toks[r0 - 1].Lit?
    ensures UbState(buf, toks, vin1, b, r0 - 1, j0 - 1, w) == true
  {
    var x := Lit(b0[r0 - 1].v + vin1[j0 - 1]);
    UbLitNext(buf, toks, vin1, b0, r0, j0, w0, x);
    b, w := b0[w0 - 1 := x], w0 - 1;
  }

  /** A marker read by ub: its zeros plus the dense elements under it, as
      literals. */
  method UbRun(buf: seq<Token>, ghost toks: seq<Token>, vin1: Vec, b0: seq<Token>, r0: nat, j0: nat, w0: nat)
    returns (b: seq<Token>, s: nat, w: nat)
    requires UbState(buf, toks, vin1, b0, r0, j0, w0) == true && 0 < r0 <= j0
    requires b0[r0 - 1] == toks[r0 - 1] && toks[r0 - 1].Run? && r0 - 1 <= j0 - toks[r0 - 1].k
    ensures UbState(buf, toks, vin1, b, r0 - 1, s, w) == true
  {
    s := j0 - b0[r0 - 1].k;
    b, w := LitsSpanBack(b0, w0, r0 - 1, vin1, s, j0);
    UbRunNext(buf, toks, vin1, b0, r0, j0, w0, b, w, s);
  }

  lemma UbStart(buf: seq<Token>, toks: seq<Token>, vin1: Vec)
    requires |toks| <= |buf| && |vin1| <= |buf| && toks == buf[..|toks|]
    requires PositiveRuns(toks) && |Decode(toks)| == |vin1|
    ensures UbState(buf, toks, vin1, buf, |toks|, |vin1|, |buf|)
  {
    Whole(toks);
    Whole(vin1);
    Whole(buf);
  }

  lemma UbFinish(buf: seq<Token>, toks: seq<Token>, vin1: Vec, b: seq<Token>, r: nat, w: nat)
    requires UbState(buf, toks, vin1, b, r, 0, w)
    ensures |b| == |buf| && w == |buf| - |vin1|
    ensures b[w..] == Lits(Add(Decode(toks), vin1))
  {
    TokensBelowElements(toks, r);
    Whole(toks);
    Whole(vin1);
  }

  lemma UbLitNext(buf: seq<Token>, toks: seq<Token>, vin1: Vec, b: seq<Token>, r: nat, j: nat, w: nat, x: Token)
    requires UbState(buf, toks, vin1, b, r, j, w) && 0 < r <= j
    requires toks[r - 1].Lit? && x == Lit(toks[r - 1].v + vin1[j - 1])
    ensures 0 < w
    ensures UbState(buf, toks, vin1, b[w - 1 := x], r - 1, j - 1, w - 1)
  {
    var t, d := toks[r - 1], Decode(toks[r..]);
    UpdateKeepsPrefix(b, b, r - 1, w - 1, x);
    ReadingNext(toks, vin1, b, r, j, b[w - 1 := x]);
    ReadBack(toks, r);
    UbLitStep(d, t.v, vin1, j);
    UpdateSuffix(b, w - 1, x);
    calc {
      b[w - 1 := x][w - 1..];
      [x] + Lits(Add(d, vin1[j..]));
      Lits(Add([t.v] + d, vin1[j - 1..]));
      Lits(Add(Decode(toks[r - 1..]), vin1[j - 1..]));
    }
  }

  lemma UbRunNext(buf: seq<Token>, toks: seq<Token>, vin1: Vec, b0: seq<Token>, r: nat, j: nat, w0: nat,
                  b: seq<Token>, w: nat, s: nat)
    requires UbState(buf, toks, vin1, b0, r, j, w0) && 0 < r <= j
    requires toks[r - 1].Run? && s + toks[r - 1].k == j && r - 1 <= s
    requires |b| == |b0| && w == |b0| - (|vin1| - s)
    requires b[..r - 1] == b0[..r - 1]
    requires b[w..] == Lits(vin1[s..j]) + b0[w0..]
    ensures UbState(buf, toks, vin1, b, r - 1, s, w)
  {
    ReadingNext(toks, vin1, b0, r, j, b);
    ReadBack(toks, r);
    LitsRunSpan(Decode(toks[r..]), vin1, s, j);
  }

  /** The inner loop of ub under one marker: `v[s..e]` as literals in front
      of `b0[w0..]`. */
  method LitsSpanBack(b0: seq<Token>, w0: nat, r: nat, v: Vec, s: nat, e: nat)
    returns (b: seq<Token>, w: nat)
    requires r <= s <= e <= |v| <= |b0| && w0 == |b0| - (|v| - e)
    ensures |b| == |b0| && w == |b0| - (|v| - s)
    ensures b[..r] == b0[..r]
    ensures b[w..] == Lits(v[s..e]) + b0[w0..]
  {
    b, w := b0, w0;
    var j: nat := e;
    assert Lits(v[e..e]) == [];
    while j > s
      invariant s <= j && LitsBack(b0, w0, r, v, e, b, j, w) == true
      decreases j
    {
      b, j, w := LitsBackStep(b0, w0, r, v, e, b, j, w);
    }
  }

  /** The state of the inner loop of ub: `v[j..e]` is written as literals
      from `w` on, and the first `r` words are untouched. */
  ghost predicate LitsBack(b0: seq<Token>, w0: nat, r: nat, v: Vec, e: nat, b: seq<Token>, j: nat, w: nat)
  {
    j <= e <= |v| <= |b0| && r <= j && |b| == |b0| && w0 <= |b0|
    && w == |b0| - (|v| - j)
    && b[..r] == b0[..r] && b[w..] == Lits(v[j..e]) + b0[w0..]
  }

  /** Writing the literal of `v[j - 1]` just below `w`. */
  method LitsBackStep(b0: seq<Token>, w0: nat, r: nat, v: Vec, e: nat, b: seq<Token>, j: nat, w: nat)
    returns (b': seq<Token>, j': nat, w': nat)
    requires LitsBack(b0, w0, r, v, e, b, j, w) && r < j
    ensures j' == j - 1 && LitsBack(b0, w0, r, v, e, b', j', w') == true
  {
    var x := Lit(v[j - 1]);
    LitsCons(v, j, e);
    UpdateSuffix(b, w - 1, x);
    UpdateKeepsPrefix(b, b0, r, w - 1, x);
    ConsAssoc(x, Lits(v[j..e]), b0[w0..]);
    b', j', w' := b[w - 1 := x], j - 1, w - 1;
  }

  lemma UbLitStep(d: Vec, x: real, v1: Vec, j: nat)
    requires 0 < j <= |v1| && |d| == |v1| - j
    ensures Lits(Add([x] + d, v1[j - 1..])) == [Lit(x + v1[j - 1])] + Lits(Add(d, v1[j..]))
  {
    AddCons(x, d, v1[j - 1..]);
    assert v1[j - 1..][1..] == v1[j..];
  }

  lemma LitsRunSpan(d: Vec, v1: Vec, s: nat, e: nat)
    requires s <= e <= |v1| && |d| == |v1| - e
    ensures Lits(v1[s..e]) + Lits(Add(d, v1[e..])) == Lits(Add(Zeros(e - s) + d, v1[s..]))
  {
    var l, r := Lits(v1[s..e]) + Lits(Add(d, v1[e..])), Lits(Add(Zeros(e - s) + d, v1[s..]));
    forall i | 0 <= i < |r| ensures l[i] == r[i] {
      if i < e - s {
        assert (Zeros(e - s) + d)[i] == 0.0;
      } else {
        assert (Zeros(e - s) + d)[i] == d[i - (e - s)];
      }
    }
  }

  /** dblv_rle_zero_uc_cf_add2_uc: dense `buf[..nin0]` plus tokens `vin1`,
      written backwards ending at the last element of `buf`.  With
      `|buf| == nin0` this is an in-place update; elements under markers are
      rewritten with their own value. */
  method UcCfAdd2Uc(buf: Vec, nin0: nat, vin1: seq<Token>) returns (b: Vec, w: nat)
    requires nin0 <= |buf|
    requires |Decode(vin1)| == nin0
    ensures |b| == |buf| && w == |buf| - nin0
    ensures b[w..] == Add(buf[..nin0], Decode(vin1))
    ensures b[..w] == buf[..w]
  {
    b, w := buf, |buf|;
    var r: nat, j: nat := |vin1|, nin0;
    UcStart(buf, nin0, vin1);
    while j > 0
      invariant UcState(buf, nin0, vin1, b, r, j, w)
      decreases r
    {
      b, r, j, w := UcStep(buf, nin0, vin1, b, r, j, w);
    }
    UcFinish(buf, nin0, vin1, b, r, w);
  }

  /** The state of uc_cf_add2_uc once the tokens from `r` on and the dense
      elements from `j` on are consumed, their sum written from `w` on; the
      elements below `w`, among them all unread ones, are still `buf`'s. */
  ghost predicate UcState(buf: Vec, nin0: nat, vin1: seq<Token>, b: Vec, r: nat, j: nat, w: nat)
  {
    r <= |vin1| && j <= nin0 <= |buf| == |b| && w == |buf| - (nin0 - j)
    && |Decode(vin1[..r])| == j && |Decode(vin1[r..])| == nin0 - j
    && b[..w] == buf[..w]
    && b[w..] == Add(buf[j..nin0], Decode(vin1[r..]))
  }

  /** One pass of the outer loop of uc_cf_add2_uc. */
  method UcStep(buf: Vec, nin0: nat, vin1: seq<Token>, b0: Vec, r0: nat, j0: nat, w0: nat)
    returns (b: Vec, r: nat, j: nat, w: nat)
    requires UcState(buf, nin0, vin1, b0, r0, j0, w0) && j0 > 0
    ensures UcState(buf, nin0, vin1, b, r, j, w) == true && r < r0
  {
    UcRead(buf, nin0, vin1, b0, r0, j0, w0);
    var t := vin1[r0 - 1];
    if t.Lit? {
      var x := b0[j0 - 1] + t.v;
      UcLitNext(buf, nin0, vin1, b0, r0, j0, w0, x);
      b, r, j, w := b0[w0 - 1 := x], r0 - 1, j0 - 1, w0 - 1;
    } else {
      var s: nat := j0 - t.k;
      b, w := DenseSpanBack(b0, w0, buf, nin0, s, j0);
      UcRunNext(buf, nin0, vin1, b0, r0, j0, w0, b, w, s);
      r, j := r0 - 1, s;
    }
  }

  lemma UcStart(buf: Vec, nin0: nat, vin1: seq<Token>)
    requires nin0 <= |buf| && |Decode(vin1)| == nin0
    ensures UcState(buf, nin0, vin1, buf, |vin1|, nin0, |buf|)
  {
    Whole(vin1);
    Whole(buf);
    assert buf[nin0..nin0] == [];
  }

  lemma UcFinish(buf: Vec, nin0: nat, vin1: seq<Token>, b: Vec, r: nat, w: nat)
    requires UcState(buf, nin0, vin1, b, r, 0, w) && |Decode(vin1)| == nin0
    ensures |b| == |buf| && w == |buf| - nin0
    ensures b[w..] == Add(buf[..nin0], Decode(vin1))
    ensures b[..w] == buf[..w]
  {
    DecodeSplit(vin1, r);
    assert buf[0..nin0] == buf[..nin0];
  }

  /** The next token exists and fits, and the dense element it meets is still
      `buf`'s. */
  lemma UcRead(buf: Vec, nin0: nat, vin1: seq<Token>, b: Vec, r: nat, j: nat, w: nat)
    requires UcState(buf, nin0, vin1, b, r, j, w) && j > 0
    ensures 0 < r && Width(vin1[r - 1]) <= j && j <= w && b[j - 1] == buf[j - 1]
  {
    NoTokenNoElement(vin1, r);
    ReadBack(vin1, r);
    PrefixAgree(b, buf, w, j - 1);
  }

  lemma UcLitNext(buf: Vec, nin0: nat, vin1: seq<Token>, b: Vec, r: nat, j: nat, w: nat, x: real)
    requires UcState(buf, nin0, vin1, b, r, j, w) && 0 < r && 0 < j
    requires vin1[r - 1].Lit? && x == buf[j - 1] + vin1[r - 1].v
    ensures 0 < w
    ensures UcState(buf, nin0, vin1, b[w - 1 := x], r - 1, j - 1, w - 1)
  {
    ReadBack(vin1, r);
    PrefixShrink(b, buf, w, w - 1);
    UpdateKeepsPrefix(b, buf, w - 1, w - 1, x);
    UcLitSuffix(buf, nin0, vin1, b, r, j, w, x);
  }

  lemma UcLitSuffix(buf: Vec, nin0: nat, vin1: seq<Token>, b: Vec, r: nat, j: nat, w: nat, x: real)
    requires UcState(buf, nin0, vin1, b, r, j, w) && 0 < r && 0 < j
    requires vin1[r - 1].Lit? && x == buf[j - 1] + vin1[r - 1].v
    ensures 0 < w && |Decode(vin1[r - 1..])| == nin0 - (j - 1)
    ensures b[w - 1 := x][w - 1..] == Add(buf[j - 1..nin0], Decode(vin1[r - 1..]))
  {
    var y, d := vin1[r - 1].v, Decode(vin1[r..]);
    ReadBack(vin1, r);
    UpdateSuffix(b, w - 1, x);
    DenseLitStep(buf, j, nin0, y, d);
    calc {
      b[w - 1 := x][w - 1..];
      [x] + Add(buf[j..nin0], d);
      Add(buf[j - 1..nin0], [y] + d);
      Add(buf[j - 1..nin0], Decode(vin1[r - 1..]));
    }
  }

  lemma UcRunNext(buf: Vec, nin0: nat, vin1: seq<Token>, b0: Vec, r: nat, j: nat, w0: nat,
                  b: Vec, w: nat, s: nat)
    requires UcState(buf, nin0, vin1, b0, r, j, w0) && 0 < r
    requires vin1[r - 1].Run? && s + vin1[r - 1].k == j
    requires |b| == |b0| && w == |buf| - (nin0 - s)
    requires b[..w] == buf[..w] && b[w..] == buf[s..j] + b0[w0..]
    ensures UcState(buf, nin0, vin1, b, r - 1, s, w)
  {
    ReadBack(vin1, r);
    DenseRunSpan(buf, Decode(vin1[r..]), s, j, nin0);
  }

  /** The inner loop of uc_cf_add2_uc under one marker: the dense elements
      `buf[s..e]`, read through `b`, moved unchanged in front of `b0[w0..]`. */
  method DenseSpanBack(b0: Vec, w0: nat, buf: Vec, n: nat, s: nat, e: nat)
    returns (b: Vec, w: nat)
    requires s <= e <= n <= |buf| == |b0| && w0 == |buf| - (n - e)
    requires b0[..w0] == buf[..w0]
    ensures |b| == |b0| && w == |buf| - (n - s)
    ensures b[..w] == buf[..w]
    ensures b[w..] == buf[s..e] + b0[w0..]
  {
    b, w := b0, w0;
    var j: nat := e;
    assert buf[e..e] == [];
    while j > s
      invariant s <= j <= e && |b| == |b0|
      invariant w == |buf| - (n - j)
      invariant b[..w] == buf[..w]
      invariant b[w..] == buf[j..e] + b0[w0..]
      decreases j
    {
      PrefixAgree(b, buf, w, j - 1);
      var x := b[j - 1];
      SliceCons(buf, j, e);
      UpdateSuffix(b, w - 1, x);
      UpdateKeepsPrefix(b, buf, w - 1, w - 1, x);
      ConsAssoc(x, buf[j..e], b0[w0..]);
      b := b[w - 1 := x];
      w, j := w - 1, j - 1;
    }
  }

  lemma DenseLitStep(buf: Vec, j: nat, n: nat, y: real, d: Vec)
    requires 0 < j <= n <= |buf| && |d| == n - j
    ensures Add(buf[j - 1..n], [y] + d) == [buf[j - 1] + y] + Add(buf[j..n], d)
  {
  }

  lemma DenseRunSpan(buf: Vec, d: Vec, s: nat, e: nat, n: nat)
    requires s <= e <= n <= |buf| && |d| == n - e
    ensures buf[s..e] + Add(buf[e..n], d) == Add(buf[s..n], Zeros(e - s) + d)
  {
    var l, r := buf[s..e] + Add(buf[e..n], d), Add(buf[s..n], Zeros(e - s) + d);
    forall i | 0 <= i < |r| ensures l[i] == r[i] {
      if i < e - s {
        assert (Zeros(e - s) + d)[i] == 0.0;
      } else {
        assert (Zeros(e - s) + d)[i] == d[i - (e - s)];
      }
    }
  }

  lemma UpdateExtendsPrefix<T>(b: seq<T>, w: nat, x: T)
    requires w < |b|
    ensures b[w := x][..w + 1] == b[..w] + [x]
  {
  }

  /** dblv_rle_zero_uc_uc_add2_cf: compress `vin0 + vin1` forwards into the
      storage of `vin0` (`vin1` is not consulted beyond the first `|vin0|`
      elements).  The write index never passes the read index, so the words
      not yet read still hold `vin0`; the words past the result are left as
      they were. */
  method UcUcAdd2Cf(vin0: Vec, vin1: Vec) returns (b: seq<Token>, nout: nat)
    requires |vin1| >= |vin0|
    ensures |b| == |vin0| && nout <= |vin0|
    ensures b[..nout] == Encode(Add(vin0, vin1[..|vin0|]))
    ensures b[nout..] == Lits(vin0)[nout..]
  {
    ghost var sums := Add(vin0, vin1[..|vin0|]);
    var orig := Lits(vin0);
    b := orig;
    var m: nat, w: nat := 0, 0;
    assert b[..0] == [] && sums[..0] == [];
    while m < |vin0|
      invariant CfState(vin0, vin1, sums, orig, b, m, w)
      decreases |vin0| - m
    {
      b, m, w := CfStep(vin0, vin1, sums, orig, b, m, w);
    }
    nout := w;
    assert sums[..m] == sums;
    EncodeShorter(sums);
  }

  /** The state of uc_uc_add2_cf after reading `m` elements and writing `w`
      tokens: the tokens are the encoding of the sums read so far, which end
      at a run boundary, and the words from `w` on are untouched. */
  ghost predicate CfState(vin0: Vec, vin1: Vec, sums: Vec, orig: seq<Token>, b: seq<Token>, m: nat, w: nat)
  {
    |vin0| <= |vin1| && sums == Add(vin0, vin1[..|vin0|]) && orig == Lits(vin0)
    && w <= m <= |vin0| == |b|
    && b[w..] == orig[w..]
    && b[..w] == Encode(sums[..m])
    && AtRunBoundary(sums, m)
  }

  /** One pass of the outer loop of uc_uc_add2_cf: one non-zero sum, or one
      whole run of zero sums. */
  method CfStep(vin0: Vec, vin1: Vec, ghost sums: Vec, orig: seq<Token>, b0: seq<Token>, m0: nat, w0: nat)
    returns (b: seq<Token>, m: nat, w: nat)
    requires CfState(vin0, vin1, sums, orig, b0, m0, w0) && m0 < |vin0|
    ensures CfState(vin0, vin1, sums, orig, b, m, w) == true && m0 < m
  {
    CfRead(vin0, vin1, sums, orig, b0, m0, w0);
    var x;
    if b0[m0].v + vin1[m0] != 0.0 {
      x := Lit(b0[m0].v + vin1[m0]);
      m := m0 + 1;
      CfLitNext(vin0, vin1, sums, orig, b0, m0, w0, x);
    } else {
      m := ZeroEndForward(b0, orig, vin1, sums, w0, m0 + 1);
      x := Rle2Token(m - m0);
      CfZerosNext(vin0, vin1, sums, orig, b0, m0, w0, m, x);
    }
    b, w := b0[w0 := x], w0 + 1;
  }

  /** The element to read is still `vin0`'s, and every sum is the sum of an
      original literal and the second operand. */
  lemma CfRead(vin0: Vec, vin1: Vec, sums: Vec, orig: seq<Token>, b: seq<Token>, m: nat, w: nat)
    requires CfState(vin0, vin1, sums, orig, b, m, w) && m < |vin0|
    ensures w < |b| && b[m] == Lit(vin0[m]) && sums[m] == b[m].v + vin1[m]
    ensures forall i :: 0 <= i < |sums| ==> orig[i].Lit? && orig[i].v + vin1[i] == sums[i]
  {
    SuffixAgree(b, orig, w, m);
  }

  lemma CfLitNext(vin0: Vec, vin1: Vec, sums: Vec, orig: seq<Token>, b: seq<Token>, m: nat, w: nat, x: Token)
    requires CfState(vin0, vin1, sums, orig, b, m, w) && m < |vin0|
    requires sums[m] != 0.0 && x == Lit(sums[m])
    ensures w < |b| && CfState(vin0, vin1, sums, orig, b[w := x], m + 1, w + 1)
  {
    EncodeExtendLit(sums, m);
    UpdateExtendsPrefix(b, w, x);
    UpdateKeepsSuffix(b, orig, w, x);
  }

  lemma CfZerosNext(vin0: Vec, vin1: Vec, sums: Vec, orig: seq<Token>, b: seq<Token>, m0: nat, w: nat,
                    m: nat, x: Token)
    requires CfState(vin0, vin1, sums, orig, b, m0, w) && m0 < m <= |vin0|
    requires forall i :: m0 <= i < m ==> sums[i] == 0.0
    requires m == |sums| || sums[m] != 0.0
    requires x == Rle2Token(m - m0)
    ensures w < |b| && CfState(vin0, vin1, sums, orig, b[w := x], m, w + 1)
  {
    EncodeExtendZeros(sums, m0, m);
    UpdateExtendsPrefix(b, w, x);
    UpdateKeepsSuffix(b, orig, w, x);
  }

  /** The forward scan over a zero run of the sum, reading the first operand
      through `b`. */
  method ZeroEndForward(b: seq<Token>, orig: seq<Token>, vin1: Vec, ghost sums: Vec, w: nat, m0: nat)
    returns (m: nat)
    requires |orig| == |b| == |sums| <= |vin1| && w < m0 <= |b| && b[w..] == orig[w..]
    requires forall i :: 0 <= i < |sums| ==> orig[i].Lit? && orig[i].v + vin1[i] == sums[i]
    requires sums[m0 - 1] == 0.0
    ensures m0 <= m <= |sums|
    ensures forall i :: m0 - 1 <= i < m ==> sums[i] == 0.0
    ensures m == |sums| || sums[m] != 0.0
  {
    m := m0;
    while m < |b|
      invariant m0 <= m <= |b|
      invariant forall i :: m0 - 1 <= i < m ==> sums[i] == 0.0
    {
      SuffixAgree(b, orig, w, m);
      if b[m].v + vin1[m] != 0.0 {
        return;
      }
      m := m + 1;
    }
  }
}

=== FILE: rle_add3.dfy ===
/** The bounded, resumable merge-adds (dblv/dblv_rle_zero_add.c, the add3
    pair).

    Both read tokens `vin0` and dense `vin1` and write into a separate
    output of room `nout`, stopping as soon as one of the three runs out.  A
    marker whose span is cut short leaves its unfinished length in the carry
    word `*vin0_next`, which the next call drains before reading any token.
    The carry is a `Token`: a `Run` stands for a marker word, a `Lit` for any
    other word (the library only ever stores +0.0 there). */
module RleAdd3 {
  import opened Vectors
  import opened Tokens
  import opened RleZero

  /** Number of pending zeros a carry word stands for: a non-marker stands
      for none. */
  function CarryLen(c: Token): nat
  {
    if c.Run? then c.k else 0
  }

  /** The carry written after a marker span: +0.0 when the span was
      finished, a marker of the unfinished length otherwise. */
  function CarryOut(n: nat): (c: Token)
    ensures CarryLen(c) == n
    ensures c.Run? <==> n > 0
  {
    if n > 0 then Run(n) else Lit(0.0)
  }

  /** The dense elements made available by the carry and the first `r0`
      tokens. */
  function Consumed(cin: Token, vin0: seq<Token>, r0: nat): Vec
    requires r0 <= |vin0|
  {
    Zeros(CarryLen(cin)) + Decode(vin0[..r0])
  }

  /** What one add3 call promises, with `d` the dense value of its output:
      of the elements made available by the carry and the `r0` tokens read,
      the first `r1` were added to the first `r1` elements of `vin1`, and the
      `pending` rest are zeros still owed by an unfinished marker. */
  ghost predicate Add3Spec(cin: Token, vin0: seq<Token>, vin1: Vec, r0: nat, r1: nat, pending: nat, d: Vec)
  {
    r0 <= |vin0| && Covers(Consumed(cin, vin0, r0), vin1, r1, pending, d)
  }

  /** `e` is `r1` elements added to the front of `vin1` into `d`, followed by
      `pending` zeros. */
  ghost predicate Covers(e: Vec, vin1: Vec, r1: nat, pending: nat, d: Vec)
  {
    r1 <= |vin1| && |e| == r1 + pending && e[r1..] == Zeros(pending)
    && d == Add(e[..r1], vin1[..r1])
  }

  lemma Add3Start(cin: Token, vin0: seq<Token>, vin1: Vec)
    ensures Add3Spec(cin, vin0, vin1, 0, 0, CarryLen(cin), [])
  {
    assert vin0[..0] == [];
    assert Consumed(cin, vin0, 0) == Zeros(CarryLen(cin));
  }

  /** A literal token is added to the next element of `vin1`. */
  lemma Add3LitStep(cin: Token, vin0: seq<Token>, vin1: Vec, r0: nat, r1: nat, d: Vec)
    requires Add3Spec(cin, vin0, vin1, r0, r1, 0, d)
    requires r0 < |vin0| && r1 < |vin1| && vin0[r0].Lit?
    ensures Add3Spec(cin, vin0, vin1, r0 + 1, r1 + 1, 0, d + [vin0[r0].v + vin1[r1]])
  {
    var c, x := Consumed(cin, vin0, r0), vin0[r0].v;
    DecodePrefixStep(vin0, r0);
    assert Consumed(cin, vin0, r0 + 1) == c + [x];
    CoversLit(c, vin1, r1, d, x);
  }

  lemma CoversLit(e: Vec, vin1: Vec, r1: nat, d: Vec, x: real)
    requires Covers(e, vin1, r1, 0, d) && r1 < |vin1|
    ensures Covers(e + [x], vin1, r1 + 1, 0, d + [x + vin1[r1]])
  {
    assert (e + [x])[..r1 + 1] == e + [x] && e[..r1] == e;
    assert vin1[..r1 + 1] == vin1[..r1] + [vin1[r1]];
    AddAppend(e, [x], vin1[..r1], [vin1[r1]]);
  }

  /** A marker token makes its zeros pending. */
  lemma Add3RunStep(cin: Token, vin0: seq<Token>, vin1: Vec, r0: nat, r1: nat, d: Vec)
    requires Add3Spec(cin, vin0, vin1, r0, r1, 0, d)
    requires r0 < |vin0| && vin0[r0].Run?
    ensures Add3Spec(cin, vin0, vin1, r0 + 1, r1, vin0[r0].k, d)
  {
    var c, k := Consumed(cin, vin0, r0), vin0[r0].k;
    DecodePrefixStep(vin0, r0);
    assert Consumed(cin, vin0, r0 + 1) == c + Zeros(k);
    assert (c + Zeros(k))[..r1] == c[..r1];
    assert (c + Zeros(k))[r1..] == Zeros(k);
  }

  /** `c` pending zeros are added to the next `c` elements of `vin1`, which
      therefore pass unchanged. */
  lemma Add3SpanStep(cin: Token, vin0: seq<Token>, vin1: Vec, r0: nat, r1: nat, n: nat, d: Vec, c: nat)
    requires Add3Spec(cin, vin0, vin1, r0, r1, n, d)
    requires c <= n && r1 + c <= |vin1|
    ensures Add3Spec(cin, vin0, vin1, r0, r1 + c, n - c, d + vin1[r1..r1 + c])
  {
    CoversSpan(Consumed(cin, vin0, r0), vin1, r1, n, d, c);
  }

  lemma CoversSpan(e: Vec, vin1: Vec, r1: nat, n: nat, d: Vec, c: nat)
    requires Covers(e, vin1, r1, n, d)
    requires c <= n && r1 + c <= |vin1|
    ensures Covers(e, vin1, r1 + c, n - c, d + vin1[r1..r1 + c])
  {
    assert e[r1 + c..] == e[r1..][c..];
    assert e[..r1 + c] == e[..r1] + e[r1..][..c];
    assert e[r1..][..c] == Zeros(c);
    assert vin1[..r1 + c] == vin1[..r1] + vin1[r1..r1 + c];
    AddAppend(e[..r1], Zeros(c), vin1[..r1], vin1[r1..r1 + c]);
    AddZerosLeft(vin1[r1..r1 + c]);
  }

  /** Two calls with the carry threaded from the first into the second
      promise together what one call consuming both stretches promises. */
  lemma Add3Compose(cin: Token, vin0: seq<Token>, vin1: Vec, a0: nat, a1: nat, c1: Token, d1: Vec,
                    b0: nat, b1: nat, p2: nat, d2: Vec)
    requires Add3Spec(cin, vin0, vin1, a0, a1, CarryLen(c1), d1)
    requires Add3Spec(c1, vin0[a0..], vin1[a1..], b0, b1, p2, d2)
    ensures Add3Spec(cin, vin0, vin1, a0 + b0, a1 + b1, p2, d1 + d2)
  {
    var e1, e2 := Consumed(cin, vin0, a0), Consumed(c1, vin0[a0..], b0);
    ConsumedSplit(cin, vin0, a0, c1, b0);
    JoinAtCarry(e1, a1, Zeros(CarryLen(c1)), Decode(vin0[a0..][..b0]));
    CoversCompose(e1, e2, vin1, a1, CarryLen(c1), d1, b1, p2, d2);
  }

  /** Reading `a0` and then `b0` more tokens makes available what reading
      `a0 + b0` does, the carry `c1` standing between the two. */
  lemma ConsumedSplit(cin: Token, vin0: seq<Token>, a0: nat, c1: Token, b0: nat)
    requires a0 + b0 <= |vin0|
    ensures Consumed(cin, vin0, a0 + b0) == Consumed(cin, vin0, a0) + Decode(vin0[a0..][..b0])
    ensures Consumed(c1, vin0[a0..], b0) == Zeros(CarryLen(c1)) + Decode(vin0[a0..][..b0])
  {
    assert vin0[..a0 + b0] == vin0[..a0] + vin0[a0..][..b0];
    DecodeAppend(vin0[..a0], vin0[a0..][..b0]);
  }

  lemma JoinAtCarry(e1: Vec, a1: nat, z: Vec, d: Vec)
    requires a1 <= |e1| && e1[a1..] == z
    ensures e1 + d == e1[..a1] + (z + d)
  {
    assert e1 == e1[..a1] + z;
  }

  lemma CoversCompose(e1: Vec, e2: Vec, vin1: Vec, a1: nat, p1: nat, d1: Vec, b1: nat, p2: nat, d2: Vec)
    requires Covers(e1, vin1, a1, p1, d1)
    requires Covers(e2, vin1[a1..], b1, p2, d2)
    ensures Covers(e1[..a1] + e2, vin1, a1 + b1, p2, d1 + d2)
  {
    var e := e1[..a1] + e2;
    assert e[a1 + b1..] == e2[b1..];
    assert e[..a1 + b1] == e1[..a1] + e2[..b1];
    assert vin1[..a1 + b1] == vin1[..a1] + vin1[a1..][..b1];
    AddAppend(e1[..a1], e2[..b1], vin1[..a1], vin1[a1..][..b1]);
  }

  /** The span loop of add3_cf under a marker with `n` zeros pending: the
      elements of `vin1` under the span, zero run-length encoded with the
      RLE2 policy.  It is compress3 confined to the span and to the room left
      in the output, and like it never ends inside a run of zeros. */
  method SpanCf(vin1: Vec, r1: nat, n: nat, nout: nat, vout: seq<Token>)
    returns (vout': seq<Token>, r1': nat, n': nat)
    requires r1 <= |vin1| && |vout| <= nout
    ensures r1 <= r1' <= |vin1| && n' <= n && r1' - r1 == n - n'
    ensures vout' == vout + Encode(vin1[r1..r1'])
    ensures |vout| <= |vout'| <= nout && |vout'| - |vout| <= r1' - r1
    ensures n' == 0 || r1' == |vin1| || |vout'| == nout
  {
    var m := if n <= |vin1| - r1 then n else |vin1| - r1;
    var seg, c := Compress3(vin1[r1..r1 + m], nout - |vout|);
    assert vin1[r1..r1 + m][..c] == vin1[r1..r1 + c];
    EncodeShorter(vin1[r1..r1 + c]);
    vout', r1', n' := vout + seg, r1 + c, n - c;
  }

  /** Appending the encoding of a span adds exactly that span to the dense
      value, and keeps the output free of short markers. */
  lemma CfSpanDecodes(vout: seq<Token>, vin1: Vec, r1: nat, r1': nat)
    requires r1 <= r1' <= |vin1| && LongRuns(vout)
    ensures Decode(vout + Encode(vin1[r1..r1'])) == Decode(vout) + vin1[r1..r1']
    ensures LongRuns(vout + Encode(vin1[r1..r1']))
  {
    DecodeAppend(vout, Encode(vin1[r1..r1']));
    DecodeEncode(vin1[r1..r1']);
    EncodeCanonical(vin1[r1..r1']);
    LongRunsAppend(vout, Encode(vin1[r1..r1']));
  }

  /** The span loop of add3_uc: copy the elements of `vin1` under the span. */
  method SpanUc(vin1: Vec, r1: nat, n: nat, nout: nat, vout: Vec)
    returns (vout': Vec, r1': nat, n': nat)
    requires r1 <= |vin1| && |vout| <= nout
    ensures r1 <= r1' <= |vin1| && n' <= n && r1' - r1 == n - n'
    ensures vout' == vout + vin1[r1..r1']
    ensures |vout'| <= nout
    ensures n' == 0 || r1' == |vin1| || |vout'| == nout
  {
    vout', r1', n' := vout, r1, n;
    while n' > 0 && r1' < |vin1| && |vout'| < nout
      invariant r1 <= r1' <= |vin1| && n' <= n && r1' - r1 == n - n'
      invariant vout' == vout + vin1[r1..r1']
      invariant |vout'| <= nout
    {
      assert vin1[r1..r1' + 1] == vin1[r1..r1'] + [vin1[r1']];
      vout', r1', n' := vout' + [vin1[r1']], r1' + 1, n' - 1;
    }
  }

  /** dblv_rle_zero_cf_uc_add3_cf: `vout` holds the `*nwrite` tokens written,
      `cin`/`cout` the carry word before and after. */
  method Add3Cf(vin0: seq<Token>, vin1: Vec, nout: nat, cin: Token)
    returns (vout: seq<Token>, nread0: nat, nread1: nat, cout: Token)
    ensures Add3Spec(cin, vin0, vin1, nread0, nread1, CarryLen(cout), Decode(vout))
    ensures nread0 <= |vin0| && nread1 <= |vin1| && |vout| <= nout
    ensures |vout| <= nread1 && LongRuns(vout)
    ensures nread0 == |vin0| || nread1 == |vin1| || |vout| == nout
    ensures CarryLen(cout) > 0 ==> nread1 == |vin1| || |vout| == nout
    ensures cout.Run? ==> cout.k > 0
    ensures cout.Lit? ==> cout == Lit(0.0) || cout == cin
    ensures nread0 > 0 ==> nread1 >= CarryLen(cin)
    ensures nout == 0 ==> nread0 == 0 && nread1 == 0 && vout == [] && CarryLen(cout) == CarryLen(cin)
    ensures nout == 0 && cin != Run(0) ==> cout == cin
  {
    vout, nread1, cout := CfPrelude(vin0, vin1, nout, cin);
    nread0 := 0;
    while nread0 < |vin0| && nread1 < |vin1| && |vout| < nout
      invariant CfState(cin, vin0, vin1, nout, vout, nread0, nread1, cout)
      decreases |vin0| - nread0
    {
      vout, nread0, nread1, cout := CfStep(cin, vin0, vin1, nout, vout, nread0, nread1, cout);
    }
  }

  /** The state of add3_cf after `r0` tokens and `r1` dense elements. */
  ghost predicate CfState(cin: Token, vin0: seq<Token>, vin1: Vec, nout: nat, vout: seq<Token>, r0: nat, r1: nat, cout: Token)
  {
    Add3Spec(cin, vin0, vin1, r0, r1, CarryLen(cout), Decode(vout))
    && |vout| <= nout && |vout| <= r1 && LongRuns(vout)
    && Carried(cin, vin1, nout, |vout|, r0, r1, cout)
  }

  /** What the loops of both add3 functions keep about the carry: a pending
      span means the input or the output ran out, only a marker of positive
      length or the incoming carry is left in the carry word, the incoming
      carry is drained before any token is read, and without room nothing
      moves. */
  ghost predicate Carried(cin: Token, vin1: Vec, nout: nat, nw: nat, r0: nat, r1: nat, cout: Token)
  {
    (CarryLen(cout) > 0 ==> r1 == |vin1| || nw == nout)
    && (cout.Run? ==> cout.k > 0)
    && (cout.Lit? ==> cout == Lit(0.0) || cout == cin)
    && (r0 > 0 || CarryLen(cout) == 0 ==> r1 >= CarryLen(cin))
    && (nout == 0 ==> r0 == 0 && r1 == 0 && nw == 0 && CarryLen(cout) == CarryLen(cin))
    && (nout == 0 && cin != Run(0) ==> cout == cin)
  }

  /** The prelude of add3_cf: finish the span of the incoming carry. */
  method CfPrelude(vin0: seq<Token>, vin1: Vec, nout: nat, cin: Token)
    returns (vout: seq<Token>, r1: nat, cout: Token)
    ensures CfState(cin, vin0, vin1, nout, vout, 0, r1, cout) == true
  {
    vout, r1, cout := [], 0, cin;
    Add3Start(cin, vin0, vin1);
    if cin.Run? {
      var n: nat;
      vout, r1, n := SpanCf(vin1, 0, cin.k, nout, []);
      Add3SpanStep(cin, vin0, vin1, 0, 0, cin.k, [], r1);
      CfSpanDecodes([], vin1, 0, r1);
      cout := CarryOut(n);
    }
  }

  /** One pass of the main loop of add3_cf: one literal, or one marker and
      its span.  (The state is compared with `true` so that it is
      established as one fact rather than conjunct by conjunct.) */
  method CfStep(cin: Token, vin0: seq<Token>, vin1: Vec, nout: nat, vout: seq<Token>, r0: nat, r1: nat, cout: Token)
    returns (vout': seq<Token>, r0': nat, r1': nat, cout': Token)
    requires CfState(cin, vin0, vin1, nout, vout, r0, r1, cout)
    requires r0 < |vin0| && r1 < |vin1| && |vout| < nout
    ensures CfState(cin, vin0, vin1, nout, vout', r0', r1', cout') == true && r0' == r0 + 1
  {
    var t := vin0[r0];
    if t.Lit? {
      CfLitNext(cin, vin0, vin1, nout, vout, r0, r1, cout);
      vout', r0', r1', cout' := vout + [Lit(t.v + vin1[r1])], r0 + 1, r1 + 1, cout;
    } else {
      var n: nat;
      vout', r1', n := SpanCf(vin1, r1, t.k, nout, vout);
      CfRunNext(cin, vin0, vin1, nout, vout, r0, r1, cout, vout', r1', n);
      r0', cout' := r0 + 1, CarryOut(n);
    }
  }

  lemma CfLitNext(cin: Token, vin0: seq<Token>, vin1: Vec, nout: nat, vout: seq<Token>, r0: nat, r1: nat, cout: Token)
    requires CfState(cin, vin0, vin1, nout, vout, r0, r1, cout)
    requires r0 < |vin0| && r1 < |vin1| && |vout| < nout && vin0[r0].Lit?
    ensures CfState(cin, vin0, vin1, nout, vout + [Lit(vin0[r0].v + vin1[r1])], r0 + 1, r1 + 1, cout)
  {
    var x := Lit(vin0[r0].v + vin1[r1]);
    Add3LitStep(cin, vin0, vin1, r0, r1, Decode(vout));
    DecodeSnoc(vout, x);
    LongRunsAppend(vout, [x]);
    CarriedLit(cin, vin1, nout, |vout|, r0, r1, cout);
  }

  /** After a literal the carry is unchanged and nothing is pending. */
  lemma CarriedLit(cin: Token, vin1: Vec, nout: nat, nw: nat, r0: nat, r1: nat, cout: Token)
    requires Carried(cin, vin1, nout, nw, r0, r1, cout)
    requires r1 < |vin1| && nw < nout
    ensures Carried(cin, vin1, nout, nw + 1, r0 + 1, r1 + 1, cout)
  {
  }

  lemma CfRunNext(cin: Token, vin0: seq<Token>, vin1: Vec, nout: nat, vout: seq<Token>, r0: nat, r1: nat, cout: Token,
                  vout': seq<Token>, r1': nat, n: nat)
    requires CfState(cin, vin0, vin1, nout, vout, r0, r1, cout)
    requires r0 < |vin0| && r1 < |vin1| && |vout| < nout && vin0[r0].Run?
    requires r1 <= r1' <= |vin1| && n <= vin0[r0].k && r1' - r1 == vin0[r0].k - n
    requires vout' == vout + Encode(vin1[r1..r1'])
    requires |vout'| <= nout && |vout'| - |vout| <= r1' - r1
    requires n == 0 || r1' == |vin1| || |vout'| == nout
    ensures CfState(cin, vin0, vin1, nout, vout', r0 + 1, r1', CarryOut(n))
  {
    Add3RunStep(cin, vin0, vin1, r0, r1, Decode(vout));
    Add3SpanStep(cin, vin0, vin1, r0 + 1, r1, vin0[r0].k, Decode(vout), r1' - r1);
    CfSpanDecodes(vout, vin1, r1, r1');
    CarriedRun(cin, vin1, nout, |vout|, r0, r1, cout, |vout'|, r1', n);
  }

  /** After a marker and its span the carry holds what the span left. */
  lemma CarriedRun(cin: Token, vin1: Vec, nout: nat, nw: nat, r0: nat, r1: nat, cout: Token, nw': nat, r1': nat, n: nat)
    requires Carried(cin, vin1, nout, nw, r0, r1, cout)
    requires r1 < |vin1| && nw < nout && r1 <= r1' <= |vin1| && nw' <= nout
    requires n == 0 || r1' == |vin1| || nw' == nout
    ensures Carried(cin, vin1, nout, nw', r0 + 1, r1', CarryOut(n))
  {
  }

  /** dblv_rle_zero_cf_uc_add3_uc: as add3_cf, but the output is dense, one
      element per element of `vin1` read. */
  method Add3Uc(vin0: seq<Token>, vin1: Vec, nout: nat, cin: Token)
    returns (vout: Vec, nread0: nat, nread1: nat, cout: Token)
    ensures Add3Spec(cin, vin0, vin1, nread0, nread1, CarryLen(cout), vout)
    ensures nread0 <= |vin0| && nread1 <= |vin1| && |vout| <= nout
    ensures |vout| == nread1
    ensures nread0 == |vin0| || nread1 == |vin1| || |vout| == nout
    ensures CarryLen(cout) > 0 ==> nread1 == |vin1| || |vout| == nout
    ensures cout.Run? ==> cout.k > 0
    ensures cout.Lit? ==> cout == Lit(0.0) || cout == cin
    ensures nread0 > 0 ==> nread1 >= CarryLen(cin)
    ensures nout == 0 ==> nread0 == 0 && nread1 == 0 && vout == [] && CarryLen(cout) == CarryLen(cin)
    ensures nout == 0 && cin != Run(0) ==> cout == cin
  {
    vout, nread1, cout := UcPrelude(vin0, vin1, nout, cin);
    nread0 := 0;
    while nread0 < |vin0| && nread1 < |vin1| && |vout| < nout
      invariant UcState(cin, vin0, vin1, nout, vout, nread0, nread1, cout)
      decreases |vin0| - nread0
    {
      vout, nread0, nread1, cout := UcStep(cin, vin0, vin1, nout, vout, nread0, nread1, cout);
    }
  }

  /** The state of add3_uc after `r0` tokens and `r1` dense elements. */
  ghost predicate UcState(cin: Token, vin0: seq<Token>, vin1: Vec, nout: nat, vout: Vec, r0: nat, r1: nat, cout: Token)
  {
    Add3Spec(cin, vin0, vin1, r0, r1, CarryLen(cout), vout)
    && |vout| <= nout && |vout| == r1
    && Carried(cin, vin1, nout, |vout|, r0, r1, cout)
  }

  /** The prelude of add3_uc: finish the span of the incoming carry. */
  method UcPrelude(vin0: seq<Token>, vin1: Vec, nout: nat, cin: Token)
    returns (vout: Vec, r1: nat, cout: Token)
    ensures UcState(cin, vin0, vin1, nout, vout, 0, r1, cout) == true
  {
    vout, r1, cout := [], 0, cin;
    Add3Start(cin, vin0, vin1);
    if cin.Run? {
      var n: nat;
      vout, r1, n := SpanUc(vin1, 0, cin.k, nout, []);
      Add3SpanStep(cin, vin0, vin1, 0, 0, cin.k, [], r1);
      cout := CarryOut(n);
    }
  }

  /** One pass of the main loop of add3_uc. */
  method UcStep(cin: Token, vin0: seq<Token>, vin1: Vec, nout: nat, vout: Vec, r0: nat, r1: nat, cout: Token)
    returns (vout': Vec, r0': nat, r1': nat, cout': Token)
    requires UcState(cin, vin0, vin1, nout, vout, r0, r1, cout)
    requires r0 < |vin0| && r1 < |vin1| && |vout| < nout
    ensures UcState(cin, vin0, vin1, nout, vout', r0', r1', cout') == true && r0' == r0 + 1
  {
    var t := vin0[r0];
    if t.Lit? {
      UcLitNext(cin, vin0, vin1, nout, vout, r0, r1, cout);
      vout', r0', r1', cout' := vout + [t.v + vin1[r1]], r0 + 1, r1 + 1, cout;
    } else {
      var n: nat;
      vout', r1', n := SpanUc(vin1, r1, t.k, nout, vout);
      UcRunNext(cin, vin0, vin1, nout, vout, r0, r1, cout, vout', r1', n);
      r0', cout' := r0 + 1, CarryOut(n);
    }
  }

  lemma UcLitNext(cin: Token, vin0: seq<Token>, vin1: Vec, nout: nat, vout: Vec, r0: nat, r1: nat, cout: Token)
    requires UcState(cin, vin0, vin1, nout, vout, r0, r1, cout)
    requires r0 < |vin0| && r1 < |vin1| && |vout| < nout && vin0[r0].Lit?
    ensures UcState(cin, vin0, vin1, nout, vout + [vin0[r0].v + vin1[r1]], r0 + 1, r1 + 1, cout)
  {
    Add3LitStep(cin, vin0, vin1, r0, r1, vout);
    CarriedLit(cin, vin1, nout, |vout|, r0, r1, cout);
  }

  lemma UcRunNext(cin: Token, vin0: seq<Token>, vin1: Vec, nout: nat, vout: Vec, r0: nat, r1: nat, cout: Token,
                  vout': Vec, r1': nat, n: nat)
    requires UcState(cin, vin0, vin1, nout, vout, r0, r1, cout)
    requires r0 < |vin0| && r1 < |vin1| && |vout| < nout && vin0[r0].Run?
    requires r1 <= r1' <= |vin1| && n <= vin0[r0].k && r1' - r1 == vin0[r0].k - n
    requires vout' == vout + vin1[r1..r1'] && |vout'| <= nout
    requires n == 0 || r1' == |vin1| || |vout'| == nout
    ensures UcState(cin, vin0, vin1, nout, vout', r0 + 1, r1', CarryOut(n))
  {
    Add3RunStep(cin, vin0, vin1, r0, r1, vout);
    Add3SpanStep(cin, vin0, vin1, r0 + 1, r1, vin0[r0].k, vout, r1' - r1);
    CarriedRun(cin, vin1, nout, |vout|, r0, r1, cout, |vout'|, r1', n);
  }
}

=== FILE: rle_bits.dfy ===
/** The bit-level tagging of run markers (dblv/dblv_rle.h).

    A token travels as one 64-bit word.  A word whose eleven exponent bits
    are all ones is read as a run marker; its low 52 bits hold the run
    length.  Any other word is an ordinary double. */
module RleBits {
  import opened Tokens

  type Word = bv64

  const NanMask: Word := 0x7FF0_0000_0000_0000
  const FractionMask: Word := 0x000F_FFFF_FFFF_FFFF

  /** Largest run length a marker can hold, plus one. */
  const RunLimit: Word := 0x10_0000_0000_0000

  /** DBL_IS_NAN_P: all exponent bits set. */
  predicate IsNanP(w: Word)
  {
    w & NanMask == NanMask
  }

  /** DBL_ISN_NAN_P. */
  predicate IsnNanP(w: Word)
  {
    w & NanMask != NanMask
  }

  /** DBL_RLE_SET_P: the length in the low bits, bits 63..52 all set. */
  function RleSetP(m: Word): (w: Word)
    ensures IsNanP(w)
    ensures w & !FractionMask == !FractionMask
  {
    m | !FractionMask
  }

  /** DBL_RLE2_SET_P: a marker only for lengths above one, otherwise the word
      of +0.0. */
  function Rle2SetP(m: Word): Word
  {
    if m > 1 then RleSetP(m) else 0
  }

  /** DBL_RLE_GET_P: the low 52 bits. */
  function RleGetP(w: Word): (m: Word)
    ensures m < RunLimit
  {
    w & FractionMask
  }

  /** The tag test and its negation are exact complements, and a word is a
      marker precisely when its eleven exponent bits (62..52) are all ones. */
  lemma TagTestComplement(w: Word)
    ensures IsNanP(w) != IsnNanP(w)
    ensures IsNanP(w) <==> (w >> 52) & 0x7FF == 0x7FF
  {
  }

  /** Set then get returns the length for every length a marker can hold. */
  lemma GetSet(m: Word)
    requires m < RunLimit
    ensures RleGetP(RleSetP(m)) == m
  {
  }

  /** The marker word is the length with bits 63..52 set. */
  lemma SetLayout(m: Word)
    requires m < RunLimit
    ensures RleSetP(m) == 0xFFF0_0000_0000_0000 + m
    ensures RleSetP(m) >> 52 == 0xFFF
  {
  }

  /** The getter ignores the top twelve bits. */
  lemma GetIgnoresTop(w: Word, x: Word)
    requires x < 0x1000
    ensures RleGetP(w ^ (x << 52)) == RleGetP(w)
  {
  }

  /** RLE2 writes untagged +0.0 for lengths zero and one, and a marker of the
      same length as RLE otherwise. */
  lemma Rle2Policy(m: Word)
    ensures m <= 1 ==> Rle2SetP(m) == 0 && !IsNanP(Rle2SetP(m))
    ensures m > 1 ==> Rle2SetP(m) == RleSetP(m)
  {
  }

  const PositiveInfinity: Word := 0x7FF0_0000_0000_0000
  const NegativeInfinity: Word := 0xFFF0_0000_0000_0000

  /** Both infinities pass the tag test and read as a run of length zero; the
      negative one is the very word RLE_SET writes for length zero. */
  lemma InfinitiesAreMarkers()
    ensures IsNanP(PositiveInfinity) && RleGetP(PositiveInfinity) == 0
    ensures IsNanP(NegativeInfinity) && RleGetP(NegativeInfinity) == 0
    ensures NegativeInfinity == RleSetP(0)
  {
  }

  /** How a word is read: a marker becomes a run, any other word the double
      it encodes (`valueOf` stands for the reinterpretation of the bits). */
  function WordToken(w: Word, valueOf: Word -> real): (t: Token)
    ensures t.Run? <==> IsNanP(w)
  {
    if IsNanP(w) then Run(RleGetP(w) as nat) else Lit(valueOf(w))
  }

  /** How a token is written: a run as RLE_SET of the length cast to 64 bits
      (the cast keeps the low 64 bits), a literal as its bits. */
  function TokenWord(t: Token, bitsOf: real -> Word): Word
  {
    match t
    case Lit(v) => bitsOf(v)
    case Run(k) => RleSetP(CastWord(k))
  }

  /** The C cast of a non-negative count to a 64-bit word. */
  function CastWord(k: nat): Word
  {
    (k % 0x1_0000_0000_0000_0000) as bv64
  }

  lemma CastWordOfWord(m: Word)
    ensures CastWord(m as nat) == m
  {
    var x := m as nat;
    WordBound(m);
    ModSmall(x, 0x1_0000_0000_0000_0000);
    WordNatWord(m);
  }

  lemma WordBound(m: Word)
    ensures m as nat < 0x1_0000_0000_0000_0000
  {
  }

  lemma WordNatWord(m: Word)
    ensures (m as nat) as bv64 == m
  {
  }

  lemma ModSmall(x: nat, n: nat)
    requires x < n
    ensures x % n == x
  {
  }

  /** A word as the library stores it: a marker has bits 63..52 set (RLE_SET
      writes nothing else), and an ordinary double survives the
      reinterpretation to a value and back. */
  predicate WellFormedWord(w: Word, bitsOf: real -> Word, valueOf: Word -> real)
  {
    if IsNanP(w) then w >> 52 == 0xFFF else bitsOf(valueOf(w)) == w
  }

  function ReadWords(ws: seq<Word>, valueOf: Word -> real): (ts: seq<Token>)
    ensures |ts| == |ws|
    ensures forall i :: 0 <= i < |ws| ==> ts[i] == WordToken(ws[i], valueOf)
  {
    if |ws| == 0 then [] else [WordToken(ws[0], valueOf)] + ReadWords(ws[1..], valueOf)
  }

  function WriteWords(ts: seq<Token>, bitsOf: real -> Word): (ws: seq<Word>)
    ensures |ws| == |ts|
    ensures forall i :: 0 <= i < |ts| ==> ws[i] == TokenWord(ts[i], bitsOf)
  {
    if |ts| == 0 then [] else [TokenWord(ts[0], bitsOf)] + WriteWords(ts[1..], bitsOf)
  }

  /** Reading a word as a token and writing the token back restores the word. */
  lemma WordTokenWord(w: Word, bitsOf: real -> Word, valueOf: Word -> real)
    requires WellFormedWord(w, bitsOf, valueOf)
    ensures TokenWord(WordToken(w, valueOf), bitsOf) == w
  {
    if IsNanP(w) {
      var m := RleGetP(w);
      CastWordOfWord(m);
      MarkerFromLength(w);
    }
  }

  lemma MarkerFromLength(w: Word)
    requires w >> 52 == 0xFFF
    ensures RleSetP(RleGetP(w)) == w
  {
  }

  /** Storage round trip: reading a buffer of well-formed words as tokens and
      writing those tokens back reproduces the buffer word for word. */
  lemma WriteReadWords(ws: seq<Word>, bitsOf: real -> Word, valueOf: Word -> real)
    requires forall i :: 0 <= i < |ws| ==> WellFormedWord(ws[i], bitsOf, valueOf)
    ensures WriteWords(ReadWords(ws, valueOf), bitsOf) == ws
  {
    forall i | 0 <= i < |ws| ensures WriteWords(ReadWords(ws, valueOf), bitsOf)[i] == ws[i] {
      WordTokenWord(ws[i], bitsOf, valueOf);
    }
  }
}

=== FILE: rle_zero.dfy ===
/** The zero run-length encoders and decoders (dblv/dblv_rle_zero.c).

    The loops run over tokens rather than raw words: module `RleBits` shows
    that a word is a marker exactly when it reads as a `Run`.  Where the C
    loops dereference the input before testing the bound, the bound is tested
    first here. */
module RleZero {
  import opened Vectors
  import opened Tokens

  /** Position `m` does not cut a run of zeros in two. */
  predicate AtRunBoundary(s: Vec, m: nat)
    requires m <= |s|
  {
    m == 0 || m == |s| || s[m - 1] != 0.0 || s[m] != 0.0
  }

  /** Appending one non-zero element appends one literal. */
  lemma EncodeExtendLit(s: Vec, m: nat)
    requires m < |s| && s[m] != 0.0
    ensures Encode(s[..m + 1]) == Encode(s[..m]) + [Lit(s[m])]
  {
    assert s[..m + 1] == s[..m] + [s[m]];
    EncodeAppend(s[..m], [s[m]]);
    EncodeNonZero(s[m]);
  }

  /** Appending a whole zero run appends one RLE2 token. */
  lemma EncodeExtendZeros(s: Vec, m0: nat, m: nat)
    requires m0 < m <= |s|
    requires m0 == 0 || s[m0 - 1] != 0.0
    requires forall i :: m0 <= i < m ==> s[i] == 0.0
    ensures Encode(s[..m]) == Encode(s[..m0]) + [Rle2Token(m - m0)]
  {
    assert s[..m] == s[..m0] + s[m0..m];
    assert s[m0..m] == Zeros(m - m0);
    EncodeAppend(s[..m0], Zeros(m - m0));
    EncodeZeros(m - m0);
  }

  /** The encoding of a prefix ending at a run boundary is a prefix of the
      encoding of the whole vector. */
  lemma EncodePrefixAtBoundary(s: Vec, m: nat)
    requires m <= |s| && AtRunBoundary(s, m)
    ensures Encode(s) == Encode(s[..m]) + Encode(s[m..])
  {
    assert s == s[..m] + s[m..];
    if 0 < m < |s| {
      assert s[..m][m - 1] == s[m - 1] && s[m..][0] == s[m];
    }
    EncodeAppend(s[..m], s[m..]);
  }

  /** dblv_rle_zero_compress: alternately scan a zero run, write it, and copy
      the following non-zero elements. */
  method Compress(vin: Vec) returns (vout: seq<Token>)
    ensures vout == Encode(vin)
    ensures |vout| <= |vin|
    ensures Canonical(vout)
  {
    vout := [];
    var m := 0;
    while m < |vin|
      invariant m <= |vin|
      invariant vout == Encode(vin[..m])
      invariant m == 0 || m == |vin| || vin[m - 1] != 0.0
      decreases |vin| - m
    {
      var m0 := m;
      while m < |vin| && vin[m] == 0.0
        invariant m0 <= m <= |vin|
        invariant forall i :: m0 <= i < m ==> vin[i] == 0.0
      {
        m := m + 1;
      }
      if m - m0 > 0 {
        EncodeExtendZeros(vin, m0, m);
        vout := vout + [Rle2Token(m - m0)];
      }
      while m < |vin| && vin[m] != 0.0
        invariant m0 <= m <= |vin|
        invariant vout == Encode(vin[..m])
        invariant m == |vin| || vin[m] != 0.0 || (m > 0 && vin[m - 1] != 0.0)
        invariant m > m0 || (m < |vin| && vin[m] != 0.0)
      {
        EncodeExtendLit(vin, m);
        vout := vout + [Lit(vin[m])];
        m := m + 1;
      }
    }
    assert vin[..m] == vin;
    EncodeShorter(vin);
    EncodeCanonical(vin);
  }

  /** dblv_rle_zero_compress2: one element or one whole zero run per step. */
  method Compress2(vin: Vec) returns (vout: seq<Token>)
    ensures vout == Encode(vin)
    ensures |vout| <= |vin|
    ensures Canonical(vout)
  {
    vout := [];
    var m := 0;
    while m < |vin|
      invariant m <= |vin|
      invariant vout == Encode(vin[..m])
      invariant AtRunBoundary(vin, m)
    {
      if vin[m] != 0.0 {
        EncodeExtendLit(vin, m);
        vout := vout + [Lit(vin[m])];
        m := m + 1;
        continue;
      }
      var m0 := m;
      m := m + 1;
      while m < |vin| && vin[m] == 0.0
        invariant m0 < m <= |vin|
        invariant forall i :: m0 <= i < m ==> vin[i] == 0.0
      {
        m := m + 1;
      }
      EncodeExtendZeros(vin, m0, m);
      vout := vout + [Rle2Token(m - m0)];
    }
    assert vin[..m] == vin;
    EncodeShorter(vin);
    EncodeCanonical(vin);
  }

  /** dblv_rle_zero_compress3: compress2 bounded by the room `nout` in the
      output.  It stops when the input is consumed or the output is full,
      never in the middle of a zero run, so its output is the encoding of the
      prefix it read. */
  method Compress3(vin: Vec, nout: nat) returns (vout: seq<Token>, nread: nat)
    ensures nread <= |vin| && |vout| <= nout
    ensures vout == Encode(vin[..nread])
    ensures AtRunBoundary(vin, nread)
    ensures nread == |vin| || |vout| == nout
    ensures nout == 0 ==> nread == 0 && vout == []
  {
    vout := [];
    var c := 0;
    while c < |vin| && |vout| < nout
      invariant c <= |vin| && |vout| <= nout
      invariant vout == Encode(vin[..c])
      invariant AtRunBoundary(vin, c)
    {
      if vin[c] != 0.0 {
        EncodeExtendLit(vin, c);
        vout := vout + [Lit(vin[c])];
        c := c + 1;
        continue;
      }
      var z := c;
      c := c + 1;
      while c < |vin| && vin[c] == 0.0
        invariant z < c <= |vin|
        invariant forall i :: z <= i < c ==> vin[i] == 0.0
      {
        c := c + 1;
      }
      EncodeExtendZeros(vin, z, c);
      vout := vout + [Rle2Token(c - z)];
    }
    nread := c;
  }

  /** Successive bounded calls, each resuming where the previous one stopped,
      produce the same tokens as one unbounded call. */
  lemma Compress3Resumes(vin: Vec, n1: nat, n2: nat)
    requires n1 <= n2 <= |vin|
    requires AtRunBoundary(vin, n1)
    requires AtRunBoundary(vin[n1..], n2 - n1)
    ensures Encode(vin[..n1]) + Encode(vin[n1..][..n2 - n1]) == Encode(vin[..n2])
  {
    var a := vin[..n2];
    assert a[..n1] == vin[..n1];
    assert a[n1..] == vin[n1..][..n2 - n1];
    if 0 < n1 < n2 {
      assert a[n1 - 1] == vin[n1 - 1] && a[n1] == vin[n1];
    }
    EncodePrefixAtBoundary(a, n1);
  }

  /** dblv_rle_zero_uncompress: copy a stretch of literals, then expand one
      marker. */
  method Uncompress(vin: seq<Token>) returns (vout: Vec)
    ensures vout == Decode(vin)
    ensures |vout| == LiteralCount(vin) + RunTotal(vin)
  {
    vout := [];
    var m := 0;
    while m < |vin|
      invariant m <= |vin|
      invariant vout == Decode(vin[..m])
    {
      while m < |vin| && vin[m].Lit?
        invariant m <= |vin|
        invariant vout == Decode(vin[..m])
      {
        DecodePrefixStep(vin, m);
        vout := vout + [vin[m].v];
        m := m + 1;
      }
      if m < |vin| {
        vout := WriteRun(vout, vin[m].k);
        DecodePrefixStep(vin, m);
        m := m + 1;
      }
    }
    assert vin[..m] == vin;
    DecodeLength(vin);
  }

  /** dblv_rle_zero_uncompress2: one token per step. */
  method Uncompress2(vin: seq<Token>) returns (vout: Vec)
    ensures vout == Decode(vin)
    ensures |vout| == LiteralCount(vin) + RunTotal(vin)
  {
    vout := [];
    var m := 0;
    while m < |vin|
      invariant m <= |vin|
      invariant vout == Decode(vin[..m])
    {
      DecodePrefixStep(vin, m);
      if vin[m].Lit? {
        vout := vout + [vin[m].v];
        m := m + 1;
        continue;
      }
      vout := WriteRun(vout, vin[m].k);
      m := m + 1;
    }
    assert vin[..m] == vin;
    DecodeLength(vin);
  }

  /** The count-down loop that writes the zeros of one marker. */
  method WriteRun(vout: Vec, k: nat) returns (r: Vec)
    ensures r == vout + Zeros(k)
  {
    r := vout;
    var i := k;
    while i > 0
      invariant 0 <= i <= k
      invariant r == vout + Zeros(k - i)
    {
      r := r + [0.0];
      ZerosAppend(k - i, 1);
      i := i - 1;
    }
  }
}

=== FILE: send_recv.dfy ===
/** MPI_Reduce_pipe_send_recv (reduce/mpi_reduce_pipe_send_recv.c): the
    blocking pipeline.

    The count is tiled into packets (see `Packets`).  For each packet the
    first rank sends its slice, every relay receives the partial sum into
    its buffer, adds its own slice and sends it on, and the root receives
    the partial sum straight into its receive buffer and adds its slice
    there.  The SEND_RECV_INIT and THREADED_REDUCE build variants are not
    modelled. */
module PipeSendRecv {
  import opened Vectors
  import opened Packets
  import opened Transport
  import opened PipeChain

  /** The first rank after `i` packets: it has sent the first `i` pieces of
      its vector. */
  ghost predicate SourceAt(sbuf: Vec, count: nat, maxPacket: nat, done: nat, np: nat, i: nat, outbox: seq<Vec>)
    requires 0 < maxPacket && count <= |sbuf|
  {
    Position(count, maxPacket, done, np, i)
    && outbox == Cut(sbuf[..count], PacketSizes(count, maxPacket))[..i]
  }

  /** One packet of the first rank. */
  method SourceStep(sbuf: Vec, count: nat, maxPacket: nat, done: nat, np: nat, i: nat, outbox: seq<Vec>,
                    current: nat)
    returns (done1: nat, np1: nat, i1: nat, outbox1: seq<Vec>)
    requires 0 < maxPacket && count <= |sbuf| && done < count
    requires SourceAt(sbuf, count, maxPacket, done, np, i, outbox)
    requires i < |PacketSizes(count, maxPacket)| && current == PacketSizes(count, maxPacket)[i]
    ensures SourceAt(sbuf, count, maxPacket, done1, np1, i1, outbox1) == true && np1 < np
  {
    ghost var v := sbuf[..count];
    PositionNext(count, maxPacket, done, np, i);
    CutAtPosition(v, count, maxPacket, done, np, i);
    ghost var c := Cut(v, PacketSizes(count, maxPacket));
    assert sbuf[done..done + current] == c[i];
    outbox1 := outbox + [sbuf[done..done + current]];
    assert c[..i + 1] == c[..i] + [c[i]];
    done1, np1, i1 := done + current, np - 1, i + 1;
  }

  /** The first rank: each packet of its own vector, in order. */
  method SourceRank(sbuf: Vec, count: nat, maxPacket: nat) returns (outbox: seq<Vec>)
    requires 0 < maxPacket && count <= |sbuf|
    ensures outbox == Cut(sbuf[..count], PacketSizes(count, maxPacket))
    ensures Flatten(outbox) == sbuf[..count]
  {
    var np := NPackets(count, maxPacket);
    PositionStart(count, maxPacket);
    var done: nat, i: nat := 0, 0;
    outbox := [];
    while done < count
      invariant SourceAt(sbuf, count, maxPacket, done, np, i, outbox)
      decreases np
    {
      PositionStep(count, maxPacket, done, np, i);
      var current := (count - done) / np;
      done, np, i, outbox := SourceStep(sbuf, count, maxPacket, done, np, i, outbox, current);
    }
    PositionEnd(count, maxPacket, done, np, i);
    ghost var c := Cut(sbuf[..count], PacketSizes(count, maxPacket));
    assert c[..i] == c;
    FlattenCut(sbuf[..count], PacketSizes(count, maxPacket));
  }

  /** A relay after `i` packets: every message so far fit, and the packets
      it sent are `Relayed` against its own pieces. */
  ghost predicate RelayAt(sbuf: Vec, inbox: seq<Vec>, count: nat, maxPacket: nat, done: nat, np: nat, i: nat,
                          outbox: seq<Vec>)
    requires 0 < maxPacket && count <= |sbuf|
  {
    Position(count, maxPacket, done, np, i)
    && i <= |inbox| && |outbox| == i
    && Relayed(inbox, Cut(sbuf[..count], PacketSizes(count, maxPacket)), outbox)
  }

  /** One packet of a relay, once its message has arrived in `got`. */
  method RelayStep(sbuf: Vec, inbox: seq<Vec>, count: nat, maxPacket: nat, done: nat, np: nat, i: nat,
                   outbox: seq<Vec>, current: nat, got: Vec)
    returns (done1: nat, np1: nat, i1: nat, outbox1: seq<Vec>, buf: Vec)
    requires 0 < maxPacket && count <= |sbuf| && done < count && i < |inbox|
    requires RelayAt(sbuf, inbox, count, maxPacket, done, np, i, outbox)
    requires i < |PacketSizes(count, maxPacket)| && current == PacketSizes(count, maxPacket)[i]
    requires |inbox[i]| <= current <= |got| && got[..|inbox[i]|] == inbox[i]
    ensures RelayAt(sbuf, inbox, count, maxPacket, done1, np1, i1, outbox1) == true && np1 < np
    ensures |buf| == |got|
  {
    ghost var v := sbuf[..count];
    PositionNext(count, maxPacket, done, np, i);
    CutAtPosition(v, count, maxPacket, done, np, i);
    ghost var c := Cut(v, PacketSizes(count, maxPacket));
    var packet := Add(got[..current], sbuf[done..done + current]);
    buf := packet + got[current..];
    assert buf[..current] == packet;
    assert sbuf[done..done + current] == c[i];
    assert |inbox[i]| == current ==> got[..current] == inbox[i];
    RelayedSnoc(inbox, c, outbox, buf[..current]);
    outbox1 := outbox + [buf[..current]];
    done1, np1, i1 := done + current, np - 1, i + 1;
  }

  /** A relay: receive packet `i` into its buffer, add the own slice and
      send the packet on.  It finishes exactly when every message fits its
      receive; a message longer than its packet is fatal.  A message of
      exactly the packet size comes back out with the own slice added. */
  method RelayRank(sbuf: Vec, buf0: Vec, inbox: seq<Vec>, count: nat, maxPacket: nat)
    returns (res: Outcome<seq<Vec>>)
    requires 0 < maxPacket <= |buf0| && count <= |sbuf|
    ensures res.Done? <==> Fits(inbox, PacketSizes(count, maxPacket))
    ensures res.Truncated? <==> TooLong(inbox, PacketSizes(count, maxPacket))
    ensures res.Done? ==> |res.value| == NPackets(count, maxPacket)
    ensures res.Done? ==> Relayed(inbox, Cut(sbuf[..count], PacketSizes(count, maxPacket)), res.value)
  {
    ghost var P := PacketSizes(count, maxPacket);
    var np := NPackets(count, maxPacket);
    PositionStart(count, maxPacket);
    var done: nat, i: nat := 0, 0;
    var buf := buf0;
    var outbox: seq<Vec> := [];
    while done < count
      invariant RelayAt(sbuf, inbox, count, maxPacket, done, np, i, outbox)
      invariant |buf| == |buf0|
      decreases np
    {
      PositionStep(count, maxPacket, done, np, i);
      var current := (count - done) / np;
      if i == |inbox| {
        assert !Fits(inbox, P);
        return Blocked;
      }
      var got := Receive(buf, 0, current, inbox[i]);
      if got.Truncated? {
        assert TooLong(inbox, P);
        return Truncated;
      }
      done, np, i, outbox, buf := RelayStep(sbuf, inbox, count, maxPacket, done, np, i, outbox, current, got.value);
    }
    PositionEnd(count, maxPacket, done, np, i);
    res := Done(outbox);
  }

  /** The root after `i` packets: every message so far fit, the tail of the
      receive buffer past `count` is untouched, and when every message was
      exact the buffer up to `done` holds the messages plus the own
      pieces. */
  ghost predicate RootAt(sbuf: Vec, rbuf: Vec, inbox: seq<Vec>, count: nat, maxPacket: nat, done: nat, np: nat,
                         i: nat, buf: Vec)
    requires 0 < maxPacket && count <= |sbuf| && count <= |rbuf|
  {
    Position(count, maxPacket, done, np, i)
    && |buf| == |rbuf| && buf[count..] == rbuf[count..] && i <= |inbox|
    && Fits(inbox[..i], PacketSizes(count, maxPacket)[..i])
    && (Exact(inbox[..i], PacketSizes(count, maxPacket)[..i]) ==>
          buf[..done] == Flatten(AddEach(inbox[..i], Cut(sbuf[..count], PacketSizes(count, maxPacket))[..i])))
  }

  /** One packet of the root, once its message has arrived in `got` at
      `done`. */
  method RootStep(sbuf: Vec, rbuf: Vec, inbox: seq<Vec>, count: nat, maxPacket: nat, done: nat, np: nat,
                  i: nat, buf: Vec, current: nat, got: Vec)
    returns (done1: nat, np1: nat, i1: nat, buf1: Vec)
    requires 0 < maxPacket && count <= |sbuf| && count <= |rbuf| && done < count && i < |inbox|
    requires RootAt(sbuf, rbuf, inbox, count, maxPacket, done, np, i, buf)
    requires i < |PacketSizes(count, maxPacket)| && current == PacketSizes(count, maxPacket)[i]
    requires |inbox[i]| <= current && done + current <= |buf| == |got|
    requires got == buf[..done] + inbox[i] + buf[done + |inbox[i]|..]
    ensures RootAt(sbuf, rbuf, inbox, count, maxPacket, done1, np1, i1, buf1) == true && np1 < np
  {
    ghost var v := sbuf[..count];
    PositionNext(count, maxPacket, done, np, i);
    CutAtPosition(v, count, maxPacket, done, np, i);
    var packet := Add(got[done..done + current], sbuf[done..done + current]);
    buf1 := got[..done] + packet + got[done + current..];
    RootNext(sbuf, rbuf, inbox, count, maxPacket, done, np, i, buf, current, got, buf1);
    done1, np1, i1 := done + current, np - 1, i + 1;
  }

  lemma RootNext(sbuf: Vec, rbuf: Vec, inbox: seq<Vec>, count: nat, maxPacket: nat, done: nat, np: nat,
                 i: nat, buf: Vec, current: nat, got: Vec, buf1: Vec)
    requires 0 < maxPacket && count <= |sbuf| && count <= |rbuf| && done < count && i < |inbox|
    requires RootAt(sbuf, rbuf, inbox, count, maxPacket, done, np, i, buf)
    requires i < |PacketSizes(count, maxPacket)| && current == PacketSizes(count, maxPacket)[i]
    requires |inbox[i]| <= current && done + current <= count && |got| == |buf|
    requires got == buf[..done] + inbox[i] + buf[done + |inbox[i]|..]
    requires buf1 == got[..done] + Add(got[done..done + current], sbuf[done..done + current]) + got[done + current..]
    ensures RootAt(sbuf, rbuf, inbox, count, maxPacket, done + current, np - 1, i + 1, buf1)
  {
    ghost var v := sbuf[..count];
    ghost var P := PacketSizes(count, maxPacket);
    PositionNext(count, maxPacket, done, np, i);
    CutAtPosition(v, count, maxPacket, done, np, i);
    ghost var c := Cut(v, P);
    PrefixSnoc(inbox, P, i);
    assert buf1[count..] == rbuf[count..];
    if Exact(inbox[..i + 1], P[..i + 1]) {
      assert c[i] == sbuf[done..done + current];
      assert forall j :: 0 <= j <= i ==> |inbox[j]| == |c[j]| by {
        forall j | 0 <= j <= i
          ensures |inbox[j]| == |c[j]|
        {
          assert inbox[..i + 1][j] == inbox[j] && P[..i + 1][j] == P[j];
        }
      }
      RootExact(inbox, c, i, buf, got, buf1, done, sbuf[done..done + current]);
    }
  }

  /** The root's prefix grows by the sum of an exact message and its piece. */
  lemma RootExact(inbox: seq<Vec>, c: seq<Vec>, i: nat, buf: Vec, got: Vec, buf1: Vec, done: nat, own: Vec)
    requires i < |inbox| && i < |c| && forall j :: 0 <= j <= i ==> |inbox[j]| == |c[j]|
    requires c[i] == own && done + |own| <= |buf|
    requires buf[..done] == Flatten(AddEach(inbox[..i], c[..i]))
    requires got == buf[..done] + inbox[i] + buf[done + |inbox[i]|..]
    requires buf1 == got[..done] + Add(got[done..done + |own|], own) + got[done + |own|..]
    ensures buf1[..done + |own|] == Flatten(AddEach(inbox[..i + 1], c[..i + 1]))
  {
    RootWindow(buf, inbox[i], c[i], got, own, buf1, done);
    FlattenSnoc(AddEach(inbox[..i], c[..i]), Add(inbox[i], c[i]));
    AddEachSnoc(inbox, c, i);
  }

  /** The window the root receives into: an exact message plus the own
      slice lands after the untouched prefix. */
  lemma RootWindow(buf: Vec, msg: Vec, piece: Vec, got: Vec, own: Vec, buf1: Vec, done: nat)
    requires |msg| == |piece| == |own| && piece == own && done + |msg| <= |buf|
    requires got == buf[..done] + msg + buf[done + |msg|..]
    requires buf1 == got[..done] + Add(got[done..done + |msg|], own) + got[done + |msg|..]
    ensures buf1[..done + |msg|] == buf[..done] + Add(msg, piece)
  {
    assert got[..done] == buf[..done];
    assert got[done..done + |msg|] == msg;
  }

  /** The root: receive packet `i` into the receive buffer at its offset
      and add the own slice there.  With messages of exactly the packet
      sizes the first `count` elements end as the pieces of the messages
      plus the own vector; the rest of the buffer is untouched. */
  method RootRank(sbuf: Vec, rbuf: Vec, inbox: seq<Vec>, count: nat, maxPacket: nat)
    returns (res: Outcome<Vec>)
    requires 0 < maxPacket && count <= |sbuf| && count <= |rbuf|
    ensures res.Done? <==> Fits(inbox, PacketSizes(count, maxPacket))
    ensures res.Truncated? <==> TooLong(inbox, PacketSizes(count, maxPacket))
    ensures res.Done? ==> |res.value| == |rbuf| && res.value[count..] == rbuf[count..]
    ensures res.Done? && Exact(inbox, PacketSizes(count, maxPacket)) ==>
      res.value[..count] == Flatten(AddEach(inbox[..NPackets(count, maxPacket)], Cut(sbuf[..count], PacketSizes(count, maxPacket))))
  {
    ghost var P := PacketSizes(count, maxPacket);
    var np := NPackets(count, maxPacket);
    PositionStart(count, maxPacket);
    var done: nat, i: nat := 0, 0;
    var buf := rbuf;
    while done < count
      invariant RootAt(sbuf, rbuf, inbox, count, maxPacket, done, np, i, buf)
      decreases np
    {
      PositionStep(count, maxPacket, done, np, i);
      var current := (count - done) / np;
      if i == |inbox| {
        assert !Fits(inbox, P);
        return Blocked;
      }
      var got := Receive(buf, done, current, inbox[i]);
      if got.Truncated? {
        assert TooLong(inbox, P);
        return Truncated;
      }
      done, np, i, buf := RootStep(sbuf, rbuf, inbox, count, maxPacket, done, np, i, buf, current, got.value);
    }
    PositionEnd(count, maxPacket, done, np, i);
    RootEnd(sbuf, rbuf, inbox, count, maxPacket, done, np, i, buf);
    res := Done(buf);
  }

  lemma RootEnd(sbuf: Vec, rbuf: Vec, inbox: seq<Vec>, count: nat, maxPacket: nat, done: nat, np: nat,
                i: nat, buf: Vec)
    requires 0 < maxPacket && count <= |sbuf| && count <= |rbuf|
    requires RootAt(sbuf, rbuf, inbox, count, maxPacket, done, np, i, buf)
    requires i == |PacketSizes(count, maxPacket)| && done == count
    ensures Fits(inbox, PacketSizes(count, maxPacket)) && !TooLong(inbox, PacketSizes(count, maxPacket))
    ensures Exact(inbox, PacketSizes(count, maxPacket)) ==>
      buf[..count] == Flatten(AddEach(inbox[..NPackets(count, maxPacket)], Cut(sbuf[..count], PacketSizes(count, maxPacket))))
  {
    ghost var P := PacketSizes(count, maxPacket);
    ghost var c := Cut(sbuf[..count], P);
    assert P[..i] == P;
    assert c[..i] == c;
    if Exact(inbox, P) {
      assert Exact(inbox[..i], P[..i]);
    }
  }

  /** The chain after `k` ranks: the messages leaving rank `k - 1` of the
      chain are the pieces of the sum of the first `k` chain vectors. */
  ghost predicate ChainAt(vs: seq<Vec>, root: nat, count: nat, maxPacket: nat, k: nat, rank: int, msgs: seq<Vec>)
    requires root < |vs| && 0 < maxPacket
    requires forall r :: 0 <= r < |vs| ==> |vs[r]| == count
  {
    ChainSum(vs, root, count);
    1 <= k <= |vs| - 1 && rank == Walk(root, |vs|, k - 1)
    && msgs == Cut(SumAll(ChainVecs(vs, root)[..k], count), PacketSizes(count, maxPacket))
  }

  /** The relay at chain position `k` takes its part. */
  method ChainStep(vs: seq<Vec>, scratch: Vec, root: nat, count: nat, maxPacket: nat, k: nat, rank: int,
                   msgs: seq<Vec>)
    returns (rank1: int, msgs1: seq<Vec>)
    requires root < |vs| && 0 < maxPacket <= |scratch| && k < |vs| - 1
    requires forall r :: 0 <= r < |vs| ==> |vs[r]| == count
    requires ChainAt(vs, root, count, maxPacket, k, rank, msgs)
    ensures ChainAt(vs, root, count, maxPacket, k + 1, rank1, msgs1) == true
  {
    ghost var P := PacketSizes(count, maxPacket);
    ghost var c := ChainVecs(vs, root);
    ChainSum(vs, root, count);
    ChainNext(vs, root, k, rank);
    rank1 := Next(rank, root, |vs|);
    ghost var s := SumAll(c[..k], count);
    CutExact(s, P);
    var r := RelayRank(vs[rank1], scratch, msgs, count, maxPacket);
    assert vs[rank1][..count] == c[k];
    RelayedCut(s, c[k], P, r.value);
    assert c[..k + 1][..k] == c[..k];
    msgs1 := r.value;
  }

  /** The root at the end of the chain receives the pieces of the sum of
      all other chain vectors. */
  method ChainRoot(vs: seq<Vec>, rbuf: Vec, root: nat, count: nat, maxPacket: nat, rank: int, msgs: seq<Vec>)
    returns (res: Outcome<Vec>)
    requires root < |vs| && 0 < maxPacket && count <= |rbuf| && 2 <= |vs|
    requires forall r :: 0 <= r < |vs| ==> |vs[r]| == count
    requires ChainAt(vs, root, count, maxPacket, |vs| - 1, rank, msgs)
    ensures res == Done(SumAll(vs, count) + rbuf[count..])
  {
    ghost var P := PacketSizes(count, maxPacket);
    ghost var c := ChainVecs(vs, root);
    var k := |vs| - 1;
    ChainSum(vs, root, count);
    WalkAt(root, |vs|, k);
    ChainNext(vs, root, k, rank);
    var last := Next(rank, root, |vs|);
    ghost var s := SumAll(c[..k], count);
    CutExact(s, P);
    var r := RootRank(vs[last], rbuf, msgs, count, maxPacket);
    assert vs[last][..count] == c[k];
    assert msgs[..NPackets(count, maxPacket)] == msgs;
    AddEachCut(s, c[k], P);
    FlattenCut(Add(s, c[k]), P);
    assert r.value[..count] == Add(s, c[k]);
    SumAllLast(c, count);
    assert r.value == r.value[..count] + r.value[count..];
    res := r;
  }

  /** The chain vector at position `k` belongs to the rank one `next`
      below the rank at position `k - 1`. */
  lemma ChainNext(vs: seq<Vec>, root: nat, k: nat, rank: int)
    requires root < |vs| && 1 <= k < |vs| && rank == Walk(root, |vs|, k - 1)
    ensures Next(rank, root, |vs|) == Walk(root, |vs|, k)
    ensures 0 <= Next(rank, root, |vs|) < |vs| && ChainVecs(vs, root)[k] == vs[Next(rank, root, |vs|)]
  {
    ChainVecsAt(vs, root, k);
  }

  /** The whole run along the chain (MPI_Reduce_pipe_send_recv on every
      rank): a single process copies its vector; otherwise the first rank
      sends its pieces, every relay passes on the partial sums, and the
      root ends with the sum of all vectors in the first `count` elements
      of its receive buffer and the rest of the buffer untouched. */
  method SendRecvRun(vs: seq<Vec>, scratch: Vec, rbuf: Vec, root: nat, count: nat, maxPacket: nat)
    returns (res: Outcome<Vec>)
    requires root < |vs| && 0 < maxPacket <= |scratch| && count <= |rbuf|
    requires forall r :: 0 <= r < |vs| ==> |vs[r]| == count
    ensures res == Done(SumAll(vs, count) + rbuf[count..])
  {
    var size := |vs|;
    if size == 1 {
      SumAllSingle(vs[0], count);
      assert vs == [vs[0]];
      assert vs[0][..count] == SumAll(vs, count);
      return Done(vs[0][..count] + rbuf[count..]);
    }
    res := ChainRun(vs, scratch, rbuf, root, count, maxPacket);
  }

  /** Two or more processes: the first rank sends its pieces, every relay
      passes on the partial sums, and the root adds its own vector last. */
  method ChainRun(vs: seq<Vec>, scratch: Vec, rbuf: Vec, root: nat, count: nat, maxPacket: nat)
    returns (res: Outcome<Vec>)
    requires 2 <= |vs| && root < |vs| && 0 < maxPacket <= |scratch| && count <= |rbuf|
    requires forall r :: 0 <= r < |vs| ==> |vs[r]| == count
    ensures res == Done(SumAll(vs, count) + rbuf[count..])
  {
    var rank, msgs := ChainStart(vs, root, count, maxPacket);
    var k := 1;
    while k < |vs| - 1
      invariant ChainAt(vs, root, count, maxPacket, k, rank, msgs)
    {
      rank, msgs := ChainStep(vs, scratch, root, count, maxPacket, k, rank, msgs);
      k := k + 1;
    }
    res := ChainRoot(vs, rbuf, root, count, maxPacket, rank, msgs);
  }

  /** The first rank of the chain sends the pieces of its own vector. */
  method ChainStart(vs: seq<Vec>, root: nat, count: nat, maxPacket: nat) returns (rank: int, msgs: seq<Vec>)
    requires 2 <= |vs| && root < |vs| && 0 < maxPacket
    requires forall r :: 0 <= r < |vs| ==> |vs[r]| == count
    ensures ChainAt(vs, root, count, maxPacket, 1, rank, msgs) == true
  {
    ghost var c := ChainVecs(vs, root);
    ChainSum(vs, root, count);
    WalkAt(root, |vs|, 0);
    ChainVecsAt(vs, root, 0);
    rank := First(root, |vs|);
    msgs := SourceRank(vs[rank], count, maxPacket);
    assert vs[rank][..count] == c[0];
    assert c[..1] == [c[0]];
    SumAllSingle(c[0], count);
  }
}

=== FILE: sendrecv.dfy ===
/** MPI_Reduce_pipe_sendrecv (reduce/mpi_reduce_pipe_sendrecv.c): the
    double-buffered pipeline.

    The packets are the tiling of `Packets`.  A relay receives packet `i`
    into `buf0` while it sends packet `i - 1` from `buf1` in one
    MPI_Sendrecv, then adds its own slice to `buf0` and swaps the two
    buffers; one extra iteration with an empty packet sends the last packet.
    The first rank and the root act as in the blocking pipeline, skipping
    the extra iteration.  This module is the plain build; `PipeSendrecvRle`
    is the RLE build. */
module PipeSendrecv {
  import opened Vectors
  import opened Packets
  import opened Transport
  import opened PipeChain
  import opened PipeSendRecv
  import opened Arith

  /** The MPI calls of one relay iteration, with the pool slots (0 for
      `buf[0]`, 1 for `buf[1]`) they use. */
  datatype Op =
    | RecvOnly(into: nat)
    | SendRecv(from: nat, into: nat)
    | SendOnly(from: nat)

  /** The call a relay makes in iteration `k` of a run of `n` packets: the
      first iteration only receives, the middle ones send the previous
      packet and receive the next, the extra iteration only sends. */
  function Scheduled(k: nat, n: nat): Op
  {
    if k == 0 then RecvOnly(0)
    else if k < n then SendRecv((k - 1) % 2, k % 2)
    else SendOnly((k - 1) % 2)
  }

  /** In every iteration of the schedule the buffer sent from is the one
      the previous iteration received into, and it differs from the buffer
      received into now. */
  lemma ScheduleAlternates(n: nat, k: nat)
    requires 0 < k <= n
    ensures Scheduled(k - 1, n).into == Scheduled(k, n).from < 2
    ensures Scheduled(k, n).SendRecv? ==> Scheduled(k, n).from != Scheduled(k, n).into
    ensures k < n ==> Scheduled(k, n).SendRecv?
  {
    if k < n {
      DivModUnique(k - 1, 2, (k - 1) / 2, (k - 1) % 2);
      if (k - 1) % 2 == 0 {
        DivModUnique(k, 2, (k - 1) / 2, 1);
      } else {
        DivModUnique(k, 2, (k - 1) / 2 + 1, 0);
      }
    }
  }

  /** A relay between iterations: the loop variables, the two pool
      buffers, which of them is `buf0` and which `buf1`, where in `buf1`
      the packet waiting to be sent starts (the RLE build's rle_sendbuf; 0
      in the plain build), the packets sent so far and the calls made so
      far.  `T` is `real` in the plain build and `Token` in the RLE build. */
  datatype Relay<T> = Relay(done: nat, np: nat, i: nat, prev: nat, bufs: seq<seq<T>>, b0: nat, b1: nat, sw: nat,
                            outbox: seq<seq<T>>, ops: seq<Op>)

  /** A relay before its first iteration. */
  function Initial<T>(np: nat, bufs: seq<seq<T>>): Relay<T>
  {
    Relay(0, np, 0, 0, bufs, 0, 1, 0, [], [])
  }

  /** The packet waiting in `buf1`: the previous packet, ending at
      `prev_packet`. */
  function Pending<T>(st: Relay<T>): (p: seq<T>)
    requires st.b1 < |st.bufs| && st.sw <= st.prev <= |st.bufs[st.b1]|
    ensures |p| == st.prev - st.sw
  {
    st.bufs[st.b1][st.sw..st.prev]
  }

  /** The relay after an iteration that receives packet `i` into `buf0`
      (its call sends the waiting packet too, unless it is the first), once
      `buf0` holds `buf` and the next waiting packet starts at `sw`: the
      buffers swap. */
  function Received<T>(st: Relay<T>, current: nat, buf: seq<T>, sw: nat): (st1: Relay<T>)
    requires st.b0 < |st.bufs| && st.b1 < |st.bufs| && st.sw <= st.prev <= |st.bufs[st.b1]| && st.np > 0
  {
    var (b0, b1) := XSwap(st.b0, st.b1);
    Relay(st.done + current, st.np - 1, st.i + 1, current, st.bufs[st.b0 := buf], b0, b1, sw,
          if st.done > 0 then st.outbox + [Pending(st)] else st.outbox,
          st.ops + [if st.done > 0 then SendRecv(st.b1, st.b0) else RecvOnly(st.b0)])
  }

  /** The relay after the extra iteration: the waiting packet goes out
      and the buffers swap. */
  function Drained<T>(st: Relay<T>): (st1: Relay<T>)
    requires st.b1 < |st.bufs| && st.sw <= st.prev <= |st.bufs[st.b1]|
  {
    var (b0, b1) := XSwap(st.b0, st.b1);
    Relay(st.done, st.np, st.i, 0, st.bufs, b0, b1, 0, st.outbox + [Pending(st)], st.ops + [SendOnly(st.b1)])
  }

  /** Where a relay stands, whatever its build: its position in the
      tiling, its counts, its buffers and the calls it made. */
  ghost predicate Progress<T>(inbox: seq<seq<T>>, count: nat, maxPacket: nat, st: Relay<T>)
    requires 0 < maxPacket
  {
    Position(count, maxPacket, st.done, st.np, st.i)
    && Counted(PacketSizes(count, maxPacket), inbox, count, maxPacket, st)
    && Buffered(st, maxPacket)
    && OnSchedule(st.ops, |PacketSizes(count, maxPacket)|)
  }

  /** Every message so far fit its receive.  While a packet waits in
      `buf1` (`prev > 0`) the relay has sent all but the last received
      packet and made one call per packet; once it is drained, after the
      extra iteration, it has sent them all. */
  ghost predicate Counted<T>(P: seq<nat>, inbox: seq<seq<T>>, count: nat, maxPacket: nat, st: Relay<T>)
  {
    st.i <= |inbox| && st.i <= |P| && Fits(inbox[..st.i], P[..st.i])
    && (st.i == 0 <==> st.done == 0) && |st.outbox| <= st.i
    && (st.prev == 0 ==> |st.outbox| == st.i && (st.i == 0 || st.done == count)
                         && |st.ops| == (if st.i == 0 then 0 else st.i + 1))
    && (st.prev > 0 ==> 0 < st.i && |st.outbox| == st.i - 1 && st.prev == P[st.i - 1] <= maxPacket
                        && |st.ops| == st.i)
  }

  /** `buf0` and `buf1` are the two different pool buffers, they swap once
      per iteration, and the waiting packet lies in `buf1`. */
  ghost predicate Buffered<T>(st: Relay<T>, maxPacket: nat)
  {
    |st.bufs| == 2 && |st.bufs[0]| >= maxPacket && |st.bufs[1]| >= maxPacket
    && st.b0 == |st.ops| % 2 && st.b1 == 1 - st.b0 && st.sw <= st.prev <= maxPacket
  }

  /** Both `buf0` and `buf1` have room for a packet. */
  lemma BufferedRoom<T>(st: Relay<T>, maxPacket: nat)
    requires Buffered(st, maxPacket)
    ensures st.b0 < 2 && st.b1 < 2 && |st.bufs[st.b0]| >= maxPacket && |st.bufs[st.b1]| >= maxPacket
  {
  }

  /** The calls made so far follow the schedule. */
  ghost predicate OnSchedule(ops: seq<Op>, n: nat)
  {
    forall k :: 0 <= k < |ops| ==> ops[k] == Scheduled(k, n)
  }

  /** What the relay loop still has to do: two units per packet left, one
      for the packet waiting in `buf1`. */
  function Work<T>(st: Relay<T>): nat
  {
    2 * st.np + (if st.prev > 0 then 1 else 0)
  }

  /** The relay loop starts on schedule. */
  lemma InitialProgress<T>(inbox: seq<seq<T>>, count: nat, maxPacket: nat, bufs: seq<seq<T>>)
    requires 0 < maxPacket && |bufs| == 2 && |bufs[0]| >= maxPacket && |bufs[1]| >= maxPacket
    ensures Progress(inbox, count, maxPacket, Initial(NPackets(count, maxPacket), bufs))
  {
    PositionStart(count, maxPacket);
  }

  /** A receiving iteration can run: packets are left and the message of
      packet `i` has arrived and fit. */
  ghost predicate Receivable<T>(inbox: seq<seq<T>>, count: nat, maxPacket: nat, st: Relay<T>, current: nat)
    requires 0 < maxPacket
  {
    Progress(inbox, count, maxPacket, st) && 0 < st.np && st.done < count && st.i < |inbox|
    && st.i < |PacketSizes(count, maxPacket)| && current == PacketSizes(count, maxPacket)[st.i] <= maxPacket
    && st.done + current <= count && |inbox[st.i]| <= current
  }

  /** A receiving iteration keeps the relay on track, whatever `buf0` ends
      up holding. */
  lemma ReceivedProgress<T>(inbox: seq<seq<T>>, count: nat, maxPacket: nat, st: Relay<T>, current: nat, buf: seq<T>,
                            sw: nat, st1: Relay<T>)
    requires 0 < maxPacket && Receivable(inbox, count, maxPacket, st, current)
    requires |buf| >= maxPacket && sw <= current && st1 == Received(st, current, buf, sw)
    ensures Progress(inbox, count, maxPacket, st1) && Work(st1) < Work(st)
  {
    ghost var P := PacketSizes(count, maxPacket);
    PositionNext(count, maxPacket, st.done, st.np, st.i);
    CountedNext(P, inbox, count, maxPacket, st, st1);
    ParityNext(|st.ops|);
    ScheduleNext(st.ops, |P|, st.i, st.done, st.b0, st.b1, st1.ops);
  }

  lemma CountedNext<T>(P: seq<nat>, inbox: seq<seq<T>>, count: nat, maxPacket: nat, st: Relay<T>, st1: Relay<T>)
    requires Counted(P, inbox, count, maxPacket, st) && st.done < count && st.i < |inbox| && st.i < |P|
    requires 1 <= P[st.i] <= maxPacket && |inbox[st.i]| <= P[st.i]
    requires st1.done == st.done + P[st.i] <= count && st1.i == st.i + 1 && st1.prev == P[st.i]
    requires |st1.outbox| == (if st.done > 0 then |st.outbox| + 1 else |st.outbox|)
    requires |st1.ops| == |st.ops| + 1
    ensures Counted(P, inbox, count, maxPacket, st1)
  {
    PrefixSnoc(inbox, P, st.i);
  }

  lemma ScheduleNext(ops: seq<Op>, n: nat, i: nat, done: nat, b0: nat, b1: nat, ops1: seq<Op>)
    requires OnSchedule(ops, n) && i < n && b0 == |ops| % 2 && b1 == 1 - b0
    requires i == 0 ==> |ops| == 0
    requires i > 0 ==> |ops| == i
    requires done > 0 <==> i > 0
    requires ops1 == ops + [if done > 0 then SendRecv(b1, b0) else RecvOnly(b0)]
    ensures OnSchedule(ops1, n)
  {
    ParityNext(|ops|);
  }

  /** The extra iteration keeps the relay on track. */
  lemma DrainedProgress<T>(inbox: seq<seq<T>>, count: nat, maxPacket: nat, st: Relay<T>)
    requires 0 < maxPacket && Progress(inbox, count, maxPacket, st) && st.np == 0 && st.prev > 0
    ensures Progress(inbox, count, maxPacket, Drained(st)) && Work(Drained(st)) < Work(st)
  {
    PositionLeft(count, maxPacket, st.done, st.np, st.i);
    ParityNext(|st.ops|);
    assert Scheduled(st.i, |PacketSizes(count, maxPacket)|) == SendOnly(st.b1);
  }

  /** The relay of the plain build after `i` received packets: on track,
      and what it sent is `Relayed` against its own pieces. */
  ghost predicate RelayAt(sbuf: Vec, inbox: seq<Vec>, count: nat, maxPacket: nat, st: Relay<real>)
    requires 0 < maxPacket && count <= |sbuf|
  {
    Progress(inbox, count, maxPacket, st) && Sent(inbox, Cut(sbuf[..count], PacketSizes(count, maxPacket)), st)
  }

  /** The packets sent so far, followed by the one waiting in `buf1`, are
      `Relayed` against the own pieces. */
  ghost predicate Sent(inbox: seq<Vec>, pieces: seq<Vec>, st: Relay<real>)
  {
    |st.outbox| <= |inbox| && |st.outbox| <= |pieces| && Relayed(inbox, pieces, st.outbox)
    && (st.prev > 0 ==> |st.outbox| < |inbox| && |st.outbox| < |pieces| && st.b1 < |st.bufs|
                        && st.sw <= st.prev <= |st.bufs[st.b1]|
                        && Relayed(inbox, pieces, st.outbox + [Pending(st)]))
  }

  /** The plain iteration that receives: `buf0` holds the message plus
      the own slice (reduce_op_2), and it becomes the waiting packet. */
  function ReceiveIteration(sbuf: Vec, st: Relay<real>, current: nat, got: Vec): Relay<real>
    requires st.b0 < |st.bufs| && st.b1 < |st.bufs| && st.sw <= st.prev <= |st.bufs[st.b1]| && st.np > 0
    requires current <= |got| && st.done + current <= |sbuf|
  {
    Received(st, current, Add(got[..current], sbuf[st.done..st.done + current]) + got[current..], 0)
  }

  /** A plain iteration with a packet to receive can run: the message of
      packet `i` has arrived in `got`, which is as long as `buf0`. */
  ghost predicate ReceiveReady(sbuf: Vec, inbox: seq<Vec>, count: nat, maxPacket: nat, st: Relay<real>, current: nat,
                               got: Vec)
    requires 0 < maxPacket && count <= |sbuf|
  {
    Receivable(inbox, count, maxPacket, st, current)
    && Sent(inbox, Cut(sbuf[..count], PacketSizes(count, maxPacket)), st)
    && |got| == |st.bufs[st.b0]| && current <= |got| && got[..|inbox[st.i]|] == inbox[st.i]
  }

  /** A plain iteration with a packet to receive, once its message has
      arrived in `got`. */
  method RelayReceiveStep(sbuf: Vec, inbox: seq<Vec>, count: nat, maxPacket: nat, st: Relay<real>, current: nat,
                          got: Vec)
    returns (st1: Relay<real>)
    requires 0 < maxPacket && count <= |sbuf| && ReceiveReady(sbuf, inbox, count, maxPacket, st, current, got)
    ensures RelayAt(sbuf, inbox, count, maxPacket, st1) == true && Work(st1) < Work(st)
  {
    ghost var pieces := Cut(sbuf[..count], PacketSizes(count, maxPacket));
    CutAtPosition(sbuf[..count], count, maxPacket, st.done, st.np, st.i);
    ghost var piece := sbuf[st.done..st.done + current];
    assert pieces[st.i] == piece;
    var buf := Add(got[..current], sbuf[st.done..st.done + current]) + got[current..];
    st1 := Received(st, current, buf, 0);
    ReceivedProgress(inbox, count, maxPacket, st, current, buf, 0, st1);
    SentNext(inbox, pieces, st, piece, got, st1);
  }

  /** One more packet received and added to the own piece keeps what was
      sent `Relayed`. */
  lemma SentNext(inbox: seq<Vec>, pieces: seq<Vec>, st: Relay<real>, piece: Vec, got: Vec, st1: Relay<real>)
    requires Sent(inbox, pieces, st) && st.i < |inbox| && st.i < |pieces| && pieces[st.i] == piece
    requires (st.done > 0 <==> st.prev > 0) && |st.outbox| == (if st.prev > 0 then st.i - 1 else st.i)
    requires st.b0 < |st.bufs| && st.b1 < |st.bufs| && st.sw <= st.prev <= |st.bufs[st.b1]| && st.np > 0
    requires |inbox[st.i]| <= |piece| <= |got| && got[..|inbox[st.i]|] == inbox[st.i]
    requires st1 == Received(st, |piece|, Add(got[..|piece|], piece) + got[|piece|..], 0)
    ensures Sent(inbox, pieces, st1)
  {
    var packet := Pending(st1);
    assert packet == Add(got[..|piece|], piece);
    assert |inbox[st.i]| == |piece| ==> got[..|piece|] == inbox[st.i];
    RelayedSnoc(inbox, pieces, st1.outbox, packet);
  }

  /** The parity of the next iteration is the other one. */
  lemma ParityNext(m: nat)
    ensures (m + 1) % 2 == 1 - m % 2 && m % 2 < 2
    ensures 0 < m ==> (m - 1) % 2 == 1 - m % 2
  {
    DivModUnique(m, 2, m / 2, m % 2);
    if m % 2 == 0 {
      DivModUnique(m + 1, 2, m / 2, 1);
      if 0 < m {
        DivModUnique(m - 1, 2, m / 2 - 1, 1);
      }
    } else {
      DivModUnique(m + 1, 2, m / 2 + 1, 0);
      DivModUnique(m - 1, 2, m / 2, 0);
    }
  }

  /** The extra iteration: nothing left to receive, send the packet
      waiting in `buf1` and swap the buffers. */
  method RelayDrainStep(sbuf: Vec, inbox: seq<Vec>, count: nat, maxPacket: nat, st: Relay<real>)
    returns (st1: Relay<real>)
    requires 0 < maxPacket && count <= |sbuf| && RelayAt(sbuf, inbox, count, maxPacket, st)
    requires st.np == 0 && st.prev > 0
    ensures RelayAt(sbuf, inbox, count, maxPacket, st1) == true && Work(st1) < Work(st)
  {
    st1 := Drained(st);
    DrainedProgress(inbox, count, maxPacket, st);
  }

  /** One iteration of the relay loop: the extra iteration once no packet
      is left, otherwise a receive, which blocks past the last message and
      fails on a message longer than the packet. */
  method RelayIteration(sbuf: Vec, inbox: seq<Vec>, count: nat, maxPacket: nat, st: Relay<real>)
    returns (res: Outcome<Relay<real>>)
    requires 0 < maxPacket && count <= |sbuf| && RelayAt(sbuf, inbox, count, maxPacket, st)
    requires st.done < count || st.prev > 0
    ensures !res.Overrun?
    ensures res.Done? ==> RelayAt(sbuf, inbox, count, maxPacket, res.value) == true && Work(res.value) < Work(st)
    ensures res.Blocked? ==> !Fits(inbox, PacketSizes(count, maxPacket)) && !TooLong(inbox, PacketSizes(count, maxPacket))
    ensures res.Truncated? ==> TooLong(inbox, PacketSizes(count, maxPacket)) && !Fits(inbox, PacketSizes(count, maxPacket))
  {
    ghost var P := PacketSizes(count, maxPacket);
    PositionLeft(count, maxPacket, st.done, st.np, st.i);
    if st.np == 0 {
      var st1 := RelayDrainStep(sbuf, inbox, count, maxPacket, st);
      return Done(st1);
    }
    PositionStep(count, maxPacket, st.done, st.np, st.i);
    var current := (count - st.done) / st.np;
    if st.i == |inbox| {
      BlockedAt(inbox, P);
      return Blocked;
    }
    var got := Receive(st.bufs[st.b0], 0, current, inbox[st.i]);
    if got.Truncated? {
      TruncatedAt(inbox, P, st.i);
      return Truncated;
    }
    var st1 := RelayReceiveStep(sbuf, inbox, count, maxPacket, st, current, got.value);
    return Done(st1);
  }

  /** A relay of the plain build.  It finishes exactly when every message
      fits its receive, and then it has sent one packet per received one,
      in order: packet `j` has the size of packet `j` of the tiling and an
      exact message comes back out with the own slice added.  Its calls
      follow the schedule, one iteration more than there are packets. */
  method SendrecvRelay(sbuf: Vec, bufs: seq<Vec>, inbox: seq<Vec>, count: nat, maxPacket: nat)
    returns (res: Outcome<seq<Vec>>, ops: seq<Op>)
    requires 0 < maxPacket && count <= |sbuf|
    requires |bufs| == 2 && |bufs[0]| >= maxPacket && |bufs[1]| >= maxPacket
    ensures res.Done? <==> Fits(inbox, PacketSizes(count, maxPacket))
    ensures res.Truncated? <==> TooLong(inbox, PacketSizes(count, maxPacket))
    ensures res.Done? ==> |res.value| == NPackets(count, maxPacket)
    ensures res.Done? ==> Relayed(inbox, Cut(sbuf[..count], PacketSizes(count, maxPacket)), res.value)
    ensures res.Done? ==> |ops| == (if count == 0 then 0 else NPackets(count, maxPacket) + 1)
    ensures res.Done? ==> forall k :: 0 <= k < |ops| ==> ops[k] == Scheduled(k, NPackets(count, maxPacket))
  {
    var st := Initial(NPackets(count, maxPacket), bufs);
    InitialProgress(inbox, count, maxPacket, bufs);
    while st.done < count || st.prev > 0
      invariant RelayAt(sbuf, inbox, count, maxPacket, st)
      decreases Work(st)
    {
      var r := RelayIteration(sbuf, inbox, count, maxPacket, st);
      if r.Blocked? {
        return Blocked, st.ops;
      } else if r.Truncated? {
        return Truncated, st.ops;
      }
      st := r.value;
    }
    RelayEnd(sbuf, inbox, count, maxPacket, st);
    res, ops := Done(st.outbox), st.ops;
  }

  /** After the loop every packet has been received and sent. */
  lemma RelayEnd(sbuf: Vec, inbox: seq<Vec>, count: nat, maxPacket: nat, st: Relay<real>)
    requires 0 < maxPacket && count <= |sbuf| && RelayAt(sbuf, inbox, count, maxPacket, st)
    requires st.done >= count && st.prev == 0
    ensures Fits(inbox, PacketSizes(count, maxPacket)) && !TooLong(inbox, PacketSizes(count, maxPacket))
    ensures |st.outbox| == NPackets(count, maxPacket) <= |inbox|
    ensures Relayed(inbox, Cut(sbuf[..count], PacketSizes(count, maxPacket)), st.outbox)
    ensures |st.ops| == (if count == 0 then 0 else NPackets(count, maxPacket) + 1)
    ensures forall k :: 0 <= k < |st.ops| ==> st.ops[k] == Scheduled(k, NPackets(count, maxPacket))
  {
    ghost var P := PacketSizes(count, maxPacket);
    PositionEnd(count, maxPacket, st.done, st.np, st.i);
    assert P[..st.i] == P;
    FitsAll(inbox, P);
  }

  /** The relay at chain position `k`, double-buffered, takes its part:
      fed the pieces of the partial sum, it passes on the pieces of the
      partial sum with its own vector added. */
  method SendrecvChainStep(vs: seq<Vec>, pool: seq<Vec>, root: nat, count: nat, maxPacket: nat, k: nat, rank: int,
                           msgs: seq<Vec>)
    returns (rank1: int, msgs1: seq<Vec>)
    requires root < |vs| && 0 < maxPacket && k < |vs| - 1
    requires |pool| == 2 && |pool[0]| >= maxPacket && |pool[1]| >= maxPacket
    requires forall r :: 0 <= r < |vs| ==> |vs[r]| == count
    requires ChainAt(vs, root, count, maxPacket, k, rank, msgs)
    ensures ChainAt(vs, root, count, maxPacket, k + 1, rank1, msgs1) == true
  {
    ghost var P := PacketSizes(count, maxPacket);
    ghost var c := ChainVecs(vs, root);
    ChainSum(vs, root, count);
    ChainNext(vs, root, k, rank);
    rank1 := Next(rank, root, |vs|);
    ghost var s := SumAll(c[..k], count);
    CutExact(s, P);
    var r, _ := SendrecvRelay(vs[rank1], pool, msgs, count, maxPacket);
    assert vs[rank1][..count] == c[k];
    RelayedCut(s, c[k], P, r.value);
    assert c[..k + 1][..k] == c[..k];
    msgs1 := r.value;
  }

  /** The whole run along the chain (MPI_Reduce_pipe_sendrecv on every
      rank): a single process copies its vector; otherwise the first rank
      sends its pieces, every relay passes on the partial sums through its
      two pool buffers, and the root ends with the sum of all vectors in
      the first `count` elements of its receive buffer and the rest of the
      buffer untouched.  The first rank and the root make no call in the
      extra iteration (their packet is empty), so they act as in
      `PipeSendRecv`. */
  method SendrecvRun(vs: seq<Vec>, pool: seq<Vec>, rbuf: Vec, root: nat, count: nat, maxPacket: nat)
    returns (res: Outcome<Vec>)
    requires root < |vs| && 0 < maxPacket && count <= |rbuf|
    requires |pool| == 2 && |pool[0]| >= maxPacket && |pool[1]| >= maxPacket
    requires forall r :: 0 <= r < |vs| ==> |vs[r]| == count
    ensures res == Done(SumAll(vs, count) + rbuf[count..])
  {
    if |vs| == 1 {
      SumAllSingle(vs[0], count);
      assert vs == [vs[0]];
      assert vs[0][..count] == SumAll(vs, count);
      return Done(vs[0][..count] + rbuf[count..]);
    }
    var rank, msgs := ChainStart(vs, root, count, maxPacket);
    var k := 1;
    while k < |vs| - 1
      invariant ChainAt(vs, root, count, maxPacket, k, rank, msgs)
    {
      rank, msgs := SendrecvChainStep(vs, pool, root, count, maxPacket, k, rank, msgs);
      k := k + 1;
    }
    res := ChainRoot(vs, rbuf, root, count, maxPacket, rank, msgs);
  }
}

=== FILE: sendrecv_rle.dfy ===
/** MPI_Reduce_pipe_sendrecv in the RLE build (reduce/mpi_reduce_pipe_sendrecv.c
    under `RLE`).

    The messages between relays are zero run-length tokens.  A relay
    receives at most `current_packet` tokens into `buf0`, merges its own
    slice into them with cf_uc_add2_cb, which writes its result backwards
    into `buf0[..current_packet]` and leaves `rle_sendbuf` pointing at its
    start, and sends that result in the next call, after the swap, from
    `buf1`.  The first rank sends its slices dense, which read as tokens
    are all literals; the root receives the tokens into the receive buffer
    at the packet's offset and expands them there with cf_uc_add2_ub.  The
    RLE_FIRST variant, where the first rank compresses, is not modelled. */
module PipeSendrecvRle {
  import opened Vectors
  import opened Packets
  import opened Transport
  import opened PipeChain
  import opened PipeSendRecv
  import opened PipeSendrecv
  import opened Tokens
  import opened RleAdd

  /** Every message is a token sequence with positive runs that decodes
      to exactly its packet's size, as every writer in the chain
      guarantees. */
  ghost predicate WellEncoded(inbox: seq<seq<Token>>, sizes: seq<nat>)
  {
    forall j :: 0 <= j < |inbox| && j < |sizes| ==> EncodedAt(inbox, sizes, j)
  }

  /** Message `j` has positive runs and decodes to packet `j`'s size. */
  ghost predicate EncodedAt(inbox: seq<seq<Token>>, sizes: seq<nat>, j: nat)
    requires j < |inbox| && j < |sizes|
  {
    PositiveRuns(inbox[j]) && |Decode(inbox[j])| == sizes[j]
  }

  /** The dense packets the messages stand for. */
  function DecodeEach(msgs: seq<seq<Token>>): (ds: seq<Vec>)
    ensures |ds| == |msgs|
    ensures forall j :: 0 <= j < |msgs| ==> ds[j] == Decode(msgs[j])
  {
    seq(|msgs|, j requires 0 <= j < |msgs| => Decode(msgs[j]))
  }

  /** A well-encoded message is never longer than its receive: a relay of
      the RLE build cannot fail on truncation. */
  lemma WellEncodedFits(inbox: seq<seq<Token>>, sizes: seq<nat>, j: nat)
    requires WellEncoded(inbox, sizes) && j < |inbox| && j < |sizes|
    ensures PositiveRuns(inbox[j]) && |Decode(inbox[j])| == sizes[j]
    ensures |inbox[j]| <= sizes[j]
  {
    assert EncodedAt(inbox, sizes, j);
    PositiveRunsShorter(inbox[j]);
  }

  /** Packet `j` that a relay sends is cb's merge of message `j` with its
      own piece `j`. */
  ghost predicate MergedInto(inbox: seq<seq<Token>>, pieces: seq<Vec>, outbox: seq<seq<Token>>)
  {
    |outbox| <= |inbox| && |outbox| <= |pieces|
    && forall j :: 0 <= j < |outbox| ==> MergedAt(inbox, pieces, outbox, j)
  }

  /** Packet `j` sent is cb's merge of message `j` with piece `j`. */
  ghost predicate MergedAt(inbox: seq<seq<Token>>, pieces: seq<Vec>, outbox: seq<seq<Token>>, j: nat)
    requires j < |inbox| && j < |pieces| && j < |outbox|
  {
    |Decode(inbox[j])| == |pieces[j]| && outbox[j] == MergeCb(inbox[j], pieces[j])
  }

  /** The merges a relay is to send: packet `j` is cb's merge of message
      `j` with own piece `j`, for every message that has a piece. */
  ghost function Merges(inbox: seq<seq<Token>>, pieces: seq<Vec>): (ms: seq<seq<Token>>)
    requires forall j :: 0 <= j < |inbox| && j < |pieces| ==> |Decode(inbox[j])| == |pieces[j]|
    ensures |ms| == if |inbox| < |pieces| then |inbox| else |pieces|
    ensures MergedInto(inbox, pieces, ms)
  {
    var n := if |inbox| < |pieces| then |inbox| else |pieces|;
    seq(n, j requires 0 <= j < n => MergeCb(inbox[j], pieces[j]))
  }

  /** The packets sent so far, followed by the one waiting in `buf1` at
      rle_sendbuf, are the first of the merges `ms`. */
  ghost predicate Merged(ms: seq<seq<Token>>, st: Relay<Token>)
  {
    |st.outbox| <= |ms| && st.outbox == ms[..|st.outbox|]
    && (st.prev > 0 ==> |st.outbox| < |ms| && st.b1 < |st.bufs| && st.sw <= st.prev <= |st.bufs[st.b1]|
                        && Pending(st) == ms[|st.outbox|])
  }

  /** The relay of the RLE build after `i` received packets, against the
      merges `ms` it is to send. */
  ghost predicate RleRelayAt(inbox: seq<seq<Token>>, count: nat, maxPacket: nat, ms: seq<seq<Token>>, st: Relay<Token>)
    requires 0 < maxPacket
  {
    Progress(inbox, count, maxPacket, st) && Merged(ms, st)
  }

  /** An RLE iteration with a packet to receive can run, and the merge
      of its message with the own slice `own` is the next packet due. */
  ghost predicate RleReceiveReady(inbox: seq<seq<Token>>, count: nat, maxPacket: nat, ms: seq<seq<Token>>,
                                  st: Relay<Token>, current: nat, own: Vec)
    requires 0 < maxPacket
  {
    Receivable(inbox, count, maxPacket, st, current) && Merged(ms, st)
    && PositiveRuns(inbox[st.i]) && |Decode(inbox[st.i])| == current == |own|
    && st.i < |ms| && ms[st.i] == MergeCb(inbox[st.i], own)
  }

  /** An RLE iteration with a packet to receive: at most `current_packet`
      tokens into `buf0`, then cb. */
  method RleReceive(inbox: seq<seq<Token>>, count: nat, maxPacket: nat, ghost ms: seq<seq<Token>>,
                    st: Relay<Token>, current: nat, own: Vec)
    returns (st1: Relay<Token>)
    requires 0 < maxPacket && RleReceiveReady(inbox, count, maxPacket, ms, st, current, own)
    ensures RleRelayAt(inbox, count, maxPacket, ms, st1) == true && Work(st1) < Work(st)
  {
    BufferedRoom(st, maxPacket);
    var got := Receive(st.bufs[st.b0], 0, current, inbox[st.i]);
    var buf, w;
    buf, w, st1 := CbIteration(st, inbox[st.i], own, got.value);
    ReceivedProgress(inbox, count, maxPacket, st, current, buf, w, st1);
    MergedNext(ms, st, current, buf, w, st1);
  }

  /** The receiving iteration of an RLE relay once the tokens `msg` of
      its packet have arrived at the front of `got`: cb merges the own
      slice into `buf0[..current_packet]`, writing backwards, and its
      result, from rle_sendbuf (`w`) to `current_packet`, becomes the
      waiting packet. */
  method CbIteration(st: Relay<Token>, msg: seq<Token>, own: Vec, got: seq<Token>)
    returns (buf: seq<Token>, w: nat, st1: Relay<Token>)
    requires st.b0 < |st.bufs| && st.b1 < |st.bufs| && st.sw <= st.prev <= |st.bufs[st.b1]| && st.np > 0
    requires |msg| <= |own| <= |got| && got[..|msg|] == msg
    requires PositiveRuns(msg) && |Decode(msg)| == |own|
    ensures |buf| == |got| && w <= |own| && st1 == Received(st, |own|, buf, w)
    ensures Pending(st1) == MergeCb(msg, own)
  {
    var window := got[..|own|];
    assert window[..|msg|] == msg;
    var b;
    b, w := CfUcAdd2Cb(window, |msg|, own);
    buf := b + got[|own|..];
    st1 := Received(st, |own|, buf, w);
    assert Pending(st1) == b[w..];
  }

  /** One more packet merged keeps what was sent the first merges. */
  lemma MergedNext(ms: seq<seq<Token>>, st: Relay<Token>, current: nat, buf: seq<Token>, w: nat, st1: Relay<Token>)
    requires Merged(ms, st) && st.i < |ms| && (st.done > 0 <==> st.prev > 0)
    requires |st.outbox| == (if st.prev > 0 then st.i - 1 else st.i)
    requires st.b0 < |st.bufs| && st.b1 < |st.bufs| && st.sw <= st.prev <= |st.bufs[st.b1]| && st.np > 0
    requires w <= current <= |buf| && 0 < current
    requires st1 == Received(st, current, buf, w) && Pending(st1) == ms[st.i]
    ensures Merged(ms, st1)
  {
    if st.prev > 0 {
      assert st1.outbox == ms[..st.i - 1] + [ms[st.i - 1]] == ms[..st.i];
    }
  }

  /** The extra iteration of the RLE build: send the waiting packet from
      rle_sendbuf and swap the buffers. */
  method RleDrainStep(inbox: seq<seq<Token>>, count: nat, maxPacket: nat, ghost ms: seq<seq<Token>>,
                      st: Relay<Token>)
    returns (st1: Relay<Token>)
    requires 0 < maxPacket && RleRelayAt(inbox, count, maxPacket, ms, st)
    requires st.np == 0 && st.prev > 0
    ensures RleRelayAt(inbox, count, maxPacket, ms, st1) == true && Work(st1) < Work(st)
  {
    st1 := Drained(st);
    DrainedProgress(inbox, count, maxPacket, st);
    assert st1.outbox == ms[..|st.outbox|] + [ms[|st.outbox|]] == ms[..|st1.outbox|];
  }

  /** One iteration of the RLE relay loop: the extra iteration once no
      packet is left, otherwise a receive, which blocks past the last
      message. */
  method RleRelayIteration(sbuf: Vec, inbox: seq<seq<Token>>, count: nat, maxPacket: nat,
                           ghost ms: seq<seq<Token>>, st: Relay<Token>)
    returns (res: Outcome<Relay<Token>>)
    requires 0 < maxPacket && count <= |sbuf| && RleRelayAt(inbox, count, maxPacket, ms, st)
    requires WellEncoded(inbox, PacketSizes(count, maxPacket))
    requires |ms| == if |inbox| < NPackets(count, maxPacket) then |inbox| else NPackets(count, maxPacket)
    requires MergedInto(inbox, Cut(sbuf[..count], PacketSizes(count, maxPacket)), ms)
    requires st.done < count || st.prev > 0
    ensures !res.Truncated? && !res.Overrun?
    ensures res.Done? ==> RleRelayAt(inbox, count, maxPacket, ms, res.value) == true && Work(res.value) < Work(st)
    ensures res.Blocked? ==> |inbox| < NPackets(count, maxPacket)
  {
    PositionLeft(count, maxPacket, st.done, st.np, st.i);
    if st.np == 0 {
      var st1 := RleDrainStep(inbox, count, maxPacket, ms, st);
      return Done(st1);
    }
    if st.i == |inbox| {
      return Blocked;
    }
    var current, own := RlePacket(sbuf, inbox, count, maxPacket, ms, st);
    var st1 := RleReceive(inbox, count, maxPacket, ms, st, current, own);
    return Done(st1);
  }

  /** The size of the next packet, `(count - done) / np`, and the own
      slice it covers; the message due is well encoded to that size and its
      merge with the slice is the next of `ms`. */
  method RlePacket(sbuf: Vec, inbox: seq<seq<Token>>, count: nat, maxPacket: nat, ghost ms: seq<seq<Token>>,
                   st: Relay<Token>)
    returns (current: nat, own: Vec)
    requires 0 < maxPacket && count <= |sbuf| && RleRelayAt(inbox, count, maxPacket, ms, st)
    requires WellEncoded(inbox, PacketSizes(count, maxPacket))
    requires |ms| == if |inbox| < NPackets(count, maxPacket) then |inbox| else NPackets(count, maxPacket)
    requires MergedInto(inbox, Cut(sbuf[..count], PacketSizes(count, maxPacket)), ms)
    requires st.done < count && 0 < st.np && st.i < |inbox|
    ensures RleReceiveReady(inbox, count, maxPacket, ms, st, current, own) == true
  {
    ghost var P := PacketSizes(count, maxPacket);
    current := NextPacket(count, maxPacket, st.done, st.np, st.i);
    WellEncodedFits(inbox, P, st.i);
    MergeAt(sbuf, inbox, count, P, ms, st.done, st.i);
    own := sbuf[st.done..st.done + current];
  }

  /** Merge `i` is that of message `i` with the own slice where packet
      `i` starts. */
  lemma MergeAt(sbuf: Vec, inbox: seq<seq<Token>>, count: nat, P: seq<nat>, ms: seq<seq<Token>>, done: nat, i: nat)
    requires count <= |sbuf| && Total(P) == count && i < |P| && Start(P, i) == done
    requires i < |inbox| && i < |ms| && MergedInto(inbox, Cut(sbuf[..count], P), ms)
    ensures done + P[i] <= count && |Decode(inbox[i])| == P[i]
    ensures ms[i] == MergeCb(inbox[i], sbuf[done..done + P[i]])
  {
    PieceAt(sbuf, count, P, i, done);
    assert MergedAt(inbox, Cut(sbuf[..count], P), ms, i);
  }

  /** A relay of the RLE build.  With well-encoded messages it never fails
      on truncation and finishes exactly when a message arrives for every
      packet; then it has sent, in order, cb's merge of each message with
      its own piece, and its calls follow the same schedule as in the
      plain build. */
  method RleSendrecvRelay(sbuf: Vec, bufs: seq<seq<Token>>, inbox: seq<seq<Token>>, count: nat, maxPacket: nat)
    returns (res: Outcome<seq<seq<Token>>>, ops: seq<Op>)
    requires 0 < maxPacket && count <= |sbuf|
    requires |bufs| == 2 && |bufs[0]| >= maxPacket && |bufs[1]| >= maxPacket
    requires WellEncoded(inbox, PacketSizes(count, maxPacket))
    ensures !res.Truncated?
    ensures res.Done? <==> |inbox| >= NPackets(count, maxPacket)
    ensures res.Done? ==> |res.value| == NPackets(count, maxPacket)
    ensures res.Done? ==> MergedInto(inbox, Cut(sbuf[..count], PacketSizes(count, maxPacket)), res.value)
    ensures res.Done? ==> |ops| == (if count == 0 then 0 else NPackets(count, maxPacket) + 1)
    ensures res.Done? ==> forall k :: 0 <= k < |ops| ==> ops[k] == Scheduled(k, NPackets(count, maxPacket))
  {
    ghost var pieces := Cut(sbuf[..count], PacketSizes(count, maxPacket));
    WellEncodedMerges(inbox, PacketSizes(count, maxPacket), pieces);
    ghost var ms := Merges(inbox, pieces);
    var st := Initial(NPackets(count, maxPacket), bufs);
    InitialProgress(inbox, count, maxPacket, bufs);
    while st.done < count || st.prev > 0
      invariant RleRelayAt(inbox, count, maxPacket, ms, st)
      decreases Work(st)
    {
      var r := RleRelayIteration(sbuf, inbox, count, maxPacket, ms, st);
      if !r.Done? {
        return Blocked, st.ops;
      }
      st := r.value;
    }
    RleRelayEnd(inbox, pieces, count, maxPacket, ms, st);
    res, ops := Done(st.outbox), st.ops;
  }

  /** Well-encoded messages decode to the sizes of the pieces of a tiling. */
  lemma WellEncodedMerges(inbox: seq<seq<Token>>, sizes: seq<nat>, pieces: seq<Vec>)
    requires WellEncoded(inbox, sizes) && |pieces| == |sizes|
    requires forall j :: 0 <= j < |pieces| ==> |pieces[j]| == sizes[j]
    ensures forall j :: 0 <= j < |inbox| && j < |pieces| ==> |Decode(inbox[j])| == |pieces[j]|
  {
    forall j | 0 <= j < |inbox| && j < |pieces|
      ensures |Decode(inbox[j])| == |pieces[j]|
    {
      assert EncodedAt(inbox, sizes, j);
    }
  }

  /** Enough well-encoded messages decode to packets of exactly the
      receive sizes. */
  lemma DecodedExact(inbox: seq<seq<Token>>, sizes: seq<nat>)
    requires WellEncoded(inbox, sizes) && |inbox| >= |sizes|
    ensures Exact(DecodeEach(inbox), sizes)
  {
    forall j | 0 <= j < |sizes|
      ensures |DecodeEach(inbox)[j]| == sizes[j]
    {
      assert EncodedAt(inbox, sizes, j);
    }
  }

  /** After the loop every packet has been received and sent. */
  lemma RleRelayEnd(inbox: seq<seq<Token>>, pieces: seq<Vec>, count: nat, maxPacket: nat, ms: seq<seq<Token>>,
                    st: Relay<Token>)
    requires 0 < maxPacket && RleRelayAt(inbox, count, maxPacket, ms, st)
    requires |pieces| == NPackets(count, maxPacket) && MergedInto(inbox, pieces, ms)
    requires |ms| == if |inbox| < |pieces| then |inbox| else |pieces|
    requires st.done >= count && st.prev == 0
    ensures |st.outbox| == NPackets(count, maxPacket) <= |inbox|
    ensures MergedInto(inbox, pieces, st.outbox)
    ensures |st.ops| == (if count == 0 then 0 else NPackets(count, maxPacket) + 1)
    ensures forall k :: 0 <= k < |st.ops| ==> st.ops[k] == Scheduled(k, NPackets(count, maxPacket))
  {
    PositionEnd(count, maxPacket, st.done, st.np, st.i);
    assert st.outbox == ms;
  }

  /** The first rank of the RLE build sends its slices dense: read as
      tokens, each is all literals, positive runs, decoding to the slice. */
  method RleSourceRank(sbuf: Vec, count: nat, maxPacket: nat) returns (outbox: seq<seq<Token>>)
    requires 0 < maxPacket && count <= |sbuf|
    ensures |outbox| == NPackets(count, maxPacket)
    ensures forall j :: 0 <= j < |outbox| ==> outbox[j] == Lits(Cut(sbuf[..count], PacketSizes(count, maxPacket))[j])
    ensures WellEncoded(outbox, PacketSizes(count, maxPacket))
    ensures DecodeEach(outbox) == Cut(sbuf[..count], PacketSizes(count, maxPacket))
  {
    var pieces := SourceRank(sbuf, count, maxPacket);
    outbox := seq(|pieces|, j requires 0 <= j < |pieces| => Lits(pieces[j]));
    forall j | 0 <= j < |outbox|
      ensures PositiveRuns(outbox[j]) && Decode(outbox[j]) == pieces[j]
    {
      DecodeLits(pieces[j]);
    }
  }

  /** One packet of the RLE root: the tokens land in the receive buffer at
      `done`, and ub expands them plus the own slice into exactly
      `rbuf[done..done + current_packet]`.  The dense buffer is the plain
      root's with the decoded message received. */
  method RleRootStep(sbuf: Vec, rbuf: Vec, inbox: seq<seq<Token>>, count: nat, maxPacket: nat, done: nat,
                     np: nat, i: nat, buf: Vec, current: nat)
    returns (done1: nat, np1: nat, i1: nat, buf1: Vec)
    requires 0 < maxPacket && count <= |sbuf| && count <= |rbuf| && done < count && i < |inbox|
    requires RootAt(sbuf, rbuf, DecodeEach(inbox), count, maxPacket, done, np, i, buf)
    requires i < |PacketSizes(count, maxPacket)| && current == PacketSizes(count, maxPacket)[i]
    requires PositiveRuns(inbox[i]) && |Decode(inbox[i])| == current
    ensures RootAt(sbuf, rbuf, DecodeEach(inbox), count, maxPacket, done1, np1, i1, buf1) == true && np1 < np
  {
    PositionNext(count, maxPacket, done, np, i);
    PositiveRunsShorter(inbox[i]);
    var own := sbuf[done..done + current];
    var sum := UbPacket(inbox[i], own, buf[done + |inbox[i]|..done + current]);
    buf1 := buf[..done] + sum + buf[done + current..];
    RleRootNext(sbuf, rbuf, inbox, count, maxPacket, done, np, i, buf, current, sum, buf1);
    done1, np1, i1 := done + current, np - 1, i + 1;
  }

  /** ub on one packet: the message followed by whatever the receive
      buffer held after it, plus the own slice, comes out as the dense sum of
      the decoded message and the slice. */
  method UbPacket(msg: seq<Token>, own: Vec, tail: Vec) returns (sum: Vec)
    requires PositiveRuns(msg) && |Decode(msg)| == |own| && |msg| + |tail| == |own|
    ensures sum == Add(Decode(msg), own)
  {
    var window := msg + Lits(tail);
    assert window[..|msg|] == msg;
    var b, w := CfUcAdd2Ub(window, |msg|, own);
    assert b[w..] == b;
    DecodeLits(Add(Decode(msg), own));
    sum := Decode(b);
  }

  /** The root state after one packet whose decoded message and own slice
      were summed into the receive buffer. */
  lemma RleRootNext(sbuf: Vec, rbuf: Vec, inbox: seq<seq<Token>>, count: nat, maxPacket: nat, done: nat,
                    np: nat, i: nat, buf: Vec, current: nat, sum: Vec, buf1: Vec)
    requires 0 < maxPacket && count <= |sbuf| && count <= |rbuf| && done < count && i < |inbox|
    requires RootAt(sbuf, rbuf, DecodeEach(inbox), count, maxPacket, done, np, i, buf)
    requires i < |PacketSizes(count, maxPacket)| && current == PacketSizes(count, maxPacket)[i]
    requires |Decode(inbox[i])| == current && done + current <= count
    requires sum == Add(Decode(inbox[i]), sbuf[done..done + current])
    requires buf1 == buf[..done] + sum + buf[done + current..]
    ensures RootAt(sbuf, rbuf, DecodeEach(inbox), count, maxPacket, done + current, np - 1, i + 1, buf1)
  {
    var msg := Decode(inbox[i]);
    var got := buf[..done] + msg + buf[done + current..];
    assert got[..done] == buf[..done] && got[done..done + current] == msg;
    assert got[done + current..] == buf[done + current..];
    RootNext(sbuf, rbuf, DecodeEach(inbox), count, maxPacket, done, np, i, buf, current, got, buf1);
  }

  /** The root of the RLE build.  With well-encoded messages it finishes
      exactly when a message arrives for every packet, and then the first
      `count` elements of the receive buffer are the decoded messages plus
      the own pieces; the rest of the buffer is untouched. */
  method RleRootRank(sbuf: Vec, rbuf: Vec, inbox: seq<seq<Token>>, count: nat, maxPacket: nat)
    returns (res: Outcome<Vec>)
    requires 0 < maxPacket && count <= |sbuf| && count <= |rbuf|
    requires WellEncoded(inbox, PacketSizes(count, maxPacket))
    ensures !res.Truncated?
    ensures res.Done? <==> |inbox| >= NPackets(count, maxPacket)
    ensures res.Done? ==> |res.value| == |rbuf| && res.value[count..] == rbuf[count..]
    ensures res.Done? ==> Exact(DecodeEach(inbox), PacketSizes(count, maxPacket))
    ensures res.Done? ==>
      res.value[..count] == Flatten(AddEach(DecodeEach(inbox)[..NPackets(count, maxPacket)], Cut(sbuf[..count], PacketSizes(count, maxPacket))))
  {
    ghost var P := PacketSizes(count, maxPacket);
    var np := NPackets(count, maxPacket);
    PositionStart(count, maxPacket);
    var done: nat, i: nat := 0, 0;
    var buf := rbuf;
    while done < count
      invariant RootAt(sbuf, rbuf, DecodeEach(inbox), count, maxPacket, done, np, i, buf)
      decreases np
    {
      PositionStep(count, maxPacket, done, np, i);
      var current := (count - done) / np;
      if i == |inbox| {
        return Blocked;
      }
      WellEncodedFits(inbox, P, i);
      done, np, i, buf := RleRootStep(sbuf, rbuf, inbox, count, maxPacket, done, np, i, buf, current);
    }
    PositionEnd(count, maxPacket, done, np, i);
    RleRootEnd(sbuf, rbuf, inbox, count, maxPacket, done, np, i, buf);
    res := Done(buf);
  }

  lemma RleRootEnd(sbuf: Vec, rbuf: Vec, inbox: seq<seq<Token>>, count: nat, maxPacket: nat, done: nat, np: nat,
                   i: nat, buf: Vec)
    requires 0 < maxPacket && count <= |sbuf| && count <= |rbuf|
    requires WellEncoded(inbox, PacketSizes(count, maxPacket))
    requires RootAt(sbuf, rbuf, DecodeEach(inbox), count, maxPacket, done, np, i, buf)
    requires i == |PacketSizes(count, maxPacket)| && done == count
    ensures |inbox| >= NPackets(count, maxPacket) && Exact(DecodeEach(inbox), PacketSizes(count, maxPacket))
    ensures buf[..count] ==
      Flatten(AddEach(DecodeEach(inbox)[..NPackets(count, maxPacket)], Cut(sbuf[..count], PacketSizes(count, maxPacket))))
  {
    ghost var P := PacketSizes(count, maxPacket);
    ghost var d := DecodeEach(inbox);
    assert P[..i] == P;
    DecodedExact(inbox, P);
    RootEnd(sbuf, rbuf, d, count, maxPacket, done, np, i, buf);
  }

  /** A relay's merges, read back, are its messages plus its own pieces,
      and they are well encoded again. */
  lemma MergedDecodes(inbox: seq<seq<Token>>, pieces: seq<Vec>, outbox: seq<seq<Token>>, j: nat)
    requires MergedInto(inbox, pieces, outbox) && j < |outbox|
    ensures |Decode(inbox[j])| == |pieces[j]|
    ensures PositiveRuns(outbox[j]) && Decode(outbox[j]) == Add(Decode(inbox[j]), pieces[j])
  {
    assert MergedAt(inbox, pieces, outbox, j);
    DecodeMergeCb(inbox[j], pieces[j]);
    MergeCbShape(inbox[j], pieces[j]);
    LongRunsPositive(outbox[j]);
  }

  /** A relay of the RLE build fed the encoded pieces of a partial sum `s`
      passes on the encoded pieces of `s` plus its own vector. */
  lemma RleRelayedCut(msgs: seq<seq<Token>>, s: Vec, v: Vec, sizes: seq<nat>, outbox: seq<seq<Token>>)
    requires |s| == |v| && Total(sizes) <= |v| && |outbox| == |sizes| <= |msgs|
    requires DecodeEach(msgs)[..|sizes|] == Cut(s, sizes)
    requires MergedInto(msgs, Cut(v, sizes), outbox)
    ensures WellEncoded(outbox, sizes)
    ensures DecodeEach(outbox) == Cut(Add(s, v), sizes)
  {
    CutAdd(s, v, sizes);
    forall j | 0 <= j < |outbox|
      ensures EncodedAt(outbox, sizes, j) && DecodeEach(outbox)[j] == Cut(Add(s, v), sizes)[j]
    {
      MergedDecodes(msgs, Cut(v, sizes), outbox, j);
      assert Decode(msgs[j]) == DecodeEach(msgs)[..|sizes|][j] == Cut(s, sizes)[j];
    }
  }

  /** Chain position `k` of the RLE build is reached: `rank` holds the
      encoded pieces of the sum of the first `k` chain vectors, well
      encoded for the receives of the next rank. */
  ghost predicate RleChainAt(vs: seq<Vec>, root: nat, count: nat, maxPacket: nat, k: nat, rank: int,
                             msgs: seq<seq<Token>>)
    requires root < |vs| && 0 < maxPacket
    requires forall r :: 0 <= r < |vs| ==> |vs[r]| == count
  {
    ChainSum(vs, root, count);
    1 <= k <= |vs| - 1 && rank == Walk(root, |vs|, k - 1)
    && |msgs| == NPackets(count, maxPacket) && WellEncoded(msgs, PacketSizes(count, maxPacket))
    && DecodeEach(msgs) == Cut(SumAll(ChainVecs(vs, root)[..k], count), PacketSizes(count, maxPacket))
  }

  /** The first rank of the RLE build sends its slices as literals. */
  method RleChainStart(vs: seq<Vec>, root: nat, count: nat, maxPacket: nat) returns (rank: int, msgs: seq<seq<Token>>)
    requires 2 <= |vs| && root < |vs| && 0 < maxPacket
    requires forall r :: 0 <= r < |vs| ==> |vs[r]| == count
    ensures RleChainAt(vs, root, count, maxPacket, 1, rank, msgs) == true
  {
    ghost var c := ChainVecs(vs, root);
    ChainSum(vs, root, count);
    WalkAt(root, |vs|, 0);
    ChainVecsAt(vs, root, 0);
    rank := First(root, |vs|);
    msgs := RleSourceRank(vs[rank], count, maxPacket);
    assert vs[rank][..count] == c[0];
    assert c[..1] == [c[0]];
    SumAllSingle(c[0], count);
  }

  /** The relay at chain position `k` of the RLE build takes its part. */
  method RleChainStep(vs: seq<Vec>, pool: seq<seq<Token>>, root: nat, count: nat, maxPacket: nat, k: nat,
                      rank: int, msgs: seq<seq<Token>>)
    returns (rank1: int, msgs1: seq<seq<Token>>)
    requires root < |vs| && 0 < maxPacket && k < |vs| - 1
    requires |pool| == 2 && |pool[0]| >= maxPacket && |pool[1]| >= maxPacket
    requires forall r :: 0 <= r < |vs| ==> |vs[r]| == count
    requires RleChainAt(vs, root, count, maxPacket, k, rank, msgs)
    ensures RleChainAt(vs, root, count, maxPacket, k + 1, rank1, msgs1) == true
  {
    ghost var P := PacketSizes(count, maxPacket);
    ghost var c := ChainVecs(vs, root);
    ChainSum(vs, root, count);
    ChainNext(vs, root, k, rank);
    rank1 := Next(rank, root, |vs|);
    ghost var s := SumAll(c[..k], count);
    var r, _ := RleSendrecvRelay(vs[rank1], pool, msgs, count, maxPacket);
    assert vs[rank1][..count] == c[k];
    assert DecodeEach(msgs)[..|P|] == DecodeEach(msgs);
    RleRelayedCut(msgs, s, c[k], P, r.value);
    SumAllPrefixNext(c, k, count);
    msgs1 := r.value;
  }

  /** The root at the end of the RLE chain receives the encoded pieces of
      the sum of all other chain vectors. */
  method RleChainRoot(vs: seq<Vec>, rbuf: Vec, root: nat, count: nat, maxPacket: nat, rank: int,
                      msgs: seq<seq<Token>>)
    returns (res: Outcome<Vec>)
    requires root < |vs| && 0 < maxPacket && count <= |rbuf| && 2 <= |vs|
    requires forall r :: 0 <= r < |vs| ==> |vs[r]| == count
    requires RleChainAt(vs, root, count, maxPacket, |vs| - 1, rank, msgs)
    ensures res == Done(SumAll(vs, count) + rbuf[count..])
  {
    ghost var P := PacketSizes(count, maxPacket);
    ghost var c := ChainVecs(vs, root);
    var k := |vs| - 1;
    ChainSum(vs, root, count);
    WalkAt(root, |vs|, k);
    ChainNext(vs, root, k, rank);
    var last := Next(rank, root, |vs|);
    ghost var s := SumAll(c[..k], count);
    var r := RleRootRank(vs[last], rbuf, msgs, count, maxPacket);
    assert vs[last][..count] == c[k];
    assert DecodeEach(msgs)[..NPackets(count, maxPacket)] == Cut(s, P);
    AddEachCut(s, c[k], P);
    FlattenCut(Add(s, c[k]), P);
    assert r.value[..count] == Add(s, c[k]);
    SumAllLast(c, count);
    SplitAt(r.value, count);
    res := r;
  }

  /** The whole run of the RLE build along the chain: a single process
      copies its vector; otherwise the first rank sends its slices, every
      relay passes on cb's merges, and the root ends with the sum of all
      vectors in the first `count` elements of its receive buffer. */
  method RleSendrecvRun(vs: seq<Vec>, pool: seq<seq<Token>>, rbuf: Vec, root: nat, count: nat, maxPacket: nat)
    returns (res: Outcome<Vec>)
    requires root < |vs| && 0 < maxPacket && count <= |rbuf|
    requires |pool| == 2 && |pool[0]| >= maxPacket && |pool[1]| >= maxPacket
    requires forall r :: 0 <= r < |vs| ==> |vs[r]| == count
    ensures res == Done(SumAll(vs, count) + rbuf[count..])
  {
    if |vs| == 1 {
      SumAllSingle(vs[0], count);
      assert vs == [vs[0]];
      assert vs[0][..count] == SumAll(vs, count);
      return Done(vs[0][..count] + rbuf[count..]);
    }
    var rank, msgs := RleChainStart(vs, root, count, maxPacket);
    var k := 1;
    while k < |vs| - 1
      invariant RleChainAt(vs, root, count, maxPacket, k, rank, msgs)
    {
      rank, msgs := RleChainStep(vs, pool, root, count, maxPacket, k, rank, msgs);
      k := k + 1;
    }
    res := RleChainRoot(vs, rbuf, root, count, maxPacket, rank, msgs);
  }
}

=== FILE: stream_plain.dfy ===
/** MPI_Reduce_pipe_stream_plain (reduce/mpi_reduce_pipe_stream_plain.c):
    the streaming pipeline without a packet schedule.

    The first rank sends chunks of min(count - sends, max_packet) elements;
    every other rank takes whatever size arrives.  A relay keeps `next` (what
    it just received), `current` (what waits in `spbuf` to be sent) and the
    counters `sends` and `recvs`, and in each iteration either only
    receives (nothing waits), sends and receives in one MPI_Sendrecv
    (something waits), or only sends (everything is received); it then adds
    its own elements at `offset` to what arrived and swaps `spbuf` and
    `rpbuf`.  The root receives straight into its receive buffer at
    `offset`.  The plain build of MPI_Reduce_pipe_stream
    (reduce/mpi_reduce_pipe_stream.c) is the same loop under other names;
    it receives into `buf[0]` first where this one receives into `buf[1]`
    first, which is the parameter `rp0` of `StreamRelay`. */
module PipeStream {
  import opened Vectors
  import opened Packets
  import opened Transport
  import opened PipeChain
  import opened Arith
  import PipeSendRecv
  import PipeSendrecv

  type Op = PipeSendrecv.Op

  /** max_packet of the stream variants: packet_size / type_size, with no
      guard against 0. */
  function StreamMaxPacket(packetSize: nat, typeSize: nat): (m: nat)
    requires typeSize > 0
    ensures m * typeSize <= packetSize < (m + 1) * typeSize
  {
    var q := packetSize / typeSize;
    DivModUnique(packetSize, typeSize, q, packetSize % typeSize);
    q
  }

  /** The chunk the first rank takes when `sends` elements are out:
      `next = count - sends`, cut down to max_packet. */
  function Chunk(count: nat, maxPacket: nat, sends: nat): (next: nat)
    requires sends <= count
    ensures next <= count - sends && next <= maxPacket
    ensures next == count - sends || next == maxPacket
  {
    if count - sends > maxPacket then maxPacket else count - sends
  }

  /** As written, a packet smaller than one element gives max_packet 0, and
      then the first rank takes an empty chunk: its counters stay where
      they are and `sends < count` holds again, so its loop never ends.
      With max_packet raised to 1, as the blocking pipeline does, the chunk
      is not empty. */
  lemma SourceStallsAtZero(packetSize: nat, typeSize: nat, count: nat, sends: nat)
    requires 0 < typeSize && packetSize < typeSize && sends < count
    ensures StreamMaxPacket(packetSize, typeSize) == 0
    ensures Chunk(count, StreamMaxPacket(packetSize, typeSize), sends) == 0
    ensures MaxPacket(packetSize, typeSize) == 1 && Chunk(count, MaxPacket(packetSize, typeSize), sends) == 1
  {
  }

  /** The chunk sizes the first rank sends for `rem` elements. */
  function Chunks(rem: nat, maxPacket: nat): (cs: seq<nat>)
    requires maxPacket > 0
    decreases rem
  {
    if rem == 0 then [] else var c := Chunk(rem, maxPacket, 0); [c] + Chunks(rem - c, maxPacket)
  }

  /** The chunks cover exactly the elements, none is empty or longer than
      max_packet, and all but the last are full. */
  lemma {:induction false} ChunksCover(rem: nat, maxPacket: nat)
    requires maxPacket > 0
    ensures Total(Chunks(rem, maxPacket)) == rem
    ensures forall j :: 0 <= j < |Chunks(rem, maxPacket)| ==> 1 <= Chunks(rem, maxPacket)[j] <= maxPacket
    ensures forall j :: 0 <= j < |Chunks(rem, maxPacket)| - 1 ==> Chunks(rem, maxPacket)[j] == maxPacket
    decreases rem
  {
    if rem > 0 {
      var c := Chunk(rem, maxPacket, 0);
      var cs, tl := Chunks(rem, maxPacket), Chunks(rem - c, maxPacket);
      ChunksCover(rem - c, maxPacket);
      assert cs[1..] == tl;
      forall j | 0 <= j < |cs|
        ensures 1 <= cs[j] <= maxPacket
        ensures j < |cs| - 1 ==> cs[j] == maxPacket
      {
        if j > 0 {
          assert cs[j] == tl[j - 1];
        } else if j < |cs| - 1 {
          assert Total(tl) > 0;
        }
      }
    }
  }

  /** The sizes of a list of messages. */
  function Lens<T>(msgs: seq<seq<T>>): (ls: seq<nat>)
    ensures |ls| == |msgs|
    ensures forall j {:trigger ls[j]} :: 0 <= j < |msgs| ==> ls[j] == |msgs[j]|
  {
    seq(|msgs|, j requires 0 <= j < |msgs| => |msgs[j]|)
  }

  /** The elements of a list of messages, one after the other, are as many
      as their sizes add up to. */
  lemma {:induction false} FlattenLength<T>(msgs: seq<seq<T>>)
    ensures |Flatten(msgs)| == Total(Lens(msgs))
    decreases |msgs|
  {
    if |msgs| > 0 {
      var init := msgs[..|msgs| - 1];
      FlattenLength(init);
      assert Lens(msgs) == Lens(init) + [|msgs[|msgs| - 1]|];
      TotalAppend(Lens(init), [|msgs[|msgs| - 1]|]);
    }
  }

  /** One more message. */
  lemma FlattenPrefixNext<T>(msgs: seq<seq<T>>, i: nat)
    requires i < |msgs|
    ensures Flatten(msgs[..i + 1]) == Flatten(msgs[..i]) + msgs[i]
  {
    assert msgs[..i + 1] == msgs[..i] + [msgs[i]];
    FlattenSnoc(msgs[..i], msgs[i]);
  }

  /** A failure as it is, a success `i` messages later. */
  function Shift(o: Outcome<nat>, i: nat): (o': Outcome<nat>)
    ensures SameEnd(o, o')
  {
    if o.Done? then Done(o.value + i) else o
  }

  /** How a receiver of `count` elements, whose receives take at most `cap`
      elements each, fares on messages of the sizes `ls`: it receives while
      fewer than `count` elements have arrived, and succeeds after as many
      messages as it took.  A message longer than the receive is fatal, and
      one that goes past `count` runs off the user buffers. */
  function Takes(ls: seq<nat>, count: nat, cap: nat): (o: Outcome<nat>)
    ensures o.Done? ==> o.value <= |ls|
    decreases |ls|
  {
    if count == 0 then Done(0)
    else if |ls| == 0 then Blocked
    else if ls[0] > cap then Truncated
    else if ls[0] > count then Overrun
    else Shift(Takes(ls[1..], count - ls[0], cap), 1)
  }

  /** Messages that are not empty, fit the receive and add up to `count`
      are all taken. */
  lemma {:induction false} TakesAll(ls: seq<nat>, count: nat, cap: nat)
    requires forall j :: 0 <= j < |ls| ==> 1 <= ls[j] <= cap
    requires Total(ls) == count
    ensures Takes(ls, count, cap) == Done(|ls|)
    decreases |ls|
  {
    if |ls| > 0 {
      TakesAll(ls[1..], count - ls[0], cap);
    }
  }

  /** What a relay passes on for the messages `msgs` against its own
      elements `v`: each message that is not empty, with the matching
      elements of `v` added; an empty message passes nothing on. */
  function Forwarded(msgs: seq<Vec>, v: Vec): (out: seq<Vec>)
    requires |Flatten(msgs)| <= |v|
    decreases |msgs|
  {
    if |msgs| == 0 then []
    else
      var m := msgs[|msgs| - 1];
      var k := |Flatten(msgs[..|msgs| - 1])|;
      Forwarded(msgs[..|msgs| - 1], v) + (if |m| == 0 then [] else [Add(m, v[k..k + |m|])])
  }

  /** Messages that are none of them empty come back out with the same
      sizes, and what comes out is what came in plus the own elements. */
  lemma ForwardedSum(msgs: seq<Vec>, v: Vec)
    requires |Flatten(msgs)| <= |v|
    requires forall j :: 0 <= j < |msgs| ==> |msgs[j]| > 0
    ensures Lens(Forwarded(msgs, v)) == Lens(msgs)
    ensures Flatten(Forwarded(msgs, v)) == Add(Flatten(msgs), v[..|Flatten(msgs)|])
  {
    ForwardedLens(msgs, v);
    ForwardedFlatten(msgs, v);
  }

  lemma {:induction false} ForwardedLens(msgs: seq<Vec>, v: Vec)
    requires |Flatten(msgs)| <= |v|
    requires forall j :: 0 <= j < |msgs| ==> |msgs[j]| > 0
    ensures Lens(Forwarded(msgs, v)) == Lens(msgs)
    decreases |msgs|
  {
    if |msgs| > 0 {
      var init, m := msgs[..|msgs| - 1], msgs[|msgs| - 1];
      assert msgs == init + [m];
      FlattenSnoc(init, m);
      ForwardedLens(init, v);
      var f := Forwarded(init, v);
      var x := Add(m, v[|Flatten(init)|..|Flatten(init)| + |m|]);
      assert Forwarded(msgs, v) == f + [x];
      assert Lens(f + [x]) == Lens(f) + [|x|];
      assert Lens(msgs) == Lens(init) + [|m|];
    }
  }

  lemma {:induction false} ForwardedFlatten(msgs: seq<Vec>, v: Vec)
    requires |Flatten(msgs)| <= |v|
    requires forall j :: 0 <= j < |msgs| ==> |msgs[j]| > 0
    ensures Flatten(Forwarded(msgs, v)) == Add(Flatten(msgs), v[..|Flatten(msgs)|])
    decreases |msgs|
  {
    if |msgs| > 0 {
      var init, m := msgs[..|msgs| - 1], msgs[|msgs| - 1];
      assert msgs == init + [m];
      FlattenSnoc(init, m);
      var k := |Flatten(init)|;
      ForwardedFlatten(init, v);
      var f := Forwarded(init, v);
      var x := Add(m, v[k..k + |m|]);
      assert Forwarded(msgs, v) == f + [x];
      FlattenSnoc(f, x);
      AddAppend(Flatten(init), m, v[..k], v[k..k + |m|]);
      assert v[..k] + v[k..k + |m|] == v[..k + |m|];
    }
  }

  /** The first rank: chunk after chunk of its own vector, and then
      `sends == recvs == count`. */
  method StreamSource(sbuf: Vec, count: nat, maxPacket: nat) returns (outbox: seq<Vec>, sends: nat, recvs: nat)
    requires 0 < maxPacket && count <= |sbuf|
    ensures Lens(outbox) == Chunks(count, maxPacket)
    ensures Flatten(outbox) == sbuf[..count]
    ensures sends == recvs == count
  {
    sends, recvs := 0, 0;
    var offset := 0;
    outbox := [];
    assert SourceAt(sbuf, count, maxPacket, 0, outbox);
    while sends < count || recvs < count
      invariant sends == recvs == offset <= count
      invariant SourceAt(sbuf, count, maxPacket, offset, outbox)
      decreases count - sends
    {
      var next := Chunk(count, maxPacket, sends);
      recvs := recvs + next;
      var current := next;
      next := 0;
      outbox := SourceStep(sbuf, count, maxPacket, offset, outbox, current);
      sends := sends + current;
      offset := offset + current;
    }
  }

  /** The first rank after `offset` elements: it has sent them in the
      first chunks. */
  ghost predicate SourceAt(sbuf: Vec, count: nat, maxPacket: nat, offset: nat, outbox: seq<Vec>)
    requires 0 < maxPacket && offset <= count <= |sbuf|
  {
    Lens(outbox) + Chunks(count - offset, maxPacket) == Chunks(count, maxPacket)
    && Flatten(outbox) == sbuf[..offset]
  }

  /** One chunk of the first rank: the next `current` elements go out. */
  method SourceStep(sbuf: Vec, count: nat, maxPacket: nat, offset: nat, outbox: seq<Vec>, current: nat)
    returns (outbox1: seq<Vec>)
    requires 0 < maxPacket && offset < count <= |sbuf| && current == Chunk(count, maxPacket, offset)
    requires SourceAt(sbuf, count, maxPacket, offset, outbox)
    ensures 0 < current && SourceAt(sbuf, count, maxPacket, offset + current, outbox1) == true
  {
    var x := sbuf[offset..offset + current];
    outbox1 := outbox + [x];
    assert Chunk(count - offset, maxPacket, 0) == current;
    assert Chunks(count - offset, maxPacket) == [current] + Chunks(count - offset - current, maxPacket);
    assert Lens(outbox1) == Lens(outbox) + [current];
    FlattenSnoc(outbox, x);
    assert sbuf[..offset] + x == sbuf[..offset + current];
  }

  /** A relay between iterations: the counters, `next` (0 at the head of
      the loop), `offset`, how many messages it has received, the two pool
      buffers and which of them is `rpbuf` (the other is `spbuf`), what it
      has sent and the calls it has made. */
  datatype Relay = Relay(sends: nat, recvs: nat, current: nat, next: nat, offset: nat, i: nat,
                         bufs: seq<Vec>, rp: nat, outbox: seq<Vec>, ops: seq<Op>)

  /** The chunk waiting in `spbuf`, if any. */
  function Pending(st: Relay): (p: seq<Vec>)
    requires |st.bufs| == 2 && st.rp < 2 && st.current <= |st.bufs[1 - st.rp]|
    ensures |p| <= 1
  {
    if st.current > 0 then [st.bufs[1 - st.rp][..st.current]] else []
  }

  /** A call with `rpbuf` = `buf[rp]`: it receives into `rpbuf` and sends
      from `spbuf`. */
  predicate Uses(op: Op, rp: nat)
  {
    match op
    case RecvOnly(into) => into == rp
    case SendRecv(from, into) => into == rp && from == 1 - rp
    case SendOnly(from) => from == 1 - rp
  }

  /** Call `k` receives into `buf[(k + rp0) % 2]` and sends from the other
      buffer: the two buffers swap in every iteration. */
  predicate Alternating(ops: seq<Op>, rp0: nat)
  {
    forall k :: 0 <= k < |ops| ==> Uses(ops[k], (k + rp0) % 2)
  }

  /** The call of an iteration: a receive while elements are missing,
      together with the send of the waiting chunk if there is one; a send
      once everything is received. */
  function Choice(current: nat, more: bool, rp: nat): (op: Op)
    requires rp < 2
    ensures Uses(op, rp)
    ensures op.RecvOnly? <==> more && current == 0
    ensures op.SendOnly? <==> !more
  {
    if more then (if current > 0 then PipeSendrecv.SendRecv(1 - rp, rp) else PipeSendrecv.RecvOnly(rp))
    else PipeSendrecv.SendOnly(1 - rp)
  }

  /** The counters: `next` is 0 and `offset` equals `recvs` at the head of
      the loop, what was sent and what waits add up to what was received,
      and that is what the messages so far carried. */
  ghost predicate Counters(inbox: seq<Vec>, count: nat, st: Relay)
  {
    st.next == 0 && st.offset == st.recvs && st.sends + st.current == st.recvs <= count
    && st.i <= |inbox| && st.recvs == |Flatten(inbox[..st.i])|
  }

  /** The buffers: two of them, each with room for a chunk, swapped in
      every iteration. */
  ghost predicate Pooled(maxPacket: nat, rp0: nat, st: Relay)
  {
    |st.bufs| == 2 && |st.bufs[0]| >= maxPacket && |st.bufs[1]| >= maxPacket && st.current <= maxPacket
    && st.rp == (|st.ops| + rp0) % 2 && Alternating(st.ops, rp0)
  }

  /** How the whole run ends is how the rest of it ends, `i` messages
      later. */
  ghost predicate Taking(inbox: seq<Vec>, count: nat, maxPacket: nat, st: Relay)
    requires st.i <= |inbox| && st.recvs <= count
  {
    Takes(Lens(inbox), count, maxPacket) == Shift(Takes(Lens(inbox)[st.i..], count - st.recvs, maxPacket), st.i)
  }

  /** What was sent, and the chunk waiting, is what the messages so far
      pass on. */
  ghost predicate Passed(sbuf: Vec, inbox: seq<Vec>, st: Relay)
    requires |st.bufs| == 2 && st.rp < 2 && st.current <= |st.bufs[1 - st.rp]| && st.i <= |inbox|
  {
    |Flatten(inbox[..st.i])| <= |sbuf| && st.outbox + Pending(st) == Forwarded(inbox[..st.i], sbuf)
  }

  /** A relay at the head of its loop. */
  ghost predicate RelayAt(sbuf: Vec, inbox: seq<Vec>, count: nat, maxPacket: nat, rp0: nat, st: Relay)
  {
    Counters(inbox, count, st) && Pooled(maxPacket, rp0, st)
    && Taking(inbox, count, maxPacket, st) && Passed(sbuf, inbox, st)
  }

  /** What the relay loop still has to do: two units per message left, one
      for a waiting chunk. */
  function Work(st: Relay, n: nat): nat
  {
    2 * (if st.i <= n then n - st.i else 0) + (if st.current > 0 then 1 else 0)
  }

  /** Message `i` taken by a receiver that still misses elements: the rest
      of the run ends as the rest after it. */
  lemma TakesNext(ls: seq<nat>, i: nat, count: nat, recvs: nat, cap: nat)
    requires i < |ls| && recvs < count && ls[i] <= cap && recvs + ls[i] <= count
    ensures Shift(Takes(ls[i..], count - recvs, cap), i) == Shift(Takes(ls[i + 1..], count - (recvs + ls[i]), cap), i + 1)
  {
    assert ls[i..][1..] == ls[i + 1..];
  }

  /** A receive while elements are missing, when message `i` has arrived,
      fits `rpbuf` and stays inside the user buffers: the waiting chunk (if
      any) goes out in the same call, the message is added to the own
      elements at `offset`, and the buffers swap. */
  method ReceiveStep(sbuf: Vec, inbox: seq<Vec>, count: nat, maxPacket: nat, rp0: nat, st: Relay)
    returns (st1: Relay)
    requires count <= |sbuf| && rp0 < 2 && RelayAt(sbuf, inbox, count, maxPacket, rp0, st)
    requires st.recvs < count && st.i < |inbox| && |inbox[st.i]| <= maxPacket && st.offset + |inbox[st.i]| <= count
    ensures RelayAt(sbuf, inbox, count, maxPacket, rp0, st1) == true && Work(st1, |inbox|) < Work(st, |inbox|)
    ensures st1.ops == st.ops + [Choice(st.current, true, st.rp)]
  {
    var msg := inbox[st.i];
    var n := |msg|;
    var rpbuf := st.bufs[st.rp];
    var sent := st.outbox + Pending(st);
    var op := if st.current > 0 then PipeSendrecv.SendRecv(1 - st.rp, st.rp) else PipeSendrecv.RecvOnly(st.rp);
    var got := msg + rpbuf[n..];
    var buf := Add(got[..n], sbuf[st.offset..st.offset + n]) + got[n..];
    st1 := Relay(st.sends + st.current, st.recvs + n, n, 0, st.offset + n, st.i + 1,
                 st.bufs[st.rp := buf], 1 - st.rp, sent, st.ops + [op]);
    assert got[..n] == msg;
    assert Received(inbox, st, st1);
    ReceiveCounters(inbox, count, st, st1);
    ReceivePooled(maxPacket, rp0, st, st1);
    TakesNext(Lens(inbox), st.i, count, st.recvs, maxPacket);
    ReceivePassed(sbuf, inbox, st, st1);
  }

  /** `st1` is `st` after message `i` was received into `rpbuf`, the
      waiting chunk sent and the buffers swapped. */
  predicate Received(inbox: seq<Vec>, st: Relay, st1: Relay)
  {
    st.i < |inbox| && |st.bufs| == 2 && st.rp < 2 && st.current <= |st.bufs[1 - st.rp]|
    && |inbox[st.i]| <= |st.bufs[st.rp]|
    && st1.sends == st.sends + st.current && st1.recvs == st.recvs + |inbox[st.i]| && st1.current == |inbox[st.i]|
    && st1.next == 0 && st1.offset == st.offset + |inbox[st.i]| && st1.i == st.i + 1 && st1.rp == 1 - st.rp
    && |st1.bufs| == 2 && |st1.bufs[st.rp]| == |st.bufs[st.rp]|
    && st1.bufs[1 - st.rp] == st.bufs[1 - st.rp]
    && st1.outbox == st.outbox + Pending(st) && st1.ops == st.ops + [Choice(st.current, true, st.rp)]
  }

  lemma ReceiveCounters(inbox: seq<Vec>, count: nat, st: Relay, st1: Relay)
    requires Counters(inbox, count, st) && Received(inbox, st, st1) && st.offset + |inbox[st.i]| <= count
    ensures Counters(inbox, count, st1)
  {
    FlattenPrefixNext(inbox, st.i);
  }

  lemma ReceivePooled(maxPacket: nat, rp0: nat, st: Relay, st1: Relay)
    requires Pooled(maxPacket, rp0, st) && st1.current <= maxPacket && st1.rp == 1 - st.rp && |st1.bufs| == 2
    requires |st1.bufs[0]| == |st.bufs[0]| && |st1.bufs[1]| == |st.bufs[1]|
    requires st1.ops == st.ops + [Choice(st.current, true, st.rp)]
    ensures Pooled(maxPacket, rp0, st1)
  {
    PipeSendrecv.ParityNext(|st.ops| + rp0);
    assert st1.ops[|st.ops|] == Choice(st.current, true, st.rp);
  }

  lemma ReceivePassed(sbuf: Vec, inbox: seq<Vec>, st: Relay, st1: Relay)
    requires Received(inbox, st, st1) && st.offset == |Flatten(inbox[..st.i])|
    requires st.offset + |inbox[st.i]| <= |sbuf| && Passed(sbuf, inbox, st)
    requires st1.bufs[st.rp][..st1.current] == Add(inbox[st.i], sbuf[st.offset..st.offset + st1.current])
    ensures Passed(sbuf, inbox, st1)
  {
    FlattenPrefixNext(inbox, st.i);
    assert inbox[..st.i + 1][..st.i] == inbox[..st.i] && inbox[..st.i + 1][st.i] == inbox[st.i];
  }

  /** A send once everything is received: the waiting chunk goes out and
      the buffers swap (the reduction of an empty `next` changes
      nothing). */
  method SendStep(sbuf: Vec, inbox: seq<Vec>, count: nat, maxPacket: nat, rp0: nat, st: Relay)
    returns (st1: Relay)
    requires count <= |sbuf| && rp0 < 2 && RelayAt(sbuf, inbox, count, maxPacket, rp0, st)
    requires st.recvs >= count && st.sends < count
    ensures RelayAt(sbuf, inbox, count, maxPacket, rp0, st1) == true && Work(st1, |inbox|) < Work(st, |inbox|)
    ensures st1.ops == st.ops + [Choice(st.current, false, st.rp)]
  {
    var sent, sends, ops := st.outbox, st.sends, st.ops;
    if st.current > 0 {
      sent, sends := sent + Pending(st), sends + st.current;
      ops := ops + [PipeSendrecv.SendOnly(1 - st.rp)];
    }
    st1 := Relay(sends, st.recvs, 0, 0, st.offset, st.i, st.bufs, 1 - st.rp, sent, ops);
    PipeSendrecv.ParityNext(|st.ops| + rp0);
    assert Alternating(st1.ops, rp0) by {
      assert st1.ops[|st.ops|] == PipeSendrecv.SendOnly(1 - st.rp);
    }
  }

  /** One iteration of the relay loop.  A receive past the last message
      blocks, a message longer than `rpbuf` is fatal, and one that goes
      past `count` runs off the user buffers; all three are how `Takes`
      says the run ends. */
  method RelayIteration(sbuf: Vec, inbox: seq<Vec>, count: nat, maxPacket: nat, rp0: nat, st: Relay)
    returns (res: Outcome<Relay>)
    requires count <= |sbuf| && rp0 < 2 && RelayAt(sbuf, inbox, count, maxPacket, rp0, st)
    requires st.sends < count || st.recvs < count
    ensures res.Done? ==> RelayAt(sbuf, inbox, count, maxPacket, rp0, res.value) == true
    ensures res.Done? ==> Work(res.value, |inbox|) < Work(st, |inbox|)
    ensures res.Done? ==> res.value.ops == st.ops + [Choice(st.current, st.recvs < count, st.rp)]
    ensures !res.Done? ==> SameEnd(res, Takes(Lens(inbox), count, maxPacket))
  {
    if st.next <= 0 && st.recvs < count {
      assert Lens(inbox)[st.i..] == [] || Lens(inbox)[st.i..][0] == |inbox[st.i]|;
      if st.i == |inbox| {
        return Blocked;
      }
      if |inbox[st.i]| > maxPacket {
        return Truncated;
      }
      if st.offset + |inbox[st.i]| > count {
        return Overrun;
      }
      var st1 := ReceiveStep(sbuf, inbox, count, maxPacket, rp0, st);
      return Done(st1);
    }
    var st1 := SendStep(sbuf, inbox, count, maxPacket, rp0, st);
    return Done(st1);
  }

  /** A relay, its first receive into `buf[rp0]`.  It ends as `Takes`
      says; on success it has received exactly `count` elements and sent
      what those messages pass on, and its calls receive into the two
      buffers in turn. */
  method StreamRelay(sbuf: Vec, bufs: seq<Vec>, rp0: nat, inbox: seq<Vec>, count: nat, maxPacket: nat)
    returns (res: Outcome<seq<Vec>>, ops: seq<Op>)
    requires count <= |sbuf| && rp0 < 2
    requires |bufs| == 2 && |bufs[0]| >= maxPacket && |bufs[1]| >= maxPacket
    ensures SameEnd(res, Takes(Lens(inbox), count, maxPacket))
    ensures res.Done? ==> |Flatten(inbox[..Takes(Lens(inbox), count, maxPacket).value])| == count
    ensures res.Done? ==> res.value == Forwarded(inbox[..Takes(Lens(inbox), count, maxPacket).value], sbuf)
    ensures res.Done? ==> Alternating(ops, rp0)
  {
    var st := Relay(0, 0, 0, 0, 0, 0, bufs, rp0, [], []);
    assert Lens(inbox)[0..] == Lens(inbox);
    assert inbox[..0] == [];
    while st.sends < count || st.recvs < count
      invariant RelayAt(sbuf, inbox, count, maxPacket, rp0, st)
      decreases Work(st, |inbox|)
    {
      var r := RelayIteration(sbuf, inbox, count, maxPacket, rp0, st);
      if !r.Done? {
        return Failed(r), st.ops;
      }
      st := r.value;
    }
    res, ops := Done(st.outbox), st.ops;
  }

  /** The root between iterations: its counters, how many messages it has
      received, and its receive buffer. */
  datatype Root = Root(sends: nat, recvs: nat, offset: nat, i: nat, buf: Vec)

  /** The root at the head of its loop: `sends == recvs == offset`, the
      messages so far carried `recvs` elements, and the receive buffer
      holds them plus the own elements, the rest of it untouched. */
  ghost predicate RootAt(sbuf: Vec, rbuf: Vec, inbox: seq<Vec>, count: nat, maxPacket: nat, st: Root)
    requires count <= |sbuf| && count <= |rbuf|
  {
    st.sends == st.recvs == st.offset <= count && st.i <= |inbox| && st.recvs == |Flatten(inbox[..st.i])|
    && Takes(Lens(inbox), count, maxPacket) == Shift(Takes(Lens(inbox)[st.i..], count - st.recvs, maxPacket), st.i)
    && |st.buf| == |rbuf| && st.buf[..st.recvs] == Add(Flatten(inbox[..st.i]), sbuf[..st.recvs])
    && st.buf[st.recvs..] == rbuf[st.recvs..]
  }

  /** One iteration of the root, once message `i` has arrived, fits and
      stays inside the buffers: it lands at `offset` and the own elements
      there are added to it. */
  method RootStep(sbuf: Vec, rbuf: Vec, inbox: seq<Vec>, count: nat, maxPacket: nat, st: Root) returns (st1: Root)
    requires count <= |sbuf| && count <= |rbuf| && RootAt(sbuf, rbuf, inbox, count, maxPacket, st)
    requires st.recvs < count && st.i < |inbox| && |inbox[st.i]| <= maxPacket && st.offset + |inbox[st.i]| <= count
    ensures RootAt(sbuf, rbuf, inbox, count, maxPacket, st1) == true && st1.i == st.i + 1
  {
    var msg := inbox[st.i];
    var next := |msg|;
    var o := st.offset;
    var buf := st.buf[..o] + Add(msg, sbuf[o..o + next]) + st.buf[o + next..];
    st1 := Root(st.sends + next, st.recvs + next, o + next, st.i + 1, buf);
    FlattenPrefixNext(inbox, st.i);
    TakesNext(Lens(inbox), st.i, count, st.recvs, maxPacket);
    AddAppend(Flatten(inbox[..st.i]), msg, sbuf[..o], sbuf[o..o + next]);
    assert sbuf[..o] + sbuf[o..o + next] == sbuf[..o + next];
    assert buf[..o + next] == st.buf[..o] + Add(msg, sbuf[o..o + next]);
    assert buf[o + next..] == st.buf[o + next..] == rbuf[o + next..];
  }

  /** The root (the `iam_last_in_pipe` branch).  It ends as `Takes` says;
      on success the first `count` elements of its receive buffer are what
      arrived plus its own elements, and the rest is untouched. */
  method StreamRoot(sbuf: Vec, rbuf: Vec, inbox: seq<Vec>, count: nat, maxPacket: nat) returns (res: Outcome<Vec>)
    requires count <= |sbuf| && count <= |rbuf|
    ensures SameEnd(res, Takes(Lens(inbox), count, maxPacket))
    ensures res.Done? ==> |Flatten(inbox[..Takes(Lens(inbox), count, maxPacket).value])| == count
    ensures res.Done? ==> |res.value| == |rbuf| && res.value[count..] == rbuf[count..]
    ensures res.Done? ==>
      res.value[..count] == Add(Flatten(inbox[..Takes(Lens(inbox), count, maxPacket).value]), sbuf[..count])
  {
    var st := Root(0, 0, 0, 0, rbuf);
    assert Lens(inbox)[0..] == Lens(inbox);
    assert inbox[..0] == [];
    while st.sends < count || st.recvs < count
      invariant RootAt(sbuf, rbuf, inbox, count, maxPacket, st)
      decreases |inbox| - st.i
    {
      assert Lens(inbox)[st.i..] == [] || Lens(inbox)[st.i..][0] == |inbox[st.i]|;
      if st.i == |inbox| {
        return Blocked;
      }
      if |inbox[st.i]| > maxPacket {
        return Truncated;
      }
      if st.offset + |inbox[st.i]| > count {
        return Overrun;
      }
      st := RootStep(sbuf, rbuf, inbox, count, maxPacket, st);
    }
    return Done(st.buf);
  }

  /** The chain after `k` ranks: the messages leaving rank `k - 1` of the
      chain have the chunk sizes and carry the sum of the first `k` chain
      vectors. */
  ghost predicate ChainAt(vs: seq<Vec>, root: nat, count: nat, maxPacket: nat, k: nat, rank: int, msgs: seq<Vec>)
    requires root < |vs| && 0 < maxPacket
    requires forall r :: 0 <= r < |vs| ==> |vs[r]| == count
  {
    ChainSum(vs, root, count);
    1 <= k <= |vs| - 1 && rank == Walk(root, |vs|, k - 1)
    && Lens(msgs) == Chunks(count, maxPacket) && Flatten(msgs) == SumAll(ChainVecs(vs, root)[..k], count)
  }

  /** Chunked messages carrying `count` elements are all taken. */
  lemma ChunkedTaken(msgs: seq<Vec>, count: nat, maxPacket: nat)
    requires 0 < maxPacket && Lens(msgs) == Chunks(count, maxPacket)
    ensures Takes(Lens(msgs), count, maxPacket) == Done(|msgs|) && |Flatten(msgs)| == count
    ensures forall j :: 0 <= j < |msgs| ==> |msgs[j]| > 0
  {
    ChunksCover(count, maxPacket);
    TakesAll(Lens(msgs), count, maxPacket);
    FlattenLength(msgs);
    forall j | 0 <= j < |msgs|
      ensures |msgs[j]| > 0
    {
      assert Lens(msgs)[j] == |msgs[j]|;
    }
  }

  /** The relay at chain position `k` takes its part. */
  method StreamChainStep(vs: seq<Vec>, pool: seq<Vec>, root: nat, count: nat, maxPacket: nat, k: nat, rank: int,
                         msgs: seq<Vec>)
    returns (rank1: int, msgs1: seq<Vec>)
    requires root < |vs| && 0 < maxPacket && k < |vs| - 1
    requires |pool| == 2 && |pool[0]| >= maxPacket && |pool[1]| >= maxPacket
    requires forall r :: 0 <= r < |vs| ==> |vs[r]| == count
    requires ChainAt(vs, root, count, maxPacket, k, rank, msgs)
    ensures ChainAt(vs, root, count, maxPacket, k + 1, rank1, msgs1) == true
  {
    ghost var c := ChainVecs(vs, root);
    ChainSum(vs, root, count);
    PipeSendRecv.ChainNext(vs, root, k, rank);
    rank1 := Next(rank, root, |vs|);
    ChunkedTaken(msgs, count, maxPacket);
    var r, _ := StreamRelay(vs[rank1], pool, 1, msgs, count, maxPacket);
    assert msgs[..|msgs|] == msgs;
    ForwardedSum(msgs, vs[rank1]);
    assert vs[rank1][..count] == c[k];
    SumAllPrefixNext(c, k, count);
    msgs1 := r.value;
  }

  /** The root at the end of the chain adds its own vector to the sum of
      all the others. */
  method StreamChainRoot(vs: seq<Vec>, rbuf: Vec, root: nat, count: nat, maxPacket: nat, rank: int, msgs: seq<Vec>)
    returns (res: Outcome<Vec>)
    requires root < |vs| && 0 < maxPacket && count <= |rbuf| && 2 <= |vs|
    requires forall r :: 0 <= r < |vs| ==> |vs[r]| == count
    requires ChainAt(vs, root, count, maxPacket, |vs| - 1, rank, msgs)
    ensures res == Done(SumAll(vs, count) + rbuf[count..])
  {
    ghost var c := ChainVecs(vs, root);
    var k := |vs| - 1;
    ChainSum(vs, root, count);
    WalkAt(root, |vs|, k);
    PipeSendRecv.ChainNext(vs, root, k, rank);
    var last := Next(rank, root, |vs|);
    ChunkedTaken(msgs, count, maxPacket);
    var r := StreamRoot(vs[last], rbuf, msgs, count, maxPacket);
    assert msgs[..|msgs|] == msgs;
    assert vs[last][..count] == c[k];
    SumAllLast(c, count);
    assert c[..|c| - 1] == c[..k];
    assert r.value == r.value[..count] + r.value[count..];
    res := r;
  }

  /** The whole run along the chain (MPI_Reduce_pipe_stream_plain on every
      rank): a single process copies its vector; otherwise the first rank
      streams its chunks, every relay passes on the partial sums in chunks
      of the same sizes, and the root ends with the sum of all vectors in
      the first `count` elements of its receive buffer and the rest of the
      buffer untouched. */
  method StreamRun(vs: seq<Vec>, pool: seq<Vec>, rbuf: Vec, root: nat, count: nat, maxPacket: nat)
    returns (res: Outcome<Vec>)
    requires root < |vs| && 0 < maxPacket && count <= |rbuf|
    requires |pool| == 2 && |pool[0]| >= maxPacket && |pool[1]| >= maxPacket
    requires forall r :: 0 <= r < |vs| ==> |vs[r]| == count
    ensures res == Done(SumAll(vs, count) + rbuf[count..])
  {
    if |vs| == 1 {
      SumAllSingle(vs[0], count);
      assert vs == [vs[0]];
      assert vs[0][..count] == SumAll(vs, count);
      return Done(vs[0][..count] + rbuf[count..]);
    }
    ghost var c := ChainVecs(vs, root);
    ChainSum(vs, root, count);
    WalkAt(root, |vs|, 0);
    ChainVecsAt(vs, root, 0);
    var rank := First(root, |vs|);
    var msgs, _, _ := StreamSource(vs[rank], count, maxPacket);
    assert vs[rank][..count] == c[0];
    assert c[..1] == [c[0]];
    SumAllSingle(c[0], count);
    var k := 1;
    while k < |vs| - 1
      invariant ChainAt(vs, root, count, maxPacket, k, rank, msgs)
    {
      rank, msgs := StreamChainStep(vs, pool, root, count, maxPacket, k, rank, msgs);
      k := k + 1;
    }
    res := StreamChainRoot(vs, rbuf, root, count, maxPacket, rank, msgs);
  }
}

=== FILE: stream_rle.dfy ===
/** The RLE build of MPI_Reduce_pipe_stream (reduce/mpi_reduce_pipe_stream.c
    with RLE defined and RLE_PACKET not): the stream carries zero-run
    compressed data end to end.

    The first rank compresses as much of the rest of its vector as fits
    into max_packet tokens (compress3) and sends it.  A relay receives a
    message of tokens into `buf[0]` only when it has none left unread; it
    merges the unread tokens with its own elements into at most max_packet
    compressed tokens in `buf[1]` (add3_cf), which it sends in the next
    iteration, and a marker cut short there waits in the carry word
    `vin0_next`.  The root merges each message into its receive buffer
    uncompressed (add3_uc).  `recvs` counts own elements merged, `sends`
    what of them went out, `sendc` and `recvc` tokens on the wire. */
module PipeStreamRle {
  import opened Vectors
  import opened Tokens
  import opened RleZero
  import opened RleAdd3
  import opened Transport
  import opened PipeChain
  import PipeStream
  import PipeSendRecv

  function Min(a: nat, b: nat): (m: nat)
    ensures m <= a && m <= b && (m == a || m == b)
  {
    if a <= b then a else b
  }

  /** `a` is a suffix of `b`. */
  predicate Suffix(a: seq<Token>, b: seq<Token>)
  {
    |a| <= |b| && a == b[|b| - |a|..]
  }

  /** Messages a receive of `cap` tokens takes, none of them empty, none
      with a marker shorter than two. */
  predicate Packed(ms: seq<seq<Token>>, cap: nat)
  {
    forall j :: 0 <= j < |ms| ==> 1 <= |ms[j]| <= cap && LongRuns(ms[j])
  }

  /** The dense values the first `i` messages carry. */
  function Arrived(ms: seq<seq<Token>>, i: nat): Vec
    requires i <= |ms|
  {
    Decode(Flatten(ms[..i]))
  }

  /** One more message. */
  lemma ArrivedNext(ms: seq<seq<Token>>, i: nat)
    requires i < |ms|
    ensures Arrived(ms, i + 1) == Arrived(ms, i) + Decode(ms[i])
    ensures |Flatten(ms[..i + 1])| == |Flatten(ms[..i])| + |ms[i]|
  {
    PipeStream.FlattenPrefixNext(ms, i);
    DecodeAppend(Flatten(ms[..i]), ms[i]);
  }

  /** How a receiver of `count` elements, whose receives take at most `cap`
      tokens each, fares on the messages `ms`: it receives while fewer than
      `count` elements have arrived and succeeds after as many messages as
      it took; a message longer than the receive is fatal, and elements
      past `count` are dropped. */
  function Fills(ms: seq<seq<Token>>, count: nat, cap: nat): (o: Outcome<nat>)
    ensures o.Done? ==> o.value <= |ms|
    ensures !o.Overrun?
    decreases |ms|
  {
    if count == 0 then Done(0)
    else if |ms| == 0 then Blocked
    else if |ms[0]| > cap then Truncated
    else PipeStream.Shift(Fills(ms[1..], count - Min(count, |Decode(ms[0])|), cap), 1)
  }

  /** Message `i` taken by a receiver that has `a` of `count` elements. */
  lemma FillsNext(ms: seq<seq<Token>>, i: nat, count: nat, a: nat, b: nat, cap: nat)
    requires i < |ms| && a < count && |ms[i]| <= cap && b == Min(count, a + |Decode(ms[i])|)
    ensures PipeStream.Shift(Fills(ms[i..], count - a, cap), i)
         == PipeStream.Shift(Fills(ms[i + 1..], count - b, cap), i + 1)
  {
    assert ms[i..][1..] == ms[i + 1..];
  }

  /** Taking message `i` while elements are missing keeps `Fills` in
      step with what arrived. */
  lemma TakingNext(ms: seq<seq<Token>>, count: nat, cap: nat, i: nat)
    requires i < |ms| && |Arrived(ms, i)| < count && |ms[i]| <= cap
    requires Fills(ms, count, cap) == PipeStream.Shift(Fills(ms[i..], count - Min(count, |Arrived(ms, i)|), cap), i)
    ensures Fills(ms, count, cap) == PipeStream.Shift(Fills(ms[i + 1..], count - Min(count, |Arrived(ms, i + 1)|), cap), i + 1)
  {
    ArrivedNext(ms, i);
    FillsNext(ms, i, count, |Arrived(ms, i)|, Min(count, |Arrived(ms, i + 1)|), cap);
  }

  /** Packed messages carrying exactly `count` elements are all taken. */
  lemma {:induction false} FillsAll(ms: seq<seq<Token>>, count: nat, cap: nat)
    requires Packed(ms, cap) && |Decode(Flatten(ms))| == count
    ensures Fills(ms, count, cap) == Done(|ms|)
    decreases |ms|
  {
    if |ms| > 0 {
      var m := ms[0];
      assert ms == [m] + ms[1..];
      assert [m][..0] == [];
      FlattenAppend([m], ms[1..]);
      assert Flatten([m]) == m;
      DecodeAppend(m, Flatten(ms[1..]));
      LongRunsPositive(m);
      PositiveRunsShorter(m);
      assert Packed(ms[1..], cap) by {
        forall j | 0 <= j < |ms[1..]|
          ensures 1 <= |ms[1..][j]| <= cap && LongRuns(ms[1..][j])
        {
          assert ms[1..][j] == ms[j + 1];
        }
      }
      FillsAll(ms[1..], count - |Decode(m)|, cap);
    } else {
      assert Flatten(ms) == [];
    }
  }

  /** One message of the first rank: the next piece of its vector that
      compress3 fits into max_packet tokens.  With max_packet 0 (a packet
      smaller than an element, which nothing raises to 1 here) compress3
      reads nothing and the message is empty: the first rank never
      advances. */
  method RleSourceStep(sbuf: Vec, count: nat, maxPacket: nat, recvs: nat, outbox: seq<seq<Token>>)
    returns (processed: nat, msg: seq<Token>)
    requires recvs < count <= |sbuf|
    requires Decode(Flatten(outbox)) == sbuf[..recvs] && Packed(outbox, maxPacket)
    ensures processed <= count - recvs
    ensures Decode(Flatten(outbox + [msg])) == sbuf[..recvs + processed]
    ensures processed == 0 <==> maxPacket == 0
    ensures maxPacket == 0 ==> msg == []
    ensures maxPacket > 0 ==> Packed(outbox + [msg], maxPacket)
  {
    var vin := sbuf[recvs..count];
    msg, processed := Compress3(vin, maxPacket);
    DecodeEncode(vin[..processed]);
    EncodeCanonical(vin[..processed]);
    FlattenSnoc(outbox, msg);
    DecodeAppend(Flatten(outbox), msg);
    assert sbuf[..recvs] + vin[..processed] == sbuf[..recvs + processed];
  }

  /** The first rank: its messages decode to its vector, each a packed
      receive of max_packet tokens, and `sendc` counts the tokens sent. */
  method StreamRleSource(sbuf: Vec, count: nat, maxPacket: nat) returns (outbox: seq<seq<Token>>, sendc: nat)
    requires 0 < maxPacket && count <= |sbuf|
    ensures Decode(Flatten(outbox)) == sbuf[..count]
    ensures Packed(outbox, maxPacket)
    ensures sendc == |Flatten(outbox)|
  {
    var sends, recvs := 0, 0;
    outbox, sendc := [], 0;
    while sends < count || recvs < count
      invariant sends == recvs <= count
      invariant Decode(Flatten(outbox)) == sbuf[..recvs] && Packed(outbox, maxPacket)
      invariant sendc == |Flatten(outbox)|
      decreases count - recvs
    {
      var processed, msg := RleSourceStep(sbuf, count, maxPacket, recvs, outbox);
      FlattenSnoc(outbox, msg);
      outbox := outbox + [msg];
      recvs := recvs + processed;
      sendc := sendc + |msg|;
      sends := sends + processed;
    }
  }

  /** A relay between iterations: messages received, tokens still unread
      (`receivedc` at `pbufr`), the carry word, the counters, the tokens
      waiting in `buf[1]` and the elements they cover (`processedc`,
      `processed`), what it has sent, and the token counters. */
  datatype RleRelay = RleRelay(i: nat, unread: seq<Token>, carry: Token, sends: nat, recvs: nat,
                               pend: seq<Token>, processed: nat, outbox: seq<seq<Token>>, sendc: nat, recvc: nat)

  /** The receive guard: nothing unread and elements still missing.  As
      written it ignores the carry; `asWritten == false` also waits for the
      carry to drain. */
  predicate WantsMessage(asWritten: bool, count: nat, st: RleRelay)
  {
    st.unread == [] && (asWritten || CarryLen(st.carry) == 0) && st.recvs < count
  }

  ghost predicate RleCounters(inbox: seq<seq<Token>>, count: nat, maxPacket: nat, st: RleRelay)
  {
    st.i <= |inbox| && st.recvs <= count && st.sends + st.processed == st.recvs
    && |st.unread| <= maxPacket && (CarryLen(st.carry) > 0 ==> maxPacket > 0)
    && (st.unread == [] || (0 < st.i && Suffix(st.unread, inbox[st.i - 1])))
    && st.sendc == |Flatten(st.outbox)| && st.recvc == |Flatten(inbox[..st.i])|
  }

  /** What arrived and is not merged yet is the carry's zeros and then the
      unread tokens. */
  ghost predicate RleStreamAt(inbox: seq<seq<Token>>, st: RleRelay)
    requires st.i <= |inbox|
  {
    st.recvs <= |Arrived(inbox, st.i)|
    && Arrived(inbox, st.i)[st.recvs..] == Zeros(CarryLen(st.carry)) + Decode(st.unread)
  }

  /** What was sent and what waits is what arrived plus the own elements. */
  ghost predicate RleSentAt(sbuf: Vec, inbox: seq<seq<Token>>, maxPacket: nat, st: RleRelay)
    requires st.i <= |inbox| && st.sends <= st.recvs <= |sbuf| && st.recvs <= |Arrived(inbox, st.i)|
  {
    Packed(st.outbox, maxPacket) && |st.pend| <= maxPacket && LongRuns(st.pend)
    && (st.pend == [] <==> st.processed == 0)
    && Decode(Flatten(st.outbox)) == Add(Arrived(inbox, st.i)[..st.sends], sbuf[..st.sends])
    && Decode(st.pend) == Add(Arrived(inbox, st.i)[st.sends..st.recvs], sbuf[st.sends..st.recvs])
  }

  /** How the whole run ends is how the rest of it ends, `i` messages
      later. */
  ghost predicate RleTaking(inbox: seq<seq<Token>>, count: nat, maxPacket: nat, st: RleRelay)
    requires st.i <= |inbox|
  {
    Fills(inbox, count, maxPacket)
      == PipeStream.Shift(Fills(inbox[st.i..], count - Min(count, |Arrived(inbox, st.i)|), maxPacket), st.i)
  }

  /** A relay at the head of its loop. */
  ghost predicate RleAt(sbuf: Vec, inbox: seq<seq<Token>>, count: nat, maxPacket: nat, asWritten: bool, st: RleRelay)
  {
    count <= |sbuf| && RleCounters(inbox, count, maxPacket, st) && RleStreamAt(inbox, st)
    && RleSentAt(sbuf, inbox, maxPacket, st) && (!asWritten ==> RleTaking(inbox, count, maxPacket, st))
  }

  /** A relay before its first iteration. */
  method RleStart(sbuf: Vec, inbox: seq<seq<Token>>, count: nat, maxPacket: nat, asWritten: bool)
    returns (st: RleRelay)
    requires count <= |sbuf|
    ensures RleAt(sbuf, inbox, count, maxPacket, asWritten, st) == true
    ensures st.i == 0 && st.outbox == [] && st.pend == [] && st.unread == [] && st.recvs == 0
  {
    st := RleRelay(0, [], Lit(0.0), 0, 0, [], 0, [], 0, 0);
    assert inbox[..0] == [] && inbox[0..] == inbox;
    assert Arrived(inbox, 0) == [];
    assert Zeros(0) == [];
  }

  /** The send of an iteration: the waiting tokens, if any, go out. */
  method RleSend(sbuf: Vec, inbox: seq<seq<Token>>, count: nat, maxPacket: nat, asWritten: bool, st: RleRelay)
    returns (st1: RleRelay)
    requires RleAt(sbuf, inbox, count, maxPacket, asWritten, st)
    ensures RleAt(sbuf, inbox, count, maxPacket, asWritten, st1) == true
    ensures st1.pend == [] && st1.i == st.i && st1.recvs == st.recvs && st1.unread == st.unread
    ensures st1.carry == st.carry && st1.outbox == st.outbox + (if st.pend == [] then [] else [st.pend])
  {
    st1 := st;
    if st.pend != [] {
      st1 := st.(sends := st.sends + st.processed, pend := [], processed := 0, outbox := st.outbox + [st.pend],
                 sendc := st.sendc + |st.pend|);
      assert Sent(st, st1);
      SendCounters(inbox, count, maxPacket, st, st1);
      SendSent(sbuf, inbox, maxPacket, st, st1);
    }
  }

  /** `st1` is `st` with the waiting tokens sent. */
  predicate Sent(st: RleRelay, st1: RleRelay)
  {
    st1.i == st.i && st1.unread == st.unread && st1.carry == st.carry && st1.sends == st.sends + st.processed
    && st1.recvs == st.recvs && st1.pend == [] && st1.processed == 0 && st1.outbox == st.outbox + [st.pend]
    && st1.sendc == st.sendc + |st.pend| && st1.recvc == st.recvc
  }

  lemma SendCounters(inbox: seq<seq<Token>>, count: nat, maxPacket: nat, st: RleRelay, st1: RleRelay)
    requires RleCounters(inbox, count, maxPacket, st) && Sent(st, st1)
    ensures RleCounters(inbox, count, maxPacket, st1)
  {
    FlattenSnoc(st.outbox, st.pend);
  }

  lemma SendSent(sbuf: Vec, inbox: seq<seq<Token>>, maxPacket: nat, st: RleRelay, st1: RleRelay)
    requires st.i <= |inbox| && st.sends + st.processed == st.recvs <= |sbuf| && st.recvs <= |Arrived(inbox, st.i)|
    requires RleSentAt(sbuf, inbox, maxPacket, st) && st.pend != [] && Sent(st, st1)
    ensures RleSentAt(sbuf, inbox, maxPacket, st1)
  {
    SendKeeps(Arrived(inbox, st.i), sbuf, st.sends, st.recvs, st.outbox, st.pend);
    assert Decode([]) == [];
  }

  /** Sending the waiting tokens moves them to what was sent. */
  lemma SendKeeps(a: Vec, sbuf: Vec, sends: nat, recvs: nat, outbox: seq<seq<Token>>, pend: seq<Token>)
    requires sends <= recvs <= |a| && recvs <= |sbuf|
    requires Decode(Flatten(outbox)) == Add(a[..sends], sbuf[..sends])
    requires Decode(pend) == Add(a[sends..recvs], sbuf[sends..recvs])
    ensures Decode(Flatten(outbox + [pend])) == Add(a[..recvs], sbuf[..recvs])
  {
    FlattenSnoc(outbox, pend);
    DecodeAppend(Flatten(outbox), pend);
    AddAppend(a[..sends], a[sends..recvs], sbuf[..sends], sbuf[sends..recvs]);
    assert a[..sends] + a[sends..recvs] == a[..recvs];
    assert sbuf[..sends] + sbuf[sends..recvs] == sbuf[..recvs];
  }

  /** The receive of an iteration, once message `i` has arrived and fits
      `buf[0]`: it becomes the unread tokens. */
  method RleTake(sbuf: Vec, inbox: seq<seq<Token>>, count: nat, maxPacket: nat, asWritten: bool, st: RleRelay)
    returns (st1: RleRelay)
    requires RleAt(sbuf, inbox, count, maxPacket, asWritten, st) && st.pend == [] && WantsMessage(asWritten, count, st)
    requires st.i < |inbox| && |inbox[st.i]| <= maxPacket
    ensures RleAt(sbuf, inbox, count, maxPacket, asWritten, st1) == true
    ensures st1.i == st.i + 1 && st1.pend == [] && st1.recvs == st.recvs && st1.outbox == st.outbox
    ensures st1.unread == inbox[st.i]
  {
    var msg := inbox[st.i];
    st1 := st.(i := st.i + 1, unread := msg, recvc := st.recvc + |msg|);
    assert Took(inbox, st, st1);
    TakeCounters(inbox, count, maxPacket, st, st1);
    TakeStream(inbox, st, st1);
    TakeSent(sbuf, inbox, maxPacket, st, st1);
    if !asWritten {
      TakeTaking(inbox, count, maxPacket, st, st1);
    }
  }

  /** `st1` is `st` with message `i` received as the unread tokens. */
  predicate Took(inbox: seq<seq<Token>>, st: RleRelay, st1: RleRelay)
    requires st.i < |inbox|
  {
    st1.i == st.i + 1 && st1.unread == inbox[st.i] && st1.carry == st.carry && st1.sends == st.sends
    && st1.recvs == st.recvs && st1.pend == st.pend && st1.processed == st.processed && st1.outbox == st.outbox
    && st1.sendc == st.sendc && st1.recvc == st.recvc + |inbox[st.i]|
  }

  lemma TakeCounters(inbox: seq<seq<Token>>, count: nat, maxPacket: nat, st: RleRelay, st1: RleRelay)
    requires st.i < |inbox| && |inbox[st.i]| <= maxPacket && RleCounters(inbox, count, maxPacket, st)
    requires Took(inbox, st, st1)
    ensures RleCounters(inbox, count, maxPacket, st1)
  {
    assert inbox[..st.i + 1] == inbox[..st.i] + [inbox[st.i]];
    FlattenSnoc(inbox[..st.i], inbox[st.i]);
    assert inbox[st.i][|inbox[st.i]| - |st1.unread|..] == st1.unread;
  }

  lemma TakeTaking(inbox: seq<seq<Token>>, count: nat, maxPacket: nat, st: RleRelay, st1: RleRelay)
    requires st.i < |inbox| && |inbox[st.i]| <= maxPacket && WantsMessage(false, count, st)
    requires RleStreamAt(inbox, st) && RleTaking(inbox, count, maxPacket, st) && Took(inbox, st, st1)
    ensures RleTaking(inbox, count, maxPacket, st1)
  {
    assert |Arrived(inbox, st.i)| == st.recvs by {
      assert Zeros(0) == [] && Decode([]) == [];
    }
    TakingNext(inbox, count, maxPacket, st.i);
  }

  lemma TakeStream(inbox: seq<seq<Token>>, st: RleRelay, st1: RleRelay)
    requires st.i < |inbox| && st.unread == [] && RleStreamAt(inbox, st) && Took(inbox, st, st1)
    ensures RleStreamAt(inbox, st1)
  {
    ArrivedNext(inbox, st.i);
    assert Decode([]) == [];
    TakeKeeps(Arrived(inbox, st.i), Arrived(inbox, st1.i), Decode(inbox[st.i]), st.recvs, st.recvs);
  }

  lemma TakeSent(sbuf: Vec, inbox: seq<seq<Token>>, maxPacket: nat, st: RleRelay, st1: RleRelay)
    requires st.i < |inbox| && st.sends <= st.recvs <= |sbuf| && st.recvs <= |Arrived(inbox, st.i)|
    requires RleSentAt(sbuf, inbox, maxPacket, st) && Took(inbox, st, st1)
    ensures st1.recvs <= |Arrived(inbox, st1.i)| && RleSentAt(sbuf, inbox, maxPacket, st1)
  {
    ArrivedNext(inbox, st.i);
    TakeKeeps(Arrived(inbox, st.i), Arrived(inbox, st1.i), Decode(inbox[st.i]), st.sends, st.recvs);
  }

  /** Appending to what arrived leaves its prefixes alone. */
  lemma TakeKeeps(a: Vec, a1: Vec, d: Vec, sends: nat, recvs: nat)
    requires a1 == a + d && sends <= recvs <= |a|
    ensures recvs <= |a1| && a1[recvs..] == a[recvs..] + d
    ensures a1[..sends] == a[..sends] && a1[sends..recvs] == a[sends..recvs]
  {
  }

  /** The facts add3_cf leaves behind: what arrived past the merged
      elements is the new carry and the tokens still unread, and the new
      output is the merged elements plus the own elements. */
  lemma ProcessKeeps(a: Vec, recvs: nat, c: Token, unread: seq<Token>, vin1: Vec, sbuf: Vec,
                     r0: nat, r1: nat, cout: Token, vout: seq<Token>, recvs1: nat, end: nat)
    requires recvs <= |a| && a[recvs..] == Zeros(CarryLen(c)) + Decode(unread)
    requires recvs <= end <= |sbuf| && vin1 == sbuf[recvs..end]
    requires Add3Spec(c, unread, vin1, r0, r1, CarryLen(cout), Decode(vout))
    requires recvs1 == recvs + r1
    ensures recvs1 <= |a| && a[recvs1..] == Zeros(CarryLen(cout)) + Decode(unread[r0..])
    ensures Decode(vout) == Add(a[recvs..recvs1], sbuf[recvs..recvs1])
  {
    var e, rest := Consumed(c, unread, r0), Decode(unread[r0..]);
    ConsumedSplit(c, unread, r0);
    SplitAfter(a, recvs, e, rest, r1);
    assert vin1[..r1] == sbuf[recvs..recvs1];
  }

  /** The elements made available and the tokens left make up what the
      carry and the unread tokens held. */
  lemma ConsumedSplit(c: Token, unread: seq<Token>, r0: nat)
    requires r0 <= |unread|
    ensures Consumed(c, unread, r0) + Decode(unread[r0..]) == Zeros(CarryLen(c)) + Decode(unread)
  {
    DecodeSplit(unread, r0);
  }

  /** Cutting `r` more elements off a tail that starts with `e`. */
  lemma SplitAfter(a: Vec, p: nat, e: Vec, rest: Vec, r: nat)
    requires p <= |a| && a[p..] == e + rest && r <= |e|
    ensures p + r <= |a| && a[p + r..] == e[r..] + rest && a[p..p + r] == e[..r]
  {
    assert a[p + r..] == a[p..][r..];
    assert a[p..p + r] == a[p..][..r];
  }

  /** The merge of an iteration (add3_cf into `buf[1]`): at most max_packet
      tokens of the unread tokens and the own elements from `recvs` on. */
  method RleProcess(sbuf: Vec, inbox: seq<seq<Token>>, count: nat, maxPacket: nat, asWritten: bool, st: RleRelay)
    returns (st1: RleRelay)
    requires RleAt(sbuf, inbox, count, maxPacket, asWritten, st) && st.pend == []
    ensures RleAt(sbuf, inbox, count, maxPacket, asWritten, st1) == true
    ensures st1.i == st.i && st1.outbox == st.outbox && st.recvs <= st1.recvs
    ensures st1.recvs == st.recvs ==> st1.pend == [] && |st1.unread| <= |st.unread|
    ensures st.recvs < count && st.unread != [] ==> st1.recvs > st.recvs || |st1.unread| < |st.unread|
    ensures st.recvs < count && st.unread == [] && CarryLen(st.carry) > 0 ==> st1.recvs > st.recvs
    ensures st1.unread == [] || st1.recvs == count || |st1.pend| == maxPacket
    ensures CarryLen(st1.carry) > 0 ==> st1.recvs == count || |st1.pend| == maxPacket
  {
    var vin1 := sbuf[st.recvs..count];
    var vout, r0, r1, cout := Add3Cf(st.unread, vin1, maxPacket, st.carry);
    st1 := st.(unread := st.unread[r0..], carry := cout, recvs := st.recvs + r1, pend := vout, processed := r1);
    ProcessAt(sbuf, inbox, count, maxPacket, asWritten, st, vin1, vout, r0, r1, cout, st1);
    ProcessProgress(st.carry, st.unread, vin1, maxPacket, vout, r0, r1, cout);
    if r0 == 0 {
      assert st.unread[..0] == [] && st1.unread == st.unread;
    }
  }

  /** add3_cf keeps the relay's invariant. */
  lemma ProcessAt(sbuf: Vec, inbox: seq<seq<Token>>, count: nat, maxPacket: nat, asWritten: bool, st: RleRelay,
                  vin1: Vec, vout: seq<Token>, r0: nat, r1: nat, cout: Token, st1: RleRelay)
    requires RleAt(sbuf, inbox, count, maxPacket, asWritten, st) && st.pend == []
    requires vin1 == sbuf[st.recvs..count]
    requires Add3Spec(st.carry, st.unread, vin1, r0, r1, CarryLen(cout), Decode(vout))
    requires r0 <= |st.unread| && r1 <= |vin1| && |vout| <= maxPacket && |vout| <= r1 && LongRuns(vout)
    requires maxPacket == 0 ==> CarryLen(cout) == CarryLen(st.carry)
    requires st1 == st.(unread := st.unread[r0..], carry := cout, recvs := st.recvs + r1, pend := vout, processed := r1)
    ensures RleAt(sbuf, inbox, count, maxPacket, asWritten, st1)
  {
    ProcessCounters(inbox, count, maxPacket, st, r0, r1, cout, st1);
    ProcessStream(sbuf, inbox, count, maxPacket, st, vin1, vout, r0, r1, cout, st1);
    assert !asWritten ==> RleTaking(inbox, count, maxPacket, st1);
  }

  lemma ProcessCounters(inbox: seq<seq<Token>>, count: nat, maxPacket: nat, st: RleRelay,
                        r0: nat, r1: nat, cout: Token, st1: RleRelay)
    requires RleCounters(inbox, count, maxPacket, st) && st.pend == [] && st.processed == 0
    requires r0 <= |st.unread| && st.recvs + r1 <= count
    requires maxPacket == 0 ==> CarryLen(cout) == CarryLen(st.carry)
    requires st1.i == st.i && st1.unread == st.unread[r0..] && st1.carry == cout && st1.recvs == st.recvs + r1
    requires st1.sends == st.sends && st1.processed == r1 && st1.outbox == st.outbox && st1.sendc == st.sendc
    requires st1.recvc == st.recvc
    ensures RleCounters(inbox, count, maxPacket, st1)
  {
    if st1.unread != [] {
      var m := inbox[st.i - 1];
      assert st1.unread == m[|m| - |st1.unread|..];
    }
  }

  lemma ProcessStream(sbuf: Vec, inbox: seq<seq<Token>>, count: nat, maxPacket: nat, st: RleRelay,
                      vin1: Vec, vout: seq<Token>, r0: nat, r1: nat, cout: Token, st1: RleRelay)
    requires st.i <= |inbox| && st.sends == st.recvs <= count <= |sbuf| && st.pend == [] && st.processed == 0
    requires RleStreamAt(inbox, st) && RleSentAt(sbuf, inbox, maxPacket, st)
    requires vin1 == sbuf[st.recvs..count]
    requires Add3Spec(st.carry, st.unread, vin1, r0, r1, CarryLen(cout), Decode(vout))
    requires r0 <= |st.unread| && r1 <= |vin1| && |vout| <= maxPacket && |vout| <= r1 && LongRuns(vout)
    requires st1.i == st.i && st1.unread == st.unread[r0..] && st1.carry == cout && st1.recvs == st.recvs + r1
    requires st1.sends == st.sends && st1.pend == vout && st1.processed == r1 && st1.outbox == st.outbox
    ensures RleStreamAt(inbox, st1) && RleSentAt(sbuf, inbox, maxPacket, st1)
  {
    var a := Arrived(inbox, st.i);
    ProcessKeeps(a, st.recvs, st.carry, st.unread, vin1, sbuf, r0, r1, cout, vout, st1.recvs, count);
    StreamAtOf(inbox, st1, a);
    ProcessSent(sbuf, a, maxPacket, st, vout, r1, st1);
  }

  lemma StreamAtOf(inbox: seq<seq<Token>>, st: RleRelay, a: Vec)
    requires st.i <= |inbox| && a == Arrived(inbox, st.i)
    requires st.recvs <= |a| && a[st.recvs..] == Zeros(CarryLen(st.carry)) + Decode(st.unread)
    ensures RleStreamAt(inbox, st)
  {
  }

  lemma ProcessSent(sbuf: Vec, a: Vec, maxPacket: nat, st: RleRelay, vout: seq<Token>, r1: nat, st1: RleRelay)
    requires st.sends == st.recvs && st1.recvs == st.recvs + r1 <= |sbuf| && st1.recvs <= |a|
    requires Packed(st.outbox, maxPacket) && Decode(Flatten(st.outbox)) == Add(a[..st.sends], sbuf[..st.sends])
    requires Decode(vout) == Add(a[st.recvs..st1.recvs], sbuf[st.recvs..st1.recvs])
    requires |vout| <= maxPacket && |vout| <= r1 && LongRuns(vout)
    requires st1.sends == st.sends && st1.pend == vout && st1.processed == r1 && st1.outbox == st.outbox
    ensures Packed(st1.outbox, maxPacket) && |st1.pend| <= maxPacket && LongRuns(st1.pend)
    ensures st1.pend == [] <==> st1.processed == 0
    ensures Decode(Flatten(st1.outbox)) == Add(a[..st1.sends], sbuf[..st1.sends])
    ensures Decode(st1.pend) == Add(a[st1.sends..st1.recvs], sbuf[st1.sends..st1.recvs])
  {
    assert |Decode(vout)| == r1;
    assert vout == [] ==> Decode(vout) == [];
  }

  /** add3_cf always gets somewhere: with elements still to merge it
      either merges some or reads a token, and a pending carry is drained
      into the output. */
  lemma ProcessProgress(c: Token, unread: seq<Token>, vin1: Vec, maxPacket: nat,
                        vout: seq<Token>, r0: nat, r1: nat, cout: Token)
    requires Add3Spec(c, unread, vin1, r0, r1, CarryLen(cout), Decode(vout))
    requires r0 <= |unread| && r1 <= |vin1| && |vout| <= r1
    requires r0 == |unread| || r1 == |vin1| || |vout| == maxPacket
    requires CarryLen(cout) > 0 ==> r1 == |vin1| || |vout| == maxPacket
    ensures r1 == 0 ==> vout == []
    ensures 0 < |vin1| && 0 < |unread| <= maxPacket ==> r0 > 0 || r1 > 0
    ensures 0 < |vin1| && unread == [] && CarryLen(c) > 0 && maxPacket > 0 ==> r1 > 0
  {
    if r1 == 0 && CarryLen(cout) == 0 {
      assert |Consumed(c, unread, r0)| == 0;
    }
  }

  /** `a` is below `b` in the measure of the relay loop. */
  predicate Below(a: RleRelay, b: RleRelay)
  {
    a.i > b.i
    || (a.i == b.i && (a.recvs > b.recvs
      || (a.recvs == b.recvs && (|a.unread| < |b.unread| || (|a.unread| == |b.unread| && a.pend == [] && b.pend != [])))))
  }

  /** One iteration of the relay loop.  It asks for a message exactly when
      the guard says so; a receive past the last message blocks and one
      longer than `buf[0]` is fatal. */
  method RleIteration(sbuf: Vec, inbox: seq<seq<Token>>, count: nat, maxPacket: nat, asWritten: bool, st: RleRelay)
    returns (res: Outcome<RleRelay>)
    requires RleAt(sbuf, inbox, count, maxPacket, asWritten, st) && (st.sends < count || st.recvs < count)
    ensures res.Blocked? <==> WantsMessage(asWritten, count, st) && st.i == |inbox|
    ensures res.Truncated? <==> WantsMessage(asWritten, count, st) && st.i < |inbox| && |inbox[st.i]| > maxPacket
    ensures !res.Overrun?
    ensures !res.Done? && !asWritten ==> SameEnd(res, Fills(inbox, count, maxPacket))
    ensures res.Done? ==> RleAt(sbuf, inbox, count, maxPacket, asWritten, res.value) == true && Below(res.value, st)
    ensures res.Done? ==> res.value.i == if WantsMessage(asWritten, count, st) then st.i + 1 else st.i
    ensures res.Done? ==> res.value.outbox == st.outbox + (if st.pend == [] then [] else [st.pend])
    ensures res.Done? ==> res.value.unread == [] || res.value.recvs == count || |res.value.pend| == maxPacket
    ensures res.Done? ==> CarryLen(res.value.carry) > 0 ==> res.value.recvs == count || |res.value.pend| == maxPacket
  {
    var st1;
    if WantsMessage(asWritten, count, st) {
      if !asWritten {
        assert inbox[st.i..] == [] || inbox[st.i..][0] == inbox[st.i];
        assert Zeros(0) == [];
      }
      if st.i == |inbox| {
        return Blocked;
      }
      if |inbox[st.i]| > maxPacket {
        return Truncated;
      }
      st1 := RleSend(sbuf, inbox, count, maxPacket, asWritten, st);
      st1 := RleTake(sbuf, inbox, count, maxPacket, asWritten, st1);
    } else {
      st1 := RleSend(sbuf, inbox, count, maxPacket, asWritten, st);
    }
    var st2 := RleProcess(sbuf, inbox, count, maxPacket, asWritten, st1);
    return Done(st2);
  }

  /** A relay that has finished: it took `i` messages carrying at least
      `count` elements, and sent their first `count` elements plus its own
      as packed messages; `sendc` and `recvc` count the tokens. */
  ghost predicate RleRelayDone(sbuf: Vec, inbox: seq<seq<Token>>, count: nat, maxPacket: nat, st: RleRelay)
  {
    st.i <= |inbox| && count <= |Arrived(inbox, st.i)| && count <= |sbuf|
    && Decode(Flatten(st.outbox)) == Add(Arrived(inbox, st.i)[..count], sbuf[..count])
    && Packed(st.outbox, maxPacket)
    && st.sendc == |Flatten(st.outbox)| && st.recvc == |Flatten(inbox[..st.i])|
  }

  /** A relay.  With the corrected guard it ends as `Fills` says; with
      either guard a relay that finishes has passed on the sum of what it
      took and its own elements, and nothing runs off the buffers. */
  method StreamRleRelay(sbuf: Vec, inbox: seq<seq<Token>>, count: nat, maxPacket: nat, asWritten: bool)
    returns (res: Outcome<RleRelay>)
    requires count <= |sbuf|
    ensures res.Blocked? || res.Truncated? || res.Done?
    ensures !asWritten ==> SameEnd(res, Fills(inbox, count, maxPacket))
    ensures res.Done? ==> RleRelayDone(sbuf, inbox, count, maxPacket, res.value)
    ensures res.Done? && !asWritten ==> res.value.i == Fills(inbox, count, maxPacket).value
  {
    var st := RleStart(sbuf, inbox, count, maxPacket, asWritten);
    while st.sends < count || st.recvs < count
      invariant RleAt(sbuf, inbox, count, maxPacket, asWritten, st)
      decreases |inbox| - st.i, count - st.recvs, |st.unread|, if st.pend == [] then 0 else 1
    {
      var r := RleIteration(sbuf, inbox, count, maxPacket, asWritten, st);
      if !r.Done? {
        return r;
      }
      st := r.value;
    }
    if !asWritten {
      assert Min(count, |Arrived(inbox, st.i)|) == count;
    }
    return Done(st);
  }

  /** The root between iterations: messages received, the carry word, the
      elements merged and its receive buffer. */
  datatype RleRoot = RleRoot(i: nat, carry: Token, recvs: nat, buf: Vec)

  /** The root at the head of its loop: until `count` is reached it has
      merged everything that arrived, and its buffer holds that plus its
      own elements, the rest of it untouched. */
  ghost predicate RleRootAt(sbuf: Vec, rbuf: Vec, inbox: seq<seq<Token>>, count: nat, maxPacket: nat, st: RleRoot)
    requires count <= |sbuf| && count <= |rbuf|
  {
    st.i <= |inbox| && st.recvs <= count && st.recvs <= |Arrived(inbox, st.i)|
    && (st.recvs < count ==> CarryLen(st.carry) == 0 && st.recvs == |Arrived(inbox, st.i)|)
    && Fills(inbox, count, maxPacket) == PipeStream.Shift(Fills(inbox[st.i..], count - st.recvs, maxPacket), st.i)
    && |st.buf| == |rbuf| && st.buf[..st.recvs] == Add(Arrived(inbox, st.i)[..st.recvs], sbuf[..st.recvs])
    && st.buf[st.recvs..] == rbuf[st.recvs..]
  }

  /** One iteration of the root once message `i` has arrived and fits:
      add3_uc merges it with the own elements straight into the receive
      buffer, at most up to `count`; tokens left over are dropped (the
      source prints an error line). */
  method RleRootStep(sbuf: Vec, rbuf: Vec, inbox: seq<seq<Token>>, count: nat, maxPacket: nat, st: RleRoot)
    returns (st1: RleRoot)
    requires count <= |sbuf| && count <= |rbuf| && RleRootAt(sbuf, rbuf, inbox, count, maxPacket, st)
    requires st.recvs < count && st.i < |inbox| && |inbox[st.i]| <= maxPacket
    ensures RleRootAt(sbuf, rbuf, inbox, count, maxPacket, st1) == true && st1.i == st.i + 1
  {
    var msg := inbox[st.i];
    var o := st.recvs;
    var vin1 := sbuf[o..count];
    var vout, r0, r1, cout := Add3Uc(msg, vin1, count - o, st.carry);
    var buf := st.buf[..o] + vout + st.buf[o + r1..];
    st1 := RleRoot(st.i + 1, cout, o + r1, buf);
    RootStepAt(sbuf, rbuf, inbox, count, maxPacket, st, vin1, vout, r0, r1, cout, st1);
  }

  lemma RootStepAt(sbuf: Vec, rbuf: Vec, inbox: seq<seq<Token>>, count: nat, maxPacket: nat, st: RleRoot,
                   vin1: Vec, vout: Vec, r0: nat, r1: nat, cout: Token, st1: RleRoot)
    requires count <= |sbuf| && count <= |rbuf| && RleRootAt(sbuf, rbuf, inbox, count, maxPacket, st)
    requires st.recvs < count && st.i < |inbox| && |inbox[st.i]| <= maxPacket
    requires vin1 == sbuf[st.recvs..count]
    requires Add3Spec(st.carry, inbox[st.i], vin1, r0, r1, CarryLen(cout), vout) && |vout| == r1
    requires r0 == |inbox[st.i]| || r1 == |vin1| || r1 == count - st.recvs
    requires CarryLen(cout) > 0 ==> r1 == |vin1| || r1 == count - st.recvs
    requires st1.i == st.i + 1 && st1.carry == cout && st1.recvs == st.recvs + r1
    requires st1.buf == st.buf[..st.recvs] + vout + st.buf[st1.recvs..]
    ensures RleRootAt(sbuf, rbuf, inbox, count, maxPacket, st1)
  {
    var a, a1 := Arrived(inbox, st.i), Arrived(inbox, st1.i);
    ArrivedNext(inbox, st.i);
    RootMerge(a, a1, inbox[st.i], st.recvs, st1.recvs, count, sbuf, vin1, r0, r1, cout, vout, st.carry);
    RootBuffer(st.buf, rbuf, st.recvs, st1.recvs, vout, st1.buf);
    FillsNext(inbox, st.i, count, st.recvs, st1.recvs, maxPacket);
  }

  /** What one add3_uc call at the root adds to the merged prefix: the
      elements of message `msg` up to `count`, plus the own elements. */
  lemma RootMerge(a: Vec, a1: Vec, msg: seq<Token>, o: nat, o1: nat, count: nat, sbuf: Vec, vin1: Vec,
                  r0: nat, r1: nat, cout: Token, vout: Vec, c: Token)
    requires o == |a| && o < count <= |sbuf| && CarryLen(c) == 0 && a1 == a + Decode(msg)
    requires vin1 == sbuf[o..count] && o1 == o + r1
    requires Add3Spec(c, msg, vin1, r0, r1, CarryLen(cout), vout) && |vout| == r1
    requires r0 == |msg| || r1 == |vin1| || r1 == count - o
    requires CarryLen(cout) > 0 ==> r1 == |vin1| || r1 == count - o
    ensures o1 <= |a1| && o1 <= count && Min(count, o + |Decode(msg)|) == o1
    ensures o1 < count ==> CarryLen(cout) == 0 && o1 == |a1|
    ensures Add(a1[..o1], sbuf[..o1]) == Add(a[..o], sbuf[..o]) + vout
  {
    var d := Decode(msg);
    RootPrefix(c, msg, r0, r1, CarryLen(cout), vin1, vout);
    if r1 < |vin1| && r1 < count - o {
      RootAll(c, msg, r0, r1, vin1, vout);
    }
    assert vout == Add(d[..r1], sbuf[o..o1]) by {
      assert vin1[..r1] == sbuf[o..o1];
    }
    SumAppend(a, d, sbuf, o, o1, vout);
  }

  /** With no carry in, the merged elements are a prefix of the message. */
  lemma RootPrefix(c: Token, msg: seq<Token>, r0: nat, r1: nat, pending: nat, vin1: Vec, vout: Vec)
    requires CarryLen(c) == 0 && Add3Spec(c, msg, vin1, r0, r1, pending, vout)
    ensures r1 + pending <= |Decode(msg)| && vout == Add(Decode(msg)[..r1], vin1[..r1])
  {
    assert Zeros(0) == [];
    DecodeSplit(msg, r0);
  }

  /** A merge that stopped for neither buffer used the whole message. */
  lemma RootAll(c: Token, msg: seq<Token>, r0: nat, r1: nat, vin1: Vec, vout: Vec)
    requires CarryLen(c) == 0 && Add3Spec(c, msg, vin1, r0, r1, 0, vout) && r0 == |msg|
    ensures r1 == |Decode(msg)|
  {
    assert Zeros(0) == [];
    assert msg[..r0] == msg;
  }

  /** Adding the own elements to what arrived, in two parts. */
  lemma SumAppend(a: Vec, d: Vec, s: Vec, o: nat, o1: nat, vout: Vec)
    requires |a| == o <= o1 <= |s| && o1 - o <= |d| && vout == Add(d[..o1 - o], s[o..o1])
    ensures Add((a + d)[..o1], s[..o1]) == Add(a[..o], s[..o]) + vout
  {
    assert (a + d)[..o1] == a[..o] + d[..o1 - o];
    assert s[..o1] == s[..o] + s[o..o1];
    AddAppend(a[..o], d[..o1 - o], s[..o], s[o..o1]);
  }

  /** Writing `vout` into the receive buffer at `o`. */
  lemma RootBuffer(buf0: Vec, rbuf: Vec, o: nat, o1: nat, vout: Vec, buf: Vec)
    requires |buf0| == |rbuf| && o1 == o + |vout| <= |buf0| && buf0[o..] == rbuf[o..]
    requires buf == buf0[..o] + vout + buf0[o1..]
    ensures |buf| == |rbuf| && buf[..o1] == buf0[..o] + vout && buf[o1..] == rbuf[o1..]
  {
    assert buf0[o1..] == buf0[o..][|vout|..];
  }

  /** The root (the `iam_last_in_pipe` branch).  It ends as `Fills` says;
      on success the first `count` elements of its receive buffer are the
      first `count` elements that arrived plus its own, and the rest is
      untouched. */
  method StreamRleRoot(sbuf: Vec, rbuf: Vec, inbox: seq<seq<Token>>, count: nat, maxPacket: nat)
    returns (res: Outcome<Vec>)
    requires count <= |sbuf| && count <= |rbuf|
    ensures SameEnd(res, Fills(inbox, count, maxPacket))
    ensures res.Done? ==> count <= |Arrived(inbox, Fills(inbox, count, maxPacket).value)|
    ensures res.Done? ==> |res.value| == |rbuf| && res.value[count..] == rbuf[count..]
    ensures res.Done? ==>
      res.value[..count] == Add(Arrived(inbox, Fills(inbox, count, maxPacket).value)[..count], sbuf[..count])
  {
    var st := RleRoot(0, Lit(0.0), 0, rbuf);
    assert inbox[..0] == [] && inbox[0..] == inbox;
    assert Arrived(inbox, 0) == [];
    while st.recvs < count
      invariant RleRootAt(sbuf, rbuf, inbox, count, maxPacket, st)
      decreases |inbox| - st.i
    {
      assert inbox[st.i..] == [] || inbox[st.i..][0] == inbox[st.i];
      if st.i == |inbox| {
        return Blocked;
      }
      if |inbox[st.i]| > maxPacket {
        return Truncated;
      }
      st := RleRootStep(sbuf, rbuf, inbox, count, maxPacket, st);
    }
    return Done(st.buf);
  }

  /** A decoding without zeros comes from literals alone. */
  lemma {:induction false} NoZerosAllLits(ts: seq<Token>)
    requires LongRuns(ts) && forall j :: 0 <= j < |Decode(ts)| ==> Decode(ts)[j] != 0.0
    ensures |Decode(ts)| == |ts|
    decreases |ts|
  {
    if |ts| > 0 {
      DecodeSuffixStep(ts, 0);
      assert ts[1..] == ts[0 + 1..];
      if ts[0].Run? {
        assert Decode(ts)[0] == 0.0;
      }
      assert LongRuns(ts[1..]) by {
        forall j | 0 <= j < |ts[1..]| && ts[1..][j].Run?
          ensures ts[1..][j].k >= 2
        {
          assert ts[1..][j] == ts[j + 1];
        }
      }
      forall j | 0 <= j < |Decode(ts[1..])|
        ensures Decode(ts[1..])[j] != 0.0
      {
        assert Decode(ts[1..])[j] == Decode(ts)[j + 1];
      }
      NoZerosAllLits(ts[1..]);
    }
  }

  /** As written, a relay whose predecessor holds four zeros and whose own
      vector is 1, 2, 3, 4 waits for ever when max_packet is 2: the first
      rank sends the four zeros as one marker, the relay's first merge
      fills its two output tokens and leaves two zeros in the carry, and
      with nothing unread it asks for a second message that never comes.
      The corrected guard drains the carry first and finishes. */
  method RleDeadlockExample() returns (stuck: Outcome<RleRelay>, fine: Outcome<RleRelay>)
    ensures stuck.Blocked? && fine.Done?
  {
    var own: Vec := [1.0, 2.0, 3.0, 4.0];
    var inbox := ZeroMarker();
    var st0 := RleStart(own, inbox, 4, 2, true);
    var r := RleIteration(own, inbox, 4, 2, true, st0);
    DeadlockWaits(own, inbox, r.value);
    stuck := RleIteration(own, inbox, 4, 2, true, r.value);
    DeadlockFills(inbox);
    fine := StreamRleRelay(own, inbox, 4, 2, false);
  }

  /** The first rank's only message for four zeros: one marker. */
  method ZeroMarker() returns (inbox: seq<seq<Token>>)
    ensures inbox == [[Run(4)]] && Arrived(inbox, 1) == Zeros(4)
  {
    var msg, nread := Compress3(Zeros(4), 2);
    assert nread == 4;
    assert Zeros(4)[..4] == Zeros(4);
    EncodeZeros(4);
    assert msg == [Run(4)];
    inbox := [msg];
    assert Decode(msg) == Zeros(4) by {
      assert msg[1..] == [];
    }
    assert Flatten(inbox[..1]) == msg by {
      assert inbox[..1] == [msg] && [msg][..0] == inbox[..0];
    }
  }

  /** After its first merge the relay of the example has nothing unread
      and fewer than four elements merged, so the guard as written asks
      for a second message. */
  lemma DeadlockWaits(own: Vec, inbox: seq<seq<Token>>, st1: RleRelay)
    requires own == [1.0, 2.0, 3.0, 4.0] && inbox == [[Run(4)]] && Arrived(inbox, 1) == Zeros(4)
    requires RleAt(own, inbox, 4, 2, true, st1) && st1.i == 1 && st1.outbox == []
    requires st1.unread == [] || st1.recvs == 4 || |st1.pend| == 2
    ensures WantsMessage(true, 4, st1) && st1.recvs < 4
  {
    var a := Arrived(inbox, 1);
    assert st1.sends == 0 by {
      assert Flatten<Token>([]) == [] && Decode([]) == [];
    }
    assert Decode(st1.pend) == own[..st1.recvs] by {
      assert a[0..st1.recvs] == Zeros(st1.recvs) && own[0..st1.recvs] == own[..st1.recvs];
      AddZerosLeft(own[..st1.recvs]);
    }
    NoZerosAllLits(st1.pend);
    assert st1.unread == [];
  }

  /** With the corrected guard the example ends after its one message. */
  lemma DeadlockFills(inbox: seq<seq<Token>>)
    requires inbox == [[Run(4)]] && Arrived(inbox, 1) == Zeros(4)
    ensures Fills(inbox, 4, 2) == Done(1)
  {
    assert Decode(inbox[0]) == Zeros(4) by {
      assert inbox[..1] == [inbox[0]];
      assert Flatten([inbox[0]]) == inbox[0];
    }
    assert inbox[1..] == [];
  }

  /** The chain after `k` ranks: the messages leaving rank `k - 1` of the
      chain are packed and decode to the sum of the first `k` chain
      vectors. */
  ghost predicate RleChainAt(vs: seq<Vec>, root: nat, count: nat, maxPacket: nat, k: nat, rank: int,
                             msgs: seq<seq<Token>>)
    requires root < |vs|
    requires forall r :: 0 <= r < |vs| ==> |vs[r]| == count
  {
    ChainSum(vs, root, count);
    1 <= k <= |vs| - 1 && rank == Walk(root, |vs|, k - 1)
    && Packed(msgs, maxPacket) && Decode(Flatten(msgs)) == SumAll(ChainVecs(vs, root)[..k], count)
  }

  /** Packed messages carrying `count` elements are all taken, and what
      arrives is their decoding. */
  lemma PackedTaken(msgs: seq<seq<Token>>, count: nat, maxPacket: nat)
    requires Packed(msgs, maxPacket) && |Decode(Flatten(msgs))| == count
    ensures Fills(msgs, count, maxPacket) == Done(|msgs|)
    ensures Arrived(msgs, |msgs|) == Decode(Flatten(msgs))
  {
    FillsAll(msgs, count, maxPacket);
    assert msgs[..|msgs|] == msgs;
  }

  /** The relay at chain position `k` takes its part. */
  method RleChainStep(vs: seq<Vec>, root: nat, count: nat, maxPacket: nat, k: nat, rank: int,
                      msgs: seq<seq<Token>>)
    returns (rank1: int, msgs1: seq<seq<Token>>)
    requires root < |vs| && k < |vs| - 1
    requires forall r :: 0 <= r < |vs| ==> |vs[r]| == count
    requires RleChainAt(vs, root, count, maxPacket, k, rank, msgs)
    ensures RleChainAt(vs, root, count, maxPacket, k + 1, rank1, msgs1) == true
  {
    ghost var c := ChainVecs(vs, root);
    ChainSum(vs, root, count);
    PipeSendRecv.ChainNext(vs, root, k, rank);
    rank1 := Next(rank, root, |vs|);
    PackedTaken(msgs, count, maxPacket);
    var r := StreamRleRelay(vs[rank1], msgs, count, maxPacket, false);
    ghost var s := Decode(Flatten(msgs));
    assert s[..count] == s;
    assert vs[rank1][..count] == c[k];
    SumAllPrefixNext(c, k, count);
    msgs1 := r.value.outbox;
  }

  /** The root at the end of the chain adds its own vector to the sum of
      all the others. */
  method RleChainRoot(vs: seq<Vec>, rbuf: Vec, root: nat, count: nat, maxPacket: nat, rank: int,
                      msgs: seq<seq<Token>>)
    returns (res: Outcome<Vec>)
    requires root < |vs| && count <= |rbuf| && 2 <= |vs|
    requires forall r :: 0 <= r < |vs| ==> |vs[r]| == count
    requires RleChainAt(vs, root, count, maxPacket, |vs| - 1, rank, msgs)
    ensures res == Done(SumAll(vs, count) + rbuf[count..])
  {
    ghost var c := ChainVecs(vs, root);
    var k := |vs| - 1;
    ChainSum(vs, root, count);
    PipeSendRecv.ChainNext(vs, root, k, rank);
    var last := Next(rank, root, |vs|);
    PackedTaken(msgs, count, maxPacket);
    var r := StreamRleRoot(vs[last], rbuf, msgs, count, maxPacket);
    ghost var s := Decode(Flatten(msgs));
    assert s[..count] == s;
    assert vs[last][..count] == c[k];
    SumAllLast(c, count);
    assert c[..|c| - 1] == c[..k];
    assert r.value == r.value[..count] + r.value[count..];
    res := r;
  }

  /** The whole run along the chain (the RLE build of
      MPI_Reduce_pipe_stream on every rank, with the corrected relay
      guard): a single process copies its vector; otherwise the root ends
      with the sum of all vectors in the first `count` elements of its
      receive buffer and the rest of the buffer untouched. */
  method StreamRleRun(vs: seq<Vec>, rbuf: Vec, root: nat, count: nat, maxPacket: nat)
    returns (res: Outcome<Vec>)
    requires root < |vs| && 0 < maxPacket && count <= |rbuf|
    requires forall r :: 0 <= r < |vs| ==> |vs[r]| == count
    ensures res == Done(SumAll(vs, count) + rbuf[count..])
  {
    if |vs| == 1 {
      SumAllSingle(vs[0], count);
      assert vs == [vs[0]];
      assert vs[0][..count] == SumAll(vs, count);
      return Done(vs[0][..count] + rbuf[count..]);
    }
    ghost var c := ChainVecs(vs, root);
    ChainSum(vs, root, count);
    WalkAt(root, |vs|, 0);
    ChainVecsAt(vs, root, 0);
    var rank := First(root, |vs|);
    var msgs, _ := StreamRleSource(vs[rank], count, maxPacket);
    assert vs[rank][..count] == c[0];
    assert c[..1] == [c[0]];
    SumAllSingle(c[0], count);
    var k := 1;
    while k < |vs| - 1
      invariant RleChainAt(vs, root, count, maxPacket, k, rank, msgs)
    {
      rank, msgs := RleChainStep(vs, root, count, maxPacket, k, rank, msgs);
      k := k + 1;
    }
    res := RleChainRoot(vs, rbuf, root, count, maxPacket, rank, msgs);
  }
}

=== FILE: tokens.dfy ===
/** The zero run-length representation of a vector, at the level of tokens.

    An encoded vector is a sequence of 64-bit words, each either a literal
    double or a run marker standing for `k` zero elements (dblv/dblv_rle.h).
    Here a word is a `Token`; the bit-level tagging is in module `RleBits`. */
module Tokens {
  import opened Vectors

  datatype Token = Lit(v: real) | Run(k: nat)

  /** Number of dense elements a token stands for. */
  function Width(t: Token): nat
  {
    match t
    case Lit(_) => 1
    case Run(k) => k
  }

  function Expand(t: Token): (e: Vec)
    ensures |e| == Width(t)
  {
    match t
    case Lit(v) => [v]
    case Run(k) => Zeros(k)
  }

  /** The dense vector a token sequence stands for. */
  function Decode(ts: seq<Token>): Vec
  {
    if |ts| == 0 then [] else Expand(ts[0]) + Decode(ts[1..])
  }

  lemma {:induction false} DecodeAppend(a: seq<Token>, b: seq<Token>)
    ensures Decode(a + b) == Decode(a) + Decode(b)
  {
    if |a| > 0 {
      assert (a + b)[1..] == a[1..] + b;
      DecodeAppend(a[1..], b);
    } else {
      assert a + b == b;
    }
  }

  lemma DecodeSnoc(a: seq<Token>, t: Token)
    ensures Decode(a + [t]) == Decode(a) + Expand(t)
  {
    DecodeAppend(a, [t]);
    assert [t][1..] == [];
  }

  /** Decoding a prefix one token longer. */
  lemma DecodePrefixStep(ts: seq<Token>, i: nat)
    requires i < |ts|
    ensures Decode(ts[..i + 1]) == Decode(ts[..i]) + Expand(ts[i])
  {
    assert ts[..i + 1] == ts[..i] + [ts[i]];
    DecodeSnoc(ts[..i], ts[i]);
  }

  /** Decoding a suffix one token shorter. */
  lemma DecodeSuffixStep(ts: seq<Token>, i: nat)
    requires i < |ts|
    ensures Decode(ts[i..]) == Expand(ts[i]) + Decode(ts[i + 1..])
  {
    assert ts[i..][1..] == ts[i + 1..];
  }

  lemma DecodeSplit(ts: seq<Token>, i: nat)
    requires i <= |ts|
    ensures Decode(ts) == Decode(ts[..i]) + Decode(ts[i..])
  {
    assert ts == ts[..i] + ts[i..];
    DecodeAppend(ts[..i], ts[i..]);
  }

  /** Number of literal tokens. */
  function LiteralCount(ts: seq<Token>): nat
  {
    if |ts| == 0 then 0 else (if ts[0].Lit? then 1 else 0) + LiteralCount(ts[1..])
  }

  /** Sum of the lengths of all run markers. */
  function RunTotal(ts: seq<Token>): nat
  {
    if |ts| == 0 then 0 else (if ts[0].Run? then ts[0].k else 0) + RunTotal(ts[1..])
  }

  /** A decoded vector has one element per literal plus the run lengths. */
  lemma {:induction false} DecodeLength(ts: seq<Token>)
    ensures |Decode(ts)| == LiteralCount(ts) + RunTotal(ts)
  {
    if |ts| > 0 {
      DecodeLength(ts[1..]);
    }
  }

  /** Every run marker stands for at least one element, as the writers of
      markers guarantee. */
  predicate PositiveRuns(ts: seq<Token>)
  {
    forall i :: 0 <= i < |ts| ==> Width(ts[i]) >= 1
  }

  /** With positive runs an encoding is never longer than what it encodes. */
  lemma {:induction false} PositiveRunsShorter(ts: seq<Token>)
    requires PositiveRuns(ts)
    ensures |ts| <= |Decode(ts)|
  {
    if |ts| > 0 {
      assert PositiveRuns(ts[1..]) by {
        forall i | 0 <= i < |ts[1..]| ensures Width(ts[1..][i]) >= 1 {
          assert ts[1..][i] == ts[i + 1];
        }
      }
      PositiveRunsShorter(ts[1..]);
    }
  }

  /** A token that stands for zeros only. */
  predicate IsZeroToken(t: Token)
  {
    t == Lit(0.0) || t.Run?
  }

  /** Every marker stands for at least two zeros: the RLE2 policy, under
      which a single zero is written as the literal 0.0. */
  predicate LongRuns(ts: seq<Token>)
  {
    forall i :: 0 <= i < |ts| && ts[i].Run? ==> ts[i].k >= 2
  }

  /** The canonical encoding: long runs only, and no two zero tokens adjacent
      (each maximal zero run is a single token). */
  predicate Canonical(ts: seq<Token>)
  {
    && LongRuns(ts)
    && (forall i :: 0 <= i < |ts| - 1 ==> !(IsZeroToken(ts[i]) && IsZeroToken(ts[i + 1])))
  }

  lemma LongRunsPositive(ts: seq<Token>)
    requires LongRuns(ts)
    ensures PositiveRuns(ts)
  {
  }

  lemma LongRunsAppend(a: seq<Token>, b: seq<Token>)
    requires LongRuns(a) && LongRuns(b)
    ensures LongRuns(a + b)
  {
    forall i | 0 <= i < |a + b| && (a + b)[i].Run? ensures (a + b)[i].k >= 2 {
      if i >= |a| {
        assert (a + b)[i] == b[i - |a|];
      }
    }
  }

  lemma PositiveRunsPrefix(ts: seq<Token>, n: nat, r: nat)
    requires r <= n <= |ts| && PositiveRuns(ts[..n])
    ensures PositiveRuns(ts[..r])
  {
    forall i | 0 <= i < r ensures Width(ts[..r][i]) >= 1 {
      assert ts[..r][i] == ts[..n][i];
    }
  }

  /** A dense vector stored in place: every word an ordinary double. */
  function Lits(v: Vec): (ts: seq<Token>)
    ensures |ts| == |v|
    ensures forall i {:trigger ts[i]} :: 0 <= i < |v| ==> ts[i] == Lit(v[i])
  {
    if |v| == 0 then [] else [Lit(v[0])] + Lits(v[1..])
  }

  /** A dense vector read as tokens decodes to itself, so an uncompressed
      packet is a valid input wherever tokens are expected. */
  lemma {:induction false} DecodeLits(v: Vec)
    ensures Decode(Lits(v)) == v
    ensures LongRuns(Lits(v)) && PositiveRuns(Lits(v))
  {
    if |v| > 0 {
      DecodeLits(v[1..]);
      assert Lits(v)[1..] == Lits(v[1..]);
      assert v == [v[0]] + v[1..];
    }
  }

  lemma CanonicalCons(t: Token, rest: seq<Token>)
    requires Canonical(rest)
    requires t.Run? ==> t.k >= 2
    requires |rest| > 0 ==> !(IsZeroToken(t) && IsZeroToken(rest[0]))
    ensures Canonical([t] + rest)
  {
    var ts := [t] + rest;
    forall i | 0 <= i < |ts| - 1
      ensures !(IsZeroToken(ts[i]) && IsZeroToken(ts[i + 1]))
    {
      if i > 0 {
        assert ts[i] == rest[i - 1] && ts[i + 1] == rest[i];
      }
    }
  }

  lemma CanonicalTail(ts: seq<Token>)
    requires Canonical(ts) && |ts| > 0
    ensures Canonical(ts[1..])
  {
    var r := ts[1..];
    forall i | 0 <= i < |r| - 1
      ensures !(IsZeroToken(r[i]) && IsZeroToken(r[i + 1]))
    {
      assert r[i] == ts[i + 1] && r[i + 1] == ts[i + 2];
    }
  }

  /** Length of the maximal prefix of zeros. */
  function ZeroRun(s: Vec): (k: nat)
    ensures k <= |s|
  {
    if |s| == 0 || s[0] != 0.0 then 0 else 1 + ZeroRun(s[1..])
  }

  /** The prefix counted by `ZeroRun` is all zeros and is maximal. */
  lemma {:induction false} ZeroRunMaximal(s: Vec)
    ensures forall i :: 0 <= i < ZeroRun(s) ==> s[i] == 0.0
    ensures ZeroRun(s) < |s| ==> s[ZeroRun(s)] != 0.0
  {
    if |s| > 0 && s[0] == 0.0 {
      ZeroRunMaximal(s[1..]);
      forall i | 1 <= i < ZeroRun(s) ensures s[i] == 0.0 {
        assert s[i] == s[1..][i - 1];
      }
    }
  }

  /** The token written for a run of `k` zeros under the policy of
      DBL_RLE2_SET_P: a marker when `k > 1`, otherwise the literal 0.0. */
  function Rle2Token(k: nat): Token
  {
    if k > 1 then Run(k) else Lit(0.0)
  }

  lemma Rle2TokenExpand(k: nat)
    requires k >= 1
    ensures Expand(Rle2Token(k)) == Zeros(k)
  {
  }

  /** The canonical encoder: the reference definition of what
      dblv_rle_zero_compress and dblv_rle_zero_compress2 produce. */
  function Encode(s: Vec): seq<Token>
    decreases |s|
  {
    if |s| == 0 then []
    else if s[0] != 0.0 then [Lit(s[0])] + Encode(s[1..])
    else
      var k := ZeroRun(s);
      [Rle2Token(k)] + Encode(s[k..])
  }

  /** Round trip: decoding the encoding gives the vector back. */
  lemma {:induction false} DecodeEncode(s: Vec)
    ensures Decode(Encode(s)) == s
    decreases |s|
  {
    if |s| == 0 {
    } else if s[0] != 0.0 {
      DecodeEncode(s[1..]);
      assert [Lit(s[0])][1..] == [];
      DecodeAppend([Lit(s[0])], Encode(s[1..]));
      assert s == [s[0]] + s[1..];
    } else {
      var k := ZeroRun(s);
      ZeroRunMaximal(s);
      DecodeEncode(s[k..]);
      DecodeAppend([Rle2Token(k)], Encode(s[k..]));
      assert [Rle2Token(k)][1..] == [];
      assert s[..k] == Zeros(k);
      assert s == s[..k] + s[k..];
    }
  }

  /** The encoder only ever produces canonical token sequences. */
  lemma {:induction false} EncodeCanonical(s: Vec)
    ensures Canonical(Encode(s))
    decreases |s|
  {
    if |s| == 0 {
    } else if s[0] != 0.0 {
      EncodeCanonical(s[1..]);
      CanonicalCons(Lit(s[0]), Encode(s[1..]));
    } else {
      var k := ZeroRun(s);
      ZeroRunMaximal(s);
      EncodeCanonical(s[k..]);
      if k < |s| {
        assert Encode(s[k..])[0] == Lit(s[k]);
      }
      CanonicalCons(Rle2Token(k), Encode(s[k..]));
    }
  }

  /** Every token consumes at least one element: the encoding is never longer. */
  lemma {:induction false} EncodeShorter(s: Vec)
    ensures |Encode(s)| <= |s|
    decreases |s|
  {
    if |s| > 0 {
      if s[0] != 0.0 {
        EncodeShorter(s[1..]);
      } else {
        EncodeShorter(s[ZeroRun(s)..]);
      }
    }
  }

  /** A canonical token sequence is the encoding of what it decodes to: the
      canonical encoding of a vector is unique. */
  lemma {:induction false} CanonicalIsEncode(ts: seq<Token>)
    requires Canonical(ts)
    ensures ts == Encode(Decode(ts))
    decreases |ts|
  {
    if |ts| > 0 {
      var s := Decode(ts);
      var rest := ts[1..];
      CanonicalTail(ts);
      CanonicalIsEncode(rest);
      assert s == Expand(ts[0]) + Decode(rest);
      if IsZeroToken(ts[0]) {
        var w := Width(ts[0]);
        assert w >= 1;
        if |rest| > 0 {
          assert !IsZeroToken(rest[0]);
          DecodeSuffixStep(rest, 0);
          assert Decode(rest)[0] == rest[0].v;
        }
        assert ZeroRun(s) == w by {
          assert forall i :: 0 <= i < w ==> s[i] == 0.0;
          if w < |s| {
            assert s[w] == Decode(rest)[0];
          }
          ZeroRunExact(s, w);
        }
        assert s[w..] == Decode(rest);
        assert Rle2Token(w) == ts[0];
      } else {
        assert s[0] == ts[0].v;
        assert s[1..] == Decode(rest);
      }
      assert ts == [ts[0]] + rest;
    }
  }

  lemma {:induction false} ZeroRunExact(s: Vec, w: nat)
    requires w <= |s|
    requires forall i :: 0 <= i < w ==> s[i] == 0.0
    requires w < |s| ==> s[w] != 0.0
    ensures ZeroRun(s) == w
  {
    if w > 0 {
      ZeroRunExact(s[1..], w - 1);
    }
  }

  /** A zero run of `a` that does not reach into `b` is unchanged by appending `b`. */
  lemma ZeroRunAppend(a: Vec, b: Vec)
    requires ZeroRun(a) < |a| || |b| == 0 || b[0] != 0.0
    ensures ZeroRun(a + b) == ZeroRun(a)
  {
    var k, ab := ZeroRun(a), a + b;
    ZeroRunMaximal(a);
    forall i | 0 <= i < k ensures ab[i] == 0.0 {
      assert ab[i] == a[i];
    }
    if k < |a| {
      assert ab[k] == a[k];
    } else if |b| > 0 {
      assert ab[k] == b[0];
    }
    ZeroRunExact(ab, k);
  }

  lemma EncodeUnfoldLit(s: Vec)
    requires |s| > 0 && s[0] != 0.0
    ensures Encode(s) == [Lit(s[0])] + Encode(s[1..])
  {
  }

  lemma EncodeUnfoldZero(s: Vec)
    requires |s| > 0 && s[0] == 0.0
    ensures ZeroRun(s) >= 1
    ensures Encode(s) == [Rle2Token(ZeroRun(s))] + Encode(s[ZeroRun(s)..])
  {
  }

  /** Encoding distributes over a concatenation that does not cut a zero run. */
  lemma {:induction false} EncodeAppend(a: Vec, b: Vec)
    requires |a| == 0 || |b| == 0 || a[|a| - 1] != 0.0 || b[0] != 0.0
    ensures Encode(a + b) == Encode(a) + Encode(b)
    decreases |a|
  {
    if |a| == 0 {
      assert a + b == b;
    } else if |b| == 0 {
      assert a + b == a;
    } else if a[0] != 0.0 {
      EncodeAppend(a[1..], b);
      EncodeAppendLitStep(a, b);
    } else {
      EncodeAppend(a[ZeroRun(a)..], b);
      EncodeAppendZeroStep(a, b);
    }
  }

  lemma EncodeAppendLitStep(a: Vec, b: Vec)
    requires |a| > 0 && a[0] != 0.0
    requires Encode(a[1..] + b) == Encode(a[1..]) + Encode(b)
    ensures Encode(a + b) == Encode(a) + Encode(b)
  {
    EncodeUnfoldLit(a);
    EncodeUnfoldLitAppend(a, b);
    ConsAssoc(Lit(a[0]), Encode(a[1..]), Encode(b));
  }

  lemma EncodeUnfoldLitAppend(a: Vec, b: Vec)
    requires |a| > 0 && a[0] != 0.0
    ensures Encode(a + b) == [Lit(a[0])] + Encode(a[1..] + b)
  {
    var ab := a + b;
    assert ab[0] == a[0];
    EncodeUnfoldLit(ab);
    assert ab[1..] == a[1..] + b;
  }

  lemma EncodeAppendZeroStep(a: Vec, b: Vec)
    requires |a| > 0 && |b| > 0 && a[0] == 0.0
    requires a[|a| - 1] != 0.0 || b[0] != 0.0
    requires Encode(a[ZeroRun(a)..] + b) == Encode(a[ZeroRun(a)..]) + Encode(b)
    ensures Encode(a + b) == Encode(a) + Encode(b)
  {
    var k := ZeroRun(a);
    ZeroRunInside(a, b);
    ZeroRunAppend(a, b);
    EncodeUnfoldZero(a);
    EncodeUnfoldZeroAppend(a, b);
    ConsAssoc(Rle2Token(k), Encode(a[k..]), Encode(b));
  }

  lemma ConsAssoc<T>(t: T, x: seq<T>, y: seq<T>)
    ensures [t] + (x + y) == ([t] + x) + y
  {
  }

  lemma ZeroRunInside(a: Vec, b: Vec)
    requires |a| > 0 && |b| > 0
    requires a[|a| - 1] != 0.0 || b[0] != 0.0
    ensures ZeroRun(a) < |a| || b[0] != 0.0
  {
    ZeroRunMaximal(a);
    if ZeroRun(a) == |a| {
      assert a[|a| - 1] == 0.0;
    }
  }

  lemma EncodeUnfoldZeroAppend(a: Vec, b: Vec)
    requires |a| > 0 && a[0] == 0.0
    requires ZeroRun(a + b) == ZeroRun(a)
    ensures Encode(a + b) == [Rle2Token(ZeroRun(a))] + Encode(a[ZeroRun(a)..] + b)
  {
    var ab := a + b;
    assert ab[0] == a[0];
    EncodeUnfoldZero(ab);
    assert ab[ZeroRun(a)..] == a[ZeroRun(a)..] + b;
  }

  /** A run of `n >= 1` zeros is one token. */
  lemma EncodeZeros(n: nat)
    requires n >= 1
    ensures Encode(Zeros(n)) == [Rle2Token(n)]
  {
    ZeroRunExact(Zeros(n), n);
    assert Zeros(n)[n..] == [];
  }

  /** A single non-zero element is one literal. */
  lemma EncodeNonZero(x: real)
    requires x != 0.0
    ensures Encode([x]) == [Lit(x)]
  {
    assert [x][1..] == [];
  }

  /** The values of the non-zero literals, in order. */
  function NonZeroLiterals(ts: seq<Token>): Vec
  {
    if |ts| == 0 then []
    else (if ts[0].Lit? && ts[0].v != 0.0 then [ts[0].v] else []) + NonZeroLiterals(ts[1..])
  }

  /** Number of zero tokens. */
  function ZeroTokenCount(ts: seq<Token>): nat
  {
    if |ts| == 0 then 0 else (if IsZeroToken(ts[0]) then 1 else 0) + ZeroTokenCount(ts[1..])
  }

  /** The encoder copies every non-zero element verbatim, in order. */
  lemma {:induction false} EncodeKeepsNonZeros(s: Vec)
    ensures NonZeroLiterals(Encode(s)) == Without(s, 0.0)
    decreases |s|
  {
    if |s| > 0 {
      if s[0] != 0.0 {
        EncodeKeepsNonZeros(s[1..]);
        assert ([Lit(s[0])] + Encode(s[1..]))[1..] == Encode(s[1..]);
      } else {
        var k := ZeroRun(s);
        ZeroRunMaximal(s);
        EncodeKeepsNonZeros(s[k..]);
        assert ([Rle2Token(k)] + Encode(s[k..]))[1..] == Encode(s[k..]);
        WithoutZerosPrefix(s, k);
      }
    }
  }

  lemma {:induction false} WithoutZerosPrefix(s: Vec, k: nat)
    requires k <= |s|
    requires forall i :: 0 <= i < k ==> s[i] == 0.0
    ensures Without(s, 0.0) == Without(s[k..], 0.0)
    decreases k
  {
    if k > 0 {
      assert s[1..][k - 1..] == s[k..];
      WithoutZerosPrefix(s[1..], k - 1);
    }
  }
}

=== FILE: transport.dfy ===
/** Point-to-point messages between neighbours of the chain.

    Each chain edge is a FIFO channel: the messages a rank receives from
    its predecessor are, in order, the messages the predecessor sent.  A
    rank's behaviour depends only on its own input and the messages
    arriving on its incoming edge, so a run is simulated one rank after the
    other along the chain.  A rank's part ends in one of four ways. */
module Transport {
  import opened Vectors
  import opened Packets

  datatype Outcome<T> =
    | Done(value: T)
      /** A receive waits for a message the predecessor never sends. */
    | Blocked
      /** A message is longer than the receive buffer (MPI_ERR_TRUNCATE,
          fatal under the default error handler). */
    | Truncated
      /** The elements received run past the `count` elements of the user
          buffers (an out-of-bounds access in C). */
    | Overrun

  /** Two outcomes end the same way. */
  predicate SameEnd<A, B>(a: Outcome<A>, b: Outcome<B>)
  {
    a.Done? == b.Done? && a.Blocked? == b.Blocked? && a.Truncated? == b.Truncated? && a.Overrun? == b.Overrun?
  }

  /** A failure passed on with another value type. */
  function Failed<A, B>(a: Outcome<A>): (b: Outcome<B>)
    requires !a.Done?
    ensures SameEnd(a, b)
  {
    if a.Blocked? then Blocked else if a.Truncated? then Truncated else Overrun
  }

  /** MPI_Recv of at most `cap` elements into `buf` at `at`: the message
      lands in a prefix of the window and the rest of the buffer keeps what
      it held. */
  function Receive<T>(buf: seq<T>, at: nat, cap: nat, msg: seq<T>): (r: Outcome<seq<T>>)
    requires at + cap <= |buf|
    ensures r.Done? <==> |msg| <= cap
    ensures r.Done? ==> |r.value| == |buf| && r.value[at..at + |msg|] == msg
    ensures r.Done? ==> r.value[..at] == buf[..at] && r.value[at + |msg|..] == buf[at + |msg|..]
  {
    if |msg| > cap then Truncated else Done(buf[..at] + msg + buf[at + |msg|..])
  }

  /** The messages of `inbox` fit, one by one, the receives of the given
      sizes, and there are enough of them. */
  predicate Fits<T>(inbox: seq<seq<T>>, sizes: seq<nat>)
  {
    |inbox| >= |sizes| && forall i :: 0 <= i < |sizes| ==> |inbox[i]| <= sizes[i]
  }

  /** Some message among the first `|sizes|` is longer than its receive. */
  predicate TooLong<T>(inbox: seq<seq<T>>, sizes: seq<nat>)
  {
    exists i :: 0 <= i < |sizes| && i < |inbox| && |inbox[i]| > sizes[i]
  }

  /** A relay's packets against its messages and its own pieces: packet `j`
      has the size of piece `j`, message `j` fit it, and an exact message
      comes back out with the piece added. */
  predicate Relayed(inbox: seq<Vec>, pieces: seq<Vec>, outbox: seq<Vec>)
    requires |outbox| <= |inbox| && |outbox| <= |pieces|
  {
    forall j :: 0 <= j < |outbox| ==>
      |inbox[j]| <= |pieces[j]| && |outbox[j]| == |pieces[j]|
      && (|inbox[j]| == |pieces[j]| ==> outbox[j] == Add(inbox[j], pieces[j]))
  }

  /** Every message has exactly the size its receive asks for. */
  predicate Exact<T>(inbox: seq<seq<T>>, sizes: seq<nat>)
  {
    |inbox| >= |sizes| && forall i :: 0 <= i < |sizes| ==> |inbox[i]| == sizes[i]
  }

  /** Pairwise sums of two lists of pieces. */
  function AddEach(xs: seq<Vec>, ys: seq<Vec>): (zs: seq<Vec>)
    requires |xs| <= |ys| && forall i :: 0 <= i < |xs| ==> |xs[i]| == |ys[i]|
    ensures |zs| == |xs|
    ensures forall i :: 0 <= i < |xs| ==> zs[i] == Add(xs[i], ys[i])
  {
    seq(|xs|, i requires 0 <= i < |xs| => Add(xs[i], ys[i]))
  }

  /** One more relayed packet. */
  lemma RelayedSnoc(inbox: seq<Vec>, pieces: seq<Vec>, outbox: seq<Vec>, o: Vec)
    requires |outbox| < |inbox| && |outbox| < |pieces| && Relayed(inbox, pieces, outbox)
    requires |inbox[|outbox|]| <= |pieces[|outbox|]| && |o| == |pieces[|outbox|]|
    requires |inbox[|outbox|]| == |pieces[|outbox|]| ==> o == Add(inbox[|outbox|], pieces[|outbox|])
    ensures Relayed(inbox, pieces, outbox + [o])
  {
  }

  /** Extending `Fits` and `Exact` over the prefixes by one message. */
  lemma PrefixSnoc<T>(inbox: seq<seq<T>>, sizes: seq<nat>, i: nat)
    requires i < |inbox| && i < |sizes|
    ensures Fits(inbox[..i + 1], sizes[..i + 1]) <==> Fits(inbox[..i], sizes[..i]) && |inbox[i]| <= sizes[i]
    ensures Exact(inbox[..i + 1], sizes[..i + 1]) <==> Exact(inbox[..i], sizes[..i]) && |inbox[i]| == sizes[i]
  {
    assert forall j :: 0 <= j < i ==> inbox[..i + 1][j] == inbox[..i][j] && sizes[..i + 1][j] == sizes[..i][j];
  }

  /** Pairwise sums over prefixes grow by one sum. */
  lemma AddEachSnoc(xs: seq<Vec>, ys: seq<Vec>, i: nat)
    requires i < |xs| && i < |ys| && forall j :: 0 <= j <= i ==> |xs[j]| == |ys[j]|
    ensures AddEach(xs[..i + 1], ys[..i + 1]) == AddEach(xs[..i], ys[..i]) + [Add(xs[i], ys[i])]
  {
  }

  /** A relay fed the pieces of a partial sum `s` passes on the pieces of
      `s` plus its own vector: the messages are exact, so every packet is
      the message plus the own piece. */
  lemma RelayedCut(s: Vec, v: Vec, sizes: seq<nat>, outbox: seq<Vec>)
    requires |s| == |v| && Total(sizes) <= |v| && |outbox| == |sizes|
    requires Relayed(Cut(s, sizes), Cut(v, sizes), outbox)
    ensures outbox == Cut(Add(s, v), sizes)
  {
    CutAdd(s, v, sizes);
  }

  /** The pieces of a vector are an exact inbox for the receives of their
      sizes. */
  lemma CutExact(s: Vec, sizes: seq<nat>)
    requires Total(sizes) <= |s|
    ensures Exact(Cut(s, sizes), sizes) && Fits(Cut(s, sizes), sizes) && !TooLong(Cut(s, sizes), sizes)
  {
  }

  /** Adding two vectors piece by piece gives the pieces of their sum. */
  lemma AddEachCut(a: Vec, b: Vec, sizes: seq<nat>)
    requires |a| == |b| && Total(sizes) <= |a|
    ensures AddEach(Cut(a, sizes), Cut(b, sizes)) == Cut(Add(a, b), sizes)
  {
    CutAdd(a, b, sizes);
  }

  /** A receive past the last message blocks: the inbox does not fit, and
      no message before it was too long. */
  lemma BlockedAt<T>(inbox: seq<seq<T>>, sizes: seq<nat>)
    requires |inbox| < |sizes| && Fits(inbox, sizes[..|inbox|])
    ensures !Fits(inbox, sizes) && !TooLong(inbox, sizes)
  {
    assert forall j :: 0 <= j < |inbox| ==> sizes[..|inbox|][j] == sizes[j];
  }

  /** A message longer than its receive, after messages that fit. */
  lemma TruncatedAt<T>(inbox: seq<seq<T>>, sizes: seq<nat>, i: nat)
    requires i < |inbox| && i < |sizes| && |inbox[i]| > sizes[i]
    ensures TooLong(inbox, sizes) && !Fits(inbox, sizes)
  {
  }

  /** Every receive got a message that fit. */
  lemma FitsAll<T>(inbox: seq<seq<T>>, sizes: seq<nat>)
    requires |sizes| <= |inbox| && Fits(inbox[..|sizes|], sizes)
    ensures Fits(inbox, sizes) && !TooLong(inbox, sizes)
  {
    assert forall j :: 0 <= j < |sizes| ==> inbox[..|sizes|][j] == inbox[j];
  }
}

=== FILE: vector_rw.dfy ===
/** The scanning, filtering and writing helpers on dense vectors
    (dblv/dblv_rw.c).

    Counts are stated against `multiset(s)[x]`, the number of elements of
    `s` equal to `x`, and filters against `Without` from module `Vectors`. */
module VectorRw {
  import opened Vectors

  /** The elements of `s` equal to `x` are exactly what `Without` drops. */
  lemma {:induction false} WithoutCount(s: Vec, x: real)
    ensures |Without(s, x)| == |s| - multiset(s)[x]
    ensures multiset(Without(s, x)) == multiset(s)[x := 0]
    decreases |s|
  {
    if |s| > 0 {
      WithoutCount(s[1..], x);
      assert s == [s[0]] + s[1..];
    }
  }

  lemma {:induction false} WithoutSnoc(s: Vec, x: real, y: real)
    ensures Without(s + [y], x) == Without(s, x) + (if y == x then [] else [y])
    decreases |s|
  {
    if |s| == 0 {
      assert (s + [y])[1..] == [];
    } else {
      assert (s + [y])[1..] == s[1..] + [y];
      WithoutSnoc(s[1..], x, y);
    }
  }

  /** dblv_copy: the first `nin` elements of `vin` overwrite those of
      `vout`; the rest of `vout` is untouched. */
  method Copy(nin: nat, vin: Vec, vout: Vec) returns (r: Vec)
    requires nin <= |vin| && nin <= |vout|
    ensures |r| == |vout|
    ensures r[..nin] == vin[..nin] && r[nin..] == vout[nin..]
  {
    r := vout;
    var i: nat := 0;
    while i < nin
      invariant i <= nin && |r| == |vout|
      invariant r[..i] == vin[..i] && r[nin..] == vout[nin..]
    {
      r := r[i := vin[i]];
      assert r[..i + 1] == vin[..i + 1] by {
        assert vin[..i + 1] == vin[..i] + [vin[i]];
      }
      i := i + 1;
    }
  }

  /** dblv_write_zeros: the first `nin` elements become 0.0. */
  method WriteZeros(nin: nat, vin: Vec) returns (r: Vec)
    requires nin <= |vin|
    ensures |r| == |vin|
    ensures AllZero(r[..nin]) && r[nin..] == vin[nin..]
  {
    r := vin;
    var i: nat := 0;
    while i < nin
      invariant i <= nin && |r| == |vin|
      invariant AllZero(r[..i]) && r[nin..] == vin[nin..]
    {
      r := r[i := 0.0];
      i := i + 1;
    }
  }

  /** dblv_scan_values: the number of elements equal to `v`. */
  method ScanValues(vin: Vec, v: real) returns (nz: nat)
    ensures nz == multiset(vin)[v]
    ensures nz == |vin| - |Without(vin, v)|
  {
    nz := 0;
    var i: nat := 0;
    while i < |vin|
      invariant i <= |vin|
      invariant nz == multiset(vin[..i])[v]
    {
      assert vin[..i + 1] == vin[..i] + [vin[i]];
      nz := nz + if vin[i] == v then 1 else 0;
      i := i + 1;
    }
    assert vin[..i] == vin;
    WithoutCount(vin, v);
  }

  /** dblv_scan_zeros: the number of elements equal to 0.0. */
  method ScanZeros(vin: Vec) returns (nz: nat)
    ensures nz == multiset(vin)[0.0]
    ensures nz == |vin| - |Without(vin, 0.0)|
  {
    nz := 0;
    var i: nat := 0;
    while i < |vin|
      invariant i <= |vin|
      invariant nz == multiset(vin[..i])[0.0]
    {
      assert vin[..i + 1] == vin[..i] + [vin[i]];
      nz := nz + if vin[i] == 0.0 then 1 else 0;
      i := i + 1;
    }
    assert vin[..i] == vin;
    WithoutCount(vin, 0.0);
  }

  /** dblv_copy_nonvalues: the elements other than `v`, in order. */
  method CopyNonValues(vin: Vec, v: real) returns (vout: Vec, nout: nat)
    ensures vout == Without(vin, v) && nout == |vout|
    ensures nout == |vin| - multiset(vin)[v]
    ensures v !in multiset(vout) && multiset(vout) == multiset(vin)[v := 0]
  {
    vout := [];
    var i: nat := 0;
    while i < |vin|
      invariant i <= |vin|
      invariant vout == Without(vin[..i], v)
    {
      WithoutSnoc(vin[..i], v, vin[i]);
      assert vin[..i + 1] == vin[..i] + [vin[i]];
      if vin[i] != v {
        vout := vout + [vin[i]];
      }
      i := i + 1;
    }
    assert vin[..i] == vin;
    nout := |vout|;
    WithoutCount(vin, v);
  }

  /** dblv_copy_nonzeros: the non-zero elements, in order. */
  method CopyNonZeros(vin: Vec) returns (vout: Vec, nout: nat)
    ensures vout == Without(vin, 0.0) && nout == |vout|
    ensures nout == |vin| - multiset(vin)[0.0]
    ensures 0.0 !in multiset(vout) && multiset(vout) == multiset(vin)[0.0 := 0]
  {
    vout := [];
    var i: nat := 0;
    while i < |vin|
      invariant i <= |vin|
      invariant vout == Without(vin[..i], 0.0)
    {
      WithoutSnoc(vin[..i], 0.0, vin[i]);
      assert vin[..i + 1] == vin[..i] + [vin[i]];
      if vin[i] != 0.0 {
        vout := vout + [vin[i]];
      }
      i := i + 1;
    }
    assert vin[..i] == vin;
    nout := |vout|;
    WithoutCount(vin, 0.0);
  }

  /** dblv_equal: whether the first `nin` pairs compare equal; the loop
      returns at the first mismatch. */
  method Equal(nin: nat, vin0: Vec, vin1: Vec) returns (eq: bool)
    requires nin <= |vin0| && nin <= |vin1|
    ensures eq <==> vin0[..nin] == vin1[..nin]
  {
    var i: nat := 0;
    while i < nin
      invariant i <= nin
      invariant vin0[..i] == vin1[..i]
    {
      if vin0[i] != vin1[i] {
        assert vin0[..nin][i] != vin1[..nin][i];
        return false;
      }
      assert vin0[..i + 1] == vin0[..i] + [vin0[i]];
      assert vin1[..i + 1] == vin1[..i] + [vin1[i]];
      i := i + 1;
    }
    return true;
  }

  /** Position `i` starts a maximal run of zeros. */
  predicate RunStart(s: Vec, i: nat)
    requires i < |s|
  {
    s[i] == 0.0 && (i == 0 || s[i - 1] != 0.0)
  }

  /** Number of maximal runs of zeros in `s`. */
  function ZeroRuns(s: Vec): nat
  {
    if |s| == 0 then 0
    else ZeroRuns(s[..|s| - 1]) + if RunStart(s, |s| - 1) then 1 else 0
  }

  /** There is a run of zeros exactly when there is a zero, and never more
      runs than zeros. */
  lemma {:induction false} ZeroRunsCount(s: Vec)
    ensures ZeroRuns(s) <= multiset(s)[0.0]
    ensures ZeroRuns(s) == 0 <==> multiset(s)[0.0] == 0
    decreases |s|
  {
    if |s| > 0 {
      var p := s[..|s| - 1];
      assert s == p + [s[|s| - 1]];
      ZeroRunsCount(p);
      if |p| > 0 && s[|s| - 1] == 0.0 && p[|p| - 1] == 0.0 {
        assert p[|p| - 1] in multiset(p);
      }
    }
  }

  /** The state of the scan_cont_zeros loop after `t` elements: `cz` totals
      the zeros of the finished runs, `c` counts them, and `s` is the start
      of the run in progress or -1. */
  ghost predicate ContState(vin: Vec, t: nat, s: int, c: nat, cz: real)
  {
    t <= |vin| && -1 <= s < t
    && (s >= 0 ==> vin[t - 1] == 0.0)
    && (s < 0 ==> t == 0 || vin[t - 1] != 0.0)
    && c + (if s >= 0 then 1 else 0) == ZeroRuns(vin[..t])
    && cz + (if s >= 0 then (t - s) as real else 0.0) == multiset(vin[..t])[0.0] as real
  }

  lemma ContNext(vin: Vec, t: nat, s: int, c: nat, cz: real)
    requires ContState(vin, t, s, c, cz) && t < |vin|
    ensures s < 0 && vin[t] == 0.0 ==> ContState(vin, t + 1, t, c, cz)
    ensures s < 0 && vin[t] != 0.0 ==> ContState(vin, t + 1, s, c, cz)
    ensures s >= 0 && vin[t] != 0.0 ==> ContState(vin, t + 1, -1, c + 1, cz + (t - s) as real)
    ensures s >= 0 && vin[t] == 0.0 ==> ContState(vin, t + 1, s, c, cz)
  {
    var p := vin[..t + 1];
    assert p == vin[..t] + [vin[t]];
    assert p[..t] == vin[..t];
    assert t > 0 ==> p[t - 1] == vin[t - 1];
  }

  /** dblv_scan_cont_zeros: the mean length of the maximal runs of zeros, or
      0 when there are none. */
  method ScanContZeros(vin: Vec) returns (cz: real)
    ensures cz == if ZeroRuns(vin) == 0 then 0.0 else multiset(vin)[0.0] as real / ZeroRuns(vin) as real
    ensures cz == 0.0 <==> 0.0 !in multiset(vin)
    ensures 0.0 in multiset(vin) ==> cz >= 1.0
  {
    var t: nat, c: nat, s: int := 0, 0, -1;
    cz := 0.0;
    while t < |vin|
      invariant ContState(vin, t, s, c, cz)
    {
      ContNext(vin, t, s, c, cz);
      if s < 0 {
        if vin[t] == 0.0 {
          s := t;
        }
      } else {
        if vin[t] != 0.0 {
          cz := cz + (t - s) as real;
          s := -1;
          c := c + 1;
        }
      }
      t := t + 1;
    }
    assert vin[..t] == vin;
    if s >= 0 {
      cz := cz + (t - s) as real;
      s := -1;
      c := c + 1;
    }
    ZeroRunsCount(vin);
    if c != 0 {
      MeanAtLeastOne(cz, c as real);
      cz := cz / c as real;
    }
  }

  lemma MeanAtLeastOne(total: real, runs: real)
    requires 0.0 < runs <= total
    ensures total / runs >= 1.0
  {
    assert total / runs * runs == total;
  }

  /** The cell a cyclic walk over `n` cells from `j0` reaches after `d`
      steps, each step moving to the next cell and from the last to the
      first. */
  function Cyclic(j0: nat, d: nat, n: nat): (c: nat)
    requires j0 < n
    ensures c < n
  {
    if d == 0 then j0
    else if Cyclic(j0, d - 1, n) + 1 == n then 0
    else Cyclic(j0, d - 1, n) + 1
  }

  /** One step of the walk is the C expression `(j + 1) % nin`. */
  lemma CyclicStep(j0: nat, d: nat, n: nat)
    requires j0 < n
    ensures Cyclic(j0, d + 1, n) == (Cyclic(j0, d, n) + 1) % n
  {
  }

  /** Within two laps the walk is the start plus the steps, less `n` once
      past the last cell. */
  lemma {:induction false} CyclicClosed(j0: nat, d: nat, n: nat)
    requires j0 < n && j0 + d < 2 * n
    ensures Cyclic(j0, d, n) == if j0 + d < n then j0 + d else j0 + d - n
  {
    if d > 0 {
      CyclicClosed(j0, d - 1, n);
    }
  }

  /** A cyclic walk of `n` steps from any start covers every cell. */
  lemma CyclicCovers(j0: nat, n: nat, i: nat)
    requires j0 < n && i < n
    ensures exists d: nat :: d < n && Cyclic(j0, d, n) == i
  {
    var d: nat := if i >= j0 then i - j0 else n - j0 + i;
    CyclicClosed(j0, d, n);
    assert Cyclic(j0, d, n) == i;
  }

  /** The probe of dblv_write_random_random_next: from the cell `j0`, step
      cyclically until a cell holding `nonx` is found, inspecting at most
      `nin + 1` cells. */
  method Probe(vin: Vec, j0: nat, nonx: real) returns (j: nat, steps: nat)
    requires j0 < |vin|
    ensures j < |vin| && steps <= |vin| && j == Cyclic(j0, steps, |vin|)
    ensures forall d :: 0 <= d < steps ==> vin[Cyclic(j0, d, |vin|)] != nonx
    ensures vin[j] == nonx <==> nonx in multiset(vin)
  {
    j, steps := j0, 0;
    var k: nat := |vin|;
    while vin[j] != nonx && k > 0
      invariant j < |vin| && steps + k == |vin| && j == Cyclic(j0, steps, |vin|)
      invariant forall d :: 0 <= d < steps ==> vin[Cyclic(j0, d, |vin|)] != nonx
      decreases k
    {
      k := k - 1;
      CyclicStep(j0, steps, |vin|);
      j, steps := (j + 1) % |vin|, steps + 1;
    }
    if vin[j] != nonx && nonx in multiset(vin) {
      var i :| 0 <= i < |vin| && vin[i] == nonx;
      CyclicCovers(j0, |vin|, i);
    }
  }

  lemma CountUpdate(s: Vec, j: nat, x: real, y: real)
    requires j < |s| && s[j] == y && x != y
    ensures multiset(s[j := x])[y] == multiset(s)[y] - 1
  {
    assert s == s[..j] + [y] + s[j + 1..];
    assert s[j := x] == s[..j] + [x] + s[j + 1..];
  }

  /** dblv_write_random_random_next with the random draws as inputs: the
      `i`-th pass starts its probe at `picks[i]` and writes `vals[i]` into the
      cell the probe stops at, counting the cells that held `nonx`.  The
      count `newnonx` is the amount the C adds to the caller's `*newnonx`;
      with a NULL pointer the C keeps no count and simply drops it.  When no
      written value is `nonx`, every pass hits a `nonx` cell until there are
      none left. */
  method WriteRandomRandomNext(vin: Vec, picks: seq<nat>, vals: seq<real>, nonx: real)
    returns (r: Vec, newnonx: nat)
    requires |picks| == |vals|
    requires forall i :: 0 <= i < |picks| ==> picks[i] < |vin|
    ensures |r| == |vin| && newnonx <= |picks|
    ensures (forall i :: 0 <= i < |vals| ==> vals[i] != nonx) ==>
      newnonx == (if |picks| <= multiset(vin)[nonx] then |picks| else multiset(vin)[nonx])
      && multiset(r)[nonx] == multiset(vin)[nonx] - newnonx
  {
    r, newnonx := vin, 0;
    var i: nat := 0;
    while i < |picks|
      invariant i <= |picks| && |r| == |vin| && newnonx <= i
      invariant (forall i :: 0 <= i < |vals| ==> vals[i] != nonx) ==>
        newnonx == (if i <= multiset(vin)[nonx] then i else multiset(vin)[nonx])
        && multiset(r)[nonx] == multiset(vin)[nonx] - newnonx
    {
      var j, _ := Probe(r, picks[i], nonx);
      if r[j] == nonx {
        newnonx := newnonx + 1;
        if vals[i] != nonx {
          CountUpdate(r, j, vals[i], nonx);
        }
      }
      r := r[j := vals[i]];
      i := i + 1;
    }
  }
}

=== FILE: vectors.dfy ===
/** Dense vectors of abstract double values.

    A double of the library is modelled as a `real`.  The library only ever
    adds values and compares them with `== 0.0`, so an ordered field is an
    adequate stand-in; rounding and the sign of zero are not modelled. */
module Vectors {

  type Vec = seq<real>

  /** `n` zero elements. */
  function Zeros(n: nat): (z: Vec)
    ensures |z| == n
    ensures forall i {:trigger z[i]} :: 0 <= i < n ==> z[i] == 0.0
  {
    seq(n, _ => 0.0)
  }

  /** Elementwise sum of two vectors of equal length. */
  function Add(a: Vec, b: Vec): (c: Vec)
    requires |a| == |b|
    ensures |c| == |a|
    ensures forall i {:trigger c[i]} :: 0 <= i < |a| ==> c[i] == a[i] + b[i]
  {
    seq(|a|, i requires 0 <= i < |a| => a[i] + b[i])
  }

  predicate AllZero(s: Vec)
  {
    forall i :: 0 <= i < |s| ==> s[i] == 0.0
  }

  lemma ZerosAppend(m: nat, n: nat)
    ensures Zeros(m) + Zeros(n) == Zeros(m + n)
  {
  }

  lemma AllZeroIsZeros(s: Vec)
    requires AllZero(s)
    ensures s == Zeros(|s|)
  {
  }

  lemma AddZerosLeft(v: Vec)
    ensures Add(Zeros(|v|), v) == v
  {
  }

  lemma AddComm(a: Vec, b: Vec)
    requires |a| == |b|
    ensures Add(a, b) == Add(b, a)
  {
  }

  lemma AddAssoc(a: Vec, b: Vec, c: Vec)
    requires |a| == |b| == |c|
    ensures Add(Add(a, b), c) == Add(a, Add(b, c))
  {
  }

  /** The sum of concatenations is the concatenation of the sums. */
  lemma AddAppend(a1: Vec, a2: Vec, b1: Vec, b2: Vec)
    requires |a1| == |b1| && |a2| == |b2|
    ensures Add(a1 + a2, b1 + b2) == Add(a1, b1) + Add(a2, b2)
  {
  }

  /** Slicing commutes with the elementwise sum. */
  lemma AddSlice(a: Vec, b: Vec, i: nat, j: nat)
    requires |a| == |b| && i <= j <= |a|
    ensures Add(a, b)[i..j] == Add(a[i..j], b[i..j])
  {
  }

  /** Elementwise sum of a list of vectors of length `n`, folded from the left. */
  function SumAll(vs: seq<Vec>, n: nat): (r: Vec)
    requires forall i :: 0 <= i < |vs| ==> |vs[i]| == n
    ensures |r| == n
  {
    if |vs| == 0 then Zeros(n)
    else Add(SumAll(vs[..|vs| - 1], n), vs[|vs| - 1])
  }

  /** The sum of a non-empty list is the sum of all but the last plus the
      last. */
  lemma SumAllLast(vs: seq<Vec>, n: nat)
    requires 0 < |vs| && forall i :: 0 <= i < |vs| ==> |vs[i]| == n
    ensures SumAll(vs, n) == Add(SumAll(vs[..|vs| - 1], n), vs[|vs| - 1])
  {
  }

  /** Summing one more vector of a list adds it to the sum. */
  lemma SumAllPrefixNext(vs: seq<Vec>, k: nat, n: nat)
    requires k < |vs| && forall i :: 0 <= i < |vs| ==> |vs[i]| == n
    ensures SumAll(vs[..k + 1], n) == Add(SumAll(vs[..k], n), vs[k])
  {
    assert vs[..k + 1][..k] == vs[..k];
  }

  lemma {:induction false} SumAllAppend(vs: seq<Vec>, ws: seq<Vec>, n: nat)
    requires forall i :: 0 <= i < |vs| ==> |vs[i]| == n
    requires forall i :: 0 <= i < |ws| ==> |ws[i]| == n
    ensures SumAll(vs + ws, n) == Add(SumAll(vs, n), SumAll(ws, n))
    decreases |ws|
  {
    if |ws| == 0 {
      assert vs + ws == vs;
      assert Add(SumAll(vs, n), Zeros(n)) == SumAll(vs, n);
    } else {
      var ws' := ws[..|ws| - 1];
      var x := ws[|ws| - 1];
      assert (vs + ws)[..|vs + ws| - 1] == vs + ws';
      SumAllAppend(vs, ws', n);
      AddAssoc(SumAll(vs, n), SumAll(ws', n), x);
    }
  }

  lemma SumAllSingle(v: Vec, n: nat)
    requires |v| == n
    ensures SumAll([v], n) == v
  {
    assert [v][..0] == [];
    AddZerosLeft(v);
  }

  /** Removing one summand from the middle of the list. */
  lemma SumAllRemoveAt(ws: seq<Vec>, j: nat, n: nat)
    requires j < |ws|
    requires forall i :: 0 <= i < |ws| ==> |ws[i]| == n
    ensures SumAll(ws, n) == Add(SumAll(ws[..j] + ws[j + 1..], n), ws[j])
  {
    var a, x, b := ws[..j], ws[j], ws[j + 1..];
    assert ws == a + [x] + b;
    SumAllAppend(a + [x], b, n);
    SumAllAppend(a, [x], n);
    SumAllSingle(x, n);
    SumAllAppend(a, b, n);
    AddAssoc(SumAll(a, n), x, SumAll(b, n));
    AddComm(x, SumAll(b, n));
    AddAssoc(SumAll(a, n), SumAll(b, n), x);
  }

  /** The sum does not depend on the order of the summands. */
  lemma {:induction false} SumAllPermutation(vs: seq<Vec>, ws: seq<Vec>, n: nat)
    requires multiset(vs) == multiset(ws)
    requires forall i :: 0 <= i < |vs| ==> |vs[i]| == n
    requires forall i :: 0 <= i < |ws| ==> |ws[i]| == n
    ensures SumAll(vs, n) == SumAll(ws, n)
    decreases |vs|
  {
    if |vs| == 0 {
      assert |ws| == |multiset(ws)| == 0;
    } else {
      var vs' := vs[..|vs| - 1];
      var x := vs[|vs| - 1];
      assert vs == vs' + [x];
      assert x in multiset(vs);
      var j := IndexOf(ws, x);
      var ws' := ws[..j] + ws[j + 1..];
      MultisetRemoveAt(ws, j);
      assert multiset(vs) == multiset(vs') + multiset{x};
      assert multiset(vs') == multiset(vs) - multiset{x};
      assert multiset(ws') == multiset(ws) - multiset{x};
      SumAllPermutation(vs', ws', n);
      SumAllRemoveAt(ws, j, n);
    }
  }

  function IndexOf<T(==)>(s: seq<T>, x: T): (j: nat)
    requires x in multiset(s)
    ensures j < |s| && s[j] == x
  {
    if s[0] == x then 0
    else
      assert s == [s[0]] + s[1..];
      1 + IndexOf(s[1..], x)
  }

  lemma MultisetRemoveAt<T>(s: seq<T>, j: nat)
    requires j < |s|
    ensures multiset(s) == multiset(s[..j] + s[j + 1..]) + multiset{s[j]}
  {
    assert s == s[..j] + [s[j]] + s[j + 1..];
  }

  function Reverse<T>(s: seq<T>): (r: seq<T>)
    ensures |r| == |s|
    ensures forall i {:trigger r[i]} :: 0 <= i < |s| ==> r[i] == s[|s| - 1 - i]
  {
    if |s| == 0 then [] else Reverse(s[1..]) + [s[0]]
  }

  lemma {:induction false} ReverseMultiset<T>(s: seq<T>)
    ensures multiset(Reverse(s)) == multiset(s)
  {
    if |s| > 0 {
      ReverseMultiset(s[1..]);
      assert s == [s[0]] + s[1..];
    }
  }

  /** A sequence is its prefix followed by the rest. */
  lemma SplitAt<T>(s: seq<T>, n: nat)
    requires n <= |s|
    ensures s[..n] + s[n..] == s
  {
  }

  /** Writing one element leaves a suffix that starts with it. */
  lemma UpdateSuffix<T>(b: seq<T>, p: nat, x: T)
    requires p < |b|
    ensures b[p := x][p..] == [x] + b[p + 1..]
  {
  }

  /** Writing at or above `r` leaves the first `r` elements alone. */
  lemma UpdateKeepsPrefix<T>(b: seq<T>, c: seq<T>, r: nat, p: nat, x: T)
    requires r <= p < |b| && r <= |c| && b[..r] == c[..r]
    ensures b[p := x][..r] == c[..r]
  {
    assert b[p := x][..r] == b[..r];
  }

  /** Writing at `p` leaves everything after `p` alone. */
  lemma UpdateKeepsSuffix<T>(b: seq<T>, c: seq<T>, p: nat, x: T)
    requires p < |b| == |c| && b[p..] == c[p..]
    ensures b[p := x][p + 1..] == c[p + 1..]
  {
    assert b[p + 1..] == b[p..][1..];
    assert c[p + 1..] == c[p..][1..];
  }

  lemma PrefixAgree<T>(b: seq<T>, c: seq<T>, r: nat, i: nat)
    requires i < r <= |b| && r <= |c| && b[..r] == c[..r]
    ensures b[i] == c[i]
  {
    assert b[i] == b[..r][i];
  }

  lemma PrefixShrink<T>(b: seq<T>, c: seq<T>, r: nat, r': nat)
    requires r' <= r <= |b| && r <= |c| && b[..r] == c[..r]
    ensures b[..r'] == c[..r']
  {
    assert b[..r'] == b[..r][..r'];
    assert c[..r'] == c[..r][..r'];
  }

  lemma SuffixAgree<T>(b: seq<T>, c: seq<T>, p: nat, i: nat)
    requires p <= i < |b| == |c| && b[p..] == c[p..]
    ensures b[i] == c[i]
  {
    assert b[i] == b[p..][i - p];
  }

  /** The elements of `s` other than `x`, in order. */
  function Without(s: Vec, x: real): Vec
  {
    if |s| == 0 then [] else (if s[0] == x then [] else [s[0]]) + Without(s[1..], x)
  }

  /** Concatenation of a list of vectors. */
  function Flatten<T>(vs: seq<seq<T>>): (r: seq<T>)
  {
    if |vs| == 0 then [] else Flatten(vs[..|vs| - 1]) + vs[|vs| - 1]
  }

  lemma {:induction false} FlattenAppend<T>(vs: seq<seq<T>>, ws: seq<seq<T>>)
    ensures Flatten(vs + ws) == Flatten(vs) + Flatten(ws)
    decreases |ws|
  {
    if |ws| == 0 {
      assert vs + ws == vs;
    } else {
      assert (vs + ws)[..|vs + ws| - 1] == vs + ws[..|ws| - 1];
      FlattenAppend(vs, ws[..|ws| - 1]);
    }
  }

  lemma FlattenSnoc<T>(vs: seq<seq<T>>, v: seq<T>)
    ensures Flatten(vs + [v]) == Flatten(vs) + v
  {
    assert (vs + [v])[..|vs|] == vs;
  }
}
